=== FILE: README.md ===
# SuperSimple toolchain core in Dafny

SuperSimple is a small C-like language for a 32-bit microcontroller. Its
Python toolchain has these parts:

- a preprocessor for `#define`, `#undef` and `#include`;
- a lexer;
- a recursive-descent parser that builds an AST;
- a tree-walking interpreter with an environment of nested scopes and
  simulated GPIO, UART and timer peripherals;
- a code generator that emits assembly;
- a GUI error panel that pulls a line number out of an error message.

This project models those parts as pure Dafny functions over immutable
datatypes, and it proves properties of them.

Each part is modelled as follows:

- **Words.** Python integers are unbounded. Where the source masks with
  `& 0xFFFFFFFF`, the model applies `Mask` (`x % 2^32`).
- **Errors.** Every `RuntimeError` / `SyntaxError` the source raises on
  purpose is an `Err` value with the same message text. In the interpreter,
  the hardware builtins and the code generator, a Python error the source
  did not intend is a separate `Crashed` value, for example an
  `AttributeError` or a `ValueError` from `int()`. The parser has no such
  value: the `AttributeError` it raises when it reads past the last token
  is a parse error carrying Python's message, `'NoneType' object has no
  attribute 'type'`.
- **Loops and calls.** Interpreter loops and calls consume a `fuel`
  parameter, and so does the preprocessor's fixed-point macro loop.
  Running out is a separate `OutOfFuel` outcome, never a wrong answer.
- **Code generation.** The model follows the generator's bookkeeping:
  - the label counter;
  - the register allocator;
  - the stack of loop contexts;
  - the data section;
  - variable addresses;
  - the save/restore around each function.

  It emits abstract control-flow items (`Mark(label)`, `Jump(label)`)
  instead of assembly text. Expression code generation is a parameter
  (`ExprCodegen`).
- **Files.** The file system of `#include` is a map from path to content.

| file | models |
|---|---|
| `words.dfy`, `text.dfy`, `results.dfy` | 32-bit words, Python string helpers (`str()`, `strip`, `split`, `int(s)`, `int(s, 0)`), result types |
| `tokens.dfy`, `lexer.dfy` | `TokenType`, `Token`, `Lexer.tokenize` |
| `ast.dfy`, `parser.dfy` | AST nodes, `Parser` |
| `parser_forms.dfy`, `parser_props.dfy`, `parser_roundtrip.dfy` | the token sequence each statement form is read from, statement-level parser properties, expression print/parse round trip |
| `operators.dfy`, `environment.dfy`, `hardware.dfy`, `interpreter.dfy`, `interpreter_flow.dfy`, `interpreter_props.dfy` | `Interpreter`, `Environment`, the hardware builtins, how each compound statement runs |
| `registers.dfy`, `codegen.dfy`, `codegen_props.dfy` | `RegisterAllocator`, `CodeGenerator` bookkeeping |
| `preprocessor.dfy` | `Preprocessor` |
| `errorlines.dfy` | `ErrorHandler._extract_line_number` |

## Model

| member | source | states |
|---|---|---|
| Words.Mask | interpreter.py:235-242 | the masked value is congruent to the input modulo 2^32, and a value already in range is unchanged |
| Words.BitwiseWord | interpreter.py:487-489 | every one of the 32 result bits is the bitwise operation applied to the operands' bits at that position |
| Words.BitNotInvolutive | interpreter.py:506-507 | complementing a 32-bit word twice gives the word back |
| Text.NatToString | parser.py:330-336 | `str(n)` is a non-empty digit string that starts with `0` only for zero |
| Text.DecimalOfNatToString | parser.py:925-931 | reading `str(n)` back as a decimal numeral gives `n` |
| Text.NatToStringInjective | parser.py:330-336 | different numbers print differently, so a message's line number is determined by its text |
| Text.Strip | preprocessor.py:85-140 | `strip()` removes exactly the leading and trailing whitespace and no inner character |
| Text.Split | preprocessor.py:85-140 | `split(c)` gives at least one part and no part contains the separator |
| Text.JoinSplit | preprocessor.py:85-140 | joining the parts of `split(c)` with `c` rebuilds the original text |
| Text.SplitJoin | preprocessor.py:85-140 | splitting a join of separator-free parts gives the parts back |
| Text.PyIntOfNatToString | parser.py:592-602 | `int(str(n))` is `n`, so every register number the parser prints back is read back |
| Text.PyIntAutoOfNatToString | parser.py:925-931 | `int(str(n), 0)` is `n`: every decimal literal without a leading zero is accepted |
| Tokens.SameTokenIgnoresPosition | lexer.py:86-89 | two tokens are equal exactly when type and text agree, whatever their line and column |
| Tokens.TypeName | lexer.py:20-74 | the name of every token type is a non-empty word starting with a letter |
| Tokens.KeywordKind | lexer.py:208-224 | a word lexes to one of the ten keywords of the keyword map or to an identifier, never to an operator or EOF; `int32` is not among the keywords |
| Lexer.CursorAtClosedForm | lexer.py:113-127 | after `k` calls of `advance`, the line is one plus the number of newlines read, and the column counts from the last newline |
| Lexer.Advance | lexer.py:113-127 | one step moves the position by exactly one and keeps line and column in step with the text |
| Lexer.ReadWhile | lexer.py:129-136 | the run read is the longest run of matching characters from the cursor |
| Lexer.SkipComment | lexer.py:138-155 | a closed comment ends just after its terminator and contains no earlier terminator; an unclosed one runs to the end of the source |
| Lexer.ReadNumber | lexer.py:164-183 | the number read is non-empty: `0x` or `0X` and then the longest run of hex digits after it, or else the longest run of decimal digits |
| Lexer.TwoCharKind | lexer.py:233-312 | a two-character operator is never the EOF token |
| Lexer.SingleKind | lexer.py:315-339 | a single-character operator is never the EOF token |
| Lexer.ScanToken | lexer.py:185-345 | each token covers a non-empty stretch of source that its text and type describe |
| Lexer.TokenizeFrom | lexer.py:185-345 | tokenizing always yields at least one token |
| Lexer.TokenizeFromLexes | lexer.py:185-345 | the tokens returned are exactly a lexing of the source: ordinary tokens separated by whitespace and comments, then EOF or the unterminated-comment error |
| Lexer.TokenizeLexes | lexer.py:185-345 | the whole source lexes from position 0, line 1, column 1 |
| Lexer.TokenizeEndsOnce | lexer.py:185-345 | there is at least one token, no token before the last is EOF, and the last is EOF or the unterminated-comment error |
| Parser.Expect | parser.py:330-336 | `expect` succeeds exactly when the current token has the type wanted; it then consumes that token, and otherwise reports the custom or default message with line and column |
| Parser.RegisterNumber | parser.py:592-602 | a register variable's name is accepted exactly when it is `r` followed by an integer 0 to 31, and the number is that integer |
| Parser.CommaList | parser.py:895-916 | an argument list keeps the arguments already read as a prefix and never moves backwards |
| Parser.Modifiers | parser.py:525-536 | `register`/`volatile` prefixes are consumed up to the first other token |
| ParserForms.VarDeclParts | parser.py:518-590 | a declaration is read as `register`/`volatile` modifiers, a `uint32` or `int32` keyword, an optional `*` and a name; a `[` after the name makes it an array declaration, otherwise a `*` makes it a pointer declaration with its optional initializer and `;`, otherwise it is a scalar declaration; the kind, name, type and modifier flags come from those tokens |
| ParserForms.ArrayDeclParts | parser.py:559-580 | an array declaration is the size expression between `[` and `]`, the initializer list, then `;`, and carries the name, size, initializers and modifier flags |
| ParserForms.ArrayInitParts | parser.py:565-578 | no `=` after `]` gives no initializers, and `= {}` gives an empty list that ends after the `}` |
| ParserForms.ArrayInitListParts | parser.py:567-578 | a non-empty initializer list is `= {`, the first expression, the comma-separated rest and `}`, and its first element is the expression read right after `{` |
| Parser.ParseScalarDecl | parser.py:592-610 | a scalar declaration keeps its name and type; a register declaration carries the register number its name spells, 0 to 31 |
| Parser.ParseAssignment | parser.py:612-647 | an assignment statement is a plain, array or pointer assignment |
| ParserForms.PrefixStepParts | parser.py:649-661 | `++x;`/`--x;` parse exactly when the operator, a name and `;` follow each other, into a prefix increment or decrement of that name that ends after the `;` |
| ParserForms.ReturnParts | parser.py:663-670 | `return;` is a return without a value; otherwise a parsed return carries the expression read after `return` and ends after the `;` that follows it |
| ParserForms.IfParts | parser.py:672-685 | a parsed `if` is `if (`, the condition, `)`, the then-statement, and an else-statement exactly when `else` follows the then-statement; it ends after the last statement read |
| ParserForms.WhileParts | parser.py:687-694 | a parsed `while` is `while (`, the condition, `)` and the body, and ends after the body |
| ParserForms.ForParts | parser.py:696-769 | a parsed `for` is `for (`, the initializer, `;`, a condition unless `;` follows at once, `;`, the step clause, `)` and the body, and carries exactly those parts |
| ParserForms.ForStepParts | parser.py:740-767 | the step clause is empty at `)` or at the end and before any token that cannot start one; `++x`/`--x` are prefix steps of `x` and fail without a name |
| ParserForms.ForStepNamedParts | parser.py:752-765 | a step clause starting with a name is `x++`/`x--` as a postfix step, `x = e` as an assignment of the expression read after `=` (failing exactly when that expression fails), and otherwise no step after the name |
| Parser.ParseStatement | parser.py:436-516 | a statement consumes at least one token and stays inside the token list |
| ParserForms.BlockParts | parser.py:427-434 | a block starts with `{` and ends just after a `}`; `{}` is empty, and otherwise its statements are the one read after `{` followed by those read up to the `}` |
| ParserForms.BlockItemsPrefix | parser.py:430-432 | the statement loop keeps the statements already collected in front of those it reads, and succeeds independently of them |
| Parser.ParseFunction | parser.py:366-425 | an interrupt handler never has parameters |
| Parser.ParseTop | parser.py:338-364 | a program is only accepted when it defines `main` |
| Parser.ParseTopKeepsFunctions | parser.py:338-357 | functions parsed earlier are kept in order at the front of the list |
| Parser.Parse | parser.py:338-364 | a parsed program always has a `main` function |
| ParserProps.AssignmentKinds | parser.py:612-647 | a leading `*` gives exactly a pointer assignment, and a name followed by `[` exactly an array assignment; the other kinds assign to the leading name |
| ParserProps.AssignmentEndsAtSemicolon | parser.py:612-647 | every assignment the parser accepts ends at a `;` |
| ParserProps.AssignmentBadStart | parser.py:646-647 | an assignment that starts with neither a name nor `*` is rejected with the line-numbered message |
| ParserProps.StatementAssignmentKinds | parser.py:436-516 | a statement is a plain assignment exactly when it starts `name =`, an array assignment exactly when it starts `name [`, and a pointer assignment exactly when it starts `*`, always to that name |
| ParserProps.MalformedLiteralFails | parser.py:925-931 | at every precedence level, a literal that `int(value, 0)` rejects fails the whole expression with its invalid-literal message |
| ParserProps.MalformedExpression | parser.py:925-931 | `parse_expression` on a malformed literal reports the literal, its line and its column |
| ParserProps.HexPrefixAlone | parser.py:925-931 | `0x` with no digits is an invalid literal |
| ParserProps.BinaryDigitOutOfBase | parser.py:925-931 | `0b2` is an invalid literal |
| ParserProps.LeadingZeroDecimal | parser.py:925-931 | `012` is an invalid literal, as Python rejects leading zeros |
| ParserRoundTrip.ParsePrinted | parser.py:771-959 | at any precedence level, the printed tokens of a well-formed expression parse back to the same tree and consume exactly those tokens |
| ParserRoundTrip.ExpressionRoundTrip | parser.py:771-959 | `parse_expression` reads back every well-formed expression printed with minimal parentheses; this fixes the precedence table, left associativity and prefix nesting |
| Operators.BinaryOperatorOf | interpreter.py:466-496 | an operator name is recognised only as the operator it spells |
| Operators.SpellingRoundTrip | interpreter.py:466-496 | every binary operator is recognised from its own spelling |
| Operators.BinOp | interpreter.py:466-496 | every result is a 32-bit word; an unknown operator is an error naming it |
| Operators.Apply | interpreter.py:466-496 | every result is a 32-bit word, and comparisons and logical operators give 0 or 1 |
| Operators.ApplyFails | interpreter.py:475-476 | an operator fails exactly on division or modulo by zero, with "Division by zero" or "Modulo by zero" |
| Operators.SubUndoesAdd | interpreter.py:472-473 | with wrap-around, subtracting `b` undoes adding `b` |
| Operators.DivModRebuild | interpreter.py:475-476 | on words, quotient times divisor plus remainder rebuilds the dividend, and the remainder is below the divisor |
| Operators.ComparisonsComplement | interpreter.py:479-484 | `<` and `>=`, `>` and `<=`, and `==` and `!=` are complementary, and `a < b` is `b > a` |
| Operators.ShiftCountMasked | interpreter.py:477-478 | shifts use only the low five bits of the count |
| Operators.ShiftLeftThenRight | interpreter.py:474-478 | a left shift that does not overflow is multiplication by 2^n, and shifting right by n undoes it |
| Operators.BitwiseBits | interpreter.py:487-489 | `&`, `\|` and `^` act bit by bit on all 32 bits |
| Operators.XorTwice | interpreter.py:489-489 | xor-ing twice with the same value gives a word back |
| Operators.UnOp | interpreter.py:498-509 | every unary result is a 32-bit word |
| Operators.NegateTwice | interpreter.py:502-503 | negation is subtraction from zero modulo 2^32, and negating twice gives the masked value |
| Operators.ComplementTwice | interpreter.py:506-507 | `~` is the 32-bit complement and is its own inverse on words |
| Operators.LogicalNot | interpreter.py:504-505 | `!x` is 1 exactly when `x` is 0, and `!!x` is `x != 0` |
| Operators.SetBit | interpreter.py:675-679 | `set_bit` yields a 32-bit word |
| Operators.ClearBit | interpreter.py:681-685 | `clear_bit` yields a 32-bit word |
| Operators.ToggleBit | interpreter.py:687-691 | `toggle_bit` yields a 32-bit word |
| Operators.GetBit | interpreter.py:693-697 | `get_bit` yields 0 or 1 |
| Operators.GetBitTests | interpreter.py:693-697 | `get_bit` reports whether bit `bit mod 32` of the value is set |
| Operators.BitBuiltinBits | interpreter.py:675-691 | `set_bit` sets exactly the chosen bit, `clear_bit` clears exactly it and `toggle_bit` flips exactly it; every other bit is kept |
| Operators.GetAfterUpdate | interpreter.py:675-697 | reading a bit after setting, clearing or toggling it sees the update, and other bits read as before |
| Operators.ToggleTwice | interpreter.py:687-691 | toggling the same bit twice gives the masked value back |
| Environment.Get | interpreter.py:47-53 | a missing name fails with "Undefined variable: name" |
| Environment.GetFailsIffUnbound | interpreter.py:47-53 | `get` fails exactly when no scope in the chain binds the name |
| Environment.Declare | interpreter.py:59-64 | a declaration binds the masked value in the innermost scope and keeps the parents |
| Environment.Assign | interpreter.py:66-73 | assignment keeps the chain's depth, and a failure is "Undefined variable: name" |
| Environment.AssignThenGet | interpreter.py:55-73 | assignment fails exactly when `get` fails; afterwards the name reads the masked value, and every other name reads as before |
| Environment.BlockScopeShadows | interpreter.py:47-64 | a declaration in an inner scope hides the outer binding and leaves the outer scope untouched |
| Environment.DeclareArray | interpreter.py:75-86 | array declaration fails exactly for a size of 0 or less, and leaves the parent scopes untouched |
| Environment.GetArrayElement | interpreter.py:88-97 | an element read is a word |
| Environment.SetArrayElement | interpreter.py:99-110 | an element write keeps the chain's depth |
| Environment.DeclaredArrayIsZero | interpreter.py:75-86 | a new array reads 0 at every index below its size and is out of bounds at every other index |
| Environment.ArrayElementRoundTrip | interpreter.py:88-110 | an element write fails exactly when the read of that element fails, and afterwards the element reads the masked value |
| Environment.GetAddress | interpreter.py:112-135 | taking an address keeps the chain's depth |
| Environment.GetValueAtAddress | interpreter.py:137-156 | reading through an address yields a word |
| Environment.SetValueAtAddress | interpreter.py:158-180 | writing through an address keeps the chain's depth |
| Environment.DeclareKeepsScopeOk | interpreter.py:59-64 | declaring keeps a scope's address tables well formed |
| Environment.DeclareArrayKeepsScopeOk | interpreter.py:75-86 | an array takes the next free addresses, the address counter moves past them, and no two cells overlap |
| Environment.GetAddressKeepsScopeOk | interpreter.py:112-135 | taking a variable's address succeeds, gives an address from 1000 up to below the scope's counter, keeps the scope's tables well formed, and leaves the parent scopes untouched |
| Environment.GetAddressIdempotent | interpreter.py:112-135 | taking the same address twice gives the same address and changes nothing the second time |
| Environment.VarAddressRoundTrip | interpreter.py:112-180 | reading through `&x` gives the value of `x`, and writing through it changes what `x` reads |
| Environment.ArrayAddressRoundTrip | interpreter.py:112-180 | `&a` plus an index addresses that element, for both reading and writing |
| Environment.ScopesShareAddresses | interpreter.py:36-45 | every scope numbers its cells from 1000, so `&x` in an outer scope and `&y` in an inner one are the same number, and reading through `&x` from the inner scope sees `y`, not `x` |
| Environment.GetAddressShared | interpreter.py:112-135 | with one counter shared by all scopes, taking an address fails exactly when the original fails, and uses at most one new number |
| Environment.SharedAddressFresh | interpreter.py:112-135 | with a shared counter, every cell stays below the counter; a call that takes no new number changes nothing, and a new address is the counter's old value and reads the variable's value |
| Environment.NewCellHere | interpreter.py:112-135 | a variable's first address is the counter's next value, and reading through it returns the variable's value |
| Environment.SharedAddressesDiffer | interpreter.py:36-45 | with a shared counter, `&x` outside and `&y` inside get 1000 and 1001, and each reads its own variable |
| Hardware.CallHardware | interpreter.py:560-700 | a hardware builtin fails only by a deliberate error, and every result is a word |
| Hardware.Gpio | interpreter.py:566-589 | GPIO calls fail only by deliberate errors, and only `gpio_read` returns a non-zero value |
| Hardware.UartCall | interpreter.py:591-614 | UART calls fail only by deliberate errors and return words |
| Hardware.TimerCall | interpreter.py:616-656 | timer calls fail only by deliberate errors and return words |
| Hardware.GpioKeepsOk | interpreter.py:566-589 | GPIO calls keep every pin value 0 or 1 and the rest of the peripheral state well formed, and return 0 or 1 |
| Hardware.UartKeepsOk | interpreter.py:591-614 | UART calls keep transmit-ready 1 and receive-ready 0 |
| Hardware.TimerKeepsOk | interpreter.py:616-656 | timer calls keep the count 0 and the expired flag 0 or 1 |
| Hardware.HardwareKeepsOk | interpreter.py:560-700 | every builtin keeps the peripheral state well formed, and `gpio_read` returns 0 or 1 |
| Hardware.InitialOk | interpreter.py:194-197 | the initial peripheral state is well formed |
| Hardware.UartNeverBlocks | interpreter.py:597-614 | in the simulation, `uart_read` always returns 0 and `uart_write` always succeeds, storing the low byte; the status reports transmit-ready |
| Hardware.GpioWriteThenRead | interpreter.py:566-589 | a configured pin first reads 0, then reads back the low bit written; an unconfigured pin is an error |
| Hardware.TimerExpiresOnce | interpreter.py:628-656 | after `timer_expired` reports 1, the next call reports 0; right after setting a period and starting, it reports 1 exactly when the period is positive; a stopped timer reports 0 and changes nothing |
| Interpreter.FunctionTable | interpreter.py:202-204 | every entry of the function table is a defined function stored under its own name |
| Interpreter.LastDefinitionWins | interpreter.py:202-204 | every function name is in the table, and a definition not redefined later is the one stored |
| Interpreter.PyIndex | interpreter.py:293 | a Python list index into the register file, as at interpreter.py:293, 341 and 442, is valid exactly from `-len` to `len - 1` |
| Interpreter.ReadVar | interpreter.py:438-443 | reading a variable yields a word |
| Interpreter.AssignVar | interpreter.py:332-345 | assignment keeps the machine well formed and the scope depth unchanged |
| Interpreter.DeclareVar | interpreter.py:284-299 | a declaration keeps the machine well formed and the scope depth unchanged |
| Interpreter.BindParams | interpreter.py:221-232 | parameters are bound in the new innermost scope only |
| Interpreter.Eval | interpreter.py:433-541 | evaluation keeps the machine well formed, and every value except a raw address is a word |
| Interpreter.CallFunction | interpreter.py:420-431 | a call keeps the machine well formed and returns a word |
| Interpreter.ExecuteFunction | interpreter.py:221-242 | a function call keeps the machine well formed, leaves the caller's scope depth unchanged, and returns a word |
| Interpreter.Exec | interpreter.py:244-275 | every statement keeps the machine well formed and the scope depth unchanged |
| Interpreter.ExecStep | interpreter.py:359-369 | `++`/`--` keep the machine well formed and complete normally |
| Interpreter.ExecReturn | interpreter.py:371-376 | `return` always ends the function with a returned value |
| InterpreterFlow.IfChoosesBranch | interpreter.py:378-384 | `if` fails with its condition's error; otherwise a non-zero condition runs the then-branch, zero runs the else-branch or nothing, in the machine the condition left |
| InterpreterFlow.ForStatement | interpreter.py:394-418 | `for` opens a scope, runs the initializer in it only if it is a declaration or an assignment, fails with its error, then runs the loop and drops the scope again, with the loop's error or outcome |
| InterpreterFlow.ForIgnoresOtherInit | interpreter.py:394-404 | a `for` whose initializer is neither a declaration nor an assignment runs exactly as one without initializer |
| InterpreterFlow.ArrayDeclErrors | interpreter.py:301-320 | an array declaration fails on a size that is not a literal, then on a size that is not positive, then on more initializers than cells, each with its own message |
| InterpreterFlow.InitLiterals | interpreter.py:314-320 | storing literal initializers succeeds when they fit, puts each masked literal in its cell and changes no other cell and no outer scope |
| InterpreterFlow.ArrayDeclContents | interpreter.py:301-320 | a declared array with a positive literal size and literal initializers completes normally, its first cells hold the masked initializers, the rest hold 0, and every other index is out of bounds |
| Interpreter.ExecBlock | interpreter.py:277-282 | a block keeps the machine well formed and leaves the scope depth unchanged |
| InterpreterFlow.WhileUnrolls | interpreter.py:386-392 | `while` fails with its condition's error, ends on a zero condition, and otherwise runs the body: its error or `return` ends the loop, and a normal completion is followed by the whole loop again on one unit less of fuel |
| InterpreterFlow.ForConditionEnds | interpreter.py:406-411 | a `for` loop fails with its condition's error, and a present condition that is zero ends it where the condition left the machine |
| InterpreterFlow.ForBodyRuns | interpreter.py:406-418 | when the condition lets an iteration run, the `for` body runs; its error or `return` ends the loop, and a normal completion hands over to the step and the next iteration |
| InterpreterFlow.ForBodyStops | interpreter.py:413-414 | a `for` body that fails or returns ends the loop with that outcome |
| InterpreterFlow.ForBodyCompletes | interpreter.py:413-418 | a `for` body that completes normally is followed by the step and the next iteration |
| Interpreter.Step | interpreter.py:359-369 | the intended increment keeps the machine well formed and the scope depth unchanged |
| Interpreter.StepAsWritten | interpreter.py:359-369 | the increment as written changes only the environment, never the registers |
| Interpreter.ExecGlobal | interpreter.py:206-211 | a global declaration keeps the machine well formed |
| Interpreter.Interpret | interpreter.py:206-219 | a program's result is a 32-bit word |
| InterpreterProperties.AssignThenRead | interpreter.py:332-345 | assignment fails exactly for r31, a register out of range or an undefined name, and otherwise the name reads back the masked value |
| InterpreterProperties.RegisterDeclarationThenRead | interpreter.py:284-299 | a register variable with a number from -32 to 31 reads back its masked initial value |
| InterpreterProperties.StepThenRead | interpreter.py:359-369 | the intended increment makes the variable read its old value plus the step, masked |
| InterpreterProperties.StepAsWrittenThenGet | interpreter.py:359-369 | the increment as written fails exactly when the environment lacks the name, and otherwise updates only the environment copy |
| InterpreterProperties.StepAsWrittenOffRegisters | interpreter.py:359-369 | for a variable not in a register, the increment as written is the intended increment |
| InterpreterProperties.IncrementAsWrittenMissesRegister | interpreter.py:359-369 | `register uint32 r5 = 1; r5++;` leaves `r5` reading 1 as written, where the intended increment gives 2 |
| InterpreterProperties.ExecIncrementMissesRegister | interpreter.py:359-369 | the statement executor uses the increment as written, so `r5++` leaves a register variable unchanged |
| InterpreterProperties.ReturnSkipsRest | interpreter.py:277-282 | no statement after a `return` runs |
| InterpreterProperties.SeqAppend | interpreter.py:277-282 | running two statement lists in a row is running their concatenation |
| InterpreterProperties.BlockDeclarationVanishes | interpreter.py:277-282 | a variable declared in a block is gone after the block |
| InterpreterProperties.EndlessLoopRunsOut | interpreter.py:386-392 | `while (1) {}` never finishes |
| InterpreterProperties.FalseLoopSkips | interpreter.py:386-418 | a loop whose condition is 0 runs no iteration and changes nothing |
| InterpreterProperties.ZeroDivisorRaises | interpreter.py:475-476 | `x / 0` raises "Division by zero" and `x % 0` raises "Modulo by zero", whenever `x` itself evaluates |
| InterpreterProperties.CallDispatch | interpreter.py:420-431 | hardware builtins take precedence over user functions of the same name, and a name that is neither is "Undefined function: name" |
| InterpreterProperties.SingleReturnBody | interpreter.py:221-242 | a function whose body is one `return e` returns `e` evaluated with the parameters bound to the arguments, masked |
| InterpreterProperties.CallBindsArgument | interpreter.py:221-242 | an identity function returns its masked argument |
| InterpreterProperties.MainReturnsValue | interpreter.py:206-219 | the program's result is the masked value `main` returns |
| InterpreterProperties.GlobalVisibleInMain | interpreter.py:206-219 | `main` sees the globals declared before it runs |
| InterpreterProperties.MissingMain | interpreter.py:212-213 | a program without `main` is rejected |
| InterpreterProperties.MainTakesNoParameters | interpreter.py:216-217 | a `main` with parameters is rejected |
| Registers.AllocateAsWritten | codegen.py:56-67 | a successful allocation binds the name to the register returned; the overflow path crashes with an `AttributeError` |
| Registers.Allocate | codegen.py:56-67 | the intended allocation gives the same registers, and on overflow raises the error naming the variable and function |
| Registers.AllocateIdempotent | codegen.py:56-67 | allocating a name twice gives the same register and changes nothing the second time |
| Registers.AllocateFresh | codegen.py:56-67 | a new name gets r(11 + number of names), and allocation fails exactly at the 21st name |
| Registers.AllocateKeepsPacked | codegen.py:56-67 | allocation alone hands out r11 to r30 one per name, so no two names share a register |
| Registers.RegisterVariableSharesRegister | codegen.py:392-404 | after `register uint32 r12;`, a new local `x` is also given r12 |
| Registers.FirstFree | codegen.py:56-67 | the lowest register from `k` to r30 that no name holds, or none when all are held |
| Registers.AllocateAvoiding | codegen.py:56-67 | the corrected allocation gives a new name the lowest free register, and fails exactly when r11 to r30 are all held |
| Registers.AvoidingKeepsDistinct | codegen.py:56-67 | with the corrected allocation, no two names ever share a register |
| Registers.AvoidingSkipsDeclaredRegister | codegen.py:392-404 | with the corrected allocation, after `register uint32 r12;` a new local `x` gets r11 |
| Registers.AllocateParams | codegen.py:270-272 | allocating the parameters gives one register per parameter |
| Registers.ParamsBound | codegen.py:270-272 | after allocating the parameters, the names bound are exactly the old ones plus the parameters |
| Registers.ParamsConsecutive | codegen.py:270-272 | distinct new parameters get consecutive registers in order, and allocation fails exactly when r30 would be passed |
| Registers.AllocateOverflowCrashes | codegen.py:56-67 | a 21st name crashes the generator with an `AttributeError` as written, and raises the intended error as corrected |
| Registers.TempRegisterAsWritten | codegen.py:75-82 | the temporary counter as written stays between r1 and r9 |
| Registers.TempRegister | codegen.py:75-82 | the intended temporary is the counter's register, between r1 and r10 |
| Registers.TempsAsWrittenRotate | codegen.py:75-82 | as written, the i-th request returns r((k + i) mod 10), with r1 standing in for r0 |
| Registers.TempAsWrittenSkipsR10 | codegen.py:75-82 | the first eleven temporaries as written are r1 to r9, r1, r1 |
| Registers.TempAsWrittenNeverR10 | codegen.py:75-82 | as written, r10 is never handed out |
| Registers.TempsRotate | codegen.py:75-82 | as intended, the i-th request returns r((k - 1 + i) mod 10 + 1) |
| Registers.TempsCycle | codegen.py:75-82 | as intended, any ten successive temporaries are r1 to r10, each once |
| Codegen.NewLabel | codegen.py:112-116 | a new label takes the counter's value, and only the counter changes, by one |
| Codegen.GenVarDecl | codegen.py:387-437 | a register variable gets its own register number, and a bad register name is an error; a global gets a `var_name` data word holding the initializer literal; a local gets the next stack slot and a register |
| Codegen.ArrayDataLaidOut | codegen.py:1284-1357 | an array's data is its label followed by one word per element, `max(size, initializers)` words, each the literal initializer or 0 |
| Codegen.GenArrayDecl | codegen.py:1284-1357 | a non-literal size and a size of 0 or less are errors; otherwise the array's data is laid out under its label, and a local array records its size |
| Codegen.GenPointerDecl | codegen.py:1359-1372 | a pointer declaration allocates the pointer a register |
| Codegen.GenAssignment | codegen.py:439-472 | an assignment leaves the loop stack, current function and function labels alone, and only grows the counter and data |
| Codegen.GenArrayAssignment | codegen.py:1482-1513 | an array assignment leaves the loop stack, current function and function labels alone |
| Codegen.GenCallStatement | codegen.py:354-375 | a call statement leaves the loop stack, current function and function labels alone |
| Codegen.GenStepAsWritten | codegen.py:1527-1553 | as written, `++`/`--` fail exactly for a name neither allocated a register nor spelling a register, even a declared global; an accepted step takes one temporary, moving the rotating temporary counter on by one, and changes nothing else |
| Codegen.GenStep | codegen.py:1527-1553 | as intended, `++`/`--` succeed exactly for a name `generate_identifier` can read, globals included, taking the same one temporary; any other name is "Undefined variable" |
| Codegen.GenSimple | codegen.py:330-385 | a simple statement leaves the loop stack, current function and function labels alone |
| Codegen.GenBreak | codegen.py:1263-1270 | `break` fails exactly outside a loop, with "break statement outside of loop", and otherwise jumps to a label of the innermost loop |
| Codegen.GenContinue | codegen.py:1272-1282 | `continue` fails exactly outside a loop, with "continue statement outside of loop", and otherwise jumps to a label of the innermost loop |
| Codegen.GenStmt | codegen.py:330-385 | every statement's code places only new labels, each once, and every jump lands inside the code or on an enclosing loop's label |
| Codegen.GenStmts | codegen.py:1258-1261 | a statement list's code places only new labels, each once, and its jumps are resolved |
| Codegen.GenIf | codegen.py:1144-1176 | an if statement's code places only new labels, each once, and its jumps are resolved |
| Codegen.WhileEmitted | codegen.py:1178-1210 | the while skeleton around a body that keeps the rules keeps them too, once the loop context is popped |
| Codegen.GenWhile | codegen.py:1178-1210 | a while loop's code places only new labels, each once, and its jumps are resolved |
| Codegen.GenFor | codegen.py:1212-1256 | a for statement's code places only new labels, each once, and its jumps are resolved |
| Codegen.ForEntry | codegen.py:1218-1224 | a for loop takes the labels `for_start`, `for_increment` (only with a step) and `for_end` from consecutive counter values, and pushes that context |
| Codegen.GenForLoop | codegen.py:1212-1256 | a for loop's code places only new labels, each once, and its jumps are resolved |
| Codegen.FunctionLabels | codegen.py:190-196 | each defined function name maps to `main` or `func_name` |
| Codegen.GenerateFunction | codegen.py:237-328 | a function leaves the generator's current function, allocator and stack offset as it found them; a parameter overflow is the allocator's error |
| Codegen.GenerateFunctions | codegen.py:207-227 | generating functions keeps the label rules and the current function |
| Codegen.GenGlobal | codegen.py:198-205 | only declarations produce anything at global level |
| Codegen.GenGlobals | codegen.py:198-205 | global declarations leave the loop stack and function labels alone |
| Codegen.MainFunction | codegen.py:207-214 | the function emitted first is named `main`, and there is none exactly when no function is named `main` |
| Codegen.OtherFunctions | codegen.py:209-214 | the functions emitted after `main` are the others |
| Codegen.GenerateProgram | codegen.py:137-235 | the program's code places each label once, every jump lands on a placed label, the loop stack ends empty, and the function labels are those of the defined functions |
| CodegenProps.DigitsTail | codegen.py:112-116 | in `prefix_digits` texts, a digit-only tail cannot be longer than the tail after the other text's last `_` |
| CodegenProps.LabelTextInjective | codegen.py:112-116 | two labels with the same text are the same label, so label texts never collide |
| CodegenProps.FunctionLabelInjective | codegen.py:190-196 | different functions get different labels |
| CodegenProps.FunctionLabelsCover | codegen.py:190-196 | every defined function has its label |
| CodegenProps.WhileJumps | codegen.py:1178-1210 | inside a while body, `break` jumps to `while_end` and `continue` to `while_start`, and the loop is the skeleton around the body |
| CodegenProps.WhileBreak | codegen.py:1178-1210 | `while (c) break;` is the skeleton around a single jump to `while_end` |
| CodegenProps.ForJumps | codegen.py:1212-1256 | inside a for body, `break` jumps to `for_end` and `continue` to `for_increment` when there is a step, else to `for_start` |
| CodegenProps.ForContinueRunsStep | codegen.py:1212-1256 | `for (;;step) continue;` jumps to the increment label, which is placed right there, and ends by jumping back to the start |
| CodegenProps.ForStmtIsLoop | codegen.py:1212-1256 | a for statement without an init is generated as its loop |
| CodegenProps.JumpStmt | codegen.py:1263-1282 | inside a loop, `break` and `continue` each emit one jump and change nothing |
| CodegenProps.BreakOutsideLoop | codegen.py:1263-1282 | a function whose body is `break;` or `continue;` is rejected with the outside-of-loop message |
| CodegenProps.GenerateFunctionFresh | codegen.py:237-328 | a function's code does not depend on the current function, allocator or stack offset it starts from |
| CodegenProps.FunctionStackOffset | codegen.py:257-259 | the first local of `main` is at stack offset 0, and in any other function at 1 + number of parameters |
| CodegenProps.FirstLocalAddress | codegen.py:421-437 | a local variable takes the current stack slot and advances the offset by one |
| CodegenProps.GlobalIncrementRejected | codegen.py:1527-1553 | `x++` on a declared global `x` is rejected as undefined as written, though `x` is readable; the intended version accepts it |
| Preprocessor.IdentLength | preprocessor.py:157-171 | the identifier at the head of a text is the longest run of word characters after a letter or `_` |
| Preprocessor.Define | preprocessor.py:94-103 | `#define` binds the name to the value and leaves every other name alone |
| Preprocessor.DefineOrder | preprocessor.py:94-103 | a redefinition keeps the name's place, and a new name goes last |
| Preprocessor.DefineValid | preprocessor.py:94-103 | the table holds identifiers only, each once |
| Preprocessor.Undefine | preprocessor.py:105-110 | `#undef` removes the name and leaves every other name alone |
| Preprocessor.ParseDefine | preprocessor.py:157-171 | a `#define` line fails exactly when no identifier follows it; otherwise the name is an identifier |
| Preprocessor.ParseUndef | preprocessor.py:173-184 | an `#undef` line yields an identifier |
| Preprocessor.ParseInclude | preprocessor.py:142-155 | an include line yields a file name exactly when its argument is delimited by quotes or angle brackets |
| Preprocessor.DefineRoundTrip | preprocessor.py:157-171 | `#define name value` parses back to that name and value |
| Preprocessor.UndefRoundTrip | preprocessor.py:173-184 | `#undef name` parses back to the name |
| Preprocessor.IncludeRoundTrip | preprocessor.py:142-155 | `#include "f"` and `#include <f>` parse back to `f` |
| Preprocessor.SubUnchanged | preprocessor.py:186-204 | substituting a macro leaves a line unchanged exactly when the value is the name or the name is not a whole word of the line |
| Preprocessor.SortByLength | preprocessor.py:190 | the macros are tried longest name first, and none is lost or added |
| Preprocessor.QuietPass | preprocessor.py:186-204 | a pass that changes nothing leaves no macro to replace |
| Preprocessor.ExpandedHasNoMacro | preprocessor.py:186-204 | an expanded line contains no macro name as a whole word, unless the macro expands to itself |
| Preprocessor.ExpandWithoutDefs | preprocessor.py:186-204 | with no macros, expansion is the identity |
| Preprocessor.ExpandWithoutUses | preprocessor.py:186-204 | a line using no macro is unchanged |
| Preprocessor.SelfReferenceDiverges | preprocessor.py:194-203 | a self-referential macro such as `#define X X+1` never settles on a line using it |
| Preprocessor.ExpandOnceAllActive | preprocessor.py:186-204 | in the corrected expansion, names already being expanded are left as they are |
| Preprocessor.ExpandOnceWithoutDefs | preprocessor.py:186-204 | with no macros, the corrected expansion is the identity |
| Preprocessor.SelfReferenceExpandsOnce | preprocessor.py:194-203 | in the corrected expansion, a macro's own name is expanded once, to the value |
| Preprocessor.ProcessLines | preprocessor.py:85-140 | processing lines never forgets an included file, and keeps the macro table valid |
| Preprocessor.IncludeDirective | preprocessor.py:113-135 | an include directive never forgets an included file |
| Preprocessor.ProcessFile | preprocessor.py:56-83 | a processed file is recorded as included, and a file already included is a circular include |
| Preprocessor.PlainLineStep | preprocessor.py:136-138 | a line that is not a directive is output expanded, and the rest follows |
| Preprocessor.PlainLines | preprocessor.py:136-138 | lines without directives give one output line each and leave the state alone; with no macros, they are output unchanged |
| Preprocessor.DefineLine | preprocessor.py:94-103 | a `#define` line outputs nothing and adds the definition |
| Preprocessor.IncludeFailureStep | preprocessor.py:129-131 | a failure inside an included file is reported with the including line's number |
| Preprocessor.IncludeSuccessStep | preprocessor.py:124-128 | an included file's lines are output between `// Included from:` and `// End include:` markers, and its definitions stay in force for the rest of the including file |
| Preprocessor.DefineOnlyHeader | preprocessor.py:56-83 | a header holding one `#define` outputs nothing and leaves its definition behind |
| Preprocessor.IncludedDefinitionPersists | preprocessor.py:113-135 | after including a header that defines a name, the rest of the file sees that name defined |
| Preprocessor.QuotedIncludeLine | preprocessor.py:113-155 | `#include "p"` is recognised as an include of `p` and as no other directive |
| Preprocessor.SelfIncludeFails | preprocessor.py:56-83 | a file that includes itself on line 1 is rejected as a circular include |
| ErrorLines.MatchAt | gui/error_handler.py:74-79 | a pattern match captures a non-empty run of digits |
| ErrorLines.Search | gui/error_handler.py:81-87 | `re.search` finds a match starting at or after the start position |
| ErrorLines.LinePatternAt | gui/error_handler.py:74-79 | `line\s+(\d+)` matches at a position exactly when the word `line`, whitespace and a maximal digit run follow |
| ErrorLines.SearchNone | gui/error_handler.py:81-87 | the search finds nothing exactly when the pattern matches nowhere |
| ErrorLines.SearchLeftmost | gui/error_handler.py:81-87 | the search returns the leftmost match |
| ErrorLines.SecondPatternSame | gui/error_handler.py:74-79 | ignoring case, `Line\s+(\d+)` matches exactly where the first pattern does |
| ErrorLines.ThirdPatternCovered | gui/error_handler.py:74-79 | wherever `at\s+line\s+(\d+)` matches, the first pattern matches too |
| ErrorLines.FourthPatternCovered | gui/error_handler.py:74-79 | wherever `line\s+(\d+),\s+column` matches, the first pattern matches too |
| ErrorLines.FirstPatternDecides | gui/error_handler.py:74-89 | the result is always that of the first pattern alone |
| ErrorLines.ExtractLineNumberNone | gui/error_handler.py:66-89 | no line number is found exactly when no `line <digits>` occurs anywhere |
| ErrorLines.ExtractLineNumberLeftmost | gui/error_handler.py:66-89 | the number found is the one of the leftmost `line <digits>` |
| ErrorLines.ExtractIgnoresCase | gui/error_handler.py:81-82 | messages that differ only in letter case give the same line number |
| ErrorLines.LineOfLocatedMessage | gui/error_handler.py:66-89 | from a message ending `at line N` whose text before it has no word `line`, the number extracted is `N` |
| ErrorLines.ExpectMessageLine | parser.py:330-336 | the error panel extracts from every `expect` failure the line of the offending token |

## Left out

- File I/O and `resolve_path`: files are a map from path to content, and an include names a key of that map directly. Search paths and absolute paths are not modelled.
- Interpreter loops, calls and `expand_macros`'s fixed-point loop take a `fuel` bound. A computation that needs more steps than the fuel allows ends in `OutOfFuel`, where Python would loop on or hit its recursion limit.
- Expression code generation and assembly text: `ExprCodegen` is a parameter returning only the label counter it uses. The model keeps the control-flow skeleton (labels and jumps) and the generator's bookkeeping, not instruction selection or `emit` text.
- `free_temp_register` is a no-op in the source and is not modelled.
- Debug log writes: five places append a line to the fixed path `e:\aiproj\.cursor\debug.log`. They are lexer.py:250 and lexer.py:260 (each `<<` and `>>` token), parser.py:835 (each shift operator in `parse_shift`), codegen.py:289 (each parameter `generate_function` loads) and codegen.py:999 (each argument a call pushes). Each `open` raises `OSError` (`FileNotFoundError`) on a machine without that directory, which stops the lexer, parser or generator. The model assumes every such write succeeds and has no effect, so it lexes, parses and generates programs with shifts, parameters and calls where Python may fail.
- Peripherals: only the interpreter's thin simulation of GPIO, UART and timer is modelled. Delay and interrupt builtins just return 0.
- Tokenize: letters and digits are the ASCII ones. Python's `isalpha`, `isdigit` and `isalnum` (lexer.py:160, 181, 208, 227) also accept non-ASCII letters and digits, so the model's lexer is narrower on such sources.
- ErrorLines.ExtractLineNumber: letters and digits are ASCII in the model: case is folded with an ASCII `ToLower`, and `\d` is `0`-`9`. Python's Unicode patterns are wider: with `re.IGNORECASE`, `i` also matches `ı` (U+0131) and `İ` (U+0130), so `lİne 5` has a line number in Python and none in the model; and `\d` also matches other Unicode decimal digits, which `int()` accepts. `\s` is the same in both: the model uses Python's full `str.isspace` set.
- Tokens.TokenRepr: Python `repr` of token text is modelled for characters up to U+00FF; beyond that Python's printable-character table is not reproduced.
- Environment.GetAddressShared: the shared-counter correction covers variable cells only; arrays keep their per-scope numbering.
- Preprocessor.ExpandOnce: the corrected expansion is the C-style one-pass expansion, which stands beside the as-written fixed-point loop rather than replacing it.
- Codegen.GenAssignment, Codegen.GenArrayAssignment, Codegen.GenCallStatement, Codegen.GenPointerDecl: state only the bookkeeping the statement keeps, because the instructions they emit are not modelled.
- Interpreter.Exec: its own contract states only that every statement keeps the machine well formed and the scope depth unchanged. Exact results are stated by the `InterpreterFlow` lemmas for `if`, `while`, `for` and array declarations, and by the `InterpreterProperties` lemmas for assignment, register declarations, `++`/`--`, `return`, blocks, statement lists and single-return calls. Pointer stores through `*p = v`, call statements, pointer declarations and non-literal array initializers have only the well-formedness invariant.
- Preprocessor.SubUnchanged: a word character is an ASCII letter, digit or `_`. Python's `\b` on a `str` pattern (preprocessor.py:199) also counts non-ASCII letters and digits as word characters, so a macro name next to such a letter is substituted by the model and not by Python.
- Codegen.GenExpr: only `generate_increment` (codegen.py:1536, 1550) threads the temporary register through the model. The other callers of `get_temp_register` also take temporaries: `generate_function` (codegen.py:266, 277, 281), `generate_assignment` (449, 452, looping while the temporary equals the value's register), `generate_if` (1151), `generate_for` (1232), the array element initializers (1338, 1340), `generate_array_assignment` (1491), and the expression generators between codegen.py:504 and 1476, which sit behind the `ExprCodegen` parameter. Those temporaries only choose scratch register numbers in instruction text the model does not emit, and `generate_function` saves the allocator before each function and restores it afterwards (codegen.py:241, 327), so their effect ends with the function.
- Floating point, threads and the GUI beyond `_extract_line_number` are outside the core.

## Findings

| source | as written | input that shows it | evidently intended | confidence | as-written member | corrected member |
|---|---|---|---|---|---|---|
| interpreter.py:359-369 | `++`/`--` read and write only `env`, never the register a register variable lives in | `register uint32 r5 = 1; r5++;` then read `r5` | the variable reads 2, as for any other variable | not executed | InterpreterProperties.IncrementAsWrittenMissesRegister | InterpreterProperties.StepThenRead |
| codegen.py:64 | the overflow message reads `self.current_function` on a `RegisterAllocator`, which has no such attribute | a function with 21 locals | `RuntimeError` naming the variable and the function | not executed | Registers.AllocateOverflowCrashes | Registers.Allocate |
| codegen.py:75-82 | `(n + 1) % 10` and `0 → 1` never produce 10 and repeat r1 | eleven successive temporaries from a fresh allocator | r1 to r10 in rotation | not executed | Registers.TempAsWrittenSkipsR10 | Registers.TempsCycle |
| codegen.py:1527-1553 | increment and decrement accept only allocated registers and register names | `uint32 x;` at global level, then `x++;` in `main` | a global can be incremented, as it can be read | not executed | CodegenProps.GlobalIncrementRejected | Codegen.GenStep |
| codegen.py:392-404 | a register declaration stores its number in the allocator's table without updating the next free register | `register uint32 r12;` then `uint32 x;` in `main`: both get r12 | a local never shares a register already taken | not executed | Registers.RegisterVariableSharesRegister | Registers.AvoidingSkipsDeclaredRegister |
| preprocessor.py:194-203 | macros are re-expanded until the line stops changing | `#define X X+1` then a line `X` | C's rule: a macro's own name is not expanded again inside its value | not executed | Preprocessor.SelfReferenceDiverges | Preprocessor.SelfReferenceExpandsOnce |
| interpreter.py:36-45 | every scope starts its own `next_address` at 1000 | `&x` for a global `x` and `&y` for a local `y`: both are 1000, and `*(&x)` in the local scope reads `y` | addresses distinct across scopes | not executed | Environment.ScopesShareAddresses | Environment.SharedAddressesDiffer |

=== FILE: ast.dfy ===
/**
  * The abstract syntax tree built by parser.py. Operator nodes keep the
  * operator text of their token (`BinaryOp.op`, `UnaryOp.op`), as the Python
  * classes do; the interpreter dispatches on that text.
  */
module Ast {
  import opened Results

  datatype Expr =
    | Literal(value: int)
    | Identifier(name: string)
    | BinaryOp(op: string, left: Expr, right: Expr)
    | UnaryOp(op: string, operand: Expr)
    | FunctionCall(callee: string, args: seq<Expr>)
    | ArrayAccess(arrayName: string, index: Expr)
    | AddressOf(target: Expr)
    | Dereference(pointer: Expr)

  /**
    * Statements. `BreakStmt` and `ContinueStmt` are the
    * nodes the code generator handles; the parser never builds them.
    * An array initializer of `None` and of `[]` behave alike everywhere and
    * are both the empty sequence here.
    */
  datatype Stmt =
    | VarDecl(name: string, init: Option<Expr>, varType: string, isRegister: bool, isVolatile: bool,
              registerNum: Option<int>)
    | ArrayDecl(name: string, size: Expr, elements: seq<Expr>, isRegister: bool, isVolatile: bool)
    | PointerDecl(name: string, init: Option<Expr>, isRegister: bool, isVolatile: bool)
    | Assignment(name: string, value: Expr)
    | ArrayAssignment(name: string, index: Expr, value: Expr)
    | PointerAssignment(target: Expr, value: Expr)
    | Return(result: Option<Expr>)
    | IfStmt(cond: Expr, thenS: Stmt, elseS: Option<Stmt>)
    | WhileStmt(cond: Expr, body: Stmt)
    | ForStmt(forInit: Option<Stmt>, forCond: Option<Expr>, step: Option<Stmt>, forBody: Stmt)
    | Block(stmts: seq<Stmt>)
    | FunctionCallStmt(call: Expr)
    | Increment(incName: string, incPrefix: bool)
    | Decrement(decName: string, decPrefix: bool)
    | BreakStmt
    | ContinueStmt

  /** A function: its body is the statement list of its block. */
  datatype FunctionDef = FunctionDef(name: string, params: seq<string>, body: seq<Stmt>, isInterrupt: bool)

  datatype Program = Program(functions: seq<FunctionDef>, globals: seq<Stmt>)

  /** The Python class name of an AST node. */
  function NodeName(e: Expr): string {
    match e
    case Literal(_) => "Literal"
    case Identifier(_) => "Identifier"
    case BinaryOp(_, _, _) => "BinaryOp"
    case UnaryOp(_, _) => "UnaryOp"
    case FunctionCall(_, _) => "FunctionCall"
    case ArrayAccess(_, _) => "ArrayAccess"
    case AddressOf(_) => "AddressOf"
    case Dereference(_) => "Dereference"
  }

  /** `str(type(e))` for a node of the parser module. */
  function ClassName(e: Expr): string {
    "<class 'parser." + NodeName(e) + "'>"
  }

  /** A plain `uint32` variable declaration, as `VarDecl(name, init)` builds it. */
  function PlainVar(name: string, init: Option<Expr>): Stmt {
    VarDecl(name, init, "uint32", false, false, None)
  }

  /** Number of nodes of an expression; the measure recursion over expressions decreases. */
  function Size(e: Expr): nat {
    match e
    case BinaryOp(_, l, r) => 1 + Size(l) + Size(r)
    case UnaryOp(_, x) => 1 + Size(x)
    case FunctionCall(_, args) => 1 + SizeAll(args)
    case ArrayAccess(_, i) => 1 + Size(i)
    case AddressOf(x) => 1 + Size(x)
    case Dereference(x) => 1 + Size(x)
    case _ => 1
  }

  function SizeAll(args: seq<Expr>): nat {
    if |args| == 0 then 0 else Size(args[0]) + SizeAll(args[1..])
  }

  function OptSize(e: Option<Expr>): nat {
    if e.Some? then Size(e.value) else 0
  }

  /** Number of nodes of a statement, its expressions included. */
  function StmtSize(s: Stmt): nat {
    match s
    case VarDecl(_, init, _, _, _, _) => 1 + OptSize(init)
    case ArrayDecl(_, size, elements, _, _) => 1 + Size(size) + SizeAll(elements)
    case PointerDecl(_, init, _, _) => 1 + OptSize(init)
    case Assignment(_, value) => 1 + Size(value)
    case ArrayAssignment(_, index, value) => 1 + Size(index) + Size(value)
    case PointerAssignment(target, value) => 1 + Size(target) + Size(value)
    case Return(result) => 1 + OptSize(result)
    case IfStmt(cond, thenS, elseS) => 1 + Size(cond) + StmtSize(thenS) + OptStmtSize(elseS)
    case WhileStmt(cond, body) => 1 + Size(cond) + StmtSize(body)
    case ForStmt(forInit, forCond, step, forBody) =>
      1 + OptStmtSize(forInit) + OptSize(forCond) + OptStmtSize(step) + StmtSize(forBody)
    case Block(stmts) => 1 + StmtsSize(stmts)
    case FunctionCallStmt(call) => 1 + Size(call)
    case _ => 1
  }

  function OptStmtSize(s: Option<Stmt>): nat {
    if s.Some? then StmtSize(s.value) else 0
  }

  function StmtsSize(ss: seq<Stmt>): nat {
    if |ss| == 0 then 0 else StmtSize(ss[0]) + StmtsSize(ss[1..])
  }
}

=== FILE: codegen.dfy ===
/**
  * The bookkeeping of codegen.py's `CodeGenerator`: unique labels, the loop
  * stack that `break` and `continue` resolve against, the data section laid
  * out for globals and arrays, and the per-function state that
  * `generate_function` saves and restores.
  *
  * Assembly text is not modelled. Emitted code is reduced to its control-flow
  * skeleton: the labels it places and the jumps (`mov r:31, L addr` and
  * `cmovz r:31, c, L addr`) to them. Expression code generation is a
  * parameter (`ExprCodegen`): it sees what `generate_expression` reads and
  * reports how many labels it took, or the error it raised.
  */
module Codegen {
  import opened Results
  import opened Text
  import opened Ast
  import opened Registers

  // ---------------------------------------------------------------------
  // State
  // ---------------------------------------------------------------------

  /** A label `generate_label` makes: the prefix, `_`, and the counter value. */
  datatype Label = Label(prefix: string, id: nat)

  function LabelText(l: Label): string {
    l.prefix + "_" + NatToString(l.id)
  }

  datatype LoopKind = WhileLoop | ForLoop

  /** `LoopContext`: where `break` and `continue` inside a loop jump to. */
  datatype LoopContext = LoopContext(startLabel: Label, endLabel: Label, kind: LoopKind, incrementLabel: Option<Label>)

  /** The control-flow skeleton of emitted code: a label placed, or a jump to a label. */
  datatype Item = Mark(placed: Label) | Jump(target: Label)

  /** One line of the data section: `name:` or `dd value`. */
  datatype DataLine = DataLabel(name: string) | Word(value: int)

  /** An entry of `variable_addresses`: a stack offset, or a data label. */
  datatype VarAddress = Offset(offset: int) | DataAt(dataLabel: string)

  datatype Gen = Gen(
    counter: nat,                          // label_counter
    loops: seq<LoopContext>,               // loop_stack, innermost last
    current: Option<string>,               // current_function; None at global level
    alloc: Allocator,                      // reg_allocator
    stackOffset: int,
    data: seq<DataLine>,                   // data_section
    arrayLabels: map<string, string>,      // array_addresses
    arraySizes: map<string, int>,
    globalLabels: map<string, string>,     // global_data_labels
    varAddresses: map<string, VarAddress>,
    functionLabels: map<string, string>)

  /** What `generate_expression` reads of the state. */
  datatype View = View(
    current: Option<string>,
    registers: map<string, int>,
    globalLabels: map<string, string>,
    arrayLabels: map<string, string>,
    functionLabels: map<string, string>)

  function ViewOf(g: Gen): View {
    View(g.current, g.alloc.registers, g.globalLabels, g.arrayLabels, g.functionLabels)
  }

  /** `generate_expression`: the number of labels it takes, or the error it raises. */
  type ExprCodegen = (View, Expr) -> Result<nat, GenError>

  /** `generate_label`: the next label, and the counter moved past it. */
  function NewLabel(g: Gen, prefix: string): (r: (Gen, Label))
    ensures r.1.id == g.counter && r.0.counter == g.counter + 1
    ensures r.0 == g.(counter := r.0.counter)
  {
    (g.(counter := g.counter + 1), Label(prefix, g.counter))
  }

  // ---------------------------------------------------------------------
  // Skeleton invariants
  // ---------------------------------------------------------------------

  /** What every statement keeps: loop stack, function, function labels; the counter and the data section only grow. */
  predicate Keeps(g: Gen, r: Gen) {
    && r.loops == g.loops && r.current == g.current && r.functionLabels == g.functionLabels
    && g.counter <= r.counter && g.data <= r.data
  }

  /** The counter values from `lo` up to, not including, `hi`. */
  function Ids(lo: nat, hi: nat): set<nat>
    decreases hi - lo
  {
    if lo >= hi then {} else {lo} + Ids(lo + 1, hi)
  }

  lemma {:induction false} IdsMember(lo: nat, hi: nat)
    ensures forall x: nat :: x in Ids(lo, hi) <==> lo <= x < hi
    decreases hi - lo
  {
    if lo < hi {
      IdsMember(lo + 1, hi);
    }
  }

  /** Every label `code` places has its counter value in `ids`. */
  predicate MarksIn(code: seq<Item>, ids: set<nat>) {
    forall i | 0 <= i < |code| && code[i].Mark? :: code[i].placed.id in ids
  }

  /** No label is placed twice. */
  predicate DistinctMarks(code: seq<Item>) {
    forall i, j | 0 <= i < j < |code| && code[i].Mark? && code[j].Mark? :: code[i].placed.id != code[j].placed.id
  }

  /** Every jump of `code` lands on a label `code` places, or on one of `outer`. */
  predicate Resolved(code: seq<Item>, outer: set<Label>) {
    forall i | 0 <= i < |code| && code[i].Jump? :: code[i].target in outer || Mark(code[i].target) in code
  }

  function ContextLabels(c: LoopContext): set<Label> {
    {c.startLabel, c.endLabel} + (if c.incrementLabel.Some? then {c.incrementLabel.value} else {})
  }

  /** The labels of all enclosing loops. */
  function Targets(loops: seq<LoopContext>): set<Label>
    decreases |loops|
  {
    if |loops| == 0 then {} else Targets(loops[..|loops| - 1]) + ContextLabels(loops[|loops| - 1])
  }

  /**
    * Generating from `g` to `r` emitted `code` whose labels are fresh
    * counter values, placed once each, and whose jumps stay inside `code`
    * or go to an enclosing loop's labels.
    */
  predicate Emitted(g: Gen, r: Gen, code: seq<Item>) {
    && Keeps(g, r)
    && MarksIn(code, Ids(g.counter, r.counter)) && DistinctMarks(code)
    && Resolved(code, Targets(g.loops))
  }

  lemma MarksConcat(a: seq<Item>, sa: set<nat>, b: seq<Item>, sb: set<nat>)
    requires MarksIn(a, sa) && MarksIn(b, sb) && DistinctMarks(a) && DistinctMarks(b) && sa !! sb
    ensures MarksIn(a + b, sa + sb) && DistinctMarks(a + b)
  {
    var c := a + b;
    forall i, j | 0 <= i < j < |c| && c[i].Mark? && c[j].Mark?
      ensures c[i].placed.id != c[j].placed.id
    {
      if j < |a| {
        assert c[i] == a[i] && c[j] == a[j];
      } else if i >= |a| {
        assert c[i] == b[i - |a|] && c[j] == b[j - |a|];
      } else {
        assert c[i] == a[i] && c[j] == b[j - |a|];
      }
    }
  }

  lemma MarksWeaken(code: seq<Item>, sa: set<nat>, sb: set<nat>)
    requires MarksIn(code, sa) && sa <= sb
    ensures MarksIn(code, sb)
  {
  }

  lemma ResolvedConcat(a: seq<Item>, b: seq<Item>, outer: set<Label>)
    requires Resolved(a, outer) && Resolved(b, outer)
    ensures Resolved(a + b, outer)
  {
    var c := a + b;
    forall i | 0 <= i < |c| && c[i].Jump?
      ensures c[i].target in outer || Mark(c[i].target) in c
    {
      if i < |a| {
        assert c[i] == a[i];
      } else {
        assert c[i] == b[i - |a|];
      }
    }
  }

  lemma ResolvedWeaken(code: seq<Item>, outer: set<Label>, wider: set<Label>)
    requires Resolved(code, outer) && outer <= wider
    ensures Resolved(code, wider)
  {
  }

  /** Jumps to labels the code itself places need nothing from outside. */
  lemma ResolvedClose(code: seq<Item>, outer: set<Label>, own: set<Label>)
    requires Resolved(code, outer + own)
    requires forall l | l in own :: Mark(l) in code
    ensures Resolved(code, outer)
  {
  }

  lemma TargetsPush(loops: seq<LoopContext>, c: LoopContext)
    ensures Targets(loops + [c]) == Targets(loops) + ContextLabels(c)
  {
    assert (loops + [c])[..|loops|] == loops;
  }

  /** Steps composed one after another. */
  lemma Compose(g0: Gen, g1: Gen, g2: Gen, c1: seq<Item>, c2: seq<Item>)
    requires Emitted(g0, g1, c1) && Emitted(g1, g2, c2)
    ensures Emitted(g0, g2, c1 + c2)
  {
    IdsMember(g0.counter, g1.counter);
    IdsMember(g1.counter, g2.counter);
    IdsMember(g0.counter, g2.counter);
    MarksConcat(c1, Ids(g0.counter, g1.counter), c2, Ids(g1.counter, g2.counter));
    MarksWeaken(c1 + c2, Ids(g0.counter, g1.counter) + Ids(g1.counter, g2.counter), Ids(g0.counter, g2.counter));
    ResolvedConcat(c1, c2, Targets(g0.loops));
  }

  /** The skeleton of an `if`: `else` and `endif` labels are the two counter values taken before the branches. */
  lemma IfCode(elseL: Label, endL: Label, thenCode: seq<Item>, elseCode: Option<seq<Item>>,
               base: nat, lo: nat, thenLo: nat, mid: nat, hi: nat, outer: set<Label>)
    requires base <= lo && elseL.id == lo && endL.id == lo + 1 && lo + 2 <= thenLo <= mid <= hi
    requires MarksIn(thenCode, Ids(thenLo, mid)) && DistinctMarks(thenCode) && Resolved(thenCode, outer)
    requires elseCode.None? ==> mid == hi
    requires elseCode.Some? ==>
               MarksIn(elseCode.value, Ids(mid, hi)) && DistinctMarks(elseCode.value) && Resolved(elseCode.value, outer)
    ensures var code := IfSkeleton(elseL, endL, thenCode, elseCode);
            MarksIn(code, Ids(base, hi)) && DistinctMarks(code) && Resolved(code, outer)
  {
    IdsMember(thenLo, mid);
    IdsMember(mid, hi);
    IdsMember(base, hi);
    var first := [Jump(if elseCode.Some? then elseL else endL)];
    var own := if elseCode.Some? then {elseL, endL} else {endL};
    var all := outer + own;
    ResolvedWeaken(thenCode, outer, all);
    MarksConcat(first, {}, thenCode, Ids(thenLo, mid));
    ResolvedConcat(first, thenCode, all);
    var a := first + thenCode;
    if elseCode.Some? {
      var e := elseCode.value;
      var mid2 := [Jump(endL), Mark(elseL)];
      ResolvedWeaken(e, outer, all);
      MarksConcat(a, {} + Ids(thenLo, mid), mid2, {lo});
      ResolvedConcat(a, mid2, all);
      var b := a + mid2;
      MarksConcat(b, {} + Ids(thenLo, mid) + {lo}, e, Ids(mid, hi));
      ResolvedConcat(b, e, all);
      MarksConcat(b + e, {} + Ids(thenLo, mid) + {lo} + Ids(mid, hi), [Mark(endL)], {lo + 1});
      ResolvedConcat(b + e, [Mark(endL)], all);
      var code := b + e + [Mark(endL)];
      assert code == IfSkeleton(elseL, endL, thenCode, elseCode);
      MarksWeaken(code, {} + Ids(thenLo, mid) + {lo} + Ids(mid, hi) + {lo + 1}, Ids(base, hi));
      assert Mark(elseL) in code by { assert code[|a| + 1] == Mark(elseL); }
      assert Mark(endL) in code by { assert code[|code| - 1] == Mark(endL); }
      ResolvedClose(code, outer, own);
    } else {
      MarksConcat(a, {} + Ids(thenLo, mid), [Mark(endL)], {lo + 1});
      ResolvedConcat(a, [Mark(endL)], all);
      var code := a + [Mark(endL)];
      assert code == IfSkeleton(elseL, endL, thenCode, elseCode);
      MarksWeaken(code, {} + Ids(thenLo, mid) + {lo + 1}, Ids(base, hi));
      assert Mark(endL) in code by { assert code[|code| - 1] == Mark(endL); }
      ResolvedClose(code, outer, own);
    }
  }

  function IfSkeleton(elseL: Label, endL: Label, thenCode: seq<Item>, elseCode: Option<seq<Item>>): seq<Item> {
    if elseCode.Some? then
      [Jump(elseL)] + thenCode + [Jump(endL), Mark(elseL)] + elseCode.value + [Mark(endL)]
    else
      [Jump(endL)] + thenCode + [Mark(endL)]
  }

  function WhileSkeleton(startL: Label, endL: Label, body: seq<Item>): seq<Item> {
    [Mark(startL), Jump(endL)] + body + [Jump(startL), Mark(endL)]
  }

  /** The skeleton of a `while`: both labels are taken before the condition and the body. */
  lemma WhileCode(startL: Label, endL: Label, body: seq<Item>, base: nat, lo: nat, bodyLo: nat, hi: nat, outer: set<Label>)
    requires base <= lo && startL.id == lo && endL.id == lo + 1 && lo + 2 <= bodyLo <= hi
    requires MarksIn(body, Ids(bodyLo, hi)) && DistinctMarks(body)
    requires Resolved(body, outer + {startL, endL})
    ensures var code := WhileSkeleton(startL, endL, body);
            MarksIn(code, Ids(base, hi)) && DistinctMarks(code) && Resolved(code, outer)
  {
    IdsMember(bodyLo, hi);
    IdsMember(base, hi);
    var own := {startL, endL};
    var all := outer + own;
    var first := [Mark(startL), Jump(endL)];
    var last := [Jump(startL), Mark(endL)];
    MarksConcat(first, {lo}, body, Ids(bodyLo, hi));
    ResolvedConcat(first, body, all);
    MarksConcat(first + body, {lo} + Ids(bodyLo, hi), last, {lo + 1});
    ResolvedConcat(first + body, last, all);
    var code := first + body + last;
    assert code == WhileSkeleton(startL, endL, body);
    MarksWeaken(code, {lo} + Ids(bodyLo, hi) + {lo + 1}, Ids(base, hi));
    assert Mark(startL) in code by { assert code[0] == Mark(startL); }
    assert Mark(endL) in code by { assert code[|code| - 1] == Mark(endL); }
    ResolvedClose(code, outer, own);
  }

  function StepPart(step: Option<(Label, seq<Item>)>): seq<Item> {
    if step.Some? then [Mark(step.value.0)] + step.value.1 else []
  }

  function ForSkeleton(startL: Label, endL: Label, hasCond: bool, body: seq<Item>, step: Option<(Label, seq<Item>)>): seq<Item> {
    [Mark(startL)] + (if hasCond then [Jump(endL)] else []) + body + StepPart(step) + [Jump(startL), Mark(endL)]
  }

  function StepLabel(step: Option<(Label, seq<Item>)>): Option<Label> {
    if step.Some? then Some(step.value.0) else None
  }

  lemma StepPartCode(step: Option<(Label, seq<Item>)>, inc: nat, mid: nat, hi: nat)
    requires step.Some? ==> step.value.0.id == inc && MarksIn(step.value.1, Ids(mid, hi)) && DistinctMarks(step.value.1)
    requires inc < mid
    ensures MarksIn(StepPart(step), if step.Some? then {inc} + Ids(mid, hi) else {})
    ensures DistinctMarks(StepPart(step))
  {
    if step.Some? {
      IdsMember(mid, hi);
      MarksConcat([Mark(step.value.0)], {inc}, step.value.1, Ids(mid, hi));
    }
  }

  /** The shape facts a `for` skeleton needs about its labels and pieces. */
  ghost predicate ForPieces(startL: Label, endL: Label, body: seq<Item>, step: Option<(Label, seq<Item>)>,
                            lo: nat, bodyLo: nat, mid: nat, hi: nat) {
    && startL.id == lo
    && (step.Some? ==> step.value.0.id == lo + 1 && endL.id == lo + 2)
    && (step.None? ==> endL.id == lo + 1 && mid == hi)
    && endL.id < bodyLo <= mid <= hi
    && MarksIn(body, Ids(bodyLo, mid)) && DistinctMarks(body)
    && (step.Some? ==> MarksIn(step.value.1, Ids(mid, hi)) && DistinctMarks(step.value.1))
  }

  lemma ForCodeMarks(startL: Label, endL: Label, hasCond: bool, body: seq<Item>, step: Option<(Label, seq<Item>)>,
                     base: nat, lo: nat, bodyLo: nat, mid: nat, hi: nat)
    requires base <= lo && ForPieces(startL, endL, body, step, lo, bodyLo, mid, hi)
    ensures MarksIn(ForSkeleton(startL, endL, hasCond, body, step), Ids(base, hi))
    ensures DistinctMarks(ForSkeleton(startL, endL, hasCond, body, step))
  {
    IdsMember(bodyLo, mid);
    IdsMember(mid, hi);
    IdsMember(base, hi);
    var first := [Mark(startL)] + (if hasCond then [Jump(endL)] else []);
    var last := [Jump(startL), Mark(endL)];
    var stepIds: set<nat> := if step.Some? then {lo + 1} + Ids(mid, hi) else {};
    var sp := StepPart(step);
    StepPartCode(step, lo + 1, mid, hi);
    MarksConcat(first, {lo}, body, Ids(bodyLo, mid));
    MarksConcat(first + body, {lo} + Ids(bodyLo, mid), sp, stepIds);
    MarksConcat(first + body + sp, {lo} + Ids(bodyLo, mid) + stepIds, last, {endL.id});
    var code := first + body + sp + last;
    assert code == ForSkeleton(startL, endL, hasCond, body, step);
    MarksWeaken(code, {lo} + Ids(bodyLo, mid) + stepIds + {endL.id}, Ids(base, hi));
  }

  lemma ForCodeResolved(startL: Label, endL: Label, hasCond: bool, body: seq<Item>, step: Option<(Label, seq<Item>)>,
                        outer: set<Label>)
    requires var own := ContextLabels(LoopContext(startL, endL, ForLoop, StepLabel(step)));
             && Resolved(body, outer + own)
             && (step.Some? ==> Resolved(step.value.1, outer + own))
    ensures Resolved(ForSkeleton(startL, endL, hasCond, body, step), outer)
  {
    var own := ContextLabels(LoopContext(startL, endL, ForLoop, StepLabel(step)));
    var all := outer + own;
    var first := [Mark(startL)] + (if hasCond then [Jump(endL)] else []);
    var last := [Jump(startL), Mark(endL)];
    var sp := StepPart(step);
    if step.Some? {
      ResolvedConcat([Mark(step.value.0)], step.value.1, all);
    }
    assert Resolved(first, all);
    ResolvedConcat(first, body, all);
    ResolvedConcat(first + body, sp, all);
    ResolvedConcat(first + body + sp, last, all);
    var code := first + body + sp + last;
    assert code == ForSkeleton(startL, endL, hasCond, body, step);
    assert Mark(startL) in code by { assert code[0] == Mark(startL); }
    assert Mark(endL) in code by { assert code[|code| - 1] == Mark(endL); }
    if step.Some? {
      assert Mark(step.value.0) in code by { assert code[|first + body|] == Mark(step.value.0); }
    }
    ResolvedClose(code, outer, own);
  }

  // ---------------------------------------------------------------------
  // Expressions, as far as statements see them
  // ---------------------------------------------------------------------

  function GenExpr(exprs: ExprCodegen, g: Gen, e: Expr): (r: Result<Gen, GenError>)
    ensures r.Ok? ==> r.value == g.(counter := r.value.counter) && g.counter <= r.value.counter
  {
    var k :- exprs(ViewOf(g), e);
    Ok(g.(counter := g.counter + k))
  }

  function GenOptExpr(exprs: ExprCodegen, g: Gen, e: Option<Expr>): (r: Result<Gen, GenError>)
    ensures r.Ok? ==> r.value == g.(counter := r.value.counter) && g.counter <= r.value.counter
  {
    if e.Some? then GenExpr(exprs, g, e.value) else Ok(g)
  }

  /** Expressions one after another, left to right. */
  function GenExprs(exprs: ExprCodegen, g: Gen, es: seq<Expr>): (r: Result<Gen, GenError>)
    ensures r.Ok? ==> r.value == g.(counter := r.value.counter) && g.counter <= r.value.counter
    decreases |es|
  {
    if |es| == 0 then Ok(g)
    else
      var g1 :- GenExpr(exprs, g, es[0]);
      GenExprs(exprs, g1, es[1..])
  }

  /** `r` followed by digits: a name the generator treats as a machine register when nothing else defines it. */
  predicate IsRegisterName(name: string) {
    |name| >= 2 && name[0] == 'r' && AllDigits(name[1..])
  }

  /** The names `generate_identifier` can read: globals, allocated registers, and register names. */
  predicate Readable(v: View, name: string) {
    name in v.globalLabels || name in v.registers || IsRegisterName(name)
  }

  // ---------------------------------------------------------------------
  // Declarations and the data section
  // ---------------------------------------------------------------------

  function InvalidRegister(name: string): GenError {
    Failed("Code generation error: Invalid register name '" + name + "' (must be r0-r31)")
  }

  /** The number a register variable's name stands for, as `int(name[1:])` reads it. */
  function RegisterNumber(name: string): Option<int> {
    PyInt(if |name| > 0 then name[1..] else "")
  }

  /** The word a global variable starts with: a literal initializer's value, 0 for anything else. */
  function InitialWord(init: Option<Expr>): int {
    if init.Some? && init.value.Literal? then init.value.value else 0
  }

  /**
    * `generate_var_decl`: a register variable is bound to the register its
    * name names; a global gets a `var_<name>` data word; a local gets the
    * next allocated register and the next stack slot.
    */
  function GenVarDecl(exprs: ExprCodegen, g: Gen, name: string, init: Option<Expr>, isRegister: bool): (r: Result<Gen, GenError>)
    ensures r.Ok? ==> Keeps(g, r.value)
    ensures isRegister && r.Ok? ==>
              name in r.value.alloc.registers && RegisterNumber(name) == Some(r.value.alloc.registers[name])
              && 0 <= r.value.alloc.registers[name] <= 30
    ensures isRegister && RegisterNumber(name).Some? && !(0 <= RegisterNumber(name).value <= 30) ==>
              r == Err(InvalidRegister(name))
    ensures isRegister && RegisterNumber(name).None? ==> r.Err? && r.error.Crashed?
    ensures !isRegister && g.current.None? ==>
              && r.Ok? && r.value.counter == g.counter && r.value.alloc == g.alloc
              && r.value.globalLabels == g.globalLabels[name := "var_" + name]
              && r.value.data == g.data + [DataLabel("var_" + name), Word(InitialWord(init))]
              && r.value.varAddresses == g.varAddresses[name := DataAt("var_" + name)]
    ensures !isRegister && g.current.Some? && AllocateAsWritten(g.alloc, name).Err? ==>
              r == Err(AllocatorCrash)
    ensures !isRegister && g.current.Some? && r.Ok? ==>
              && name in r.value.alloc.registers && name in r.value.varAddresses
              && r.value.varAddresses[name] == Offset(g.stackOffset) && r.value.stackOffset == g.stackOffset + 1
  {
    if isRegister then
      match RegisterNumber(name)
      case None => Err(Crashed("ValueError: invalid literal for int() with base 10"))
      case Some(n) =>
        if n < 0 || n > 30 then Err(InvalidRegister(name))
        else GenOptExpr(exprs, g.(alloc := g.alloc.(registers := g.alloc.registers[name := n])), init)
    else if g.current.None? then
      var tag := "var_" + name;
      Ok(g.(globalLabels := g.globalLabels[name := tag],
            data := g.data + [DataLabel(tag), Word(InitialWord(init))],
            varAddresses := g.varAddresses[name := DataAt(tag)]))
    else
      var (a1, _) :- AllocateAsWritten(g.alloc, name);
      GenOptExpr(exprs, g.(alloc := a1, varAddresses := g.varAddresses[name := Offset(g.stackOffset)],
                           stackOffset := g.stackOffset + 1), init)
  }

  /** The `dd` lines of an initializer: a literal's value, 0 for anything else. */
  function InitWords(elements: seq<Expr>): (r: seq<DataLine>)
    ensures |r| == |elements|
  {
    if |elements| == 0 then []
    else [if elements[0].Literal? then Word(elements[0].value) else Word(0)] + InitWords(elements[1..])
  }

  function ZeroWords(n: int): (r: seq<DataLine>)
    ensures |r| == if n > 0 then n else 0
    decreases n
  {
    if n <= 0 then [] else [Word(0)] + ZeroWords(n - 1)
  }

  /** The lines `generate_array_decl` appends for one array. */
  function ArrayData(tag: string, size: int, elements: seq<Expr>): seq<DataLine> {
    [DataLabel(tag)] + InitWords(elements) + ZeroWords(size - |elements|)
  }

  /**
    * The data section grew from `before` to `after` by the label line of an
    * array and one `dd` line per element: max(size, number of
    * initializers) of them, each initializer's literal value, else 0.
    */
  ghost predicate LaidOut(before: seq<DataLine>, after: seq<DataLine>, tag: string, size: int, elements: seq<Expr>) {
    var n := if size >= |elements| then size else |elements|;
    && |after| == |before| + 1 + n && after[..|before|] == before
    && after[|before|] == DataLabel(tag)
    && forall i | 0 <= i < n ::
         after[|before| + 1 + i] == if i < |elements| && elements[i].Literal? then Word(elements[i].value) else Word(0)
  }

  lemma {:induction false} InitWordsAt(elements: seq<Expr>, i: nat)
    requires i < |elements|
    ensures InitWords(elements)[i] == if elements[i].Literal? then Word(elements[i].value) else Word(0)
    decreases |elements|
  {
    if i > 0 {
      InitWordsAt(elements[1..], i - 1);
    }
  }

  lemma {:induction false} ZeroWordsAt(n: int, i: nat)
    requires i < n
    ensures ZeroWords(n)[i] == Word(0)
    decreases n
  {
    if i > 0 {
      ZeroWordsAt(n - 1, i - 1);
    }
  }

  lemma ArrayDataLaidOut(before: seq<DataLine>, tag: string, size: int, elements: seq<Expr>)
    ensures LaidOut(before, before + ArrayData(tag, size, elements), tag, size, elements)
  {
    var after := before + ArrayData(tag, size, elements);
    var n := if size >= |elements| then size else |elements|;
    assert |ArrayData(tag, size, elements)| == 1 + n;
    assert after[..|before|] == before;
    forall i | 0 <= i < n
      ensures after[|before| + 1 + i] == if i < |elements| && elements[i].Literal? then Word(elements[i].value) else Word(0)
    {
      if i < |elements| {
        InitWordsAt(elements, i);
        assert after[|before| + 1 + i] == InitWords(elements)[i];
      } else {
        ZeroWordsAt(size - |elements|, i - |elements|);
        assert after[|before| + 1 + i] == ZeroWords(size - |elements|)[i - |elements|];
      }
    }
  }

  /** The data label of an array: `array_<name>` for a global, `array_<function>_<name>_<counter>` for a local. */
  function ArrayLabel(g: Gen, name: string): string {
    if g.current.None? then "array_" + name else LabelText(Label("array_" + g.current.value + "_" + name, g.counter))
  }

  /** The runtime stores for a local array's non-literal initializers, in order. */
  function GenElementInits(exprs: ExprCodegen, g: Gen, elements: seq<Expr>): (r: Result<Gen, GenError>)
    ensures r.Ok? ==> r.value == g.(counter := r.value.counter) && g.counter <= r.value.counter
    decreases |elements|
  {
    if |elements| == 0 then Ok(g)
    else
      var g1 :- if elements[0].Literal? then Ok(g) else GenExpr(exprs, g, elements[0]);
      GenElementInits(exprs, g1, elements[1..])
  }

  function SizeNotLiteral(size: Expr): GenError {
    Failed("Array size must be a constant literal, got " + ClassName(size))
  }

  function SizeNotPositive(size: int): GenError {
    Failed("Array size must be positive, got " + IntToString(size))
  }

  /** `generate_array_decl`. */
  function GenArrayDecl(exprs: ExprCodegen, g: Gen, name: string, size: Expr, elements: seq<Expr>): (r: Result<Gen, GenError>)
    ensures !size.Literal? ==> r == Err(SizeNotLiteral(size))
    ensures size.Literal? && size.value <= 0 ==> r == Err(SizeNotPositive(size.value))
    ensures size.Literal? && size.value > 0 && g.current.None? ==> r.Ok?
    ensures r.Ok? ==> Keeps(g, r.value) && LaidOut(g.data, r.value.data, ArrayLabel(g, name), size.value, elements)
    ensures r.Ok? ==> name in r.value.arrayLabels && r.value.arrayLabels[name] == ArrayLabel(g, name)
    ensures r.Ok? && g.current.Some? ==> r.value.counter > g.counter && name in r.value.arraySizes && r.value.arraySizes[name] == size.value
  {
    if !size.Literal? then Err(SizeNotLiteral(size))
    else if size.value <= 0 then Err(SizeNotPositive(size.value))
    else
      var tag := ArrayLabel(g, name);
      ArrayDataLaidOut(g.data, tag, size.value, elements);
      if g.current.None? then
        Ok(g.(globalLabels := g.globalLabels[name := tag], data := g.data + ArrayData(tag, size.value, elements),
              arrayLabels := g.arrayLabels[name := tag]))
      else
        var g1 := g.(counter := g.counter + 1, data := g.data + ArrayData(tag, size.value, elements));
        var g2 :- GenElementInits(exprs, g1, elements);
        Ok(g2.(arrayLabels := g2.arrayLabels[name := tag], arraySizes := g2.arraySizes[name := size.value]))
  }

  /** `generate_pointer_decl`: a pointer always gets an allocated register, also at global level. */
  function GenPointerDecl(exprs: ExprCodegen, g: Gen, name: string, init: Option<Expr>): (r: Result<Gen, GenError>)
    ensures r.Ok? ==> Keeps(g, r.value)
    ensures r.Ok? ==> name in r.value.alloc.registers
  {
    var (a1, _) :- AllocateAsWritten(g.alloc, name);
    GenOptExpr(exprs, g.(alloc := a1), init)
  }

  // ---------------------------------------------------------------------
  // Other simple statements
  // ---------------------------------------------------------------------

  /**
    * `generate_assignment`: a global is stored to, an allocated name or a
    * register name is written directly, and any other name gets a register
    * allocated on first assignment.
    */
  function GenAssignment(exprs: ExprCodegen, g: Gen, name: string, value: Expr): (r: Result<Gen, GenError>)
    ensures r.Ok? ==> Keeps(g, r.value)
  {
    var g1 :- GenExpr(exprs, g, value);
    if name in g1.globalLabels || name in g1.alloc.registers || IsRegisterName(name) then Ok(g1)
    else
      var (a1, _) :- AllocateAsWritten(g1.alloc, name);
      Ok(g1.(alloc := a1))
  }

  /** `generate_array_assignment`: index, then value, then the array must be known. */
  function GenArrayAssignment(exprs: ExprCodegen, g: Gen, name: string, index: Expr, value: Expr): (r: Result<Gen, GenError>)
    ensures r.Ok? ==> Keeps(g, r.value)
  {
    var g1 :- GenExpr(exprs, g, index);
    var g2 :- GenExpr(exprs, g1, value);
    if name in g2.arrayLabels then Ok(g2) else Err(Failed("Array " + name + " not found"))
  }

  function UartArity(n: nat): GenError {
    Failed("Code generation error: uart_write expects 1 argument, got " + NatToString(n))
  }

  /**
    * A call used as a statement. A name that is not a defined function is a
    * hardware call: its arguments are generated, `uart_write` must have
    * exactly one, and any other hardware call is then generated again as an
    * expression, arguments included.
    */
  function GenCallStatement(exprs: ExprCodegen, g: Gen, call: Expr): (r: Result<Gen, GenError>)
    ensures r.Ok? ==> Keeps(g, r.value)
  {
    if !call.FunctionCall? then Err(Crashed("AttributeError: object has no attribute 'name'"))
    else if call.callee in g.functionLabels then GenExpr(exprs, g, call)
    else
      var g1 :- GenExprs(exprs, g, call.args);
      if call.callee == "uart_write" then
        if |call.args| != 1 then Err(UartArity(|call.args|)) else Ok(g1)
      else GenExpr(exprs, g1, call)
  }

  function Undefined(name: string): GenError {
    Failed("Undefined variable: " + name)
  }

  /**
    * `generate_increment` and `generate_decrement` as written: only an
    * allocated name or a register name is accepted, so a global variable
    * is reported undefined. An accepted step takes one temporary for the
    * constant 1, which moves the rotating temporary counter on by one.
    */
  function GenStepAsWritten(g: Gen, name: string): (r: Result<Gen, GenError>)
    ensures r.Ok? ==> r.value == g.(alloc := g.alloc.(nextTemp := (g.alloc.nextTemp + 1) % 10))
    ensures r.Err? <==> name !in g.alloc.registers && !IsRegisterName(name)
  {
    if name in g.alloc.registers || IsRegisterName(name) then
      var (a1, _) := TempRegisterAsWritten(g.alloc);
      Ok(g.(alloc := a1))
    else Err(Undefined(name))
  }

  /**
    * Increment and decrement as intended: a global is updated in memory, as
    * assignment does, so exactly the names an expression can read are
    * accepted, each taking the one temporary for the constant 1.
    */
  function GenStep(g: Gen, name: string): (r: Result<Gen, GenError>)
    ensures r.Ok? <==> Readable(ViewOf(g), name)
    ensures r.Ok? ==> r.value == g.(alloc := g.alloc.(nextTemp := (g.alloc.nextTemp + 1) % 10))
    ensures r.Err? ==> r.error == Undefined(name)
  {
    if name in g.globalLabels then Ok(g.(alloc := TempRegisterAsWritten(g.alloc).0)) else GenStepAsWritten(g, name)
  }

  predicate IsControl(s: Stmt) {
    s.IfStmt? || s.WhileStmt? || s.ForStmt? || s.Block? || s.BreakStmt? || s.ContinueStmt?
  }

  /** The statements that emit no labels and no jumps of their own. */
  function GenSimple(exprs: ExprCodegen, g: Gen, s: Stmt): (r: Result<Gen, GenError>)
    requires !IsControl(s)
    ensures r.Ok? ==> Keeps(g, r.value)
  {
    match s
    case VarDecl(name, init, _, isRegister, _, _) => GenVarDecl(exprs, g, name, init, isRegister)
    case ArrayDecl(name, size, elements, _, _) => GenArrayDecl(exprs, g, name, size, elements)
    case PointerDecl(name, init, _, _) => GenPointerDecl(exprs, g, name, init)
    case Assignment(name, value) => GenAssignment(exprs, g, name, value)
    case ArrayAssignment(name, index, value) => GenArrayAssignment(exprs, g, name, index, value)
    case PointerAssignment(target, value) =>
      var g1 :- GenExpr(exprs, g, target);
      GenExpr(exprs, g1, value)
    case Return(result) => GenOptExpr(exprs, g, result)
    case FunctionCallStmt(call) => GenCallStatement(exprs, g, call)
    case Increment(name, _) => GenStepAsWritten(g, name)
    case Decrement(name, _) => GenStepAsWritten(g, name)
  }

  // ---------------------------------------------------------------------
  // Control flow and the loop stack
  // ---------------------------------------------------------------------

  function InnermostLoop(g: Gen): LoopContext
    requires |g.loops| > 0
  {
    g.loops[|g.loops| - 1]
  }

  /** `loop_stack.pop()`. */
  function PopLoop(g: Gen): Gen
    requires |g.loops| > 0
  {
    g.(loops := g.loops[..|g.loops| - 1])
  }

  /** `generate_break`: a jump to the innermost loop's end. */
  function GenBreak(g: Gen): (r: Result<Item, GenError>)
    ensures r.Err? <==> |g.loops| == 0
    ensures r.Err? ==> r.error == Failed("break statement outside of loop")
    ensures r.Ok? ==> r.value.Jump? && r.value.target in ContextLabels(InnermostLoop(g))
  {
    if |g.loops| == 0 then Err(Failed("break statement outside of loop"))
    else Ok(Jump(InnermostLoop(g).endLabel))
  }

  /** `generate_continue`: a jump to the innermost loop's increment section if it has one, else to its start. */
  function GenContinue(g: Gen): (r: Result<Item, GenError>)
    ensures r.Err? <==> |g.loops| == 0
    ensures r.Err? ==> r.error == Failed("continue statement outside of loop")
    ensures r.Ok? ==> r.value.Jump? && r.value.target in ContextLabels(InnermostLoop(g))
  {
    if |g.loops| == 0 then Err(Failed("continue statement outside of loop"))
    else
      var c := InnermostLoop(g);
      if c.kind == ForLoop && c.incrementLabel.Some? then Ok(Jump(c.incrementLabel.value))
      else Ok(Jump(c.startLabel))
  }

  lemma InnermostTargets(g: Gen)
    requires |g.loops| > 0
    ensures ContextLabels(InnermostLoop(g)) <= Targets(g.loops)
  {
  }

  /** `generate_statement`. */
  function GenStmt(exprs: ExprCodegen, g: Gen, s: Stmt): (r: Result<(Gen, seq<Item>), GenError>)
    ensures r.Ok? ==> Emitted(g, r.value.0, r.value.1)
    decreases StmtSize(s), 2
  {
    match s
    case IfStmt(_, _, _) => GenIf(exprs, g, s)
    case WhileStmt(_, _) => GenWhile(exprs, g, s)
    case ForStmt(_, _, _, _) => GenFor(exprs, g, s)
    case Block(stmts) => GenStmts(exprs, g, stmts)
    case BreakStmt =>
      var j :- GenBreak(g);
      InnermostTargets(g);
      Ok((g, [j]))
    case ContinueStmt =>
      var j :- GenContinue(g);
      InnermostTargets(g);
      Ok((g, [j]))
    case _ =>
      var g1 :- GenSimple(exprs, g, s);
      Ok((g1, []))
  }

  /** `generate_block`. */
  function GenStmts(exprs: ExprCodegen, g: Gen, ss: seq<Stmt>): (r: Result<(Gen, seq<Item>), GenError>)
    ensures r.Ok? ==> Emitted(g, r.value.0, r.value.1)
    decreases StmtsSize(ss), 3
  {
    if |ss| == 0 then Ok((g, []))
    else
      var (g1, c1) :- GenStmt(exprs, g, ss[0]);
      var (g2, c2) :- GenStmts(exprs, g1, ss[1..]);
      Compose(g, g1, g2, c1, c2);
      Ok((g2, c1 + c2))
  }

  /** `generate_if`: the condition, then the `else` and `endif` labels, then the branches. */
  function GenIf(exprs: ExprCodegen, g: Gen, s: Stmt): (r: Result<(Gen, seq<Item>), GenError>)
    requires s.IfStmt?
    ensures r.Ok? ==> Emitted(g, r.value.0, r.value.1)
    decreases StmtSize(s), 1
  {
    var g1 :- GenExpr(exprs, g, s.cond);
    var (g2, elseL) := NewLabel(g1, "else");
    var (g3, endL) := NewLabel(g2, "endif");
    var (g4, thenCode) :- GenStmt(exprs, g3, s.thenS);
    if s.elseS.None? then
      IfCode(elseL, endL, thenCode, None, g.counter, g1.counter, g3.counter, g4.counter, g4.counter, Targets(g.loops));
      Ok((g4, IfSkeleton(elseL, endL, thenCode, None)))
    else
      assert OptStmtSize(s.elseS) == StmtSize(s.elseS.value);
      var (g5, elseCode) :- GenStmt(exprs, g4, s.elseS.value);
      IfCode(elseL, endL, thenCode, Some(elseCode), g.counter, g1.counter, g3.counter, g4.counter, g5.counter, Targets(g.loops));
      Ok((g5, IfSkeleton(elseL, endL, thenCode, Some(elseCode))))
  }

  /** The `while` skeleton closed over the generator states around its body. */
  lemma WhileEmitted(g: Gen, g4: Gen, g5: Gen, startL: Label, endL: Label, body: seq<Item>)
    requires var ctx := LoopContext(startL, endL, WhileLoop, None);
             && g4.loops == g.loops + [ctx] && g4.current == g.current && g4.functionLabels == g.functionLabels
             && g.data <= g4.data
    requires startL.id == g.counter && endL.id == g.counter + 1 && g.counter + 2 <= g4.counter
    requires Emitted(g4, g5, body)
    ensures |g5.loops| > 0 && Emitted(g, PopLoop(g5), WhileSkeleton(startL, endL, body))
  {
    var ctx := LoopContext(startL, endL, WhileLoop, None);
    TargetsPush(g.loops, ctx);
    assert ContextLabels(ctx) == {startL, endL};
    WhileCode(startL, endL, body, g.counter, g.counter, g4.counter, g5.counter, Targets(g.loops));
    assert (g.loops + [ctx])[..|g.loops|] == g.loops;
  }

  /** `generate_while`: both labels, push, condition, body, pop. */
  function GenWhile(exprs: ExprCodegen, g: Gen, s: Stmt): (r: Result<(Gen, seq<Item>), GenError>)
    requires s.WhileStmt?
    ensures r.Ok? ==> Emitted(g, r.value.0, r.value.1)
    decreases StmtSize(s), 1
  {
    var (g1, startL) := NewLabel(g, "while_start");
    var (g2, endL) := NewLabel(g1, "while_end");
    var ctx := LoopContext(startL, endL, WhileLoop, None);
    var g3 := g2.(loops := g2.loops + [ctx]);
    var g4 :- GenExpr(exprs, g3, s.cond);
    var (g5, body) :- GenStmt(exprs, g4, s.body);
    WhileEmitted(g, g4, g5, startL, endL, body);
    Ok((PopLoop(g5), WhileSkeleton(startL, endL, body)))
  }

  /** `generate_for`: the initializer runs outside the loop, before any label is taken. */
  function GenFor(exprs: ExprCodegen, g: Gen, s: Stmt): (r: Result<(Gen, seq<Item>), GenError>)
    requires s.ForStmt?
    ensures r.Ok? ==> Emitted(g, r.value.0, r.value.1)
    decreases StmtSize(s), 1
  {
    if s.forInit.None? then GenForLoop(exprs, g, s)
    else
      ForSizes(s);
      var (g1, initCode) :- GenStmt(exprs, g, s.forInit.value);
      var (g2, loopCode) :- GenForLoop(exprs, g1, s);
      Compose(g, g1, g2, initCode, loopCode);
      Ok((g2, initCode + loopCode))
  }

  lemma ForSizes(s: Stmt)
    requires s.ForStmt?
    ensures StmtSize(s.forBody) < StmtSize(s)
    ensures s.forInit.Some? ==> StmtSize(s.forInit.value) < StmtSize(s)
    ensures s.step.Some? ==> StmtSize(s.step.value) < StmtSize(s)
  {
  }

  /** The `for` skeleton closed over the generator states around its body and increment section. */
  lemma ForEmitted(g: Gen, g5: Gen, g6: Gen, g7: Gen, startL: Label, endL: Label, hasCond: bool,
                   body: seq<Item>, step: Option<(Label, seq<Item>)>)
    requires var ctx := LoopContext(startL, endL, ForLoop, StepLabel(step));
             && g5.loops == g.loops + [ctx] && g5.current == g.current && g5.functionLabels == g.functionLabels
             && g.data <= g5.data
    requires startL.id == g.counter && endL.id < g5.counter
    requires step.Some? ==> step.value.0.id == g.counter + 1 && endL.id == g.counter + 2
    requires step.None? ==> endL.id == g.counter + 1 && g7 == g6
    requires Emitted(g5, g6, body)
    requires step.Some? ==> Emitted(g6, g7, step.value.1)
    ensures |g7.loops| > 0 && Emitted(g, PopLoop(g7), ForSkeleton(startL, endL, hasCond, body, step))
  {
    var ctx := LoopContext(startL, endL, ForLoop, StepLabel(step));
    TargetsPush(g.loops, ctx);
    assert (g.loops + [ctx])[..|g.loops|] == g.loops;
    assert ForPieces(startL, endL, body, step, g.counter, g5.counter, g6.counter, g7.counter);
    ForCodeMarks(startL, endL, hasCond, body, step, g.counter, g.counter, g5.counter, g6.counter, g7.counter);
    ForCodeResolved(startL, endL, hasCond, body, step, Targets(g.loops));
  }

  /** The labels of a `for` (`for_start`, `for_increment` when there is a step, `for_end`) and the loop pushed. */
  function ForEntry(g: Gen, s: Stmt): (r: (Gen, LoopContext))
    requires s.ForStmt?
    ensures r.1.startLabel == Label("for_start", g.counter) && r.1.kind == ForLoop
    ensures s.step.Some? ==> && r.1.incrementLabel == Some(Label("for_increment", g.counter + 1))
                             && r.1.endLabel == Label("for_end", g.counter + 2) && r.0.counter == g.counter + 3
    ensures s.step.None? ==> && r.1.incrementLabel.None?
                             && r.1.endLabel == Label("for_end", g.counter + 1) && r.0.counter == g.counter + 2
    ensures r.0 == g.(counter := r.0.counter, loops := g.loops + [r.1])
  {
    var (g1, startL) := NewLabel(g, "for_start");
    var (g2, incL) := if s.step.Some? then var (x, l) := NewLabel(g1, "for_increment"); (x, Some(l)) else (g1, None);
    var (g3, endL) := NewLabel(g2, "for_end");
    var ctx := LoopContext(startL, endL, ForLoop, incL);
    (g3.(loops := g3.loops + [ctx]), ctx)
  }

  /** The rest of `generate_for`: labels, push, condition, body, increment section, pop. */
  function GenForLoop(exprs: ExprCodegen, g: Gen, s: Stmt): (r: Result<(Gen, seq<Item>), GenError>)
    requires s.ForStmt?
    ensures r.Ok? ==> Emitted(g, r.value.0, r.value.1)
    decreases StmtSize(s), 0
  {
    ForSizes(s);
    var (g4, ctx) := ForEntry(g, s);
    var g5 :- GenOptExpr(exprs, g4, s.forCond);
    var (g6, body) :- GenStmt(exprs, g5, s.forBody);
    if s.step.None? then
      ForEmitted(g, g5, g6, g6, ctx.startLabel, ctx.endLabel, s.forCond.Some?, body, None);
      Ok((PopLoop(g6), ForSkeleton(ctx.startLabel, ctx.endLabel, s.forCond.Some?, body, None)))
    else
      var (g7, stepCode) :- GenStmt(exprs, g6, s.step.value);
      var step := Some((ctx.incrementLabel.value, stepCode));
      ForEmitted(g, g5, g6, g7, ctx.startLabel, ctx.endLabel, s.forCond.Some?, body, step);
      Ok((PopLoop(g7), ForSkeleton(ctx.startLabel, ctx.endLabel, s.forCond.Some?, body, step)))
  }

  // ---------------------------------------------------------------------
  // Functions and the whole program
  // ---------------------------------------------------------------------

  /** The label a function is called by: `main` for `main`, `func_<name>` otherwise. */
  function FunctionLabel(name: string): string {
    if name == "main" then "main" else "func_" + name
  }

  function FunctionNames(fs: seq<FunctionDef>): set<string>
    decreases |fs|
  {
    if |fs| == 0 then {} else FunctionNames(fs[..|fs| - 1]) + {fs[|fs| - 1].name}
  }

  /** The `function_labels` table `generate` fills before anything else. */
  function FunctionLabels(fs: seq<FunctionDef>): (r: map<string, string>)
    ensures r.Keys == FunctionNames(fs)
    ensures forall name | name in r :: r[name] == FunctionLabel(name)
    decreases |fs|
  {
    if |fs| == 0 then map[]
    else
      var last := fs[|fs| - 1];
      FunctionLabels(fs[..|fs| - 1])[last.name := FunctionLabel(last.name)]
  }

  /**
    * `generate_function`: a fresh allocator with the parameters in
    * consecutive registers, a stack offset past the return address and the
    * parameters (none for `main`), the body, and then the caller's
    * function, allocator and stack offset back.
    */
  function GenerateFunction(exprs: ExprCodegen, g: Gen, f: FunctionDef): (r: Result<(Gen, seq<Item>), GenError>)
    ensures AllocateParams(FreshAllocator, f.params).Err? ==> r == Err(AllocateParams(FreshAllocator, f.params).error)
    ensures r.Ok? ==> Emitted(g, r.value.0, r.value.1)
    ensures r.Ok? ==> r.value.0.current == g.current && r.value.0.alloc == g.alloc && r.value.0.stackOffset == g.stackOffset
  {
    var (a, _) :- AllocateParams(FreshAllocator, f.params);
    var g1 := g.(current := Some(f.name), alloc := a, stackOffset := if f.name == "main" then 0 else 1 + |f.params|);
    var (g2, code) :- GenStmts(exprs, g1, f.body);
    Ok((g2.(current := g.current, alloc := g.alloc, stackOffset := g.stackOffset), code))
  }

  /** The functions one after another. */
  function GenerateFunctions(exprs: ExprCodegen, g: Gen, fs: seq<FunctionDef>): (r: Result<(Gen, seq<Item>), GenError>)
    ensures r.Ok? ==> Emitted(g, r.value.0, r.value.1)
    ensures r.Ok? ==> r.value.0.current == g.current
    decreases |fs|
  {
    if |fs| == 0 then Ok((g, []))
    else
      var (g1, c1) :- GenerateFunction(exprs, g, fs[0]);
      var (g2, c2) :- GenerateFunctions(exprs, g1, fs[1..]);
      Compose(g, g1, g2, c1, c2);
      Ok((g2, c1 + c2))
  }

  /** A global declaration; statements other than declarations are skipped at global level. */
  function GenGlobal(exprs: ExprCodegen, g: Gen, s: Stmt): (r: Result<Gen, GenError>)
    ensures r.Ok? ==> Keeps(g, r.value)
    ensures !s.VarDecl? && !s.ArrayDecl? && !s.PointerDecl? ==> r == Ok(g)
  {
    match s
    case ArrayDecl(name, size, elements, _, _) => GenArrayDecl(exprs, g, name, size, elements)
    case PointerDecl(name, init, _, _) => GenPointerDecl(exprs, g, name, init)
    case VarDecl(name, init, _, isRegister, _, _) => GenVarDecl(exprs, g, name, init, isRegister)
    case _ => Ok(g)
  }

  function GenGlobals(exprs: ExprCodegen, g: Gen, globals: seq<Stmt>): (r: Result<Gen, GenError>)
    ensures r.Ok? ==> Keeps(g, r.value)
    decreases |globals|
  {
    if |globals| == 0 then Ok(g)
    else
      var g1 :- GenGlobal(exprs, g, globals[0]);
      GenGlobals(exprs, g1, globals[1..])
  }

  /** The last function named `main`, which `generate` keeps as the entry point. */
  function MainFunction(fs: seq<FunctionDef>): (r: Option<FunctionDef>)
    ensures r.Some? ==> r.value.name == "main"
    ensures r.None? <==> "main" !in FunctionNames(fs)
    decreases |fs|
  {
    if |fs| == 0 then None
    else if fs[|fs| - 1].name == "main" then Some(fs[|fs| - 1])
    else MainFunction(fs[..|fs| - 1])
  }

  /** The other functions, in their order. */
  function OtherFunctions(fs: seq<FunctionDef>): (r: seq<FunctionDef>)
    ensures forall i | 0 <= i < |r| :: r[i].name != "main"
    decreases |fs|
  {
    if |fs| == 0 then []
    else if fs[0].name == "main" then OtherFunctions(fs[1..])
    else [fs[0]] + OtherFunctions(fs[1..])
  }

  /** The order `generate` emits functions in: `main` first, then the rest. */
  function EmitOrder(fs: seq<FunctionDef>): seq<FunctionDef> {
    (if MainFunction(fs).Some? then [MainFunction(fs).value] else []) + OtherFunctions(fs)
  }

  /** The state `CodeGenerator.__init__` sets up, with the function labels filled in. */
  function InitialGen(fs: seq<FunctionDef>): Gen {
    Gen(0, [], None, FreshAllocator, 0, [], map[], map[], map[], map[], FunctionLabels(fs))
  }

  /**
    * `generate`: function labels, the globals (at global level, with the
    * generator's own allocator), then the functions in emit order. Every
    * label of the whole program is placed exactly once, and every jump lands
    * on one of them.
    */
  function GenerateProgram(exprs: ExprCodegen, p: Program): (r: Result<(Gen, seq<Item>), GenError>)
    ensures r.Ok? ==> DistinctMarks(r.value.1) && Resolved(r.value.1, {})
    ensures r.Ok? ==> MarksIn(r.value.1, Ids(0, r.value.0.counter))
    ensures r.Ok? ==> r.value.0.loops == [] && r.value.0.current.None?
    ensures r.Ok? ==> r.value.0.functionLabels == FunctionLabels(p.functions)
  {
    var g0 := InitialGen(p.functions);
    var g1 :- GenGlobals(exprs, g0, p.globals);
    var (g2, code) :- GenerateFunctions(exprs, g1, EmitOrder(p.functions));
    assert Targets(g1.loops) == {};
    IdsMember(g1.counter, g2.counter);
    IdsMember(0, g2.counter);
    MarksWeaken(code, Ids(g1.counter, g2.counter), Ids(0, g2.counter));
    Ok((g2, code))
  }
}

=== FILE: codegen_props.dfy ===
/**
  * Properties of the code generator's bookkeeping: label texts never clash,
  * `break` and `continue` land on the labels of the loop around them, each
  * function is generated from a fresh per-function state, and the two places
  * where the generator does not do what it evidently means to.
  */
module CodegenProps {
  import opened Results
  import opened Text
  import opened Ast
  import opened Registers
  import opened Codegen

  // ---------------------------------------------------------------------
  // Labels
  // ---------------------------------------------------------------------

  /** In `p + "_" + d` with `d` all digits, the last `_` is the one after `p`. */
  lemma DigitsTail(p1: string, d1: string, p2: string, d2: string)
    requires p1 + "_" + d1 == p2 + "_" + d2
    requires AllDigits(d2)
    ensures |d2| <= |d1|
  {
    var s := p1 + "_" + d1;
    var n := |p2|;
    assert s[|p1|] == '_';
    forall j | n < j < |s|
      ensures s[j] != '_'
    {
      assert s[j] == d2[j - n - 1];
    }
  }

  /** `generate_label` never hands out the same text twice: the text determines the prefix and the counter value. */
  lemma LabelTextInjective(a: Label, b: Label)
    requires LabelText(a) == LabelText(b)
    ensures a == b
  {
    var da, db := NatToString(a.id), NatToString(b.id);
    DigitsTail(a.prefix, da, b.prefix, db);
    DigitsTail(b.prefix, db, a.prefix, da);
    var s := LabelText(a);
    assert da == s[|s| - |da|..] == db;
    NatToStringInjective(a.id, b.id);
    assert a.prefix == s[..|s| - |da| - 1] == b.prefix;
  }

  /** Distinct functions get distinct labels; no other function is called by `main`'s label. */
  lemma FunctionLabelInjective(x: string, y: string)
    requires FunctionLabel(x) == FunctionLabel(y)
    ensures x == y
  {
    if x != "main" && y != "main" {
      assert x == FunctionLabel(x)[5..] == FunctionLabel(y)[5..] == y;
    }
  }

  /** Every function of the program has its label before any code is generated. */
  lemma {:induction false} FunctionLabelsCover(fs: seq<FunctionDef>, i: nat)
    requires i < |fs|
    ensures fs[i].name in FunctionLabels(fs) && FunctionLabels(fs)[fs[i].name] == FunctionLabel(fs[i].name)
    decreases |fs|
  {
    if i < |fs| - 1 {
      FunctionLabelsCover(fs[..|fs| - 1], i);
    }
  }

  // ---------------------------------------------------------------------
  // break and continue
  // ---------------------------------------------------------------------

  /**
    * The body of a `while` is generated with the loop's context on top of
    * the stack: a `break` reached in it without an inner loop jumps to the
    * loop's end label and a `continue` to its start label, and the loop's
    * code is the skeleton around the body's code.
    */
  lemma WhileJumps(exprs: ExprCodegen, g: Gen, cond: Expr, body: Stmt) returns (g4: Gen)
    requires GenStmt(exprs, g, WhileStmt(cond, body)).Ok?
    ensures var start, end := Label("while_start", g.counter), Label("while_end", g.counter + 1);
            && g4.loops == g.loops + [LoopContext(start, end, WhileLoop, None)]
            && GenStmt(exprs, g4, BreakStmt) == Ok((g4, [Jump(end)]))
            && GenStmt(exprs, g4, ContinueStmt) == Ok((g4, [Jump(start)]))
            && GenStmt(exprs, g4, body).Ok?
            && GenStmt(exprs, g, WhileStmt(cond, body)).value.1 == WhileSkeleton(start, end, GenStmt(exprs, g4, body).value.1)
  {
    hide Emitted, GenIf, GenFor, GenForLoop, GenStmts, GenSimple;
    var s := WhileStmt(cond, body);
    assert GenStmt(exprs, g, s) == GenWhile(exprs, g, s);
    var ctx := LoopContext(Label("while_start", g.counter), Label("while_end", g.counter + 1), WhileLoop, None);
    var g3 := g.(counter := g.counter + 2, loops := g.loops + [ctx]);
    g4 := GenExpr(exprs, g3, cond).value;
    JumpStmt(exprs, g4);
  }

  /** `while (c) break;`: the body is one jump to the end. */
  lemma WhileBreak(exprs: ExprCodegen, g: Gen, cond: Expr)
    requires GenStmt(exprs, g, WhileStmt(cond, BreakStmt)).Ok?
    ensures var start, end := Label("while_start", g.counter), Label("while_end", g.counter + 1);
            GenStmt(exprs, g, WhileStmt(cond, BreakStmt)).value.1
              == [Mark(start), Jump(end), Jump(end), Jump(start), Mark(end)]
  {
    var g4 := WhileJumps(exprs, g, cond, BreakStmt);
  }

  /**
    * The body of a `for` is generated with the loop's context on top of the
    * stack: a `break` reached in it without an inner loop jumps to the
    * loop's end label, and a `continue` to the increment label when there is
    * a step, to the start label otherwise. The increment section is placed
    * right after the body, so a `continue` still runs the step.
    */
  lemma ForJumps(exprs: ExprCodegen, g: Gen, s: Stmt) returns (g5: Gen, g6: Gen)
    requires s.ForStmt? && GenForLoop(exprs, g, s).Ok?
    ensures var start := Label("for_start", g.counter);
            var inc := Label("for_increment", g.counter + 1);
            var end := Label("for_end", g.counter + if s.step.Some? then 2 else 1);
            && g5.loops == g.loops + [LoopContext(start, end, ForLoop, if s.step.Some? then Some(inc) else None)]
            && GenStmt(exprs, g5, BreakStmt) == Ok((g5, [Jump(end)]))
            && GenStmt(exprs, g5, ContinueStmt) == Ok((g5, [Jump(if s.step.Some? then inc else start)]))
            && GenStmt(exprs, g5, s.forBody).Ok? && g6 == GenStmt(exprs, g5, s.forBody).value.0
            && (s.step.Some? ==> GenStmt(exprs, g6, s.step.value).Ok?)
            && GenForLoop(exprs, g, s).value.1
                 == [Mark(start)] + (if s.forCond.Some? then [Jump(end)] else []) + GenStmt(exprs, g5, s.forBody).value.1
                    + (if s.step.Some? then [Mark(inc)] + GenStmt(exprs, g6, s.step.value).value.1 else [])
                    + [Jump(start), Mark(end)]
  {
    hide Emitted, GenIf, GenWhile, GenStmts, GenSimple, GenFor;
    ForSizes(s);
    var (g4, ctx) := ForEntry(g, s);
    g5 := GenOptExpr(exprs, g4, s.forCond).value;
    g6 := GenStmt(exprs, g5, s.forBody).value.0;
    JumpStmt(exprs, g5);
  }

  /** `for (;; step) continue;`: the `continue` jumps to the increment label, placed right before the step's code. */
  lemma ForContinueRunsStep(exprs: ExprCodegen, g: Gen, step: Stmt)
    requires GenForLoop(exprs, g, ForStmt(None, None, Some(step), ContinueStmt)).Ok?
    ensures var code := GenForLoop(exprs, g, ForStmt(None, None, Some(step), ContinueStmt)).value.1;
            var start, inc, end := Label("for_start", g.counter), Label("for_increment", g.counter + 1),
                                   Label("for_end", g.counter + 2);
            && |code| >= 5
            && code[..3] == [Mark(start), Jump(inc), Mark(inc)]
            && code[|code| - 2..] == [Jump(start), Mark(end)]
  {
    hide *;
    var s := ForStmt(None, None, Some(step), ContinueStmt);
    var g5, g6 := ForJumps(exprs, g, s);
    var start, inc := Label("for_start", g.counter), Label("for_increment", g.counter + 1);
    var stepCode := GenStmt(exprs, g6, step).value.1;
    var code := GenForLoop(exprs, g, s).value.1;
    assert code == [Mark(start)] + [Jump(inc)] + ([Mark(inc)] + stepCode) + [Jump(start), Mark(Label("for_end", g.counter + 2))];
    assert code[..3] == [Mark(start), Jump(inc), Mark(inc)];
  }

  /** A `for` without an initializer is its loop part alone. */
  lemma ForStmtIsLoop(exprs: ExprCodegen, g: Gen, s: Stmt)
    requires s.ForStmt? && s.forInit.None?
    ensures GenStmt(exprs, g, s) == GenForLoop(exprs, g, s)
  {
    hide Emitted, GenIf, GenWhile, GenStmts, GenSimple, GenForLoop;
  }

  lemma JumpStmt(exprs: ExprCodegen, g: Gen)
    requires |g.loops| > 0
    ensures GenStmt(exprs, g, ContinueStmt) == Ok((g, [GenContinue(g).value]))
    ensures GenStmt(exprs, g, BreakStmt) == Ok((g, [GenBreak(g).value]))
  {
    hide Emitted, GenIf, GenWhile, GenFor, GenForLoop, GenSimple, GenStmts;
  }

  /**
    * A `break` or `continue` directly in a function body is an error: every
    * function is generated with the loop stack of the program level, which
    * is empty.
    */
  lemma BreakOutsideLoop(exprs: ExprCodegen, g: Gen, name: string)
    requires g.loops == []
    ensures GenerateFunction(exprs, g, FunctionDef(name, [], [BreakStmt], false))
              == Err(Failed("break statement outside of loop"))
    ensures GenerateFunction(exprs, g, FunctionDef(name, [], [ContinueStmt], false))
              == Err(Failed("continue statement outside of loop"))
  {
    hide Emitted, GenIf, GenWhile, GenFor, GenForLoop, GenSimple;
  }

  // ---------------------------------------------------------------------
  // Functions
  // ---------------------------------------------------------------------

  /**
    * The code of a function does not depend on the caller's function,
    * allocator or stack offset, and the label counter and data section carry
    * over from one function to the next.
    */
  lemma GenerateFunctionFresh(exprs: ExprCodegen, g: Gen, h: Gen, f: FunctionDef)
    requires h == g.(current := h.current, alloc := h.alloc, stackOffset := h.stackOffset)
    ensures GenerateFunction(exprs, g, f).Ok? <==> GenerateFunction(exprs, h, f).Ok?
    ensures GenerateFunction(exprs, g, f).Ok? ==>
              var (rg, cg) := GenerateFunction(exprs, g, f).value;
              var (rh, ch) := GenerateFunction(exprs, h, f).value;
              cg == ch && rh == rg.(current := h.current, alloc := h.alloc, stackOffset := h.stackOffset)
  {
    hide GenStmts, GenStmt, Emitted, GenIf, GenWhile, GenFor, GenForLoop, GenSimple;
    var k := |f.params|;
    var so := if f.name == "main" then 0 else 1 + k;
    match AllocateParams(FreshAllocator, f.params)
    case Err(_) =>
    case Ok((a, _)) =>
      assert g.(current := Some(f.name), alloc := a, stackOffset := so)
          == h.(current := Some(f.name), alloc := a, stackOffset := so);
  }

  /** `main` starts at stack offset 0; any other function past its return address and parameters. */
  lemma FunctionStackOffset(exprs: ExprCodegen, g: Gen, f: FunctionDef)
    requires AllocateParams(FreshAllocator, f.params).Ok?
    requires f.body == [VarDecl("v", None, "int", false, false, None)]
    requires "v" !in f.params && |f.params| < 20
    ensures GenerateFunction(exprs, g, f).Ok?
    ensures "v" in GenerateFunction(exprs, g, f).value.0.varAddresses
    ensures GenerateFunction(exprs, g, f).value.0.varAddresses["v"]
              == Offset(if f.name == "main" then 0 else 1 + |f.params|)
  {
    hide GenStmts, GenStmt, Emitted, AllocateParams, GenIf, GenWhile, GenFor, GenForLoop, GenSimple, GenVarDecl;
    var a := AllocateParams(FreshAllocator, f.params).value.0;
    ParamsBound(FreshAllocator, f.params);
    var g1 := g.(current := Some(f.name), alloc := a, stackOffset := if f.name == "main" then 0 else 1 + |f.params|);
    FirstLocalAddress(exprs, g1);
  }

  /** The first local a function declares goes at the function's first free stack slot. */
  lemma FirstLocalAddress(exprs: ExprCodegen, g: Gen)
    requires g.current.Some? && "v" !in g.alloc.registers && |g.alloc.registers| < 20
    ensures GenStmts(exprs, g, [VarDecl("v", None, "int", false, false, None)]).Ok?
    ensures var g2 := GenStmts(exprs, g, [VarDecl("v", None, "int", false, false, None)]).value.0;
            "v" in g2.varAddresses && g2.varAddresses["v"] == Offset(g.stackOffset)
  {
    hide Emitted, GenIf, GenWhile, GenFor, GenForLoop;
    AllocateFresh(g.alloc, "v");
    var d := VarDecl("v", None, "int", false, false, None);
    var g2 := GenVarDecl(exprs, g, "v", None, false).value;
    assert GenSimple(exprs, g, d) == Ok(g2);
    assert GenStmt(exprs, g, d) == Ok((g2, []));
    assert GenStmts(exprs, g2, [d][1..]) == Ok((g2, []));
  }

  // ---------------------------------------------------------------------
  // Increment of a global
  // ---------------------------------------------------------------------

  /**
    * `x++` on a global inside a function: as written the generator reports
    * `x` undefined, although the same function may read and assign it; as
    * intended it is accepted.
    */
  lemma GlobalIncrementRejected(exprs: ExprCodegen, g: Gen)
    requires g.current.None? && g.alloc == FreshAllocator
    ensures GenVarDecl(exprs, g, "x", None, false).Ok?
    ensures var g1 := GenVarDecl(exprs, g, "x", None, false).value;
            var g2 := g1.(current := Some("main"), alloc := FreshAllocator, stackOffset := 0);
            && Readable(ViewOf(g2), "x")
            && GenSimple(exprs, g2, Increment("x", false)) == Err(Undefined("x"))
            && GenStep(g2, "x") == Ok(g2.(alloc := FreshAllocator.(nextTemp := 2)))
  {
  }
}

=== FILE: environment.dfy ===
/**
  * `Environment` of interpreter.py: a chain of scopes, each with its scalar
  * variables, its arrays, and the cell addresses it has handed out for `&`.
  *
  * A chain is a sequence of scopes, innermost first: `env[1..]` is the
  * parent chain. Python mutates scope objects in place; here every operation
  * returns the updated chain, and an operation on a parent scope returns the
  * whole chain with that scope replaced.
  *
  * The two address tables are kept as sequences of (name, address) pairs in
  * dict insertion order, because `get_value_at_address` scans them in that
  * order.
  */
module Environment {
  import opened Results
  import opened Text
  import opened Words

  /** The first address `next_address` hands out, in every scope. */
  const FirstAddress: nat := 1000

  type Assoc = seq<(string, nat)>

  datatype Scope = Scope(
    vars: map<string, nat>,
    arrays: map<string, seq<nat>>,
    varAddrs: Assoc,
    arrayAddrs: Assoc,
    nextAddress: nat)

  type Env = seq<Scope>

  /** `Environment(parent)` before anything is declared in it. */
  const EmptyScope: Scope := Scope(map[], map[], [], [], FirstAddress)

  // ---------------------------------------------------------------------
  // Insertion-ordered tables
  // ---------------------------------------------------------------------

  /** Index of the first entry named `name` at or after `k`, or `|a|`. */
  function IndexFrom(a: Assoc, name: string, k: nat): (i: nat)
    requires k <= |a|
    ensures k <= i <= |a|
    ensures i < |a| ==> a[i].0 == name
    ensures forall j | k <= j < i :: a[j].0 != name
    decreases |a| - k
  {
    if k == |a| then k else if a[k].0 == name then k else IndexFrom(a, name, k + 1)
  }

  function IndexOf(a: Assoc, name: string): (i: nat)
    ensures i <= |a|
    ensures i < |a| ==> a[i].0 == name
    ensures forall j | 0 <= j < i :: a[j].0 != name
  {
    IndexFrom(a, name, 0)
  }

  predicate HasKey(a: Assoc, name: string) {
    exists i | 0 <= i < |a| :: a[i].0 == name
  }

  lemma IndexOfFound(a: Assoc, name: string)
    ensures IndexOf(a, name) < |a| <==> HasKey(a, name)
  {
  }

  /** `d[name] = v` on a dict: an existing key keeps its place, a new one goes last. */
  function Put(a: Assoc, name: string, v: nat): (r: Assoc)
    ensures IndexOf(a, name) < |a| ==> r == a[IndexOf(a, name) := (name, v)]
    ensures IndexOf(a, name) == |a| ==> r == a + [(name, v)]
  {
    var i := IndexOf(a, name);
    if i < |a| then a[i := (name, v)] else a + [(name, v)]
  }

  /** No name occurs twice, as in a dict. */
  predicate DistinctNames(a: Assoc) {
    forall i, j | 0 <= i < j < |a| :: a[i].0 != a[j].0
  }

  lemma PutDistinct(a: Assoc, name: string, v: nat)
    requires DistinctNames(a)
    ensures DistinctNames(Put(a, name, v))
  {
  }

  // ---------------------------------------------------------------------
  // Scalar variables
  // ---------------------------------------------------------------------

  /** `get(name)`: the innermost binding of `name`. */
  function Get(env: Env, name: string): (r: Result<nat, string>)
    ensures r.Err? ==> r.error == "Undefined variable: " + name
    decreases |env|
  {
    if |env| == 0 then Err("Undefined variable: " + name)
    else if name in env[0].vars then Ok(env[0].vars[name])
    else Get(env[1..], name)
  }

  /** `name` is bound in some scope of the chain. */
  predicate Bound(env: Env, name: string) {
    exists i | 0 <= i < |env| :: name in env[i].vars
  }

  lemma {:induction false} GetFailsIffUnbound(env: Env, name: string)
    ensures Get(env, name).Err? <==> !Bound(env, name)
    decreases |env|
  {
    if |env| > 0 && name !in env[0].vars {
      GetFailsIffUnbound(env[1..], name);
      if Bound(env, name) {
        var i :| 0 <= i < |env| && name in env[i].vars;
        assert name in env[1..][i - 1].vars;
      }
      if Bound(env[1..], name) {
        var i :| 0 <= i < |env[1..]| && name in env[1..][i].vars;
        assert name in env[i + 1].vars;
      }
    }
  }

  /** `declare(name, value)`: a binding in the innermost scope, masked to 32 bits. */
  function Declare(env: Env, name: string, value: int): (r: Env)
    requires |env| > 0
    ensures |r| == |env| && r[1..] == env[1..]
    ensures Get(r, name) == Ok(Mask(value))
  {
    [env[0].(vars := env[0].vars[name := Mask(value)])] + env[1..]
  }

  /** `assign(name, value)`: rebind the innermost scope that already binds `name`. */
  function Assign(env: Env, name: string, value: int): (r: Result<Env, string>)
    ensures r.Ok? ==> |r.value| == |env|
    ensures r.Err? ==> r.error == "Undefined variable: " + name
    decreases |env|
  {
    if |env| == 0 then Err("Undefined variable: " + name)
    else if name in env[0].vars then Ok([env[0].(vars := env[0].vars[name := Mask(value)])] + env[1..])
    else
      match Assign(env[1..], name, value)
      case Err(e) => Err(e)
      case Ok(rest) => Ok([env[0]] + rest)
  }

  /** Assignment fails exactly when reading fails, and afterwards reads the masked value; other names keep theirs. */
  lemma {:induction false} AssignThenGet(env: Env, name: string, value: int, other: string)
    requires other != name
    ensures Assign(env, name, value).Err? <==> Get(env, name).Err?
    ensures Assign(env, name, value).Ok? ==>
              Get(Assign(env, name, value).value, name) == Ok(Mask(value))
              && Get(Assign(env, name, value).value, other) == Get(env, other)
    decreases |env|
  {
    if |env| > 0 && name !in env[0].vars {
      AssignThenGet(env[1..], name, value, other);
      if Assign(env[1..], name, value).Ok? {
        var r := Assign(env, name, value).value;
        assert r[1..] == Assign(env[1..], name, value).value;
      }
    }
  }

  /**
    * A declaration in a fresh inner scope hides an outer binding while the
    * scope lives and leaves the outer chain exactly as it was once the scope
    * is dropped.
    */
  lemma BlockScopeShadows(env: Env, name: string, value: int)
    ensures Get(Declare([EmptyScope] + env, name, value), name) == Ok(Mask(value))
    ensures Declare([EmptyScope] + env, name, value)[1..] == env
  {
    assert ([EmptyScope] + env)[1..] == env;
  }

  // ---------------------------------------------------------------------
  // Arrays
  // ---------------------------------------------------------------------

  function Zeros(n: nat): (r: seq<nat>)
    ensures |r| == n && forall i | 0 <= i < n :: r[i] == 0
  {
    seq(n, i => 0)
  }

  /** `declare_array(name, size)`: a zero-filled array in the innermost scope at the next free address. */
  function DeclareArray(env: Env, name: string, size: int): (r: Result<(nat, Env), string>)
    requires |env| > 0
    ensures r.Err? <==> size <= 0
    ensures r.Ok? ==> |r.value.1| == |env| && r.value.1[1..] == env[1..]
  {
    if size <= 0 then Err("Array size must be positive, got " + IntToString(size))
    else
      var s := env[0];
      var base := s.nextAddress;
      var s' := s.(arrays := s.arrays[name := Zeros(size)],
                   arrayAddrs := Put(s.arrayAddrs, name, base),
                   nextAddress := s.nextAddress + size);
      Ok((base, [s'] + env[1..]))
  }

  function OutOfBounds(name: string, index: int, size: nat): string {
    "Array index out of bounds: " + name + "[" + IntToString(index) + "], size=" + NatToString(size)
  }

  /** `get_array_element(name, index)`: the innermost array called `name`, bounds-checked. */
  function GetArrayElement(env: Env, name: string, index: int): (r: Result<nat, string>)
    ensures r.Ok? ==> r.value < TwoTo32
    decreases |env|
  {
    if |env| == 0 then Err("Undefined array: " + name)
    else if name in env[0].arrays then
      var arr := env[0].arrays[name];
      if index < 0 || index >= |arr| then Err(OutOfBounds(name, index, |arr|))
      else Ok(Mask(arr[index]))
    else GetArrayElement(env[1..], name, index)
  }

  /** `set_array_element(name, index, value)`. */
  function SetArrayElement(env: Env, name: string, index: int, value: int): (r: Result<Env, string>)
    ensures r.Ok? ==> |r.value| == |env|
    decreases |env|
  {
    if |env| == 0 then Err("Undefined array: " + name)
    else if name in env[0].arrays then
      var arr := env[0].arrays[name];
      if index < 0 || index >= |arr| then Err(OutOfBounds(name, index, |arr|))
      else Ok([env[0].(arrays := env[0].arrays[name := arr[index := Mask(value)]])] + env[1..])
    else
      match SetArrayElement(env[1..], name, index, value)
      case Err(e) => Err(e)
      case Ok(rest) => Ok([env[0]] + rest)
  }

  /** A new array reads 0 at every index below its size and is out of bounds everywhere else. */
  lemma DeclaredArrayIsZero(env: Env, name: string, size: int, index: int)
    requires |env| > 0 && size > 0
    ensures GetArrayElement(DeclareArray(env, name, size).value.1, name, index)
            == if 0 <= index < size then Ok(0) else Err(OutOfBounds(name, index, size))
  {
  }

  /** Element access succeeds exactly inside the bounds of the array found; a write is read back masked. */
  lemma {:induction false} ArrayElementRoundTrip(env: Env, name: string, index: int, value: int)
    ensures SetArrayElement(env, name, index, value).Err? <==> GetArrayElement(env, name, index).Err?
    ensures SetArrayElement(env, name, index, value).Ok? ==>
              GetArrayElement(SetArrayElement(env, name, index, value).value, name, index) == Ok(Mask(value))
    decreases |env|
  {
    if |env| > 0 && name !in env[0].arrays {
      ArrayElementRoundTrip(env[1..], name, index, value);
      if SetArrayElement(env[1..], name, index, value).Ok? {
        var r := SetArrayElement(env, name, index, value).value;
        assert r[1..] == SetArrayElement(env[1..], name, index, value).value;
      }
    }
  }

  // ---------------------------------------------------------------------
  // Addresses
  // ---------------------------------------------------------------------

  /** `get_address(name)`: a variable gets a cell on first use; an array has its base. */
  function GetAddress(env: Env, name: string): (r: Result<(nat, Env), string>)
    ensures r.Ok? ==> |r.value.1| == |env|
    decreases |env|
  {
    if |env| == 0 then Err("Undefined variable or array: " + name)
    else
      var s := env[0];
      if name in s.vars then
        var i := IndexOf(s.varAddrs, name);
        if i < |s.varAddrs| then Ok((s.varAddrs[i].1, env))
        else
          var s' := s.(varAddrs := s.varAddrs + [(name, s.nextAddress)], nextAddress := s.nextAddress + 1);
          Ok((s.nextAddress, [s'] + env[1..]))
      else if name in s.arrays then
        var i := IndexOf(s.arrayAddrs, name);
        if i < |s.arrayAddrs| then Ok((s.arrayAddrs[i].1, env))
        else Err("Array " + name + " has no assigned address")
      else
        match GetAddress(env[1..], name)
        case Err(e) => Err(e)
        case Ok((a, rest)) => Ok((a, [env[0]] + rest))
  }

  /** Index of the first variable entry at `addr`, or `|a|`. */
  function VarAt(a: Assoc, addr: nat, k: nat): (i: nat)
    requires k <= |a|
    ensures k <= i <= |a|
    ensures i < |a| ==> a[i].1 == addr
    ensures forall j | k <= j < i :: a[j].1 != addr
    decreases |a| - k
  {
    if k == |a| then k else if a[k].1 == addr then k else VarAt(a, addr, k + 1)
  }

  /** Number of cells of array `name`; 0 when there is no such array. */
  function Len(arrays: map<string, seq<nat>>, name: string): nat {
    if name in arrays then |arrays[name]| else 0
  }

  /** `addr` lies in the array registered under entry `i` of `table`. */
  predicate InArray(arrays: map<string, seq<nat>>, table: Assoc, i: nat, addr: nat)
    requires i < |table|
  {
    table[i].1 <= addr < table[i].1 + Len(arrays, table[i].0)
  }

  /** Index of the first array entry whose cells include `addr`, or `|table|`. */
  function ArrayAt(arrays: map<string, seq<nat>>, table: Assoc, addr: nat, k: nat): (i: nat)
    requires k <= |table|
    ensures k <= i <= |table|
    ensures i < |table| ==> InArray(arrays, table, i, addr)
    ensures forall j | k <= j < i :: !InArray(arrays, table, j, addr)
    decreases |table| - k
  {
    if k == |table| then k
    else if InArray(arrays, table, k, addr) then k
    else ArrayAt(arrays, table, addr, k + 1)
  }

  /** `get_value_at_address(address)`: variables first, then arrays, then the parent. */
  function GetValueAtAddress(env: Env, addr: nat): (r: Result<nat, string>)
    ensures r.Ok? ==> r.value < TwoTo32
    decreases |env|
  {
    if |env| == 0 then Err("Invalid memory address: " + NatToString(addr))
    else
      var s := env[0];
      var v := VarAt(s.varAddrs, addr, 0);
      if v < |s.varAddrs| then
        var name := s.varAddrs[v].0;
        Ok(Mask(if name in s.vars then s.vars[name] else 0))
      else
        var k := ArrayAt(s.arrays, s.arrayAddrs, addr, 0);
        if k < |s.arrayAddrs| then
          var (name, base) := s.arrayAddrs[k];
          Ok(Mask(s.arrays[name][addr - base]))
        else GetValueAtAddress(env[1..], addr)
  }

  /** `set_value_at_address(address, value)`. */
  function SetValueAtAddress(env: Env, addr: nat, value: int): (r: Result<Env, string>)
    ensures r.Ok? ==> |r.value| == |env|
    decreases |env|
  {
    if |env| == 0 then Err("Invalid memory address: " + NatToString(addr))
    else
      var s := env[0];
      var v := VarAt(s.varAddrs, addr, 0);
      if v < |s.varAddrs| then
        var name := s.varAddrs[v].0;
        Ok([s.(vars := s.vars[name := Mask(value)])] + env[1..])
      else
        var k := ArrayAt(s.arrays, s.arrayAddrs, addr, 0);
        if k < |s.arrayAddrs| then
          var (name, base) := s.arrayAddrs[k];
          var arr := s.arrays[name];
          Ok([s.(arrays := s.arrays[name := arr[addr - base := Mask(value)]])] + env[1..])
        else
          match SetValueAtAddress(env[1..], addr, value)
          case Err(e) => Err(e)
          case Ok(rest) => Ok([env[0]] + rest)
  }

  // ---------------------------------------------------------------------
  // The address invariant of one scope
  // ---------------------------------------------------------------------

  /** Every recorded address lies in `[FirstAddress, nextAddress)` and names a live entry. */
  ghost predicate AddressesInRange(s: Scope) {
    && FirstAddress <= s.nextAddress
    && (forall i | 0 <= i < |s.varAddrs| ::
          s.varAddrs[i].0 in s.vars && FirstAddress <= s.varAddrs[i].1 < s.nextAddress)
    && (forall i | 0 <= i < |s.arrayAddrs| ::
          s.arrayAddrs[i].0 in s.arrays && FirstAddress <= s.arrayAddrs[i].1
          && s.arrayAddrs[i].1 + Len(s.arrays, s.arrayAddrs[i].0) <= s.nextAddress)
  }

  /** Each table names an entry once, and every array has its base recorded. */
  ghost predicate TablesWellFormed(s: Scope) {
    && DistinctNames(s.varAddrs) && DistinctNames(s.arrayAddrs)
    && (forall name | name in s.arrays :: HasKey(s.arrayAddrs, name))
  }

  /** No two variables share a cell, array ranges are disjoint, and no variable sits inside an array. */
  ghost predicate CellsDisjoint(s: Scope) {
    && (forall i, j | 0 <= i < j < |s.varAddrs| :: s.varAddrs[i].1 != s.varAddrs[j].1)
    && (forall i, j | 0 <= i < j < |s.arrayAddrs| ::
          s.arrayAddrs[i].1 + Len(s.arrays, s.arrayAddrs[i].0) <= s.arrayAddrs[j].1
          || s.arrayAddrs[j].1 + Len(s.arrays, s.arrayAddrs[j].0) <= s.arrayAddrs[i].1)
    && (forall i, j | 0 <= i < |s.varAddrs| && 0 <= j < |s.arrayAddrs| ::
          !InArray(s.arrays, s.arrayAddrs, j, s.varAddrs[i].1))
  }

  /** The address bookkeeping of one scope is consistent. */
  ghost predicate ScopeOk(s: Scope) {
    AddressesInRange(s) && TablesWellFormed(s) && CellsDisjoint(s)
  }

  lemma EmptyScopeOk()
    ensures ScopeOk(EmptyScope)
  {
  }

  /** Declaring a scalar leaves a scope's address bookkeeping valid. */
  lemma DeclareKeepsScopeOk(env: Env, name: string, value: int)
    requires |env| > 0 && ScopeOk(env[0])
    ensures ScopeOk(Declare(env, name, value)[0])
    ensures Declare(env, name, value)[0].nextAddress == env[0].nextAddress
  {
  }

  /** Put of a new base for `name` leaves every other entry in place. */
  lemma PutOthers(a: Assoc, name: string, v: nat, j: nat)
    requires DistinctNames(a) && j < |Put(a, name, v)|
    ensures Put(a, name, v)[j].0 == name ==> Put(a, name, v)[j].1 == v
    ensures Put(a, name, v)[j].0 != name ==> j < |a| && Put(a, name, v)[j] == a[j]
  {
    var i := IndexOf(a, name);
    if i < |a| {
      var r := a[i := (name, v)];
      assert Put(a, name, v) == r && |r| == |a|;
      if j != i {
        assert r[j] == a[j];
      }
    } else {
      assert Put(a, name, v) == a + [(name, v)];
      if j < |a| {
        assert Put(a, name, v)[j] == a[j];
      } else {
        assert Put(a, name, v)[j] == (name, v);
      }
    }
  }

  /** The scope `DeclareArray` leaves in front of the chain. */
  function WithArray(s: Scope, name: string, size: nat): Scope {
    s.(arrays := s.arrays[name := Zeros(size)],
       arrayAddrs := Put(s.arrayAddrs, name, s.nextAddress),
       nextAddress := s.nextAddress + size)
  }

  /** How each array entry of `WithArray` relates to the old scope. */
  lemma WithArrayEntry(s: Scope, name: string, size: nat, j: nat)
    requires AddressesInRange(s) && TablesWellFormed(s)
    requires j < |WithArray(s, name, size).arrayAddrs|
    ensures var s' := WithArray(s, name, size);
            s'.arrayAddrs[j].0 == name ==> s'.arrayAddrs[j].1 == s.nextAddress && Len(s'.arrays, name) == size
    ensures var s' := WithArray(s, name, size);
            s'.arrayAddrs[j].0 != name ==>
              && j < |s.arrayAddrs|
              && s'.arrayAddrs[j] == s.arrayAddrs[j]
              && Len(s'.arrays, s'.arrayAddrs[j].0) == Len(s.arrays, s.arrayAddrs[j].0)
              && s.arrayAddrs[j].1 + Len(s.arrays, s.arrayAddrs[j].0) <= s.nextAddress
  {
    PutOthers(s.arrayAddrs, name, s.nextAddress, j);
  }

  lemma WithArrayInRange(s: Scope, name: string, size: nat)
    requires AddressesInRange(s) && TablesWellFormed(s)
    ensures AddressesInRange(WithArray(s, name, size))
  {
    var s' := WithArray(s, name, size);
    forall j | 0 <= j < |s'.arrayAddrs|
      ensures s'.arrayAddrs[j].0 in s'.arrays && FirstAddress <= s'.arrayAddrs[j].1
              && s'.arrayAddrs[j].1 + Len(s'.arrays, s'.arrayAddrs[j].0) <= s'.nextAddress
    {
      WithArrayEntry(s, name, size, j);
    }
  }

  lemma WithArrayTables(s: Scope, name: string, size: nat)
    requires TablesWellFormed(s)
    ensures TablesWellFormed(WithArray(s, name, size))
  {
    var s' := WithArray(s, name, size);
    PutDistinct(s.arrayAddrs, name, s.nextAddress);
    forall n | n in s'.arrays
      ensures HasKey(s'.arrayAddrs, n)
    {
      if n == name {
        IndexOfFound(s.arrayAddrs, name);
        PutOthers(s.arrayAddrs, name, s.nextAddress, IndexOf(s.arrayAddrs, name));
        assert s'.arrayAddrs[IndexOf(s.arrayAddrs, name)].0 == name;
      } else {
        assert HasKey(s.arrayAddrs, n);
        var k :| 0 <= k < |s.arrayAddrs| && s.arrayAddrs[k].0 == n;
        assert s'.arrayAddrs[k].0 == n;
      }
    }
  }

  lemma WithArrayPair(s: Scope, name: string, size: nat, i: nat, j: nat)
    requires AddressesInRange(s) && TablesWellFormed(s) && CellsDisjoint(s)
    requires i < j < |WithArray(s, name, size).arrayAddrs|
    ensures var s' := WithArray(s, name, size);
            s'.arrayAddrs[i].1 + Len(s'.arrays, s'.arrayAddrs[i].0) <= s'.arrayAddrs[j].1
            || s'.arrayAddrs[j].1 + Len(s'.arrays, s'.arrayAddrs[j].0) <= s'.arrayAddrs[i].1
  {
    PutDistinct(s.arrayAddrs, name, s.nextAddress);
    WithArrayEntry(s, name, size, i);
    WithArrayEntry(s, name, size, j);
  }

  lemma WithArrayVar(s: Scope, name: string, size: nat, i: nat, j: nat)
    requires AddressesInRange(s) && TablesWellFormed(s) && CellsDisjoint(s)
    requires i < |s.varAddrs| && j < |WithArray(s, name, size).arrayAddrs|
    ensures var s' := WithArray(s, name, size);
            !InArray(s'.arrays, s'.arrayAddrs, j, s.varAddrs[i].1)
  {
    WithArrayEntry(s, name, size, j);
    if WithArray(s, name, size).arrayAddrs[j].0 != name {
      assert !InArray(s.arrays, s.arrayAddrs, j, s.varAddrs[i].1);
    }
  }

  lemma WithArrayDisjoint(s: Scope, name: string, size: nat)
    requires AddressesInRange(s) && TablesWellFormed(s) && CellsDisjoint(s)
    ensures CellsDisjoint(WithArray(s, name, size))
  {
    var s' := WithArray(s, name, size);
    forall i, j | 0 <= i < j < |s'.arrayAddrs|
      ensures s'.arrayAddrs[i].1 + Len(s'.arrays, s'.arrayAddrs[i].0) <= s'.arrayAddrs[j].1
              || s'.arrayAddrs[j].1 + Len(s'.arrays, s'.arrayAddrs[j].0) <= s'.arrayAddrs[i].1
    {
      WithArrayPair(s, name, size, i, j);
    }
    forall i, j | 0 <= i < |s'.varAddrs| && 0 <= j < |s'.arrayAddrs|
      ensures !InArray(s'.arrays, s'.arrayAddrs, j, s'.varAddrs[i].1)
    {
      WithArrayVar(s, name, size, i, j);
    }
  }

  /** A declared array takes the next `size` cells; the scope stays valid. */
  lemma DeclareArrayKeepsScopeOk(env: Env, name: string, size: int)
    requires |env| > 0 && ScopeOk(env[0]) && size > 0
    ensures DeclareArray(env, name, size).value.0 == env[0].nextAddress
    ensures ScopeOk(DeclareArray(env, name, size).value.1[0])
    ensures DeclareArray(env, name, size).value.1[0].nextAddress == env[0].nextAddress + size
  {
    assert DeclareArray(env, name, size).value.1[0] == WithArray(env[0], name, size);
    WithArrayInRange(env[0], name, size);
    WithArrayTables(env[0], name, size);
    WithArrayDisjoint(env[0], name, size);
  }

  /** The scope `get_address` leaves in front after giving `name` its first cell. */
  function WithVarCell(s: Scope, name: string): Scope {
    s.(varAddrs := s.varAddrs + [(name, s.nextAddress)], nextAddress := s.nextAddress + 1)
  }

  lemma WithVarCellOk(s: Scope, name: string)
    requires ScopeOk(s) && name in s.vars && !HasKey(s.varAddrs, name)
    ensures ScopeOk(WithVarCell(s, name))
  {
    var s' := WithVarCell(s, name);
    assert AddressesInRange(s');
    forall j | 0 <= j < |s.arrayAddrs|
      ensures !InArray(s.arrays, s.arrayAddrs, j, s.nextAddress)
    {
    }
    assert CellsDisjoint(s');
  }

  /** `get_address` of a variable of the innermost scope: an address in range, and the scope stays valid. */
  lemma GetAddressKeepsScopeOk(env: Env, name: string)
    requires |env| > 0 && ScopeOk(env[0]) && name in env[0].vars
    ensures GetAddress(env, name).Ok?
    ensures GetAddress(env, name).value.1[1..] == env[1..]
    ensures ScopeOk(GetAddress(env, name).value.1[0])
    ensures FirstAddress <= GetAddress(env, name).value.0 < GetAddress(env, name).value.1[0].nextAddress
  {
    var s := env[0];
    IndexOfFound(s.varAddrs, name);
    if IndexOf(s.varAddrs, name) == |s.varAddrs| {
      assert GetAddress(env, name).value.1[0] == WithVarCell(s, name);
      WithVarCellOk(s, name);
    }
  }

  /** Asking for an address twice gives the same address and changes nothing the second time. */
  lemma {:induction false} GetAddressIdempotent(env: Env, name: string)
    requires GetAddress(env, name).Ok?
    ensures GetAddress(GetAddress(env, name).value.1, name) == GetAddress(env, name)
    decreases |env|
  {
    var s := env[0];
    if name !in s.vars && name !in s.arrays {
      GetAddressIdempotent(env[1..], name);
      var r := GetAddress(env, name).value.1;
      assert r[0] == s && r[1..] == GetAddress(env[1..], name).value.1;
    } else if name in s.vars && IndexOf(s.varAddrs, name) == |s.varAddrs| {
      var s' := GetAddress(env, name).value.1[0];
      assert IndexOf(s'.varAddrs, name) == |s.varAddrs| by {
        assert s'.varAddrs[|s.varAddrs|].0 == name;
      }
    }
  }

  /** When addresses are distinct, entry `i` is the one found at its own address. */
  lemma VarAtUnique(a: Assoc, i: nat)
    requires i < |a|
    requires forall p, q | 0 <= p < q < |a| :: a[p].1 != a[q].1
    ensures VarAt(a, a[i].1, 0) == i
  {
  }

  /** When ranges are disjoint, entry `i` is the one found at each of its cells. */
  lemma ArrayAtUnique(s: Scope, i: nat, addr: nat)
    requires CellsDisjoint(s) && i < |s.arrayAddrs| && InArray(s.arrays, s.arrayAddrs, i, addr)
    ensures ArrayAt(s.arrays, s.arrayAddrs, addr, 0) == i
  {
  }

  /**
    * Through its address a variable of the innermost scope reads its value,
    * and a store through the address is what a later read of the name sees.
    */
  lemma VarAddressRoundTrip(env: Env, name: string, value: int)
    requires |env| > 0 && ScopeOk(env[0]) && name in env[0].vars
    ensures GetValueAtAddress(GetAddress(env, name).value.1, GetAddress(env, name).value.0)
            == Ok(Mask(env[0].vars[name]))
    ensures SetValueAtAddress(GetAddress(env, name).value.1, GetAddress(env, name).value.0, value).Ok?
    ensures Get(SetValueAtAddress(GetAddress(env, name).value.1, GetAddress(env, name).value.0, value).value, name)
            == Ok(Mask(value))
  {
    GetAddressKeepsScopeOk(env, name);
    var (a, e) := GetAddress(env, name).value;
    var s := e[0];
    var i := IndexOf(s.varAddrs, name);
    assert i < |s.varAddrs| && s.varAddrs[i].1 == a by {
      if IndexOf(env[0].varAddrs, name) == |env[0].varAddrs| {
        assert s.varAddrs[|env[0].varAddrs|] == (name, a);
      }
    }
    VarAtUnique(s.varAddrs, i);
  }

  /** The cell `base + index` of an array of the innermost scope is its element `index`, for reads and writes. */
  lemma ArrayAddressRoundTrip(env: Env, name: string, index: nat, value: int)
    requires |env| > 0 && ScopeOk(env[0])
    requires name !in env[0].vars && name in env[0].arrays && index < |env[0].arrays[name]|
    ensures GetAddress(env, name).Ok? && GetAddress(env, name).value.1 == env
    ensures GetValueAtAddress(env, GetAddress(env, name).value.0 + index) == GetArrayElement(env, name, index)
    ensures SetValueAtAddress(env, GetAddress(env, name).value.0 + index, value)
            == SetArrayElement(env, name, index, value)
  {
    var s := env[0];
    assert HasKey(s.arrayAddrs, name);
    IndexOfFound(s.arrayAddrs, name);
    var i := IndexOf(s.arrayAddrs, name);
    var addr := s.arrayAddrs[i].1 + index;
    assert InArray(s.arrays, s.arrayAddrs, i, addr);
    ArrayAtUnique(s, i, addr);
    assert VarAt(s.varAddrs, addr, 0) == |s.varAddrs|;
  }

  /**
    * Every scope numbers its cells from `FirstAddress`, so a variable of an
    * outer scope and one of an inner scope can share an address, and a read
    * through the outer one's address finds the inner one.
    */
  lemma ScopesShareAddresses(x: string, y: string, vx: nat, vy: nat)
    requires vx != vy && vx < TwoTo32 && vy < TwoTo32
    ensures var outer := EmptyScope.(vars := map[x := vx]);
            var inner := EmptyScope.(vars := map[y := vy]);
            var (ax, e1) := GetAddress([outer], x).value;
            var (ay, e2) := GetAddress([inner] + e1, y).value;
            ax == ay == FirstAddress && GetValueAtAddress(e2, ax) == Ok(vy)
  {
  }

  // ---------------------------------------------------------------------
  // Addresses from one counter for the whole chain
  // ---------------------------------------------------------------------

  /**
    * `get_address` as intended: a new cell takes its address from a single
    * counter `next` shared by every scope of the chain, so no two scopes
    * hand out the same address. The result carries the counter after the
    * call.
    */
  function GetAddressShared(env: Env, name: string, next: nat): (r: Result<(nat, Env, nat), string>)
    ensures r.Ok? ==> |r.value.1| == |env| && (r.value.2 == next || r.value.2 == next + 1)
    ensures r.Err? <==> GetAddress(env, name).Err?
    decreases |env|
  {
    if |env| == 0 then Err("Undefined variable or array: " + name)
    else
      var s := env[0];
      if name in s.vars then
        var i := IndexOf(s.varAddrs, name);
        if i < |s.varAddrs| then Ok((s.varAddrs[i].1, env, next))
        else Ok((next, [s.(varAddrs := s.varAddrs + [(name, next)])] + env[1..], next + 1))
      else if name in s.arrays then
        var i := IndexOf(s.arrayAddrs, name);
        if i < |s.arrayAddrs| then Ok((s.arrayAddrs[i].1, env, next))
        else Err("Array " + name + " has no assigned address")
      else
        match GetAddressShared(env[1..], name, next)
        case Err(e) => Err(e)
        case Ok((a, rest, n)) => Ok((a, [env[0]] + rest, n))
  }

  /** Every cell recorded in scope `s` lies below `next`. */
  ghost predicate ScopeBelow(s: Scope, next: nat) {
    && (forall i | 0 <= i < |s.varAddrs| :: s.varAddrs[i].1 < next)
    && (forall i | 0 <= i < |s.arrayAddrs| :: s.arrayAddrs[i].1 + Len(s.arrays, s.arrayAddrs[i].0) <= next)
  }

  /** Every cell recorded anywhere in the chain lies below `next`. */
  ghost predicate AllBelow(env: Env, next: nat) {
    forall k | 0 <= k < |env| :: ScopeBelow(env[k], next)
  }

  /** A cell appended at `next` behind cells all below it is the first one found at `next`. */
  lemma VarAtAppended(a: Assoc, name: string, next: nat)
    requires forall j | 0 <= j < |a| :: a[j].1 < next
    ensures VarAt(a + [(name, next)], next, 0) == |a|
  {
    var b := a + [(name, next)];
    assert b[|a|] == (name, next);
    assert forall j | 0 <= j < |a| :: b[j] == a[j];
  }

  /** A scope whose cells all lie below `next` has nothing at `next`: a read there goes on to the parent. */
  lemma NothingAtNext(env: Env, next: nat)
    requires |env| > 0 && ScopeBelow(env[0], next)
    ensures GetValueAtAddress(env, next) == GetValueAtAddress(env[1..], next)
  {
    var s := env[0];
    assert VarAt(s.varAddrs, next, 0) == |s.varAddrs|;
    assert ArrayAt(s.arrays, s.arrayAddrs, next, 0) == |s.arrayAddrs|;
  }

  /**
    * With one counter above every recorded cell, a new cell's address is
    * the counter itself, different from every address already handed out
    * in any scope; reading through it finds the variable it was taken of;
    * and the counter stays above every cell.
    */
  lemma {:induction false} SharedAddressFresh(env: Env, name: string, next: nat)
    requires AllBelow(env, next) && GetAddressShared(env, name, next).Ok?
    ensures var (a, env2, next2) := GetAddressShared(env, name, next).value;
            && AllBelow(env2, next2)
            && (next2 == next ==> env2 == env)
            && (next2 == next + 1 ==>
                  a == next && Get(env, name).Ok? && GetValueAtAddress(env2, a) == Ok(Mask(Get(env, name).value)))
    decreases |env|
  {
    var s := env[0];
    var (a, env2, next2) := GetAddressShared(env, name, next).value;
    assert ScopeBelow(s, next);
    if name in s.vars {
      if IndexOf(s.varAddrs, name) == |s.varAddrs| {
        NewCellHere(env, name, next);
      }
    } else if name !in s.arrays {
      SharedAddressFresh(env[1..], name, next);
      hide GetAddressShared, Get;
      var (_, rest, _) := GetAddressShared(env[1..], name, next).value;
      assert env2 == [s] + rest;
      assert forall k | 1 <= k < |env2| :: env2[k] == rest[k - 1];
      if next2 == next + 1 {
        NothingAtNext(env2, next);
        assert env2[1..] == rest;
      }
    }
  }

  /** The new cell of a variable of the innermost scope: the counter's address, and the variable's value behind it. */
  lemma NewCellHere(env: Env, name: string, next: nat)
    requires AllBelow(env, next) && |env| > 0 && name in env[0].vars && IndexOf(env[0].varAddrs, name) == |env[0].varAddrs|
    ensures var (a, env2, next2) := GetAddressShared(env, name, next).value;
            && a == next && next2 == next + 1 && AllBelow(env2, next2)
            && Get(env, name) == Ok(env[0].vars[name]) && GetValueAtAddress(env2, a) == Ok(Mask(env[0].vars[name]))
  {
    var s := env[0];
    assert ScopeBelow(s, next);
    var s' := s.(varAddrs := s.varAddrs + [(name, next)]);
    var env2 := [s'] + env[1..];
    assert GetAddressShared(env, name, next).value == (next, env2, next + 1);
    VarAtAppended(s.varAddrs, name, next);
    assert ScopeBelow(env2[0], next + 1);
    assert forall k | 1 <= k < |env2| :: env2[k] == env[k];
  }

  /**
    * The chain of `ScopesShareAddresses` with one counter: `x` of the outer
    * scope and `y` of the inner one get different addresses, and a read
    * through `x`'s address finds `x`.
    */
  lemma SharedAddressesDiffer(x: string, y: string, vx: nat, vy: nat)
    requires vx != vy && vx < TwoTo32 && vy < TwoTo32
    ensures var outer := EmptyScope.(vars := map[x := vx]);
            var inner := EmptyScope.(vars := map[y := vy]);
            var (ax, e1, n1) := GetAddressShared([outer], x, FirstAddress).value;
            var (ay, e2, n2) := GetAddressShared([inner] + e1, y, n1).value;
            ax == FirstAddress && ay == FirstAddress + 1 && GetValueAtAddress(e2, ax) == Ok(vx)
  {
    var outer := EmptyScope.(vars := map[x := vx]);
    var inner := EmptyScope.(vars := map[y := vy]);
    var (ax, e1, n1) := GetAddressShared([outer], x, FirstAddress).value;
    SharedAddressFresh([outer], x, FirstAddress);
    var env := [inner] + e1;
    assert AllBelow(env, n1) by {
      assert env[1..] == e1;
    }
    SharedAddressFresh(env, y, n1);
    var (ay, e2, n2) := GetAddressShared(env, y, n1).value;
    assert e2[1..] == e1;
    assert VarAt(e2[0].varAddrs, ax, 0) == |e2[0].varAddrs|;
  }
}

=== FILE: errorlines.dfy ===
/**
  * `ErrorHandler._extract_line_number` (gui/error_handler.py): recover the
  * source line from an error message by searching it, case-insensitively, for
  * four regular expressions in turn and reading the first captured digit run.
  *
  * Each pattern is a sequence of pieces: a word compared ignoring case, a
  * `\s+`, or the captured `(\d+)`. In every pattern the piece after a `\s+` or
  * a `(\d+)` starts with a character that run cannot contain, so the greedy
  * left-to-right match below is the only way the regular expression can match
  * at a position; the search tries positions from the left, as `re.search` does.
  */
module ErrorLines {
  import opened Results
  import opened Text
  import opened Tokens
  import opened Parser

  datatype Piece = Word(w: string) | Spaces | Group

  type Pattern = seq<Piece>

  /** A match: where it starts and the span of the captured digits. */
  datatype Hit = Hit(start: nat, groupStart: nat, groupEnd: nat)

  /** `w` occurs at `i`, letters compared without regard to case. */
  predicate WordAt(s: string, i: nat, w: string) {
    i + |w| <= |s| && forall k | 0 <= k < |w| :: ToLower(s[i + k]) == ToLower(w[k])
  }

  /** End of the longest run from `i` of characters satisfying `p`. */
  function RunEnd(s: string, i: nat, p: char -> bool): (j: nat)
    requires i <= |s|
    ensures i <= j <= |s|
    ensures forall k | i <= k < j :: p(s[k])
    ensures j == |s| || !p(s[j])
    decreases |s| - i
  {
    if i < |s| && p(s[i]) then RunEnd(s, i + 1, p) else i
  }

  /** A captured span: a non-empty run of digits inside `s`. */
  predicate DigitSpan(s: string, a: nat, b: nat) {
    a < b <= |s| && forall k | a <= k < b :: IsDigit(s[k])
  }

  /** Matches `pat` at `i`; the result is the span of the last group matched. */
  function MatchAt(s: string, i: nat, pat: Pattern, group: Option<(nat, nat)>): (r: Option<(nat, nat)>)
    requires i <= |s|
    requires group.Some? ==> DigitSpan(s, group.value.0, group.value.1)
    ensures r.Some? ==> DigitSpan(s, r.value.0, r.value.1)
    decreases |pat|
  {
    if |pat| == 0 then group
    else
      match pat[0]
      case Word(w) => if WordAt(s, i, w) then MatchAt(s, i + |w|, pat[1..], group) else None
      case Spaces =>
        var j := RunEnd(s, i, IsSpace);
        if j == i then None else MatchAt(s, j, pat[1..], group)
      case Group =>
        var j := RunEnd(s, i, IsDigit);
        if j == i then None else MatchAt(s, j, pat[1..], Some((i, j)))
  }

  /** `re.search`: the leftmost position at or after `i` where `pat` matches. */
  function Search(s: string, pat: Pattern, i: nat): (r: Option<Hit>)
    requires i <= |s|
    ensures r.Some? ==> i <= r.value.start <= |s|
    ensures r.Some? ==> MatchAt(s, r.value.start, pat, None) == Some((r.value.groupStart, r.value.groupEnd))
    decreases |s| - i
  {
    match MatchAt(s, i, pat, None)
    case Some(g) => Some(Hit(i, g.0, g.1))
    case None => if i == |s| then None else Search(s, pat, i + 1)
  }

  // One step of the matcher per kind of piece.

  lemma WordAtFits(s: string, i: nat, w: string)
    requires WordAt(s, i, w)
    ensures i + |w| <= |s|
  {
  }

  lemma MatchEmpty(s: string, i: nat, pat: Pattern, group: Option<(nat, nat)>)
    requires i <= |s| && |pat| == 0
    requires group.Some? ==> DigitSpan(s, group.value.0, group.value.1)
    ensures MatchAt(s, i, pat, group) == group
  {
  }

  lemma MatchWord(s: string, i: nat, pat: Pattern, group: Option<(nat, nat)>)
    requires i <= |s| && |pat| > 0 && pat[0].Word?
    requires group.Some? ==> DigitSpan(s, group.value.0, group.value.1)
    ensures WordAt(s, i, pat[0].w) ==> MatchAt(s, i, pat, group) == MatchAt(s, i + |pat[0].w|, pat[1..], group)
    ensures !WordAt(s, i, pat[0].w) ==> MatchAt(s, i, pat, group) == None
  {
  }

  lemma MatchSpaces(s: string, i: nat, pat: Pattern, group: Option<(nat, nat)>)
    requires i <= |s| && |pat| > 0 && pat[0].Spaces?
    requires group.Some? ==> DigitSpan(s, group.value.0, group.value.1)
    ensures RunEnd(s, i, IsSpace) == i ==> MatchAt(s, i, pat, group) == None
    ensures RunEnd(s, i, IsSpace) > i ==> MatchAt(s, i, pat, group) == MatchAt(s, RunEnd(s, i, IsSpace), pat[1..], group)
  {
  }

  lemma MatchGroup(s: string, i: nat, pat: Pattern, group: Option<(nat, nat)>)
    requires i <= |s| && |pat| > 0 && pat[0].Group?
    requires group.Some? ==> DigitSpan(s, group.value.0, group.value.1)
    ensures RunEnd(s, i, IsDigit) == i ==> MatchAt(s, i, pat, group) == None
    ensures RunEnd(s, i, IsDigit) > i ==>
              MatchAt(s, i, pat, group) == MatchAt(s, RunEnd(s, i, IsDigit), pat[1..], Some((i, RunEnd(s, i, IsDigit))))
  {
  }

  /** `line\s+(\d+)`, `Line\s+(\d+)`, `at\s+line\s+(\d+)`, `line\s+(\d+),\s+column`, in the order tried. */
  const LinePattern: Pattern := [Word("line"), Spaces, Group]
  const LinePatterns: seq<Pattern> := [
    LinePattern,
    [Word("Line"), Spaces, Group],
    [Word("at"), Spaces, Word("line"), Spaces, Group],
    [Word("line"), Spaces, Group, Word(","), Spaces, Word("column")]
  ]

  /** The value of the captured digits of a hit. */
  function HitValue(s: string, h: Hit): nat
    requires DigitSpan(s, h.groupStart, h.groupEnd)
  {
    DigitsOfSpan(s, h.groupStart, h.groupEnd);
    DecimalValue(s[h.groupStart..h.groupEnd])
  }

  lemma DigitsOfSpan(s: string, a: nat, b: nat)
    requires DigitSpan(s, a, b)
    ensures AllDigits(s[a..b])
  {
  }

  /** The first pattern, in order, that matches anywhere decides; `int()` of its digits. */
  function FirstMatch(s: string, pats: seq<Pattern>): Option<nat>
    decreases |pats|
  {
    if |pats| == 0 then None
    else
      match Search(s, pats[0], 0)
      case Some(h) => Some(HitValue(s, h))
      case None => FirstMatch(s, pats[1..])
  }

  /** `_extract_line_number(error_msg)`. */
  function ExtractLineNumber(msg: string): Option<nat> {
    FirstMatch(msg, LinePatterns)
  }

  // ---------------------------------------------------------------------
  // What a line reference is, independently of the search
  // ---------------------------------------------------------------------

  /** At `i`: `line` in any case, a run of whitespace, then the whole digit run `s[a..b]`. */
  predicate LineNumberAt(s: string, i: nat, a: nat, b: nat) {
    && WordAt(s, i, "line") && i + 4 < a && DigitSpan(s, a, b)
    && (forall k | i + 4 <= k < a :: IsSpace(s[k]))
    && (b == |s| || !IsDigit(s[b]))
  }

  lemma SpaceNotDigit(c: char)
    ensures !(IsSpace(c) && IsDigit(c))
  {
  }

  /** A run that stops at `j` ends at `j`. */
  lemma {:induction false} RunEndIs(s: string, i: nat, j: nat, p: char -> bool)
    requires i <= j <= |s|
    requires forall k | i <= k < j :: p(s[k])
    requires j == |s| || !p(s[j])
    ensures RunEnd(s, i, p) == j
    decreases j - i
  {
    if i < j {
      RunEndIs(s, i + 1, j, p);
    }
  }

  /** The first pattern matches at `i` with digits `s[a..b]` exactly when a line reference stands there. */
  lemma LinePatternAt(s: string, i: nat, a: nat, b: nat)
    requires i <= |s|
    ensures MatchAt(s, i, LinePattern, None) == Some((a, b)) <==> LineNumberAt(s, i, a, b)
  {
    hide MatchAt, RunEnd;
    var pat := LinePattern;
    assert pat[0] == Word("line") && pat[1..][0] == Spaces && pat[1..][1..][0] == Group && |pat[1..][1..][1..]| == 0;
    MatchWord(s, i, pat, None);
    if WordAt(s, i, "line") {
      WordAtFits(s, i, "line");
      var j := RunEnd(s, i + 4, IsSpace);
      MatchSpaces(s, i + 4, pat[1..], None);
      if j > i + 4 {
        var e := RunEnd(s, j, IsDigit);
        MatchGroup(s, j, pat[1..][1..], None);
        if e > j {
          MatchEmpty(s, e, pat[1..][1..][1..], Some((j, e)));
        }
      }
    }
    if LineNumberAt(s, i, a, b) {
      SpaceNotDigit(s[a]);
      RunEndIs(s, i + 4, a, IsSpace);
      RunEndIs(s, a, b, IsDigit);
    }
  }

  // ---------------------------------------------------------------------
  // The search
  // ---------------------------------------------------------------------

  /** `pat` matches at no position from `i` to the end. */
  predicate NoMatchFrom(s: string, pat: Pattern, i: nat) {
    forall j: nat | i <= j <= |s| :: MatchAt(s, j, pat, None).None?
  }

  /** The search fails exactly when the pattern matches nowhere from `i` on. */
  lemma {:induction false} SearchNone(s: string, pat: Pattern, i: nat)
    requires i <= |s|
    ensures Search(s, pat, i).None? <==> NoMatchFrom(s, pat, i)
    decreases |s| - i
  {
    hide MatchAt;
    if MatchAt(s, i, pat, None).Some? {
      assert !NoMatchFrom(s, pat, i);
    } else if i < |s| {
      assert Search(s, pat, i) == Search(s, pat, i + 1);
      SearchNone(s, pat, i + 1);
      if NoMatchFrom(s, pat, i + 1) {
        forall j: nat | i <= j <= |s|
          ensures MatchAt(s, j, pat, None).None?
        {
          if j > i {
            assert i + 1 <= j <= |s|;
          }
        }
      }
    }
  }

  /** The search finds the leftmost match. */
  lemma {:induction false} SearchLeftmost(s: string, pat: Pattern, i: nat, j: nat)
    requires i <= j <= |s| && MatchAt(s, j, pat, None).Some?
    requires forall k | i <= k < j :: MatchAt(s, k, pat, None).None?
    ensures Search(s, pat, i).Some? && Search(s, pat, i).value.start == j
    decreases j - i
  {
    if i < j {
      SearchLeftmost(s, pat, i + 1, j);
    }
  }

  /** `Line\s+(\d+)` under IGNORECASE is the first pattern again. */
  lemma SecondPatternSame(s: string, j: nat)
    requires j <= |s|
    ensures MatchAt(s, j, LinePatterns[1], None) == MatchAt(s, j, LinePattern, None)
  {
    hide MatchAt, RunEnd;
    var pat := LinePatterns[1];
    assert pat[0] == Word("Line") && LinePattern[0] == Word("line");
    assert forall k | 0 <= k < 4 :: ToLower("Line"[k]) == ToLower("line"[k]);
    assert WordAt(s, j, "Line") == WordAt(s, j, "line");
    assert pat[1..] == LinePattern[1..];
    MatchWord(s, j, pat, None);
    MatchWord(s, j, LinePattern, None);
  }

  /** Where `at\s+line\s+(\d+)` matches, the first pattern matches after the `at`. */
  lemma ThirdPatternCovered(s: string, j: nat)
    requires j <= |s| && MatchAt(s, j, LinePatterns[2], None).Some?
    ensures j + 2 <= |s|
    ensures MatchAt(s, RunEnd(s, j + 2, IsSpace), LinePattern, None).Some?
  {
    hide MatchAt, RunEnd, WordAt;
    var pat := LinePatterns[2];
    assert pat[0] == Word("at") && pat[1..][0] == Spaces && pat[1..][1..] == LinePattern;
    MatchWord(s, j, pat, None);
    WordAtFits(s, j, "at");
    MatchSpaces(s, j + 2, pat[1..], None);
  }

  /** Where `line\s+(\d+),\s+column` matches, the first pattern matches too. */
  lemma FourthPatternCovered(s: string, j: nat)
    requires j <= |s| && MatchAt(s, j, LinePatterns[3], None).Some?
    ensures MatchAt(s, j, LinePattern, None).Some?
  {
    hide MatchAt, RunEnd, WordAt;
    var pat := LinePatterns[3];
    assert pat[0] == Word("line") && pat[1..][0] == Spaces && pat[1..][1..][0] == Group;
    assert LinePattern[1..][0] == Spaces && LinePattern[1..][1..][0] == Group && |LinePattern[1..][1..][1..]| == 0;
    MatchWord(s, j, pat, None);
    MatchWord(s, j, LinePattern, None);
    WordAtFits(s, j, "line");
    var k := RunEnd(s, j + 4, IsSpace);
    MatchSpaces(s, j + 4, pat[1..], None);
    MatchSpaces(s, j + 4, LinePattern[1..], None);
    var e := RunEnd(s, k, IsDigit);
    MatchGroup(s, k, pat[1..][1..], None);
    MatchGroup(s, k, LinePattern[1..][1..], None);
    MatchEmpty(s, e, LinePattern[1..][1..][1..], Some((k, e)));
  }

  /**
    * The later patterns never decide: the result is the first pattern's
    * leftmost match, or None when it matches nowhere.
    */
  lemma FirstPatternDecides(msg: string)
    ensures ExtractLineNumber(msg) ==
              match Search(msg, LinePattern, 0)
              case Some(h) => Some(HitValue(msg, h))
              case None => None
  {
    var pats := LinePatterns;
    if Search(msg, LinePattern, 0).None? {
      SearchNone(msg, LinePattern, 0);
      SearchNone(msg, pats[1], 0);
      SearchNone(msg, pats[2], 0);
      SearchNone(msg, pats[3], 0);
      forall j | 0 <= j <= |msg|
        ensures MatchAt(msg, j, pats[1], None).None?
        ensures MatchAt(msg, j, pats[2], None).None?
        ensures MatchAt(msg, j, pats[3], None).None?
      {
        SecondPatternSame(msg, j);
        if MatchAt(msg, j, pats[2], None).Some? {
          ThirdPatternCovered(msg, j);
        }
        if MatchAt(msg, j, pats[3], None).Some? {
          FourthPatternCovered(msg, j);
        }
      }
      var p1 := pats[1..];
      var p2 := p1[1..];
      var p3 := p2[1..];
      assert p1[0] == pats[1] && p2[0] == pats[2] && p3[0] == pats[3] && p3[1..] == [];
      assert FirstMatch(msg, p3) == FirstMatch(msg, p3[1..]);
      assert FirstMatch(msg, p2) == FirstMatch(msg, p3);
      assert FirstMatch(msg, p1) == FirstMatch(msg, p2);
    }
  }

  // ---------------------------------------------------------------------
  // The result, characterised
  // ---------------------------------------------------------------------

  /** None exactly when the message holds no line reference at all. */
  lemma ExtractLineNumberNone(msg: string)
    ensures ExtractLineNumber(msg).None? <==> forall i: nat, a: nat, b: nat :: !LineNumberAt(msg, i, a, b)
  {
    FirstPatternDecides(msg);
    SearchNone(msg, LinePattern, 0);
    if ExtractLineNumber(msg).Some? {
      var h := Search(msg, LinePattern, 0).value;
      LinePatternAt(msg, h.start, h.groupStart, h.groupEnd);
    } else {
      forall i: nat, a: nat, b: nat
        ensures !LineNumberAt(msg, i, a, b)
      {
        if i <= |msg| {
          LinePatternAt(msg, i, a, b);
        }
      }
    }
  }

  /** Otherwise the number is that of the leftmost line reference. */
  lemma ExtractLineNumberLeftmost(msg: string, i: nat, a: nat, b: nat)
    requires LineNumberAt(msg, i, a, b)
    requires forall j: nat, c: nat, d: nat | j < i :: !LineNumberAt(msg, j, c, d)
    ensures ExtractLineNumber(msg) == Some(HitValue(msg, Hit(i, a, b)))
  {
    FirstPatternDecides(msg);
    LinePatternAt(msg, i, a, b);
    forall k | 0 <= k < i
      ensures MatchAt(msg, k, LinePattern, None).None?
    {
      if MatchAt(msg, k, LinePattern, None).Some? {
        var g := MatchAt(msg, k, LinePattern, None).value;
        LinePatternAt(msg, k, g.0, g.1);
      }
    }
    SearchLeftmost(msg, LinePattern, 0, i);
  }

  // ---------------------------------------------------------------------
  // Case does not matter
  // ---------------------------------------------------------------------

  /** Two messages that differ at most in the case of their letters. */
  predicate SameUpToCase(s: string, t: string) {
    |s| == |t| && forall k | 0 <= k < |s| :: ToLower(s[k]) == ToLower(t[k])
  }

  lemma SameClass(c: char, d: char)
    requires ToLower(c) == ToLower(d)
    ensures IsSpace(c) == IsSpace(d) && IsDigit(c) == IsDigit(d)
    ensures IsDigit(c) ==> c == d
  {
  }

  lemma {:induction false} RunEndSameCase(s: string, t: string, i: nat, digits: bool)
    requires SameUpToCase(s, t) && i <= |s|
    ensures digits ==> RunEnd(s, i, IsDigit) == RunEnd(t, i, IsDigit)
    ensures !digits ==> RunEnd(s, i, IsSpace) == RunEnd(t, i, IsSpace)
    decreases |s| - i
  {
    if i < |s| {
      SameClass(s[i], t[i]);
      RunEndSameCase(s, t, i + 1, digits);
    }
  }

  lemma WordAtSameCase(s: string, t: string, i: nat, w: string)
    requires SameUpToCase(s, t)
    ensures WordAt(s, i, w) == WordAt(t, i, w)
    ensures WordAt(s, i, w) ==> i + |w| <= |s| == |t|
  {
  }

  lemma {:induction false} MatchAtSameCase(s: string, t: string, i: nat, pat: Pattern, group: Option<(nat, nat)>)
    requires SameUpToCase(s, t) && i <= |s|
    requires group.Some? ==> DigitSpan(s, group.value.0, group.value.1) && DigitSpan(t, group.value.0, group.value.1)
    ensures MatchAt(s, i, pat, group) == MatchAt(t, i, pat, group)
    decreases |pat|
  {
    hide MatchAt, WordAt, RunEnd;
    assert |s| == |t|;
    if |pat| == 0 {
      MatchEmpty(s, i, pat, group);
      MatchEmpty(t, i, pat, group);
    } else {
      match pat[0]
      case Word(w) =>
        MatchWord(s, i, pat, group);
        MatchWord(t, i, pat, group);
        WordAtSameCase(s, t, i, w);
        if WordAt(s, i, w) {
          MatchAtSameCase(s, t, i + |w|, pat[1..], group);
        }
      case Spaces =>
        MatchSpaces(s, i, pat, group);
        MatchSpaces(t, i, pat, group);
        RunEndSameCase(s, t, i, false);
        var j := RunEnd(s, i, IsSpace);
        if j > i {
          MatchAtSameCase(s, t, j, pat[1..], group);
        }
      case Group =>
        MatchGroup(s, i, pat, group);
        MatchGroup(t, i, pat, group);
        RunEndSameCase(s, t, i, true);
        var j := RunEnd(s, i, IsDigit);
        if j > i {
          MatchAtSameCase(s, t, j, pat[1..], Some((i, j)));
        }
    }
  }

  lemma {:induction false} SearchSameCase(s: string, t: string, pat: Pattern, i: nat)
    requires SameUpToCase(s, t) && i <= |s|
    ensures Search(s, pat, i) == Search(t, pat, i)
    decreases |s| - i
  {
    hide MatchAt;
    MatchAtSameCase(s, t, i, pat, None);
    if i < |s| {
      SearchSameCase(s, t, pat, i + 1);
    }
  }

  /** "Line 12", "line 12" and "LINE 12" read alike: the case of letters never changes the result. */
  lemma {:induction false} ExtractIgnoresCase(s: string, t: string)
    requires SameUpToCase(s, t)
    ensures ExtractLineNumber(s) == ExtractLineNumber(t)
  {
    hide ExtractLineNumber, FirstMatch, Search, MatchAt, RunEnd, DecimalValue;
    FirstPatternDecides(s);
    FirstPatternDecides(t);
    SearchSameCase(s, t, LinePattern, 0);
    if Search(s, LinePattern, 0).Some? {
      var h := Search(s, LinePattern, 0).value;
      forall k | h.groupStart <= k < h.groupEnd
        ensures s[k] == t[k]
      {
        SameClass(s[k], t[k]);
      }
      assert s[h.groupStart..h.groupEnd] == t[h.groupStart..h.groupEnd];
    }
  }

  // ---------------------------------------------------------------------
  // The parser's `expect` messages
  // ---------------------------------------------------------------------

  /** No `line`, in any case, anywhere in `s`. */
  predicate NoLineWord(s: string) {
    forall i | 0 <= i <= |s| :: !WordAt(s, i, "line")
  }

  /** None of the last three characters of `s` is an `l`. */
  predicate NoLateL(s: string) {
    forall k | 0 <= k < |s| && |s| <= k + 3 :: ToLower(s[k]) != 'l'
  }

  /** The four letters of a `line` found at `i`. */
  lemma LineLetters(s: string, i: nat)
    requires WordAt(s, i, "line")
    ensures i + 4 <= |s|
    ensures ToLower(s[i]) == 'l' && ToLower(s[i + 1]) == 'i' && ToLower(s[i + 2]) == 'n' && ToLower(s[i + 3]) == 'e'
  {
    assert ToLower(s[i + 0]) == ToLower("line"[0]);
    assert ToLower(s[i + 1]) == ToLower("line"[1]);
    assert ToLower(s[i + 2]) == ToLower("line"[2]);
    assert ToLower(s[i + 3]) == ToLower("line"[3]);
  }

  /** A `line` across the seam of `a + b` would need an `l` late in `a` and a letter first in `b`. */
  lemma NoLineConcat(a: string, b: string)
    requires NoLineWord(a) && NoLineWord(b)
    requires |b| == 0 || !IsLetter(b[0]) || NoLateL(a)
    ensures NoLineWord(a + b)
  {
    var s := a + b;
    forall i | 0 <= i <= |s|
      ensures !WordAt(s, i, "line")
    {
      if WordAt(s, i, "line") {
        if i + 4 <= |a| {
          assert WordAt(a, i, "line");
        } else if |a| <= i {
          assert WordAt(b, i - |a|, "line");
        } else {
          LineLetters(s, i);
        }
      }
    }
  }

  /** Text that lacks one of the letters of `line`, in both cases, cannot contain it. */
  lemma NoLineIfLacking(s: string)
    requires LacksLineLetter(s)
    ensures NoLineWord(s)
  {
    forall i | 0 <= i <= |s|
      ensures !WordAt(s, i, "line")
    {
      if WordAt(s, i, "line") {
        LineLetters(s, i);
      }
    }
  }

  /** Text without one of the letters of `line`, in either case, cannot contain it. */
  lemma NoLineWithout(s: string, lower: char, upper: char)
    requires (lower, upper) in {('l', 'L'), ('i', 'I'), ('n', 'N'), ('e', 'E')}
    requires lower !in s && upper !in s
    ensures NoLineWord(s)
  {
    NoLineIfLacking(s);
  }

  /** Text without an `l` has no `line`, nor an `l` near its end. */
  lemma LacksL(s: string)
    requires 'l' !in s && 'L' !in s
    ensures NoLineWord(s) && NoLateL(s)
  {
    NoLineIfLacking(s);
    forall k | 0 <= k < |s| && |s| <= k + 3
      ensures ToLower(s[k]) != 'l'
    {
      assert s[k] in s;
    }
  }

  /** No type name spells `LINE`: all but `SEMICOLON` lack one of its letters. */
  lemma TypeNameNoLine(k: TokenType)
    ensures NoLineWord(TypeName(k)) && |TypeName(k)| > 0 && IsLetter(TypeName(k)[0])
  {
    if k == Semicolon {
      SemicolonNoLine();
    } else if k == Uint32 || k == Int32 || k == Function || k == For || k == While {
      TypeNamesNoLine1(k);
    } else if k == If || k == Else || k == Return || k == Register || k == Volatile {
      TypeNamesNoLine2(k);
    } else if k == Interrupt || k == Identifier || k == Literal || k == Plus || k == Minus {
      TypeNamesNoLine3(k);
    } else if k == Multiply || k == Divide || k == Modulo || k == Assign || k == Equal {
      TypeNamesNoLine4(k);
    } else if k == NotEqual || k == Less || k == LessEqual || k == Greater || k == GreaterEqual {
      TypeNamesNoLine5(k);
    } else if k == And || k == Or || k == Not || k == BitwiseAnd || k == BitwiseOr {
      TypeNamesNoLine6(k);
    } else if k == BitwiseXor || k == ShiftLeft || k == ShiftRight || k == Increment || k == Decrement {
      TypeNamesNoLine7(k);
    } else if k == Comma || k == LParen || k == RParen || k == LBrace || k == RBrace {
      TypeNamesNoLine8(k);
    } else {
      TypeNamesNoLine9(k);
    }
  }

  /** `SEMICOLON` holds every letter of `line`, but not in a row. */
  lemma SemicolonNoLine()
    ensures NoLineWord(TypeName(Semicolon))
  {
    assert TypeName(Semicolon) == "SEMICO" + "LON";
    LacksL("SEMICO");
    NoLineConcat("SEMICO", "LON");
  }

  lemma TypeNamesNoLine1(k: TokenType)
    requires k == Uint32 || k == Int32 || k == Function || k == For || k == While
    ensures NoLineWord(TypeName(k))
  {
    hide NoLineWord, WordAt;
    if k == Uint32 {
      NoLineWithout("UINT32", 'l', 'L');
    } else if k == Int32 {
      NoLineWithout("INT32", 'l', 'L');
    } else if k == Function {
      NoLineWithout("FUNCTION", 'l', 'L');
    } else if k == For {
      NoLineWithout("FOR", 'l', 'L');
    } else {
      NoLineWithout("WHILE", 'n', 'N');
    }
  }

  lemma TypeNamesNoLine2(k: TokenType)
    requires k == If || k == Else || k == Return || k == Register || k == Volatile
    ensures NoLineWord(TypeName(k))
  {
    hide NoLineWord, WordAt;
    if k == If {
      NoLineWithout("IF", 'l', 'L');
    } else if k == Else {
      NoLineWithout("ELSE", 'i', 'I');
    } else if k == Return {
      NoLineWithout("RETURN", 'l', 'L');
    } else if k == Register {
      NoLineWithout("REGISTER", 'l', 'L');
    } else {
      NoLineWithout("VOLATILE", 'n', 'N');
    }
  }

  lemma TypeNamesNoLine3(k: TokenType)
    requires k == Interrupt || k == Identifier || k == Literal || k == Plus || k == Minus
    ensures NoLineWord(TypeName(k))
  {
    hide NoLineWord, WordAt;
    if k == Interrupt {
      NoLineWithout("INTERRUPT", 'l', 'L');
    } else if k == Identifier {
      NoLineWithout("IDENTIFIER", 'l', 'L');
    } else if k == Literal {
      NoLineWithout("LITERAL", 'n', 'N');
    } else if k == Plus {
      NoLineWithout("PLUS", 'i', 'I');
    } else {
      NoLineWithout("MINUS", 'l', 'L');
    }
  }

  lemma TypeNamesNoLine4(k: TokenType)
    requires k == Multiply || k == Divide || k == Modulo || k == Assign || k == Equal
    ensures NoLineWord(TypeName(k))
  {
    hide NoLineWord, WordAt;
    if k == Multiply {
      NoLineWithout("MULTIPLY", 'n', 'N');
    } else if k == Divide {
      NoLineWithout("DIVIDE", 'l', 'L');
    } else if k == Modulo {
      NoLineWithout("MODULO", 'i', 'I');
    } else if k == Assign {
      NoLineWithout("ASSIGN", 'l', 'L');
    } else {
      NoLineWithout("EQUAL", 'i', 'I');
    }
  }

  lemma TypeNamesNoLine5(k: TokenType)
    requires k == NotEqual || k == Less || k == LessEqual || k == Greater || k == GreaterEqual
    ensures NoLineWord(TypeName(k))
  {
    hide NoLineWord, WordAt;
    if k == NotEqual {
      NoLineWithout("NOT_EQUAL", 'i', 'I');
    } else if k == Less {
      NoLineWithout("LESS", 'i', 'I');
    } else if k == LessEqual {
      NoLineWithout("LESS_EQUAL", 'i', 'I');
    } else if k == Greater {
      NoLineWithout("GREATER", 'l', 'L');
    } else {
      NoLineWithout("GREATER_EQUAL", 'i', 'I');
    }
  }

  lemma TypeNamesNoLine6(k: TokenType)
    requires k == And || k == Or || k == Not || k == BitwiseAnd || k == BitwiseOr
    ensures NoLineWord(TypeName(k))
  {
    hide NoLineWord, WordAt;
    if k == And {
      NoLineWithout("AND", 'l', 'L');
    } else if k == Or {
      NoLineWithout("OR", 'l', 'L');
    } else if k == Not {
      NoLineWithout("NOT", 'l', 'L');
    } else if k == BitwiseAnd {
      NoLineWithout("BITWISE_AND", 'l', 'L');
    } else {
      NoLineWithout("BITWISE_OR", 'l', 'L');
    }
  }

  lemma TypeNamesNoLine7(k: TokenType)
    requires k == BitwiseXor || k == ShiftLeft || k == ShiftRight || k == Increment || k == Decrement
    ensures NoLineWord(TypeName(k))
  {
    hide NoLineWord, WordAt;
    if k == BitwiseXor {
      NoLineWithout("BITWISE_XOR", 'l', 'L');
    } else if k == ShiftLeft {
      NoLineWithout("SHIFT_LEFT", 'n', 'N');
    } else if k == ShiftRight {
      NoLineWithout("SHIFT_RIGHT", 'l', 'L');
    } else if k == Increment {
      NoLineWithout("INCREMENT", 'l', 'L');
    } else {
      NoLineWithout("DECREMENT", 'l', 'L');
    }
  }

  lemma TypeNamesNoLine8(k: TokenType)
    requires k == Comma || k == LParen || k == RParen || k == LBrace || k == RBrace
    ensures NoLineWord(TypeName(k))
  {
    hide NoLineWord, WordAt;
    if k == Comma {
      NoLineWithout("COMMA", 'l', 'L');
    } else if k == LParen {
      NoLineWithout("LPAREN", 'i', 'I');
    } else if k == RParen {
      NoLineWithout("RPAREN", 'l', 'L');
    } else if k == LBrace {
      NoLineWithout("LBRACE", 'i', 'I');
    } else {
      NoLineWithout("RBRACE", 'l', 'L');
    }
  }

  lemma TypeNamesNoLine9(k: TokenType)
    requires k == LBracket || k == RBracket || k == Eof || k == Error
    ensures NoLineWord(TypeName(k))
  {
    hide NoLineWord, WordAt;
    if k == LBracket {
      NoLineWithout("LBRACKET", 'i', 'I');
    } else if k == RBracket {
      NoLineWithout("RBRACKET", 'l', 'L');
    } else if k == Eof {
      NoLineWithout("EOF", 'l', 'L');
    } else {
      NoLineWithout("ERROR", 'l', 'L');
    }
  }

  /** The default text of `expect`, "Expected X, got Y", names no line. */
  lemma DefaultTextNoLine(k: TokenType, found: string)
    requires NoLineWord(found) && |found| > 0 && IsLetter(found[0])
    ensures NoLineWord("Expected " + TypeName(k) + ", got " + found)
  {
    TypeNameNoLine(k);
    LacksL("Expected ");
    NoLineConcat("Expected ", TypeName(k));
    LacksL(", got ");
    NoLineConcat("Expected " + TypeName(k), ", got ");
    var pre := "Expected " + TypeName(k) + ", got ";
    assert NoLateL(pre) by {
      forall j | 0 <= j < |pre| && |pre| <= j + 3
        ensures ToLower(pre[j]) != 'l'
      {
        assert pre[j] == ", got "[j - (|pre| - 6)];
        assert ", got "[j - (|pre| - 6)] in ", got ";
      }
    }
    NoLineConcat(pre, found);
  }

  /**
    * A message `what + " at line " + digits + rest` whose `what` names no
    * line, with `rest` not continuing the digits, reads back as `n`.
    */
  lemma {:induction false} LineOfLocatedMessage(what: string, n: nat, rest: string)
    requires NoLineWord(what)
    requires |rest| == 0 || !IsDigit(rest[0])
    ensures ExtractLineNumber(what + " at line " + NatToString(n) + rest) == Some(n)
  {
    var digits := NatToString(n);
    var msg := what + " at line " + digits + rest;
    var i := |what| + 4;
    var a := i + 5;
    var b := a + |digits|;
    assert msg[i..a] == "line ";
    assert msg[a..b] == digits;
    assert WordAt(msg, i, "line");
    assert LineNumberAt(msg, i, a, b);
    forall j: nat, c: nat, d: nat | j < i
      ensures !LineNumberAt(msg, j, c, d)
    {
      if WordAt(msg, j, "line") {
        if j + 4 <= |what| {
          assert WordAt(what, j, "line");
        } else {
          LineLetters(msg, j);
        }
      }
    }
    ExtractLineNumberLeftmost(msg, i, a, b);
    DecimalOfNatToString(n);
  }

  /**
    * A `SyntaxError` from `expect` at an existing token reads back as that
    * token's line, unless a custom text of its own names a line.
    */
  lemma ExpectMessageLine(toks: seq<Token>, pos: nat, k: TokenType, custom: string)
    requires pos < |toks|
    requires NoLineWord(custom)
    ensures ExtractLineNumber(ExpectMessage(toks, pos, k, custom)) == Some(toks[pos].line)
  {
    var found := TypeName(toks[pos].kind);
    TypeNameNoLine(toks[pos].kind);
    DefaultTextNoLine(k, found);
    var what := if custom != "" then custom else "Expected " + TypeName(k) + ", got " + found;
    var rest := ", column " + ColumnText(toks, pos);
    assert ExpectMessage(toks, pos, k, custom) == what + " at line " + NatToString(toks[pos].line) + rest;
    LineOfLocatedMessage(what, toks[pos].line, rest);
  }
}

=== FILE: hardware.dfy ===
/**
  * The simulated peripherals of interpreter.py (`execute_hardware_function`):
  * GPIO pins, the UART, the timer, the delay and interrupt stubs, and the bit
  * built-ins. Arguments arrive already evaluated, left to right.
  */
module Hardware {
  import opened Results
  import opened Text
  import opened Words
  import opened Operators

  /** How a run of the interpreter ends without a value. */
  datatype Fault =
    | Raised(message: string)   // a `RuntimeError` with this message
    | Crashed(reason: string)   // a Python error the interpreter does not raise on purpose
    | OutOfFuel                 // the model's bound on loop iterations and calls ran out

  datatype Pin = Pin(direction: nat, mode: nat, value: nat)

  datatype Uart = Uart(baudRate: nat, txReady: nat, rxReady: nat, data: nat)

  datatype Timer = Timer(mode: nat, period: nat, value: nat, running: nat, expired: nat)

  datatype Peripherals = Peripherals(gpio: map<nat, Pin>, uart: Uart, timer: Timer)

  /** The state `Interpreter.__init__` sets up. */
  const InitialPeripherals: Peripherals :=
    Peripherals(map[], Uart(115200, 1, 0, 0), Timer(0, 0, 0, 0, 0))

  /** The names `is_hardware_function` recognises. */
  const HardwareFunctions: set<string> := {
    "gpio_set", "gpio_read", "gpio_write",
    "uart_set_baud", "uart_get_status", "uart_read", "uart_write",
    "timer_set_mode", "timer_set_period", "timer_start", "timer_stop",
    "timer_reset", "timer_get_value", "timer_expired",
    "delay_ms", "delay_us", "delay_cycles",
    "enable_interrupts", "disable_interrupts",
    "set_bit", "clear_bit", "toggle_bit", "get_bit"}

  type Outcome = Result<(Peripherals, nat), Fault>

  function Arity(name: string, n: nat, got: nat): Fault {
    Raised(name + " expects " + NatToString(n) + (if n == 1 then " argument" else " arguments")
           + ", got " + NatToString(got))
  }

  function NotConfigured(pin: nat): Fault {
    Raised("GPIO pin " + NatToString(pin) + " not configured")
  }

  /** One call of a hardware function on evaluated arguments. */
  function CallHardware(p: Peripherals, name: string, args: seq<nat>): (r: Outcome)
    ensures r.Err? ==> r.error.Raised?
    ensures r.Ok? && name != "gpio_read" ==> r.value.1 < TwoTo32
  {
    if name == "gpio_set" || name == "gpio_read" || name == "gpio_write" then Gpio(p, name, args)
    else if name == "uart_set_baud" || name == "uart_get_status" || name == "uart_read" || name == "uart_write" then
      UartCall(p, name, args)
    else if name == "timer_set_mode" || name == "timer_set_period" || name == "timer_start"
         || name == "timer_stop" || name == "timer_reset" || name == "timer_get_value" || name == "timer_expired" then
      TimerCall(p, name, args)
    else if name == "delay_ms" || name == "delay_us" || name == "delay_cycles"
         || name == "enable_interrupts" || name == "disable_interrupts" then
      Ok((p, 0))
    else if name == "set_bit" || name == "clear_bit" || name == "toggle_bit" || name == "get_bit" then
      if |args| != 2 then Err(Arity(name, 2, |args|))
      else if name == "set_bit" then Ok((p, SetBit(args[0], args[1])))
      else if name == "clear_bit" then Ok((p, ClearBit(args[0], args[1])))
      else if name == "toggle_bit" then Ok((p, ToggleBit(args[0], args[1])))
      else Ok((p, GetBit(args[0], args[1])))
    else Err(Raised("Unknown hardware function: " + name))
  }

  function Gpio(p: Peripherals, name: string, args: seq<nat>): (r: Outcome)
    ensures r.Err? ==> r.error.Raised?
    ensures r.Ok? && name != "gpio_read" ==> r.value.1 == 0
  {
    if name == "gpio_set" then
      if |args| != 3 then Err(Arity(name, 3, |args|))
      else Ok((p.(gpio := p.gpio[args[0] := Pin(args[1], args[2], 0)]), 0))
    else if name == "gpio_read" then
      if |args| != 1 then Err(Arity(name, 1, |args|))
      else if args[0] !in p.gpio then Err(NotConfigured(args[0]))
      else Ok((p, p.gpio[args[0]].value))
    else
      if |args| != 2 then Err(Arity(name, 2, |args|))
      else if args[0] !in p.gpio then Err(NotConfigured(args[0]))
      else Ok((p.(gpio := p.gpio[args[0] := p.gpio[args[0]].(value := args[1] % 2)]), 0))
  }

  function UartCall(p: Peripherals, name: string, args: seq<nat>): (r: Outcome)
    ensures r.Err? ==> r.error.Raised?
    ensures r.Ok? ==> r.value.1 < TwoTo32
  {
    var u := p.uart;
    if name == "uart_set_baud" then
      if |args| != 1 then Err(Arity(name, 1, |args|))
      else Ok((p.(uart := u.(baudRate := args[0])), 0))
    else if name == "uart_get_status" then
      Ok((p, BitwiseResult(OrOp, u.txReady, u.rxReady * 2).value))
    else if name == "uart_read" then
      if u.rxReady == 0 then Ok((p, 0))
      else Ok((p.(uart := u.(rxReady := 0)), u.data % 256))
    else
      if |args| != 1 then Err(Arity(name, 1, |args|))
      else if u.txReady == 0 then Err(Raised("UART TX not ready"))
      else Ok((p.(uart := u.(data := args[0] % 256, txReady := 1)), 0))
  }

  function TimerCall(p: Peripherals, name: string, args: seq<nat>): (r: Outcome)
    ensures r.Err? ==> r.error.Raised?
    ensures r.Ok? ==> r.value.1 < TwoTo32
  {
    var t := p.timer;
    if name == "timer_set_mode" then
      if |args| != 1 then Err(Arity(name, 1, |args|)) else Ok((p.(timer := t.(mode := args[0])), 0))
    else if name == "timer_set_period" then
      if |args| != 1 then Err(Arity(name, 1, |args|)) else Ok((p.(timer := t.(period := args[0])), 0))
    else if name == "timer_start" then Ok((p.(timer := t.(running := 1, value := 0, expired := 0)), 0))
    else if name == "timer_stop" then Ok((p.(timer := t.(running := 0)), 0))
    else if name == "timer_reset" then Ok((p.(timer := t.(value := 0, expired := 0)), 0))
    else if name == "timer_get_value" then Ok((p, Mask(t.value)))
    else if t.running != 0 && t.period > 0 && t.expired == 0 then Ok((p.(timer := t.(expired := 1)), 1))
    else Ok((p, 0))
  }

  // ---------------------------------------------------------------------
  // Properties
  // ---------------------------------------------------------------------

  /**
    * What stays true from `__init__` on: the UART is always ready to send and
    * never has data to read, pin values are bits, the timer counter stays 0
    * and its expiry flag is a bit.
    */
  predicate PeripheralsOk(p: Peripherals) {
    && p.uart.txReady == 1 && p.uart.rxReady == 0
    && (forall pin | pin in p.gpio :: p.gpio[pin].value <= 1)
    && p.timer.value == 0 && p.timer.expired <= 1
  }

  lemma GpioKeepsOk(p: Peripherals, name: string, args: seq<nat>)
    requires PeripheralsOk(p)
    ensures Gpio(p, name, args).Ok? ==> PeripheralsOk(Gpio(p, name, args).value.0)
    ensures Gpio(p, name, args).Ok? ==> Gpio(p, name, args).value.1 <= 1
  {
  }

  lemma UartKeepsOk(p: Peripherals, name: string, args: seq<nat>)
    requires PeripheralsOk(p)
    ensures UartCall(p, name, args).Ok? ==> PeripheralsOk(UartCall(p, name, args).value.0)
  {
  }

  lemma TimerKeepsOk(p: Peripherals, name: string, args: seq<nat>)
    requires PeripheralsOk(p)
    ensures TimerCall(p, name, args).Ok? ==> PeripheralsOk(TimerCall(p, name, args).value.0)
  {
  }

  /** Every hardware call keeps the peripherals' invariant, and a pin always reads as a bit. */
  lemma HardwareKeepsOk(p: Peripherals, name: string, args: seq<nat>)
    requires PeripheralsOk(p)
    ensures CallHardware(p, name, args).Ok? ==> PeripheralsOk(CallHardware(p, name, args).value.0)
    ensures CallHardware(p, name, args).Ok? && name == "gpio_read" ==> CallHardware(p, name, args).value.1 <= 1
  {
    GpioKeepsOk(p, name, args);
    UartKeepsOk(p, name, args);
    TimerKeepsOk(p, name, args);
  }

  lemma InitialOk()
    ensures PeripheralsOk(InitialPeripherals)
  {
  }

  /**
    * In a reachable state `uart_read` returns 0 and changes nothing,
    * `uart_write` with one argument never reports "UART TX not ready", and
    * `uart_get_status` reports ready-to-send only.
    */
  lemma UartNeverBlocks(p: Peripherals, v: nat)
    requires PeripheralsOk(p)
    ensures UartCall(p, "uart_read", []) == Ok((p, 0))
    ensures UartCall(p, "uart_write", [v]).Ok?
    ensures UartCall(p, "uart_write", [v]).value.0.uart.data == v % 256
    ensures UartCall(p, "uart_get_status", []).value.1 == 1
  {
    assert Bitwise(OrOp, 1, 0, 32) == 1 by {
      BitwiseOne(31);
    }
  }

  lemma {:induction false} BitwiseOne(n: nat)
    ensures Bitwise(OrOp, 1, 0, n + 1) == 1
    decreases n
  {
    if n > 0 {
      BitwiseZero(n);
    }
  }

  lemma {:induction false} BitwiseZero(n: nat)
    ensures Bitwise(OrOp, 0, 0, n) == 0
    decreases n
  {
    if n > 0 {
      BitwiseZero(n - 1);
    }
  }

  /** A written pin reads back the low bit of the value written; a freshly set pin reads 0; an unset pin is an error. */
  lemma GpioWriteThenRead(p: Peripherals, pin: nat, direction: nat, mode: nat, v: nat)
    ensures Gpio(p, "gpio_set", [pin, direction, mode]).Ok?
    ensures var p1 := Gpio(p, "gpio_set", [pin, direction, mode]).value.0;
            && Gpio(p1, "gpio_read", [pin]) == Ok((p1, 0))
            && Gpio(p1, "gpio_write", [pin, v]).Ok?
            && Gpio(Gpio(p1, "gpio_write", [pin, v]).value.0, "gpio_read", [pin]).value.1 == v % 2
    ensures pin !in p.gpio ==> Gpio(p, "gpio_read", [pin]) == Err(NotConfigured(pin))
  {
  }

  /**
    * `timer_expired` reports 1 at most once per arming: after it has
    * reported 1, it reports 0 until `timer_start` or `timer_reset`; after
    * `timer_start` with a positive period it reports 1; a stopped timer never
    * reports 1.
    */
  lemma TimerExpiresOnce(p: Peripherals, period: nat)
    ensures TimerCall(p, "timer_expired", []).value.1 == 1 ==>
              TimerCall(TimerCall(p, "timer_expired", []).value.0, "timer_expired", []).value.1 == 0
    ensures var p1 := TimerCall(p, "timer_set_period", [period]).value.0;
            var p2 := TimerCall(p1, "timer_start", []).value.0;
            TimerCall(p2, "timer_expired", []).value.1 == (if period > 0 then 1 else 0)
    ensures var p1 := TimerCall(p, "timer_stop", []).value.0;
            TimerCall(p1, "timer_expired", []) == Ok((p1, 0))
  {
  }
}

=== FILE: interpreter.dfy ===
/**
  * The tree-walking `Interpreter` of interpreter.py.
  *
  * A `Machine` is the interpreter's mutable state: the scope chain of the
  * code running now, the 32 registers, the map from register variables to
  * register numbers, and the simulated peripherals. The function table is
  * fixed once the program is loaded and is passed alongside.
  *
  * Python runs a `while` loop or a recursion for as long as it takes; here
  * every loop iteration and every call of a program function spends one unit
  * of `fuel`, and a run that needs more ends in `OutOfFuel`.
  *
  * A `return` is Python's `ReturnException`: statements yield a `Flow`, and
  * `Returned` passes through every enclosing statement up to the function.
  * A block, a `for` statement and a call each run in a fresh scope pushed on
  * the caller's chain, so a callee sees its caller's variables, as in the
  * source, where the callee's environment has the caller's as parent.
  */
module Interpreter {
  import opened Results
  import opened Text
  import opened Words
  import opened Ast
  import opened Environment
  import opened Operators
  import opened Hardware

  datatype Machine = Machine(env: Env, registers: seq<nat>, registerMap: map<string, int>, io: Peripherals)

  type Functions = map<string, FunctionDef>

  datatype Flow = Normal | Returned(value: nat)

  type EvalResult = Result<(Machine, nat), Fault>
  type ExecResult = Result<(Machine, Flow), Fault>

  const RegisterCount: nat := 32

  /** What every reachable machine satisfies. */
  predicate MachineOk(m: Machine) {
    |m.env| > 0 && |m.registers| == RegisterCount && PeripheralsOk(m.io)
  }

  /** The machine `Interpreter.__init__` builds. */
  const InitialMachine: Machine :=
    Machine([EmptyScope], Zeros(RegisterCount), map[], InitialPeripherals)

  /** `def` order: a later definition of a name replaces an earlier one. */
  function FunctionTable(fs: seq<FunctionDef>): (t: Functions)
    ensures forall name | name in t :: t[name].name == name && t[name] in fs
  {
    if |fs| == 0 then map[]
    else
      var t := FunctionTable(fs[..|fs| - 1]);
      var last := fs[|fs| - 1];
      t[last.name := last]
  }

  /** Every definition's name is in the table, and it finds the last definition of that name. */
  lemma {:induction false} LastDefinitionWins(fs: seq<FunctionDef>, i: nat)
    requires i < |fs|
    ensures fs[i].name in FunctionTable(fs)
    ensures (forall j | i < j < |fs| :: fs[j].name != fs[i].name) ==> FunctionTable(fs)[fs[i].name] == fs[i]
    decreases |fs|
  {
    if i < |fs| - 1 {
      var init := fs[..|fs| - 1];
      assert init[i] == fs[i];
      LastDefinitionWins(init, i);
      if forall j | i < j < |fs| :: fs[j].name != fs[i].name {
        assert forall j | i < j < |init| :: init[j].name != init[i].name by {
          forall j | i < j < |init|
            ensures init[j].name != init[i].name
          {
            assert init[j] == fs[j];
          }
        }
      }
    }
  }

  // ---------------------------------------------------------------------
  // Registers and variables
  // ---------------------------------------------------------------------

  /** Python list indexing: a negative index counts from the end. */
  function PyIndex(n: int, len: nat): (r: Option<nat>)
    ensures r.Some? ==> r.value < len
    ensures r.Some? <==> -(len as int) <= n < len
  {
    if 0 <= n < len then Some(n) else if -(len as int) <= n < 0 then Some(len + n) else None
  }

  function ReadRegister(m: Machine, n: int): Result<nat, Fault> {
    match PyIndex(n, |m.registers|)
    case None => Err(Crashed("IndexError: list index out of range"))
    case Some(i) => Ok(Mask(m.registers[i]))
  }

  function WriteRegister(m: Machine, n: int, v: nat): (r: Result<Machine, Fault>)
    ensures r.Ok? ==> r.value == m.(registers := r.value.registers) && |r.value.registers| == |m.registers|
  {
    match PyIndex(n, |m.registers|)
    case None => Err(Crashed("IndexError: list assignment index out of range"))
    case Some(i) => Ok(m.(registers := m.registers[i := Mask(v)]))
  }

  /** The error `execute_statement` raises for a statement it has no case for. */
  function UnknownStatement(className: string): Fault {
    Raised("Unknown statement type: <class 'parser." + className + "'>")
  }

  /** Reading a variable: a register variable reads its register, any other its binding. */
  function ReadVar(m: Machine, name: string): (r: Result<nat, Fault>)
    ensures r.Ok? ==> r.value < TwoTo32
  {
    if name in m.registerMap then ReadRegister(m, m.registerMap[name])
    else
      match Get(m.env, name)
      case Err(msg) => Err(Raised(msg))
      case Ok(v) => Ok(Mask(v))
  }

  function Lift<T>(r: Result<T, string>): Result<T, Fault> {
    match r
    case Err(msg) => Err(Raised(msg))
    case Ok(v) => Ok(v)
  }

  /** `execute_assignment` once the value is known: the register first, then the binding. */
  function AssignVar(m: Machine, name: string, v: nat): (r: Result<Machine, Fault>)
    requires MachineOk(m)
    ensures r.Ok? ==> MachineOk(r.value) && |r.value.env| == |m.env|
  {
    var m1 :- if name !in m.registerMap then Ok(m)
              else if m.registerMap[name] == 31 then Err(Raised("Cannot write to register r31 (instruction pointer)"))
              else WriteRegister(m, m.registerMap[name], v);
    var env :- Lift(Assign(m1.env, name, v));
    Ok(m1.(env := env))
  }

  /** `execute_var_decl` once the value is known. */
  function DeclareVar(m: Machine, name: string, v: nat, isRegister: bool, registerNum: Option<int>): (r: Result<Machine, Fault>)
    requires MachineOk(m)
    ensures r.Ok? ==> MachineOk(r.value) && |r.value.env| == |m.env|
  {
    if !isRegister then Ok(m.(env := Declare(m.env, name, v)))
    else if registerNum.None? then Ok(m)
    else
      var m1 :- WriteRegister(m, registerNum.value, v);
      Ok(m1.(registerMap := m1.registerMap[name := registerNum.value], env := Declare(m1.env, name, v)))
  }

  /** `env.declare(param, arg & 0xFFFFFFFF)` for each parameter in turn. */
  function BindParams(env: Env, params: seq<string>, args: seq<nat>): (r: Env)
    requires |env| > 0 && |params| == |args|
    ensures |r| == |env| && r[1..] == env[1..]
    decreases |params|
  {
    if |params| == 0 then env
    else BindParams(Declare(env, params[0], Mask(args[0])), params[1..], args[1..])
  }

  /** The `x & 0xFFFFFFFF`-free values: `&x` of a variable is the one result the interpreter leaves unmasked. */
  predicate RawAddress(e: Expr) {
    e.AddressOf? && (e.target.Identifier? || (e.target.Dereference? && RawAddress(e.target.pointer)))
  }

  function Push(m: Machine): Machine {
    m.(env := [EmptyScope] + m.env)
  }

  function Pop(m: Machine): Machine
    requires |m.env| > 0
  {
    m.(env := m.env[1..])
  }

  // ---------------------------------------------------------------------
  // Evaluation and execution
  // ---------------------------------------------------------------------

  /** `evaluate_expression`. */
  function Eval(fns: Functions, fuel: nat, m: Machine, e: Expr): (r: EvalResult)
    requires MachineOk(m)
    ensures r.Ok? ==> MachineOk(r.value.0) && |r.value.0.env| == |m.env|
    ensures r.Ok? && !RawAddress(e) ==> r.value.1 < TwoTo32
    decreases fuel, Size(e), 0
  {
    match e
    case Literal(v) => Ok((m, Mask(v)))
    case Identifier(name) =>
      var v :- ReadVar(m, name);
      Ok((m, v))
    case ArrayAccess(name, index) => EvalLoad(fns, fuel, m, Some(name), index)
    case AddressOf(target) => EvalAddressOf(fns, fuel, m, target)
    case Dereference(pointer) => EvalLoad(fns, fuel, m, None, pointer)
    case BinaryOp(op, left, right) => EvalBinary(fns, fuel, m, op, left, right)
    case UnaryOp(op, operand) =>
      var (m1, x) :- Eval(fns, fuel, m, operand);
      var v :- Lift(UnOp(op, x));
      Ok((m1, v))
    case FunctionCall(name, args) => CallFunction(fns, fuel, m, name, args)
  }

  /** `arr[location]` when `target` names the array `arr`, else `*location`. */
  function EvalLoad(fns: Functions, fuel: nat, m: Machine, target: Option<string>, location: Expr): (r: EvalResult)
    requires MachineOk(m)
    ensures r.Ok? ==> MachineOk(r.value.0) && |r.value.0.env| == |m.env| && r.value.1 < TwoTo32
    decreases fuel, Size(location), 1
  {
    var (m1, loc) :- Eval(fns, fuel, m, location);
    var v :- Lift(if target.Some? then GetArrayElement(m1.env, target.value, loc) else GetValueAtAddress(m1.env, loc));
    Ok((m1, v))
  }

  /** `evaluate_binary_op`: both operands, left first, then the operator. */
  function EvalBinary(fns: Functions, fuel: nat, m: Machine, op: string, left: Expr, right: Expr): (r: EvalResult)
    requires MachineOk(m)
    ensures r.Ok? ==> MachineOk(r.value.0) && |r.value.0.env| == |m.env| && r.value.1 < TwoTo32
    decreases fuel, Size(left) + Size(right), 1
  {
    var (m1, l) :- Eval(fns, fuel, m, left);
    var (m2, r) :- Eval(fns, fuel, m1, right);
    var v :- Lift(BinOp(op, l, r));
    Ok((m2, v))
  }

  /** `evaluate_address_of`. */
  function EvalAddressOf(fns: Functions, fuel: nat, m: Machine, target: Expr): (r: EvalResult)
    requires MachineOk(m)
    ensures r.Ok? ==> MachineOk(r.value.0) && |r.value.0.env| == |m.env|
    ensures r.Ok? && !RawAddress(AddressOf(target)) ==> r.value.1 < TwoTo32
    decreases fuel, Size(target), 1
  {
    match target
    case Identifier(name) =>
      var (a, env) :- Lift(GetAddress(m.env, name));
      Ok((m.(env := env), a))
    case ArrayAccess(name, index) =>
      var (m1, i) :- Eval(fns, fuel, m, index);
      var (base, env) :- Lift(GetAddress(m1.env, name));
      Ok((m1.(env := env), Mask(base + i)))
    case Dereference(pointer) => Eval(fns, fuel, m, pointer)
    case _ => Err(Raised("Cannot take address of " + ClassName(target)))
  }

  /** Arguments, left to right. */
  function EvalArgs(fns: Functions, fuel: nat, m: Machine, args: seq<Expr>): (r: Result<(Machine, seq<nat>), Fault>)
    requires MachineOk(m)
    ensures r.Ok? ==> MachineOk(r.value.0) && |r.value.0.env| == |m.env| && |r.value.1| == |args|
    decreases fuel, SizeAll(args), 1
  {
    if |args| == 0 then Ok((m, []))
    else
      var (m1, v) :- Eval(fns, fuel, m, args[0]);
      var (m2, vs) :- EvalArgs(fns, fuel, m1, args[1..]);
      Ok((m2, [v] + vs))
  }

  /** `execute_function_call`: a hardware function, else a program function. */
  function CallFunction(fns: Functions, fuel: nat, m: Machine, name: string, args: seq<Expr>): (r: EvalResult)
    requires MachineOk(m)
    ensures r.Ok? ==> MachineOk(r.value.0) && |r.value.0.env| == |m.env| && r.value.1 < TwoTo32
    decreases fuel, SizeAll(args), 2
  {
    if name in HardwareFunctions then
      var (m1, vs) :- EvalArgs(fns, fuel, m, args);
      HardwareKeepsOk(m1.io, name, vs);
      var (io, v) :- CallHardware(m1.io, name, vs);
      Ok((m1.(io := io), v))
    else if name !in fns then Err(Raised("Undefined function: " + name))
    else
      var (m1, vs) :- EvalArgs(fns, fuel, m, args);
      if fuel == 0 then Err(OutOfFuel)
      else ExecuteFunction(fns, fuel - 1, m1, fns[name], vs)
  }

  /** `execute_function`: parameters in a new scope, then the body as a block. */
  function ExecuteFunction(fns: Functions, fuel: nat, m: Machine, f: FunctionDef, args: seq<nat>): (r: EvalResult)
    requires MachineOk(m)
    ensures r.Ok? ==> MachineOk(r.value.0) && |r.value.0.env| == |m.env| && r.value.1 < TwoTo32
    decreases fuel, StmtsSize(f.body) + 2, 0
  {
    if |args| != |f.params| then
      Err(Raised("Function '" + f.name + "' expects " + NatToString(|f.params|) + " arguments, got "
                 + NatToString(|args|)))
    else
      var m1 := m.(env := BindParams([EmptyScope] + m.env, f.params, args));
      var (m2, flow) :- ExecBlock(fns, fuel, m1, f.body);
      Ok((Pop(m2), if flow.Returned? then Mask(flow.value) else 0))
  }

  /** `execute_statement`. */
  function Exec(fns: Functions, fuel: nat, m: Machine, s: Stmt): (r: ExecResult)
    requires MachineOk(m)
    ensures r.Ok? ==> MachineOk(r.value.0) && |r.value.0.env| == |m.env|
    decreases fuel, StmtSize(s), 3
  {
    if s.IfStmt? || s.WhileStmt? || s.ForStmt? || s.Block? then ExecCompound(fns, fuel, m, s)
    else ExecSimple(fns, fuel, m, s)
  }

  /** The statements that contain no statement. */
  function ExecSimple(fns: Functions, fuel: nat, m: Machine, s: Stmt): (r: ExecResult)
    requires MachineOk(m)
    requires !(s.IfStmt? || s.WhileStmt? || s.ForStmt? || s.Block?)
    ensures r.Ok? ==> MachineOk(r.value.0) && |r.value.0.env| == |m.env|
    decreases fuel, StmtSize(s), 2
  {
    match s
    case VarDecl(name, init, _, isRegister, _, registerNum) =>
      ExecDecl(fns, fuel, m, name, init, isRegister, registerNum)
    case ArrayDecl(name, size, elements, _, _) => ExecArrayDecl(fns, fuel, m, name, size, elements)
    case PointerDecl(name, init, _, _) => ExecDecl(fns, fuel, m, name, init, false, None)
    case Assignment(name, value) => ExecAssign(fns, fuel, m, name, value)
    case ArrayAssignment(name, index, value) => ExecStore(fns, fuel, m, Some(name), index, value)
    case PointerAssignment(target, value) => ExecStore(fns, fuel, m, None, target, value)
    case Increment(name, _) => ExecStep(m, name, 1)
    case Decrement(name, _) => ExecStep(m, name, -1)
    case Return(result) => ExecReturn(fns, fuel, m, result)
    case FunctionCallStmt(call) => ExecCall(fns, fuel, m, call)
    case BreakStmt => Err(UnknownStatement("BreakStmt"))
    case ContinueStmt => Err(UnknownStatement("ContinueStmt"))
  }

  /** The statements that contain statements. */
  function ExecCompound(fns: Functions, fuel: nat, m: Machine, s: Stmt): (r: ExecResult)
    requires MachineOk(m)
    requires s.IfStmt? || s.WhileStmt? || s.ForStmt? || s.Block?
    ensures r.Ok? ==> MachineOk(r.value.0) && |r.value.0.env| == |m.env|
    decreases fuel, StmtSize(s), 2
  {
    match s
    case IfStmt(cond, thenS, elseS) => ExecIf(fns, fuel, m, cond, thenS, elseS)
    case WhileStmt(cond, body) => WhileLoop(fns, fuel, m, cond, body)
    case ForStmt(forInit, forCond, step, forBody) => ExecFor(fns, fuel, m, forInit, forCond, step, forBody)
    case Block(stmts) => ExecBlock(fns, fuel, m, stmts)
  }

  /** `execute_assignment`. */
  function ExecAssign(fns: Functions, fuel: nat, m: Machine, name: string, value: Expr): (r: ExecResult)
    requires MachineOk(m)
    ensures r.Ok? ==> MachineOk(r.value.0) && |r.value.0.env| == |m.env| && r.value.1 == Normal
    decreases fuel, Size(value), 1
  {
    var (m1, v) :- Eval(fns, fuel, m, value);
    var m2 :- AssignVar(m1, name, v);
    Ok((m2, Normal))
  }

  /** `execute_increment` and `execute_decrement`, as written: through the scope chain only. */
  function ExecStep(m: Machine, name: string, delta: int): (r: ExecResult)
    requires MachineOk(m)
    ensures r.Ok? ==> MachineOk(r.value.0) && |r.value.0.env| == |m.env| && r.value.1 == Normal
  {
    var m1 :- StepAsWritten(m, name, delta);
    Ok((m1, Normal))
  }

  /** `execute_return`: an absent value returns 0. */
  function ExecReturn(fns: Functions, fuel: nat, m: Machine, result: Option<Expr>): (r: ExecResult)
    requires MachineOk(m)
    ensures r.Ok? ==> MachineOk(r.value.0) && |r.value.0.env| == |m.env| && r.value.1.Returned?
    decreases fuel, OptSize(result), 2
  {
    var (m1, v) :- EvalOptional(fns, fuel, m, result);
    Ok((m1, Returned(v)))
  }

  /**
    * `execute_function_call`: the value is dropped. A call statement whose
    * expression is not a call (the parser builds one for `f(x) + 1;`) fails
    * where Python reads `call.name`.
    */
  function ExecCall(fns: Functions, fuel: nat, m: Machine, call: Expr): (r: ExecResult)
    requires MachineOk(m)
    ensures r.Ok? ==> MachineOk(r.value.0) && |r.value.0.env| == |m.env| && r.value.1 == Normal
    decreases fuel, Size(call), 1
  {
    if call.FunctionCall? then
      var (m1, _) :- CallFunction(fns, fuel, m, call.callee, call.args);
      Ok((m1, Normal))
    else Err(Crashed("AttributeError: '" + NodeName(call) + "' object has no attribute 'name'"))
  }

  /** `execute_var_decl` and `execute_pointer_decl`: an absent initializer declares 0. */
  function ExecDecl(fns: Functions, fuel: nat, m: Machine, name: string, init: Option<Expr>,
                    isRegister: bool, registerNum: Option<int>): (r: ExecResult)
    requires MachineOk(m)
    ensures r.Ok? ==> MachineOk(r.value.0) && |r.value.0.env| == |m.env| && r.value.1 == Normal
    decreases fuel, OptSize(init), 2
  {
    var (m1, v) :- EvalOptional(fns, fuel, m, init);
    var m2 :- DeclareVar(m1, name, v, isRegister, registerNum);
    Ok((m2, Normal))
  }

  /**
    * `a[location] = value` when `target` names the array `a`, else `*location = value`:
    * the index or address is evaluated before the value.
    */
  function ExecStore(fns: Functions, fuel: nat, m: Machine, target: Option<string>, location: Expr, value: Expr)
    : (r: ExecResult)
    requires MachineOk(m)
    ensures r.Ok? ==> MachineOk(r.value.0) && |r.value.0.env| == |m.env| && r.value.1 == Normal
    decreases fuel, Size(location) + Size(value), 1
  {
    var (m1, loc) :- Eval(fns, fuel, m, location);
    var (m2, v) :- Eval(fns, fuel, m1, value);
    var env :- Lift(if target.Some? then SetArrayElement(m2.env, target.value, loc, v)
                    else SetValueAtAddress(m2.env, loc, v));
    Ok((m2.(env := env), Normal))
  }

  /** `execute_if`: a non-zero condition runs the first branch. */
  function ExecIf(fns: Functions, fuel: nat, m: Machine, cond: Expr, thenS: Stmt, elseS: Option<Stmt>): (r: ExecResult)
    requires MachineOk(m)
    ensures r.Ok? ==> MachineOk(r.value.0) && |r.value.0.env| == |m.env|
    decreases fuel, Size(cond) + StmtSize(thenS) + OptStmtSize(elseS), 4
  {
    var (m1, c) :- Eval(fns, fuel, m, cond);
    if c != 0 then Exec(fns, fuel, m1, thenS)
    else if elseS.Some? then (assert OptStmtSize(elseS) == StmtSize(elseS.value); Exec(fns, fuel, m1, elseS.value))
    else Ok((m1, Normal))
  }

  /**
    * `execute_for`: a new scope; only a declaration or an assignment is run
    * as the initializer; then the loop.
    */
  function ExecFor(fns: Functions, fuel: nat, m: Machine, forInit: Option<Stmt>, forCond: Option<Expr>,
                   step: Option<Stmt>, forBody: Stmt): (r: ExecResult)
    requires MachineOk(m)
    ensures r.Ok? ==> MachineOk(r.value.0) && |r.value.0.env| == |m.env|
    decreases fuel, OptStmtSize(forInit) + OptSize(forCond) + OptStmtSize(step) + StmtSize(forBody), 5
  {
    var m1 := Push(m);
    var (m2, _) :- if forInit.Some? && (forInit.value.VarDecl? || forInit.value.Assignment?)
                   then (assert OptStmtSize(forInit) == StmtSize(forInit.value); Exec(fns, fuel, m1, forInit.value))
                   else Ok((m1, Normal));
    var (m3, flow) :- ForLoop(fns, fuel, m2, forCond, step, forBody);
    Ok((Pop(m3), flow))
  }

  /** An optional initializer or return value: absent means 0. */
  function EvalOptional(fns: Functions, fuel: nat, m: Machine, e: Option<Expr>): (r: EvalResult)
    requires MachineOk(m)
    ensures r.Ok? ==> MachineOk(r.value.0) && |r.value.0.env| == |m.env|
    decreases fuel, OptSize(e), 1
  {
    if e.None? then Ok((m, 0)) else Eval(fns, fuel, m, e.value)
  }

  /** `execute_array_decl`: the size must be a positive literal; initializers fill the first cells. */
  function ExecArrayDecl(fns: Functions, fuel: nat, m: Machine, name: string, size: Expr, elements: seq<Expr>): (r: ExecResult)
    requires MachineOk(m)
    ensures r.Ok? ==> MachineOk(r.value.0) && |r.value.0.env| == |m.env|
    decreases fuel, SizeAll(elements), 2
  {
    if !size.Literal? then Err(Raised("Array size must be a constant literal, got " + ClassName(size)))
    else if size.value <= 0 then Err(Raised("Array size must be positive, got " + IntToString(size.value)))
    else
      var (_, env) := DeclareArray(m.env, name, size.value).value;
      if |elements| > size.value then
        Err(Raised("Too many initializers for array " + name + ": got " + NatToString(|elements|)
                   + ", expected at most " + IntToString(size.value)))
      else
        var m1 :- InitArray(fns, fuel, m.(env := env), name, elements, 0);
        Ok((m1, Normal))
  }

  /** Evaluate the initializers in order, storing the `k`-th at index `start + k`. */
  function InitArray(fns: Functions, fuel: nat, m: Machine, name: string, elements: seq<Expr>, start: nat)
    : (r: Result<Machine, Fault>)
    requires MachineOk(m)
    ensures r.Ok? ==> MachineOk(r.value) && |r.value.env| == |m.env|
    decreases fuel, SizeAll(elements), 1
  {
    if |elements| == 0 then Ok(m)
    else
      var (m1, v) :- Eval(fns, fuel, m, elements[0]);
      var env :- Lift(SetArrayElement(m1.env, name, start, v));
      InitArray(fns, fuel, m1.(env := env), name, elements[1..], start + 1)
  }

  /** `execute_block`: the statements in a new scope, stopping at a `return`. */
  function ExecBlock(fns: Functions, fuel: nat, m: Machine, stmts: seq<Stmt>): (r: ExecResult)
    requires MachineOk(m)
    ensures r.Ok? ==> MachineOk(r.value.0) && |r.value.0.env| == |m.env|
    decreases fuel, StmtsSize(stmts), 5
  {
    var (m1, flow) :- ExecSeq(fns, fuel, Push(m), stmts);
    Ok((Pop(m1), flow))
  }

  function ExecSeq(fns: Functions, fuel: nat, m: Machine, stmts: seq<Stmt>): (r: ExecResult)
    requires MachineOk(m)
    ensures r.Ok? ==> MachineOk(r.value.0) && |r.value.0.env| == |m.env|
    decreases fuel, StmtsSize(stmts), 4
  {
    if |stmts| == 0 then Ok((m, Normal))
    else
      var (m1, flow) :- Exec(fns, fuel, m, stmts[0]);
      if flow.Returned? then Ok((m1, flow)) else ExecSeq(fns, fuel, m1, stmts[1..])
  }

  /** `execute_while`: each further iteration spends one unit of fuel. */
  function WhileLoop(fns: Functions, fuel: nat, m: Machine, cond: Expr, body: Stmt): (r: ExecResult)
    requires MachineOk(m)
    ensures r.Ok? ==> MachineOk(r.value.0) && |r.value.0.env| == |m.env|
    decreases fuel, Size(cond) + StmtSize(body), 4
  {
    var (m1, c) :- Eval(fns, fuel, m, cond);
    if c == 0 then Ok((m1, Normal))
    else
      var (m2, flow) :- Exec(fns, fuel, m1, body);
      if flow.Returned? then Ok((m2, flow))
      else if fuel == 0 then Err(OutOfFuel)
      else WhileLoop(fns, fuel - 1, m2, cond, body)
  }

  /** The loop of `execute_for`: an absent condition never stops it. */
  function ForLoop(fns: Functions, fuel: nat, m: Machine, cond: Option<Expr>, step: Option<Stmt>, body: Stmt): (r: ExecResult)
    requires MachineOk(m)
    ensures r.Ok? ==> MachineOk(r.value.0) && |r.value.0.env| == |m.env|
    decreases fuel, OptSize(cond) + OptStmtSize(step) + StmtSize(body), 4
  {
    var (m1, c) :- EvalOptional(fns, fuel, m, cond);
    if cond.Some? && c == 0 then Ok((m1, Normal))
    else
      var (m2, flow) :- Exec(fns, fuel, m1, body);
      if flow.Returned? then Ok((m2, flow))
      else
        var (m3, flow2) :- if step.Some? then Exec(fns, fuel, m2, step.value) else Ok((m2, Normal));
        if flow2.Returned? then Ok((m3, flow2))
        else if fuel == 0 then Err(OutOfFuel)
        else ForLoop(fns, fuel - 1, m3, cond, step, body)
  }

  /**
    * `x++` and `x--` (`delta` is 1 or -1) as the language means them: read
    * the variable as an expression would, and write it back as an assignment
    * would, so a register variable's register moves too.
    */
  function Step(m: Machine, name: string, delta: int): (r: Result<Machine, Fault>)
    requires MachineOk(m)
    ensures r.Ok? ==> MachineOk(r.value) && |r.value.env| == |m.env|
  {
    var v :- ReadVar(m, name);
    AssignVar(m, name, Mask(v + delta))
  }

  /**
    * `x++` and `x--` exactly as interpreter.py runs them: the binding is read
    * and written through the scope chain only, so a register variable's
    * register keeps its old value (see `IncrementAsWrittenMissesRegister`).
    */
  function StepAsWritten(m: Machine, name: string, delta: int): (r: Result<Machine, Fault>)
    ensures r.Ok? ==> r.value == m.(env := r.value.env) && |r.value.env| == |m.env|
  {
    var v :- Lift(Get(m.env, name));
    var env :- Lift(Assign(m.env, name, Mask(v + delta)));
    Ok(m.(env := env))
  }

  // ---------------------------------------------------------------------
  // Running a program
  // ---------------------------------------------------------------------

  /**
    * `interpret` runs `execute_var_decl` on each global; the parser may put an
    * array or pointer declaration there too, and `execute_var_decl` treats it
    * by its fields: an initializer list that is not empty is evaluated as an
    * expression and rejected, and the missing `register_num` of a register
    * array or pointer is an `AttributeError`.
    */
  function ExecGlobal(fns: Functions, fuel: nat, m: Machine, d: Stmt): (r: Result<Machine, Fault>)
    requires MachineOk(m)
    ensures r.Ok? ==> MachineOk(r.value) && |r.value.env| == |m.env|
  {
    match d
    case VarDecl(name, init, _, isRegister, _, registerNum) =>
      var (m1, _) :- ExecDecl(fns, fuel, m, name, init, isRegister, registerNum);
      Ok(m1)
    case PointerDecl(name, init, isRegister, _) =>
      var (m1, v) :- EvalOptional(fns, fuel, m, init);
      GlobalPointer(m1, name, v, isRegister)
    case ArrayDecl(name, _, elements, isRegister, _) => GlobalArray(m, name, elements, isRegister)
    case _ => Err(Crashed("AttributeError: a global that is not a declaration"))
  }

  function GlobalPointer(m: Machine, name: string, v: nat, isRegister: bool): (r: Result<Machine, Fault>)
    requires MachineOk(m)
    ensures r.Ok? ==> MachineOk(r.value) && |r.value.env| == |m.env|
  {
    if isRegister then Err(Crashed("AttributeError: 'PointerDecl' object has no attribute 'register_num'"))
    else Ok(m.(env := Declare(m.env, name, v)))
  }

  function GlobalArray(m: Machine, name: string, elements: seq<Expr>, isRegister: bool): (r: Result<Machine, Fault>)
    requires MachineOk(m)
    ensures r.Ok? ==> MachineOk(r.value) && |r.value.env| == |m.env|
  {
    if |elements| > 0 then Err(Raised("Unknown expression type: <class 'list'>"))
    else if isRegister then Err(Crashed("AttributeError: 'ArrayDecl' object has no attribute 'register_num'"))
    else Ok(m.(env := Declare(m.env, name, 0)))
  }

  function ExecGlobals(fns: Functions, fuel: nat, m: Machine, globals: seq<Stmt>): (r: Result<Machine, Fault>)
    requires MachineOk(m)
    ensures r.Ok? ==> MachineOk(r.value) && |r.value.env| == |m.env|
    decreases |globals|
  {
    if |globals| == 0 then Ok(m)
    else
      var m1 :- ExecGlobal(fns, fuel, m, globals[0]);
      ExecGlobals(fns, fuel, m1, globals[1..])
  }

  const NoMain: Fault := Raised("Program must have a 'main' function")
  const MainWithParams: Fault := Raised("'main' function must take no parameters")

  /** `Interpreter(program).interpret()`: the globals, then `main()` in the global scope. */
  function Interpret(p: Program, fuel: nat): (r: Result<nat, Fault>)
    ensures r.Ok? ==> r.value < TwoTo32
  {
    var fns := FunctionTable(p.functions);
    var m :- ExecGlobals(fns, fuel, InitialMachine, p.globals);
    if "main" !in fns then Err(NoMain)
    else if |fns["main"].params| != 0 then Err(MainWithParams)
    else
      var (_, v) :- ExecuteFunction(fns, fuel, m, fns["main"], []);
      Ok(v)
  }
}

=== FILE: interpreter_flow.dfy ===
/**
  * How the interpreter's compound statements run, one step at a time:
  * which branch an `if` takes, how `while` and `for` unroll, what a `for`
  * does with its initializer and scope, and what an array declaration
  * leaves in the new array.
  */
module InterpreterFlow {
  import opened Results
  import opened Text
  import opened Words
  import opened Ast
  import opened Environment
  import opened Hardware
  import opened Interpreter

  /**
    * `if`: the condition is evaluated first and its error is the statement's;
    * a non-zero value runs the then-branch, zero runs the else-branch, or
    * nothing when there is none; the branch runs in the machine the
    * condition left.
    */
  lemma IfChoosesBranch(fns: Functions, fuel: nat, m: Machine, cond: Expr, thenS: Stmt, elseS: Option<Stmt>)
    requires MachineOk(m)
    ensures var e := Eval(fns, fuel, m, cond);
            e.Err? ==> Exec(fns, fuel, m, IfStmt(cond, thenS, elseS)) == Err(e.error)
    ensures var e := Eval(fns, fuel, m, cond);
            e.Ok? && e.value.1 != 0 ==> Exec(fns, fuel, m, IfStmt(cond, thenS, elseS)) == Exec(fns, fuel, e.value.0, thenS)
    ensures var e := Eval(fns, fuel, m, cond);
            e.Ok? && e.value.1 == 0 && elseS.Some? ==>
              Exec(fns, fuel, m, IfStmt(cond, thenS, elseS)) == Exec(fns, fuel, e.value.0, elseS.value)
    ensures var e := Eval(fns, fuel, m, cond);
            e.Ok? && e.value.1 == 0 && elseS.None? ==> Exec(fns, fuel, m, IfStmt(cond, thenS, elseS)) == Ok((e.value.0, Normal))
  {
    hide Eval, EvalLoad, EvalBinary, EvalAddressOf, EvalArgs, CallFunction, ExecuteFunction, ExecSimple;
    hide ExecAssign, ExecStep, ExecReturn, ExecCall, ExecDecl, ExecStore, ExecFor, EvalOptional, ExecArrayDecl;
    hide InitArray, ExecBlock, ExecSeq, WhileLoop, ForLoop, Step, StepAsWritten, ReadVar, AssignVar;
    hide DeclareVar, BindParams, ReadRegister, WriteRegister, RawAddress, CallHardware, Get, Assign, Declare;
    hide DeclareArray, GetArrayElement, SetArrayElement, GetAddress, GetValueAtAddress, SetValueAtAddress;
    hide ClassName, IntToString, NatToString;
    assert Exec(fns, fuel, m, IfStmt(cond, thenS, elseS)) == ExecIf(fns, fuel, m, cond, thenS, elseS);
    hide Exec, ExecCompound, ExecIf;
  }

  /**
    * `while` unrolled once: a zero condition ends it where the condition
    * left the machine; otherwise the body runs, a `return` in it ends the
    * loop with that return, and a body that completes normally is followed
    * by the whole loop again on one unit less of fuel (none left: out of
    * fuel).
    */
  lemma WhileUnrolls(fns: Functions, fuel: nat, m: Machine, cond: Expr, body: Stmt)
    requires MachineOk(m)
    ensures Exec(fns, fuel, m, WhileStmt(cond, body)) == WhileLoop(fns, fuel, m, cond, body)
    ensures var e := Eval(fns, fuel, m, cond);
            && (e.Err? ==> WhileLoop(fns, fuel, m, cond, body) == Err(e.error))
            && (e.Ok? && e.value.1 == 0 ==> WhileLoop(fns, fuel, m, cond, body) == Ok((e.value.0, Normal)))
    ensures var e := Eval(fns, fuel, m, cond);
            e.Ok? && e.value.1 != 0 ==>
              var b := Exec(fns, fuel, e.value.0, body);
              && (b.Err? ==> WhileLoop(fns, fuel, m, cond, body) == Err(b.error))
              && (b.Ok? && b.value.1.Returned? ==> WhileLoop(fns, fuel, m, cond, body) == b)
              && (b.Ok? && b.value.1 == Normal ==>
                    WhileLoop(fns, fuel, m, cond, body)
                    == if fuel == 0 then Err(OutOfFuel) else WhileLoop(fns, fuel - 1, b.value.0, cond, body))
  {
    hide Eval, EvalLoad, EvalBinary, EvalAddressOf, EvalArgs, CallFunction, ExecuteFunction, ExecSimple;
    hide ExecAssign, ExecStep, ExecReturn, ExecCall, ExecDecl, ExecStore, ExecIf, ExecFor, EvalOptional;
    hide ExecArrayDecl, InitArray, ExecBlock, ExecSeq, ForLoop, Step, StepAsWritten, ReadVar, AssignVar;
    hide DeclareVar, BindParams, ReadRegister, WriteRegister, RawAddress, CallHardware, Get, Assign, Declare;
    hide DeclareArray, GetArrayElement, SetArrayElement, GetAddress, GetValueAtAddress, SetValueAtAddress;
    hide ClassName, IntToString, NatToString;
    assert Exec(fns, fuel, m, WhileStmt(cond, body)) == WhileLoop(fns, fuel, m, cond, body);
    hide Exec, ExecCompound;
  }

  /**
    * The loop of `for` unrolled once, up to its body: an error in the
    * condition is the loop's, and a present condition that is zero ends it
    * where the condition left the machine. An absent condition never ends it.
    */
  lemma ForConditionEnds(fns: Functions, fuel: nat, m: Machine, cond: Option<Expr>, step: Option<Stmt>, body: Stmt)
    requires MachineOk(m)
    ensures var e := EvalOptional(fns, fuel, m, cond);
            && (e.Err? ==> ForLoop(fns, fuel, m, cond, step, body) == Err(e.error))
            && (e.Ok? && cond.Some? && e.value.1 == 0 ==> ForLoop(fns, fuel, m, cond, step, body) == Ok((e.value.0, Normal)))
  {
    hide Eval, EvalLoad, EvalBinary, EvalAddressOf, EvalArgs, CallFunction, ExecuteFunction, Exec, ExecSimple;
    hide ExecCompound, ExecAssign, ExecStep, ExecReturn, ExecCall, ExecDecl, ExecStore, ExecIf, ExecFor;
    hide EvalOptional, ExecArrayDecl, InitArray, ExecBlock, ExecSeq, WhileLoop, Step, StepAsWritten, ReadVar;
    hide AssignVar, DeclareVar, BindParams, ReadRegister, WriteRegister, RawAddress, CallHardware, Get, Assign;
    hide Declare, DeclareArray, GetArrayElement, SetArrayElement, GetAddress, GetValueAtAddress;
    hide SetValueAtAddress, ClassName, IntToString, NatToString;
    hide ForStepThenLoop;
  }

  /**
    * When the condition lets a `for` iteration run, the body runs in the
    * machine the condition left; its error or `return` ends the loop, and
    * when it completes normally the step and the next iteration follow.
    */
  lemma ForBodyRuns(fns: Functions, fuel: nat, m: Machine, cond: Option<Expr>, step: Option<Stmt>, body: Stmt)
    requires MachineOk(m)
    ensures var e := EvalOptional(fns, fuel, m, cond);
            e.Ok? && (cond.None? || e.value.1 != 0) ==>
              var b := Exec(fns, fuel, e.value.0, body);
              && (b.Err? ==> ForLoop(fns, fuel, m, cond, step, body) == Err(b.error))
              && (b.Ok? && b.value.1.Returned? ==> ForLoop(fns, fuel, m, cond, step, body) == b)
              && (b.Ok? && b.value.1 == Normal ==>
                    ForLoop(fns, fuel, m, cond, step, body) == ForStepThenLoop(fns, fuel, b.value.0, cond, step, body))
  {
    hide Eval, Exec, EvalOptional, ExecSimple, ExecCompound, ExecIf, ExecFor, WhileLoop, ExecBlock, ExecSeq;
    hide CallFunction, ExecuteFunction, EvalArgs, EvalBinary, EvalLoad, ExecArrayDecl, InitArray, ExecDecl;
    hide ForLoop, ForStepThenLoop;
    var e := EvalOptional(fns, fuel, m, cond);
    if e.Ok? && (cond.None? || e.value.1 != 0) {
      var b := Exec(fns, fuel, e.value.0, body);
      if b.Err? || b.value.1.Returned? {
        ForBodyStops(fns, fuel, m, cond, step, body);
      } else {
        ForBodyCompletes(fns, fuel, m, cond, step, body);
      }
    }
  }

  /** A `for` body that fails or returns ends the loop with that outcome. */
  lemma ForBodyStops(fns: Functions, fuel: nat, m: Machine, cond: Option<Expr>, step: Option<Stmt>, body: Stmt)
    requires MachineOk(m)
    requires var e := EvalOptional(fns, fuel, m, cond);
             e.Ok? && (cond.None? || e.value.1 != 0)
    ensures var b := Exec(fns, fuel, EvalOptional(fns, fuel, m, cond).value.0, body);
            && (b.Err? ==> ForLoop(fns, fuel, m, cond, step, body) == Err(b.error))
            && (b.Ok? && b.value.1.Returned? ==> ForLoop(fns, fuel, m, cond, step, body) == b)
  {
    hide Eval, Exec, EvalOptional, ExecSimple, ExecCompound, ExecIf, ExecFor, WhileLoop, ExecBlock, ExecSeq;
    hide CallFunction, ExecuteFunction, EvalArgs, EvalBinary, EvalLoad, ExecArrayDecl, InitArray, ExecDecl;
  }

  /** A `for` body that completes normally hands over to the step and the next iteration. */
  lemma ForBodyCompletes(fns: Functions, fuel: nat, m: Machine, cond: Option<Expr>, step: Option<Stmt>, body: Stmt)
    requires MachineOk(m)
    requires var e := EvalOptional(fns, fuel, m, cond);
             e.Ok? && (cond.None? || e.value.1 != 0)
    ensures var b := Exec(fns, fuel, EvalOptional(fns, fuel, m, cond).value.0, body);
            b.Ok? && b.value.1 == Normal ==>
              ForLoop(fns, fuel, m, cond, step, body) == ForStepThenLoop(fns, fuel, b.value.0, cond, step, body)
  {
    hide Eval, Exec, EvalOptional, ExecSimple, ExecCompound, ExecIf, ExecFor, WhileLoop, ExecBlock, ExecSeq;
    hide CallFunction, ExecuteFunction, EvalArgs, EvalBinary, EvalLoad, ExecArrayDecl, InitArray, ExecDecl;
    hide ForStepThenLoop;
  }

  /**
    * What follows a `for` body that completed normally: the step, if any
    * (a `return` there ends the loop), then the whole loop again on one unit
    * less of fuel, or out of fuel when none is left.
    */
  function ForStepThenLoop(fns: Functions, fuel: nat, m: Machine, cond: Option<Expr>, step: Option<Stmt>, body: Stmt): (r: ExecResult)
    requires MachineOk(m)
    ensures var t := if step.Some? then Exec(fns, fuel, m, step.value) else Ok((m, Normal));
            && (t.Err? ==> r == Err(t.error))
            && (t.Ok? && t.value.1.Returned? ==> r == t)
            && (t.Ok? && t.value.1 == Normal ==> r == if fuel == 0 then Err(OutOfFuel) else ForLoop(fns, fuel - 1, t.value.0, cond, step, body))
  {
    var t := if step.Some? then Exec(fns, fuel, m, step.value) else Ok((m, Normal));
    if t.Err? then Err(t.error)
    else if t.value.1.Returned? then t
    else if fuel == 0 then Err(OutOfFuel)
    else ForLoop(fns, fuel - 1, t.value.0, cond, step, body)
  }

  /** The scope a `for` opens and the initializer run in it: only a declaration or an assignment is run. */
  function ForInitRun(fns: Functions, fuel: nat, m: Machine, init: Option<Stmt>): (r: ExecResult)
    requires MachineOk(m)
    ensures r.Ok? ==> MachineOk(r.value.0) && |r.value.0.env| == |m.env| + 1
    ensures init.None? || !(init.value.VarDecl? || init.value.Assignment?) ==> r == Ok((Push(m), Normal))
    ensures init.Some? && (init.value.VarDecl? || init.value.Assignment?) ==> r == Exec(fns, fuel, Push(m), init.value)
  {
    if init.Some? && (init.value.VarDecl? || init.value.Assignment?) then Exec(fns, fuel, Push(m), init.value)
    else Ok((Push(m), Normal))
  }

  /**
    * `for` as a statement: a new scope, the initializer run in it only when
    * it is a declaration or an assignment, then the loop, and the scope
    * dropped again on the way out.
    */
  lemma ForStatement(fns: Functions, fuel: nat, m: Machine, init: Option<Stmt>, cond: Option<Expr>, step: Option<Stmt>, body: Stmt)
    requires MachineOk(m)
    ensures ForInitRun(fns, fuel, m, init).Err? ==>
              Exec(fns, fuel, m, ForStmt(init, cond, step, body)) == Err(ForInitRun(fns, fuel, m, init).error)
    ensures ForInitRun(fns, fuel, m, init).Ok? ==>
              var l := ForLoop(fns, fuel, ForInitRun(fns, fuel, m, init).value.0, cond, step, body);
              && (l.Err? ==> Exec(fns, fuel, m, ForStmt(init, cond, step, body)) == Err(l.error))
              && (l.Ok? ==> Exec(fns, fuel, m, ForStmt(init, cond, step, body)) == Ok((Pop(l.value.0), l.value.1)))
  {
    hide Eval, EvalLoad, EvalBinary, EvalAddressOf, EvalArgs, CallFunction, ExecuteFunction, ExecSimple;
    hide ExecAssign, ExecStep, ExecReturn, ExecCall, ExecDecl, ExecStore, ExecIf, EvalOptional, ExecArrayDecl;
    hide InitArray, ExecBlock, ExecSeq, WhileLoop, ForLoop, Step, StepAsWritten, ReadVar, AssignVar;
    hide DeclareVar, BindParams, ReadRegister, WriteRegister, RawAddress, Get, Assign, Declare, DeclareArray;
    hide GetArrayElement, SetArrayElement, GetAddress, ClassName, IntToString, NatToString, Push, Lift;
    hide PyIndex, Zeros, Mask;
    assert Exec(fns, fuel, m, ForStmt(init, cond, step, body)) == ExecCompound(fns, fuel, m, ForStmt(init, cond, step, body));
    assert ExecCompound(fns, fuel, m, ForStmt(init, cond, step, body)) == ExecFor(fns, fuel, m, init, cond, step, body);
    hide Exec, ExecCompound, ForLoop;
    var i := ForInitRun(fns, fuel, m, init);
    if i.Ok? {
      var l := ForLoop(fns, fuel, i.value.0, cond, step, body);
      assert ExecFor(fns, fuel, m, init, cond, step, body) == if l.Err? then Err(l.error) else Ok((Pop(l.value.0), l.value.1));
    }
  }

  /** Any initializer other than a declaration or an assignment is skipped: the loop runs as if there were none. */
  lemma ForIgnoresOtherInit(fns: Functions, fuel: nat, m: Machine, init: Stmt, cond: Option<Expr>, step: Option<Stmt>, body: Stmt)
    requires MachineOk(m)
    requires !init.VarDecl? && !init.Assignment?
    ensures Exec(fns, fuel, m, ForStmt(Some(init), cond, step, body)) == Exec(fns, fuel, m, ForStmt(None, cond, step, body))
  {
    hide Eval, EvalLoad, EvalBinary, EvalAddressOf, EvalArgs, CallFunction, ExecuteFunction, Exec, ExecSimple;
    hide ExecCompound, ExecAssign, ExecStep, ExecReturn, ExecCall, ExecDecl, ExecStore, ExecIf, ExecFor;
    hide EvalOptional, ExecArrayDecl, InitArray, ExecBlock, ExecSeq, WhileLoop, ForLoop, Step, StepAsWritten;
    hide ReadVar, AssignVar, DeclareVar, BindParams, ReadRegister, WriteRegister, RawAddress, Get, Assign;
    hide Declare, DeclareArray, GetArrayElement, SetArrayElement, GetAddress, ClassName, IntToString;
    hide NatToString, Push, Pop, Lift, PyIndex, Zeros, Mask;
    ForStatement(fns, fuel, m, Some(init), cond, step, body);
    ForStatement(fns, fuel, m, None, cond, step, body);
    hide Exec, ForLoop;
  }

  // ---------------------------------------------------------------------
  // Arrays
  // ---------------------------------------------------------------------

  /**
    * An array declaration fails, in this order, on a size that is not a
    * literal, on a size that is not positive, and on more initializers than
    * cells, each with its own message.
    */
  lemma ArrayDeclErrors(fns: Functions, fuel: nat, m: Machine, name: string, size: Expr, elements: seq<Expr>,
                        isRegister: bool, isVolatile: bool)
    requires MachineOk(m)
    ensures var s := ArrayDecl(name, size, elements, isRegister, isVolatile);
            && (!size.Literal? ==> Exec(fns, fuel, m, s) == Err(Raised("Array size must be a constant literal, got " + ClassName(size))))
            && (size.Literal? && size.value <= 0 ==>
                  Exec(fns, fuel, m, s) == Err(Raised("Array size must be positive, got " + IntToString(size.value))))
            && (size.Literal? && 0 < size.value < |elements| ==>
                  Exec(fns, fuel, m, s) == Err(Raised("Too many initializers for array " + name + ": got " + NatToString(|elements|)
                                                      + ", expected at most " + IntToString(size.value))))
  {
    hide Eval, EvalLoad, EvalBinary, EvalAddressOf, EvalArgs, CallFunction, ExecuteFunction, ExecCompound;
    hide ExecAssign, ExecStep, ExecReturn, ExecCall, ExecDecl, ExecStore, ExecIf, ExecFor, EvalOptional;
    hide InitArray, ExecBlock, ExecSeq, WhileLoop, ForLoop, Step, StepAsWritten, ReadVar, AssignVar;
    hide DeclareVar, BindParams, ReadRegister, WriteRegister, RawAddress, Get, Assign, Declare, DeclareArray;
    hide GetArrayElement, SetArrayElement, GetAddress, ClassName, IntToString, NatToString, Push, Pop, Lift;
    hide Zeros, Mask;
    var s := ArrayDecl(name, size, elements, isRegister, isVolatile);
    assert Exec(fns, fuel, m, s) == ExecSimple(fns, fuel, m, s);
    assert ExecSimple(fns, fuel, m, s) == ExecArrayDecl(fns, fuel, m, name, size, elements);
    hide Exec, ExecSimple, InitArray;
  }

  /** The value a literal initializer stores: the masked literal; any other initializer is not covered here. */
  function LiteralWord(e: Expr): nat {
    if e.Literal? then Mask(e.value) else 0
  }

  /** `after` is `before` with the cells from `start` on overwritten by the initializers' literal values. */
  ghost predicate Filled(before: seq<nat>, start: nat, elements: seq<Expr>, after: seq<nat>) {
    && |after| == |before|
    && forall i | 0 <= i < |before| ::
         after[i] == if start <= i < start + |elements| then LiteralWord(elements[i - start]) else before[i]
  }

  /**
    * Storing literal initializers from cell `start` of an array in the
    * innermost scope: the run succeeds when they fit, writes each masked
    * literal to its cell, and changes no other cell and no outer scope.
    */
  lemma {:induction false} InitLiterals(fns: Functions, fuel: nat, m: Machine, name: string, elements: seq<Expr>, start: nat)
    requires MachineOk(m) && name in m.env[0].arrays
    requires start + |elements| <= |m.env[0].arrays[name]|
    requires forall i | 0 <= i < |elements| :: elements[i].Literal?
    ensures var r := InitArray(fns, fuel, m, name, elements, start);
            && r.Ok? && name in r.value.env[0].arrays && r.value.env[1..] == m.env[1..]
            && Filled(m.env[0].arrays[name], start, elements, r.value.env[0].arrays[name])
    decreases |elements|
  {
    hide EvalLoad, EvalBinary, EvalAddressOf, EvalArgs, CallFunction, ExecuteFunction, Exec, ExecSimple;
    hide ExecCompound, ExecAssign, ExecStep, ExecReturn, ExecCall, ExecDecl, ExecStore, ExecIf, ExecFor;
    hide EvalOptional, ExecArrayDecl, ExecBlock, ExecSeq, WhileLoop, ForLoop, Step, StepAsWritten, ReadVar;
    hide AssignVar, DeclareVar, BindParams, ReadRegister, WriteRegister, RawAddress, Get, Assign, Declare;
    hide DeclareArray, GetArrayElement, GetAddress, ClassName, IntToString, NatToString, Push, Pop, PyIndex;
    hide Zeros;
    var arr: seq<nat> := m.env[0].arrays[name];
    if |elements| == 0 {
    } else {
      var v: nat := Mask(elements[0].value);
      assert Eval(fns, fuel, m, elements[0]) == Ok((m, v));
      var w: nat := Mask(v);
      var arr1: seq<nat> := arr[start := w];
      var env1 := [m.env[0].(arrays := m.env[0].arrays[name := arr1])] + m.env[1..];
      assert SetArrayElement(m.env, name, start, v) == Ok(env1);
      var m1 := m.(env := env1);
      assert InitArray(fns, fuel, m, name, elements, start) == InitArray(fns, fuel, m1, name, elements[1..], start + 1);
      InitLiterals(fns, fuel, m1, name, elements[1..], start + 1);
      var after := InitArray(fns, fuel, m1, name, elements[1..], start + 1).value.env[0].arrays[name];
      forall i | 0 <= i < |arr|
        ensures after[i] == if start <= i < start + |elements| then LiteralWord(elements[i - start]) else arr[i]
      {
        if start + 1 <= i < start + |elements| {
          assert elements[1..][i - (start + 1)] == elements[i - start];
        }
      }
    }
  }

  /**
    * An array declared with a positive literal size and literal
    * initializers that fit: the statement completes normally, the first
    * cells hold the masked initializers, the rest hold 0, and every index
    * outside the size is out of bounds.
    */
  lemma ArrayDeclContents(fns: Functions, fuel: nat, m: Machine, name: string, n: int, elements: seq<Expr>,
                          isRegister: bool, isVolatile: bool, index: int)
    requires MachineOk(m)
    requires 0 < n && |elements| <= n
    requires forall i | 0 <= i < |elements| :: elements[i].Literal?
    ensures var r := Exec(fns, fuel, m, ArrayDecl(name, Literal(n), elements, isRegister, isVolatile));
            && r.Ok? && r.value.1 == Normal
            && GetArrayElement(r.value.0.env, name, index)
               == if 0 <= index < |elements| then Ok(Mask(elements[index].value))
                  else if |elements| <= index < n then Ok(0)
                  else Err(OutOfBounds(name, index, n))
  {
    hide Eval, EvalLoad, EvalBinary, EvalAddressOf, EvalArgs, CallFunction, ExecuteFunction, ExecCompound;
    hide ExecAssign, ExecStep, ExecReturn, ExecCall, ExecDecl, ExecStore, ExecIf, ExecFor, EvalOptional;
    hide InitArray, ExecBlock, ExecSeq, WhileLoop, ForLoop, Step, StepAsWritten, ReadVar, AssignVar;
    hide DeclareVar, BindParams, ReadRegister, WriteRegister, RawAddress, Get, Assign, Declare;
    hide SetArrayElement, GetAddress, ClassName, IntToString, NatToString, Push, Pop, Lift;
    var s := ArrayDecl(name, Literal(n), elements, isRegister, isVolatile);
    assert Exec(fns, fuel, m, s) == ExecArrayDecl(fns, fuel, m, name, Literal(n), elements);
    var (_, env) := DeclareArray(m.env, name, n).value;
    var m0 := m.(env := env);
    assert env[0].arrays[name] == Zeros(n);
    InitLiterals(fns, fuel, m0, name, elements, 0);
    hide Exec, InitArray;
  }
}

=== FILE: interpreter_props.dfy ===
/**
  * What the interpreter promises its programs: reads see the last write,
  * `return` ends a statement list, block declarations vanish with their
  * block, calls bind their arguments, hardware names win over program
  * functions, `main` is found and called the way `interpret` says, and a
  * loop that never ends runs out of fuel.
  */
module InterpreterProperties {
  import opened Results
  import opened Text
  import opened Words
  import opened Ast
  import opened Environment
  import opened Operators
  import opened Hardware
  import opened Interpreter

  // ---------------------------------------------------------------------
  // Variables and registers
  // ---------------------------------------------------------------------

  /**
    * An assignment fails exactly when the variable is unbound, or is mapped
    * to r31 or to a register number out of range; once it succeeds, reading
    * the variable gives the masked value, whether it lives in a register or
    * in a scope.
    */
  lemma AssignThenRead(m: Machine, name: string, v: nat)
    requires MachineOk(m)
    ensures AssignVar(m, name, v).Err? <==>
              || (name in m.registerMap
                  && (m.registerMap[name] == 31 || PyIndex(m.registerMap[name], RegisterCount).None?))
              || Get(m.env, name).Err?
    ensures AssignVar(m, name, v).Ok? ==> ReadVar(AssignVar(m, name, v).value, name) == Ok(Mask(v))
  {
    AssignThenGet(m.env, name, v, name + "'");
  }

  /** A register variable reads its register; a register number may count from the end, as a Python index. */
  lemma RegisterDeclarationThenRead(m: Machine, name: string, v: nat, k: int)
    requires MachineOk(m)
    requires -32 <= k < 32
    ensures DeclareVar(m, name, v, true, Some(k)).Ok?
    ensures ReadVar(DeclareVar(m, name, v, true, Some(k)).value, name) == Ok(Mask(v))
    ensures DeclareVar(m, name, v, true, None) == Ok(m)
  {
  }

  /** `x++` and `x--` as the language means them: the variable afterwards reads one more (or less), wrapped. */
  lemma StepThenRead(m: Machine, name: string, delta: int)
    requires MachineOk(m)
    ensures Step(m, name, delta).Ok? ==>
              && ReadVar(m, name).Ok?
              && ReadVar(Step(m, name, delta).value, name) == Ok(Mask(ReadVar(m, name).value + delta))
  {
    if ReadVar(m, name).Ok? {
      AssignThenRead(m, name, Mask(ReadVar(m, name).value + delta));
    }
  }

  /**
    * `x++` and `x--` as interpreter.py runs them: they fail exactly when the
    * name is unbound, and afterwards the scope binding reads one more (or
    * less), wrapped; registers are left alone.
    */
  lemma StepAsWrittenThenGet(m: Machine, name: string, delta: int)
    ensures StepAsWritten(m, name, delta).Err? <==> Get(m.env, name).Err?
    ensures StepAsWritten(m, name, delta).Ok? ==>
              && Get(StepAsWritten(m, name, delta).value.env, name) == Ok(Mask(Get(m.env, name).value + delta))
              && StepAsWritten(m, name, delta).value.registers == m.registers
  {
    if Get(m.env, name).Ok? {
      var w := Mask(Get(m.env, name).value + delta);
      AssignThenGet(m.env, name, w, name + "'");
    }
  }

  /** For a variable that is not a register variable, the increment as written and as meant agree. */
  lemma StepAsWrittenOffRegisters(m: Machine, name: string, delta: int)
    requires MachineOk(m)
    requires name !in m.registerMap
    ensures StepAsWritten(m, name, delta) == Step(m, name, delta)
  {
  }

  /**
    * `register uint32 r5 = 1; r5++;` as interpreter.py runs it leaves `r5`
    * reading 1, because the increment updates only the scope binding while
    * reads of a register variable go to the register; `Step` reads 2.
    */
  lemma IncrementAsWrittenMissesRegister()
    ensures DeclareVar(InitialMachine, "r5", 1, true, Some(5)).Ok?
    ensures var m := DeclareVar(InitialMachine, "r5", 1, true, Some(5)).value;
            && ReadVar(m, "r5") == Ok(1)
            && StepAsWritten(m, "r5", 1).Ok?
            && ReadVar(StepAsWritten(m, "r5", 1).value, "r5") == Ok(1)
            && Step(m, "r5", 1).Ok?
            && ReadVar(Step(m, "r5", 1).value, "r5") == Ok(2)
  {
    var m := DeclareVar(InitialMachine, "r5", 1, true, Some(5)).value;
    StepThenRead(m, "r5", 1);
  }

  /** The statement `r5++;` itself, run by `Exec`, leaves the register variable reading its old value. */
  lemma ExecIncrementMissesRegister(fns: Functions, fuel: nat)
    ensures DeclareVar(InitialMachine, "r5", 1, true, Some(5)).Ok?
    ensures var m := DeclareVar(InitialMachine, "r5", 1, true, Some(5)).value;
            && Exec(fns, fuel, m, Increment("r5", false)).Ok?
            && ReadVar(Exec(fns, fuel, m, Increment("r5", false)).value.0, "r5") == Ok(1)
  {
    IncrementAsWrittenMissesRegister();
    var m := DeclareVar(InitialMachine, "r5", 1, true, Some(5)).value;
    assert Exec(fns, fuel, m, Increment("r5", false)) == Ok((StepAsWritten(m, "r5", 1).value, Normal));
  }

  // ---------------------------------------------------------------------
  // Statements
  // ---------------------------------------------------------------------

  /** A `return` ends the statement list: the statements after it are never run. */
  lemma ReturnSkipsRest(fns: Functions, fuel: nat, m: Machine, result: Option<Expr>, rest: seq<Stmt>)
    requires MachineOk(m)
    ensures ExecSeq(fns, fuel, m, [Return(result)] + rest) == ExecReturn(fns, fuel, m, result)
  {
    assert ([Return(result)] + rest)[0] == Return(result);
    assert Exec(fns, fuel, m, Return(result)) == ExecSimple(fns, fuel, m, Return(result));
  }

  /** Running `a + b` is running `a`, then `b` only if `a` neither failed nor returned. */
  lemma {:induction false} SeqAppend(fns: Functions, fuel: nat, m: Machine, a: seq<Stmt>, b: seq<Stmt>)
    requires MachineOk(m)
    ensures ExecSeq(fns, fuel, m, a + b) ==
              match ExecSeq(fns, fuel, m, a)
              case Err(f) => Err(f)
              case Ok((m1, Returned(v))) => Ok((m1, Returned(v)))
              case Ok((m1, Normal)) => ExecSeq(fns, fuel, m1, b)
    decreases |a|
  {
    if |a| == 0 {
      assert a + b == b;
    } else {
      assert (a + b)[0] == a[0];
      assert (a + b)[1..] == a[1..] + b;
      match Exec(fns, fuel, m, a[0])
      case Err(_) =>
      case Ok((m1, flow)) =>
        if flow.Normal? {
          SeqAppend(fns, fuel, m1, a[1..], b);
        }
    }
  }

  /** A variable declared in a block is gone once the block ends: the machine is as before. */
  lemma BlockDeclarationVanishes(fns: Functions, fuel: nat, m: Machine, name: string, v: int)
    requires MachineOk(m)
    ensures ExecBlock(fns, fuel, m, [PlainVar(name, Some(Literal(v)))]) == Ok((m, Normal))
  {
    var inner := Push(m);
    var m1 := inner.(env := Declare(inner.env, name, Mask(v)));
    assert EvalOptional(fns, fuel, inner, Some(Literal(v))) == Ok((inner, Mask(v)));
    assert ExecDecl(fns, fuel, inner, name, Some(Literal(v)), false, None) == Ok((m1, Normal));
    assert ExecSimple(fns, fuel, inner, PlainVar(name, Some(Literal(v)))) == Ok((m1, Normal));
    assert Exec(fns, fuel, inner, PlainVar(name, Some(Literal(v)))) == Ok((m1, Normal));
    assert ExecSeq(fns, fuel, inner, [PlainVar(name, Some(Literal(v)))]) == Ok((m1, Normal));
    assert m1.env[1..] == m.env;
  }

  /** `while (1) {}` never ends: whatever the fuel, the run exhausts it. */
  lemma {:induction false} EndlessLoopRunsOut(fns: Functions, fuel: nat, m: Machine)
    requires MachineOk(m)
    ensures WhileLoop(fns, fuel, m, Literal(1), Block([])) == Err(OutOfFuel)
    decreases fuel
  {
    assert ExecSeq(fns, fuel, Push(m), []) == Ok((Push(m), Normal));
    assert ExecBlock(fns, fuel, m, []) == Ok((m, Normal));
    assert ExecCompound(fns, fuel, m, Block([])) == Ok((m, Normal));
    assert Exec(fns, fuel, m, Block([])) == Ok((m, Normal));
    assert Eval(fns, fuel, m, Literal(1)) == Ok((m, 1));
    if fuel > 0 {
      EndlessLoopRunsOut(fns, fuel - 1, m);
    }
  }

  /** `while (0) ...` runs nothing and changes nothing. */
  lemma FalseLoopSkips(fns: Functions, fuel: nat, m: Machine, body: Stmt)
    requires MachineOk(m)
    ensures WhileLoop(fns, fuel, m, Literal(0), body) == Ok((m, Normal))
    ensures ForLoop(fns, fuel, m, Some(Literal(0)), None, body) == Ok((m, Normal))
  {
  }

  // ---------------------------------------------------------------------
  // Expressions and calls
  // ---------------------------------------------------------------------

  /**
    * A division or remainder by zero surfaces from the expression as the
    * interpreter's error, each with its own message.
    */
  lemma ZeroDivisorRaises(fns: Functions, fuel: nat, m: Machine, op: string, x: Expr)
    requires op == "/" || op == "%"
    requires MachineOk(m)
    requires Eval(fns, fuel, m, x).Ok?
    ensures Eval(fns, fuel, m, BinaryOp(op, x, Literal(0)))
            == Err(Raised(if op == "/" then "Division by zero" else "Modulo by zero"))
  {
    ZeroDivisorBinary(fns, fuel, m, op, x);
    hide EvalBinary;
    assert Eval(fns, fuel, m, BinaryOp(op, x, Literal(0))) == EvalBinary(fns, fuel, m, op, x, Literal(0));
  }

  lemma ZeroDivisorBinary(fns: Functions, fuel: nat, m: Machine, op: string, x: Expr)
    requires op == "/" || op == "%"
    requires MachineOk(m)
    requires Eval(fns, fuel, m, x).Ok?
    ensures EvalBinary(fns, fuel, m, op, x, Literal(0))
            == Err(Raised(if op == "/" then "Division by zero" else "Modulo by zero"))
  {
    var (m1, l) := Eval(fns, fuel, m, x).value;
    ZeroDivisor(l);
  }

  lemma ZeroDivisor(l: nat)
    ensures BinOp("/", l, 0) == Err("Division by zero")
    ensures BinOp("%", l, 0) == Err("Modulo by zero")
  {
    assert BinaryOperatorOf("/") == Some(Div);
    assert BinaryOperatorOf("%") == Some(Mod);
  }

  /**
    * A hardware name is never looked up among the program's functions, and
    * any other name that is not defined is an error before its arguments
    * are evaluated.
    */
  lemma CallDispatch(fns: Functions, fuel: nat, m: Machine, name: string, f: FunctionDef, args: seq<Expr>)
    requires MachineOk(m)
    ensures name in HardwareFunctions ==>
              CallFunction(fns[name := f], fuel, m, name, []) == CallFunction(map[], fuel, m, name, [])
    ensures name !in HardwareFunctions && name !in fns ==>
              CallFunction(fns, fuel, m, name, args) == Err(Raised("Undefined function: " + name))
  {
  }

  /** A call binds its parameter to the masked argument in a scope of its own and leaves the caller's machine as it was. */
  lemma CallBindsArgument(fuel: nat, m: Machine, x: int)
    requires MachineOk(m)
    requires "a" !in m.registerMap
    ensures var fns := map["id" := FunctionDef("id", ["a"], [Return(Some(Identifier("a")))], false)];
            CallFunction(fns, fuel, m, "id", [Literal(x)]) == if fuel == 0 then Err(OutOfFuel) else Ok((m, Mask(x)))
  {
    var f := FunctionDef("id", ["a"], [Return(Some(Identifier("a")))], false);
    var fns := map["id" := f];
    LiteralArgument(fns, fuel, m, x);
    assert "id" !in HardwareFunctions;
    if fuel > 0 {
      IdentityBody(fns, fuel - 1, m, Mask(x));
    }
  }

  lemma IdentityBody(fns: Functions, fuel: nat, m: Machine, w: nat)
    requires MachineOk(m)
    requires "a" !in m.registerMap && w < TwoTo32
    ensures ExecuteFunction(fns, fuel, m, FunctionDef("id", ["a"], [Return(Some(Identifier("a")))], false), [w])
            == Ok((m, w))
  {
    var m1 := m.(env := BindParams([EmptyScope] + m.env, ["a"], [w]));
    assert m1.env == Declare([EmptyScope] + m.env, "a", Mask(w));
    var inner := Push(m1);
    assert Get(inner.env, "a") == Ok(w);
    assert Eval(fns, fuel, inner, Identifier("a")) == Ok((inner, w));
    SingleReturnBody(fns, fuel, m, "id", ["a"], [w], Identifier("a"));
  }

  lemma LiteralArgument(fns: Functions, fuel: nat, m: Machine, x: int)
    requires MachineOk(m)
    ensures EvalArgs(fns, fuel, m, [Literal(x)]) == Ok((m, [Mask(x)]))
  {
    assert [Literal(x)][0] == Literal(x);
    assert [Literal(x)][1..] == [];
    assert Eval(fns, fuel, m, Literal(x)) == Ok((m, Mask(x)));
    assert EvalArgs(fns, fuel, m, []) == Ok((m, []));
    assert [Mask(x)] + [] == [Mask(x)];
  }

  /**
    * A body that is one `return e;` yields `e` evaluated two scopes in (the
    * parameters, then the block), wrapped; both scopes are gone afterwards.
    */
  lemma SingleReturnBody(fns: Functions, fuel: nat, m: Machine, name: string, params: seq<string>, args: seq<nat>,
                         e: Expr)
    requires MachineOk(m) && |params| == |args|
    ensures var inner := Push(m.(env := BindParams([EmptyScope] + m.env, params, args)));
            ExecuteFunction(fns, fuel, m, FunctionDef(name, params, [Return(Some(e))], false), args) ==
              match Eval(fns, fuel, inner, e)
              case Err(fault) => Err(fault)
              case Ok((m1, v)) => Ok((Pop(Pop(m1)), Mask(v)))
  {
    var f := FunctionDef(name, params, [Return(Some(e))], false);
    var m1 := m.(env := BindParams([EmptyScope] + m.env, params, args));
    ReturnSkipsRest(fns, fuel, Push(m1), Some(e), []);
    assert [Return(Some(e))] + [] == f.body;
  }

  // ---------------------------------------------------------------------
  // Programs
  // ---------------------------------------------------------------------

  /** `uint32 main() { return v; }` returns `v` wrapped to 32 bits. */
  lemma MainReturnsValue(v: int, fuel: nat)
    ensures Interpret(Program([FunctionDef("main", [], [Return(Some(Literal(v)))], false)], []), fuel) == Ok(Mask(v))
  {
    var f := FunctionDef("main", [], [Return(Some(Literal(v)))], false);
    assert FunctionTable([f]) == map["main" := f] by {
      assert [f][..0] == [];
    }
    SingleReturnBody(map["main" := f], fuel, InitialMachine, "main", [], [], Literal(v));
  }

  /** A global is visible inside `main`. */
  lemma GlobalVisibleInMain(v: int, fuel: nat)
    ensures Interpret(Program([FunctionDef("main", [], [Return(Some(Identifier("g")))], false)],
                              [PlainVar("g", Some(Literal(v)))]), fuel) == Ok(Mask(v))
  {
    var f := FunctionDef("main", [], [Return(Some(Identifier("g")))], false);
    var fns := map["main" := f];
    assert FunctionTable([f]) == fns by {
      assert [f][..0] == [];
    }
    var m0 := InitialMachine;
    var m := m0.(env := Declare(m0.env, "g", Mask(v)));
    assert EvalOptional(fns, fuel, m0, Some(Literal(v))) == Ok((m0, Mask(v)));
    assert ExecGlobal(fns, fuel, m0, PlainVar("g", Some(Literal(v)))) == Ok(m);
    assert ExecGlobals(fns, fuel, m, []) == Ok(m);
    assert ExecGlobals(fns, fuel, m0, [PlainVar("g", Some(Literal(v)))]) == Ok(m);
    var inner := Push(Push(m));
    assert BindParams([EmptyScope] + m.env, [], []) == Push(m).env;
    assert Get(inner.env, "g") == Ok(Mask(v));
    assert Eval(fns, fuel, inner, Identifier("g")) == Ok((inner, Mask(v)));
    SingleReturnBody(fns, fuel, m, "main", [], [], Identifier("g"));
  }

  /** Without a function named `main` the program is rejected once the globals are in place. */
  lemma MissingMain(p: Program, fuel: nat)
    requires forall i | 0 <= i < |p.functions| :: p.functions[i].name != "main"
    requires p.globals == []
    ensures Interpret(p, fuel) == Err(NoMain)
  {
  }

  /** The `main` that counts is the last one defined, and it must take no parameters. */
  lemma MainTakesNoParameters(fs: seq<FunctionDef>, f: FunctionDef, fuel: nat)
    requires f.name == "main" && |f.params| > 0
    ensures Interpret(Program(fs + [f], []), fuel) == Err(MainWithParams)
  {
    LastDefinitionWins(fs + [f], |fs|);
  }
}

=== FILE: lexer.dfy ===
/**
  * The lexer (lexer.py): source text to tokens, tracking the line and column
  * of each token's first character. The scanner never raises: an unknown
  * character becomes an ERROR token, and an unterminated block comment ends
  * the token list with an ERROR token instead of EOF.
  */
module Lexer {
  import opened Text
  import opened Tokens

  /** The scanner's state: index of the next character, and its 1-based line and column. */
  datatype Cursor = Cursor(pos: nat, line: nat, column: nat)

  /** One `advance()`: a newline moves to column 1 of the next line, anything else one column right. */
  function Step(c: Cursor, ch: char): Cursor {
    if ch == '\n' then Cursor(c.pos + 1, c.line + 1, 1) else Cursor(c.pos + 1, c.line, c.column + 1)
  }

  /** The cursor reached by advancing from the start of `src` over its first `k` characters. */
  function CursorAt(src: string, k: nat): Cursor
    requires k <= |src|
    decreases k
  {
    if k == 0 then Cursor(0, 1, 1) else Step(CursorAt(src, k - 1), src[k - 1])
  }

  /** The cursor's line and column are the ones its position has in `src`. */
  predicate Synced(src: string, c: Cursor) {
    c.pos <= |src| && c == CursorAt(src, c.pos)
  }

  function NewlineCount(s: string): nat
    decreases |s|
  {
    if |s| == 0 then 0 else NewlineCount(s[..|s| - 1]) + (if s[|s| - 1] == '\n' then 1 else 0)
  }

  /** Index just after the last newline among the first `k` characters, or 0. */
  function LineStart(src: string, k: nat): nat
    requires k <= |src|
    decreases k
  {
    if k == 0 then 0 else if src[k - 1] == '\n' then k else LineStart(src, k - 1)
  }

  /**
    * Line and column in closed form: the line is one more than the number of
    * newlines before position `k`; the column counts from the start of that line.
    */
  lemma {:induction false} CursorAtClosedForm(src: string, k: nat)
    requires k <= |src|
    ensures CursorAt(src, k).pos == k
    ensures CursorAt(src, k).line == 1 + NewlineCount(src[..k])
    ensures CursorAt(src, k).column == k - LineStart(src, k) + 1
    decreases k
  {
    if k > 0 {
      CursorAtClosedForm(src, k - 1);
      assert src[..k][..k - 1] == src[..k - 1];
    }
  }

  function Advance(src: string, c: Cursor): (r: Cursor)
    requires Synced(src, c) && c.pos < |src|
    ensures Synced(src, r) && r.pos == c.pos + 1
  {
    Step(c, src[c.pos])
  }

  /** The characters `skip_whitespace` skips. */
  predicate IsLexSpace(ch: char) { ch == ' ' || ch == '\t' || ch == '\r' || ch == '\n' }

  predicate NotNewline(ch: char) { ch != '\n' }

  /** Advances over the longest run of characters satisfying `p`. */
  function ReadWhile(src: string, c: Cursor, p: char -> bool): (r: Cursor)
    requires Synced(src, c)
    ensures Synced(src, r) && c.pos <= r.pos
    ensures forall i | c.pos <= i < r.pos :: p(src[i])
    ensures r.pos == |src| || !p(src[r.pos])
    decreases |src| - c.pos
  {
    if c.pos < |src| && p(src[c.pos]) then ReadWhile(src, Advance(src, c), p) else c
  }

  /** A `/` followed by `/` or `*`: the start of a comment. */
  predicate CommentStart(src: string, i: nat) {
    i + 1 < |src| && src[i] == '/' && (src[i + 1] == '/' || src[i + 1] == '*')
  }

  /** No star-slash terminator starts at any index in `[a, b - 1)`. */
  predicate NoTerminator(src: string, a: nat, b: nat)
    requires b <= |src|
  {
    forall m | a <= m && m + 1 < b :: !(src[m] == '*' && src[m + 1] == '/')
  }

  datatype CommentEnd = Closed(after: Cursor) | Unclosed(at: Cursor)

  /** The loop of `skip_comment` inside a block comment: stop after the first star-slash, or fail at the end of input. */
  function SkipBlockBody(src: string, c: Cursor): (r: CommentEnd)
    requires Synced(src, c)
    ensures r.Closed? ==>
              Synced(src, r.after) && c.pos + 2 <= r.after.pos
              && src[r.after.pos - 2] == '*' && src[r.after.pos - 1] == '/'
              && NoTerminator(src, c.pos, r.after.pos - 1)
    ensures r.Unclosed? ==> Synced(src, r.at) && r.at.pos == |src| && NoTerminator(src, c.pos, |src|)
    decreases |src| - c.pos
  {
    if c.pos == |src| then Unclosed(c)
    else if src[c.pos] == '*' && c.pos + 1 < |src| && src[c.pos + 1] == '/' then
      Closed(Advance(src, Advance(src, c)))
    else SkipBlockBody(src, Advance(src, c))
  }

  /** `skip_comment`: a line comment stops before the newline; a block comment after its star-slash. */
  function SkipComment(src: string, c: Cursor): (r: CommentEnd)
    requires Synced(src, c) && CommentStart(src, c.pos)
    ensures r.Closed? ==> Synced(src, r.after) && c.pos + 2 <= r.after.pos && IsComment(src, c.pos, r.after.pos)
    ensures r.Unclosed? ==>
              Synced(src, r.at) && r.at.pos == |src| && src[c.pos + 1] == '*' && NoTerminator(src, c.pos + 2, |src|)
  {
    if src[c.pos + 1] == '/' then Closed(ReadWhile(src, c, NotNewline))
    else SkipBlockBody(src, Advance(src, Advance(src, c)))
  }

  /**
    * `src[i..k]` is one complete comment: `//` up to (not including) the next
    * newline or the end, or slash-star up to and including the first
    * star-slash after it.
    */
  predicate IsComment(src: string, i: nat, k: nat) {
    && i < k <= |src|
    && (|| (i + 2 <= k && src[i] == '/' && src[i + 1] == '/'
            && (forall m | i + 2 <= m < k :: src[m] != '\n') && (k == |src| || src[k] == '\n'))
        || (i + 4 <= k && src[i] == '/' && src[i + 1] == '*' && src[k - 2] == '*' && src[k - 1] == '/'
            && NoTerminator(src, i + 2, k - 1)))
  }

  /** `src[i..j]` is made only of whitespace and complete comments: it yields no token. */
  ghost predicate Gap(src: string, i: nat, j: nat)
    decreases j - i
  {
    && i <= j <= |src|
    && (|| i == j
        || (IsLexSpace(src[i]) && Gap(src, i + 1, j))
        || (exists k | i < k <= j :: IsComment(src, i, k) && Gap(src, k, j)))
  }

  lemma {:induction false} GapTrans(src: string, i: nat, j: nat, k: nat)
    requires Gap(src, i, j) && Gap(src, j, k)
    ensures Gap(src, i, k)
    decreases j - i
  {
    if i == j {
    } else if IsLexSpace(src[i]) && Gap(src, i + 1, j) {
      GapTrans(src, i + 1, j, k);
    } else {
      var m :| i < m <= j && IsComment(src, i, m) && Gap(src, m, j);
      GapTrans(src, m, j, k);
    }
  }

  lemma {:induction false} GapOfSpaces(src: string, i: nat, j: nat)
    requires i <= j <= |src|
    requires forall m | i <= m < j :: IsLexSpace(src[m])
    ensures Gap(src, i, j)
    decreases j - i
  {
    if i < j {
      GapOfSpaces(src, i + 1, j);
    }
  }

  lemma GapOfComment(src: string, i: nat, k: nat)
    requires IsComment(src, i, k)
    ensures Gap(src, i, k)
  {
    assert Gap(src, k, k);
  }

  /** The two-character operators, longest match first. */
  function TwoCharKind(a: char, b: char): (r: Option2)
    ensures r.Op? ==> r.kind != Eof
  {
    if a == '=' && b == '=' then Op(Equal)
    else if a == '!' && b == '=' then Op(NotEqual)
    else if a == '<' && b == '<' then Op(ShiftLeft)
    else if a == '>' && b == '>' then Op(ShiftRight)
    else if a == '<' && b == '=' then Op(LessEqual)
    else if a == '>' && b == '=' then Op(GreaterEqual)
    else if a == '&' && b == '&' then Op(And)
    else if a == '|' && b == '|' then Op(Or)
    else if a == '+' && b == '+' then Op(Increment)
    else if a == '-' && b == '-' then Op(Decrement)
    else NoOp
  }

  /** The single-character operators and punctuation, `&` and `|` included. */
  function SingleKind(a: char): (r: Option2)
    ensures r.Op? ==> r.kind != Eof
  {
    if a == '+' then Op(Plus)
    else if a == '-' then Op(Minus)
    else if a == '*' then Op(Multiply)
    else if a == '/' then Op(Divide)
    else if a == '%' then Op(Modulo)
    else if a == '=' then Op(Assign)
    else if a == '<' then Op(Less)
    else if a == '>' then Op(Greater)
    else if a == '!' then Op(Not)
    else if a == '^' then Op(BitwiseXor)
    else if a == '&' then Op(BitwiseAnd)
    else if a == '|' then Op(BitwiseOr)
    else if a == ';' then Op(Semicolon)
    else if a == ',' then Op(Comma)
    else if a == '(' then Op(LParen)
    else if a == ')' then Op(RParen)
    else if a == '{' then Op(LBrace)
    else if a == '}' then Op(RBrace)
    else if a == '[' then Op(LBracket)
    else if a == ']' then Op(RBracket)
    else NoOp
  }

  datatype Option2 = NoOp | Op(kind: TokenType)

  /** `read_number`: `0x`/`0X` and every hex digit after it, or the run of decimal digits. */
  function ReadNumber(src: string, c: Cursor): (r: Cursor)
    requires Synced(src, c) && c.pos < |src| && IsDigit(src[c.pos])
    ensures Synced(src, r) && c.pos < r.pos
    ensures IsNumber(src, c.pos, r.pos)
  {
    if src[c.pos] == '0' && c.pos + 1 < |src| && (src[c.pos + 1] == 'x' || src[c.pos + 1] == 'X') then
      ReadWhile(src, Advance(src, Advance(src, c)), IsHexDigit)
    else ReadWhile(src, c, IsDigit)
  }

  /** `src[s..e]` is a whole numeric literal: hexadecimal after `0x`, else decimal; nothing more can be added. */
  predicate IsNumber(src: string, s: nat, e: nat) {
    && s < e <= |src|
    && if src[s] == '0' && s + 1 < |src| && (src[s + 1] == 'x' || src[s + 1] == 'X') then
         && s + 2 <= e
         && (forall i | s + 2 <= i < e :: IsHexDigit(src[i]))
         && (e == |src| || !IsHexDigit(src[e]))
       else
         && (forall i | s <= i < e :: IsDigit(src[i]))
         && (e == |src| || !IsDigit(src[e]))
  }

  /** `src[s..e]` is a whole word: letters, digits and underscores, and nothing more can be added. */
  predicate IsWord(src: string, s: nat, e: nat) {
    && s < e <= |src|
    && (forall i | s <= i < e :: IsWordChar(src[i]))
    && (e == |src| || !IsWordChar(src[e]))
  }

  /** A token together with the span of source text it was read from. */
  datatype Located = Located(token: Token, start: nat, end: nat)

  /**
    * What the token read at `l.start` must be: it carries the position of its
    * first character and, by that character, is a keyword or identifier
    * spanning the longest word, a literal spanning the longest number, the
    * longest operator, or an ERROR naming the one unexpected character.
    */
  predicate Ordinary(src: string, l: Located) {
    var s, e, t := l.start, l.end, l.token;
    && s < e <= |src|
    && t.line == CursorAt(src, s).line && t.column == CursorAt(src, s).column
    && !IsLexSpace(src[s]) && !CommentStart(src, s)
    && if IsLetter(src[s]) || src[s] == '_' then
         IsWord(src, s, e) && t.value == src[s..e] && t.kind == KeywordKind(t.value)
       else if IsDigit(src[s]) then
         IsNumber(src, s, e) && t.value == src[s..e] && t.kind == Literal
       else if s + 1 < |src| && TwoCharKind(src[s], src[s + 1]).Op? then
         e == s + 2 && t.value == src[s..e] && t.kind == TwoCharKind(src[s], src[s + 1]).kind
       else if SingleKind(src[s]).Op? then
         e == s + 1 && t.value == src[s..e] && t.kind == SingleKind(src[s]).kind
       else
         e == s + 1 && t.value == "Unexpected character: " + [src[s]] && t.kind == Error
  }

  /** Reads one token at `c`, which is past whitespace and not at a comment. */
  function ScanToken(src: string, c: Cursor): (r: (Token, Cursor))
    requires Synced(src, c) && c.pos < |src|
    requires !IsLexSpace(src[c.pos]) && !CommentStart(src, c.pos)
    ensures Synced(src, r.1) && Ordinary(src, Located(r.0, c.pos, r.1.pos))
    ensures c.pos < r.1.pos
  {
    var ch := src[c.pos];
    if IsLetter(ch) || ch == '_' then
      var e := ReadWhile(src, c, IsWordChar);
      var w := src[c.pos..e.pos];
      (Token(KeywordKind(w), w, c.line, c.column), e)
    else if IsDigit(ch) then
      var e := ReadNumber(src, c);
      (Token(Literal, src[c.pos..e.pos], c.line, c.column), e)
    else if c.pos + 1 < |src| && TwoCharKind(ch, src[c.pos + 1]).Op? then
      var e := Advance(src, Advance(src, c));
      (Token(TwoCharKind(ch, src[c.pos + 1]).kind, src[c.pos..c.pos + 2], c.line, c.column), e)
    else if SingleKind(ch).Op? then
      assert src[c.pos..c.pos + 1] == [ch];
      (Token(SingleKind(ch).kind, [ch], c.line, c.column), Advance(src, c))
    else
      (Token(Error, "Unexpected character: " + [ch], c.line, c.column), Advance(src, c))
  }

  function UnterminatedMessage(c: Cursor): string {
    "Unterminated comment at line " + NatToString(c.line) + ", column " + NatToString(c.column)
  }

  /** The main loop of `tokenize`, from cursor `c` to the end. */
  function TokenizeFrom(src: string, c: Cursor): (r: seq<Located>)
    requires Synced(src, c)
    ensures |r| >= 1
    decreases |src| - c.pos
  {
    var c1 := ReadWhile(src, c, IsLexSpace);
    if c1.pos == |src| then
      [Located(Token(Eof, "", c1.line, c1.column), c1.pos, c1.pos)]
    else if CommentStart(src, c1.pos) then
      match SkipComment(src, c1)
      case Closed(c2) => TokenizeFrom(src, c2)
      case Unclosed(c2) => [Located(Token(Error, UnterminatedMessage(c2), c2.line, c2.column), c1.pos, |src|)]
    else
      var (tok, c2) := ScanToken(src, c1);
      [Located(tok, c1.pos, c2.pos)] + TokenizeFrom(src, c2)
  }

  /** `Lexer(source).tokenize()`. */
  function Tokenize(src: string): seq<Token> {
    var ls := TokenizeFrom(src, Cursor(0, 1, 1));
    seq(|ls|, i requires 0 <= i < |ls| => ls[i].token)
  }

  /**
    * The last token: EOF at the end of input, or the ERROR for a block comment
    * that is never closed, reported at the end of input.
    */
  predicate Final(src: string, l: Located) {
    var endAt := CursorAt(src, |src|);
    || (l.token == Token(Eof, "", endAt.line, endAt.column) && l.start == |src| && l.end == |src|)
    || (&& l.token == Token(Error, UnterminatedMessage(endAt), endAt.line, endAt.column)
        && l.start + 1 < |src| && l.end == |src|
        && src[l.start] == '/' && src[l.start + 1] == '*' && NoTerminator(src, l.start + 2, |src|))
  }

  /**
    * `r` is a lexical decomposition of `src[from..]`: ordinary tokens separated
    * only by whitespace and comments, then a final EOF or unterminated-comment ERROR.
    */
  ghost predicate Lexes(src: string, from: nat, r: seq<Located>) {
    && |r| >= 1
    && Gap(src, from, r[0].start)
    && (forall i | 0 <= i < |r| - 1 :: Ordinary(src, r[i]) && Gap(src, r[i].end, r[i + 1].start))
    && Final(src, r[|r| - 1])
  }

  lemma LexesAfterGap(src: string, from: nat, mid: nat, r: seq<Located>)
    requires Gap(src, from, mid) && Lexes(src, mid, r)
    ensures Lexes(src, from, r)
  {
    GapTrans(src, from, mid, r[0].start);
  }

  lemma LexesCons(src: string, l: Located, rest: seq<Located>)
    requires Ordinary(src, l) && Lexes(src, l.end, rest)
    ensures Lexes(src, l.start, [l] + rest)
  {
    var r := [l] + rest;
    assert Gap(src, l.start, l.start);
    forall i | 0 <= i < |r| - 1
      ensures Ordinary(src, r[i]) && Gap(src, r[i].end, r[i + 1].start)
    {
      if i > 0 {
        assert r[i] == rest[i - 1] && r[i + 1] == rest[i];
      }
    }
  }

  /** The scanner's output is exactly a lexical decomposition of the input. */
  lemma {:induction false} TokenizeFromLexes(src: string, c: Cursor)
    requires Synced(src, c)
    ensures Lexes(src, c.pos, TokenizeFrom(src, c))
    decreases |src| - c.pos
  {
    hide TokenizeFrom, ScanToken, ReadWhile, SkipComment, SkipBlockBody, Ordinary, IsNumber, IsWord;
    var c1 := ReadWhile(src, c, IsLexSpace);
    GapOfSpaces(src, c.pos, c1.pos);
    if c1.pos == |src| {
      TokenizeFromEnd(src, c, c1);
      assert Gap(src, c1.pos, c1.pos);
      GapTrans(src, c.pos, c1.pos, c1.pos);
    } else if CommentStart(src, c1.pos) {
      match SkipComment(src, c1)
      case Closed(c2) =>
        TokenizeFromComment(src, c, c1, SkipComment(src, c1));
        TokenizeFromLexes(src, c2);
        GapOfComment(src, c1.pos, c2.pos);
        LexesAfterGap(src, c1.pos, c2.pos, TokenizeFrom(src, c2));
        LexesAfterGap(src, c.pos, c1.pos, TokenizeFrom(src, c2));
      case Unclosed(c2) =>
        TokenizeFromComment(src, c, c1, SkipComment(src, c1));
        assert Gap(src, c1.pos, c1.pos);
        GapTrans(src, c.pos, c1.pos, c1.pos);
    } else {
      var (tok, c2) := ScanToken(src, c1);
      TokenizeFromToken(src, c, c1, tok, c2);
      TokenizeFromLexes(src, c2);
      LexesCons(src, Located(tok, c1.pos, c2.pos), TokenizeFrom(src, c2));
      LexesAfterGap(src, c.pos, c1.pos, [Located(tok, c1.pos, c2.pos)] + TokenizeFrom(src, c2));
    }
  }

  lemma TokenizeFromEnd(src: string, c: Cursor, c1: Cursor)
    requires Synced(src, c) && c1 == ReadWhile(src, c, IsLexSpace) && c1.pos == |src|
    ensures TokenizeFrom(src, c) == [Located(Token(Eof, "", c1.line, c1.column), c1.pos, c1.pos)]
  {
  }

  lemma TokenizeFromComment(src: string, c: Cursor, c1: Cursor, skipped: CommentEnd)
    requires Synced(src, c) && c1 == ReadWhile(src, c, IsLexSpace) && c1.pos < |src|
    requires CommentStart(src, c1.pos) && skipped == SkipComment(src, c1)
    ensures skipped.Closed? ==> TokenizeFrom(src, c) == TokenizeFrom(src, skipped.after)
    ensures skipped.Unclosed? ==>
              TokenizeFrom(src, c)
              == [Located(Token(Error, UnterminatedMessage(skipped.at), skipped.at.line, skipped.at.column), c1.pos, |src|)]
  {
  }

  lemma TokenizeFromToken(src: string, c: Cursor, c1: Cursor, tok: Token, c2: Cursor)
    requires Synced(src, c) && c1 == ReadWhile(src, c, IsLexSpace) && c1.pos < |src|
    requires !CommentStart(src, c1.pos) && (tok, c2) == ScanToken(src, c1)
    ensures TokenizeFrom(src, c) == [Located(tok, c1.pos, c2.pos)] + TokenizeFrom(src, c2)
  {
  }

  /** The whole source tokenizes to a lexical decomposition of all of it. */
  lemma TokenizeLexes(src: string)
    ensures Lexes(src, 0, TokenizeFrom(src, Cursor(0, 1, 1)))
  {
    TokenizeFromLexes(src, Cursor(0, 1, 1));
  }

  lemma OrdinaryNotEof(src: string, l: Located)
    requires Ordinary(src, l)
    ensures l.token.kind != Eof
  {
  }

  /**
    * The token list is never empty, has no EOF before its last token, and ends
    * with EOF unless it ends with the unterminated-comment ERROR.
    */
  lemma TokenizeEndsOnce(src: string)
    ensures var ts := Tokenize(src);
      && |ts| >= 1
      && (forall i | 0 <= i < |ts| - 1 :: ts[i].kind != Eof)
      && (ts[|ts| - 1].kind == Eof || StartsWith(ts[|ts| - 1].value, "Unterminated comment at line "))
  {
    var ls := TokenizeFrom(src, Cursor(0, 1, 1));
    TokenizeLexes(src);
    var ts := Tokenize(src);
    assert |ts| == |ls|;
    forall i | 0 <= i < |ts| - 1
      ensures ts[i].kind != Eof
    {
      assert ts[i] == ls[i].token;
      OrdinaryNotEof(src, ls[i]);
    }
    assert ts[|ts| - 1] == ls[|ls| - 1].token;
    FinalKinds(src, ls[|ls| - 1]);
  }

  lemma FinalKinds(src: string, l: Located)
    requires Final(src, l)
    ensures l.token.kind == Eof || StartsWith(l.token.value, "Unterminated comment at line ")
  {
    if l.token.kind != Eof {
      var m := UnterminatedMessage(CursorAt(src, |src|));
      assert m == "Unterminated comment at line " + (NatToString(CursorAt(src, |src|).line) + ", column " + NatToString(CursorAt(src, |src|).column));
    }
  }
}

=== FILE: operators.dfy ===
/**
  * The arithmetic of interpreter.py: `evaluate_binary_op`, `evaluate_unary_op`
  * and the four bit built-ins. Operands are non-negative Python integers
  * (nearly always words; `&x` is the one value the interpreter does not mask).
  * Every result is masked to 32 bits, as the source does.
  */
module Operators {
  import opened Results
  import opened Words

  /** The entries of the operator table of `evaluate_binary_op`. */
  datatype BinaryOperator =
    | Add | Sub | Mul | Div | Mod | Shl | Shr
    | Eq | Ne | Lt | Le | Gt | Ge | LogAnd | LogOr
    | BitAndOp | BitOrOp | BitXorOp

  /** The token text each operator is written with. */
  function Spelling(k: BinaryOperator): string {
    match k
    case Add => "+"
    case Sub => "-"
    case Mul => "*"
    case Div => "/"
    case Mod => "%"
    case Shl => "<<"
    case Shr => ">>"
    case Eq => "=="
    case Ne => "!="
    case Lt => "<"
    case Le => "<="
    case Gt => ">"
    case Ge => ">="
    case LogAnd => "&&"
    case LogOr => "||"
    case BitAndOp => "&"
    case BitOrOp => "|"
    case BitXorOp => "^"
  }

  /** Looking `op` up among the table's keys. */
  function BinaryOperatorOf(op: string): (k: Option<BinaryOperator>)
    ensures k.Some? ==> Spelling(k.value) == op
  {
    if op == "+" then Some(Add)
    else if op == "-" then Some(Sub)
    else if op == "*" then Some(Mul)
    else if op == "/" then Some(Div)
    else if op == "%" then Some(Mod)
    else if op == "<<" then Some(Shl)
    else if op == ">>" then Some(Shr)
    else if op == "==" then Some(Eq)
    else if op == "!=" then Some(Ne)
    else if op == "<" then Some(Lt)
    else if op == "<=" then Some(Le)
    else if op == ">" then Some(Gt)
    else if op == ">=" then Some(Ge)
    else if op == "&&" then Some(LogAnd)
    else if op == "||" then Some(LogOr)
    else if op == "&" then Some(BitAndOp)
    else if op == "|" then Some(BitOrOp)
    else if op == "^" then Some(BitXorOp)
    else None
  }

  /** Every operator is found under its own spelling, so the lookup fails exactly on other text. */
  lemma SpellingRoundTrip(k: BinaryOperator)
    ensures BinaryOperatorOf(Spelling(k)) == Some(k)
  {
  }

  /** The comparison and logical operators, whose results are 0 or 1. */
  predicate IsBoolean(k: BinaryOperator) {
    k in {Eq, Ne, Lt, Le, Gt, Ge, LogAnd, LogOr}
  }

  function Flag(b: bool): nat {
    if b then 1 else 0
  }

  /** `l op r` as `evaluate_binary_op` computes it, after both operands are evaluated. */
  function BinOp(op: string, l: nat, r: nat): (res: Result<nat, string>)
    ensures res.Ok? ==> res.value < TwoTo32
    ensures BinaryOperatorOf(op).None? ==> res == Err("Unknown binary operator: " + op)
  {
    match BinaryOperatorOf(op)
    case None => Err("Unknown binary operator: " + op)
    case Some(k) => Apply(k, l, r)
  }

  /** One entry of the table applied to two operand values, masked to a word. */
  function Apply(k: BinaryOperator, l: nat, r: nat): (res: Result<nat, string>)
    ensures res.Ok? ==> res.value < TwoTo32
    ensures res.Ok? && IsBoolean(k) ==> res.value <= 1
  {
    match k
    case Add => Ok(Mask(l + r))
    case Sub => Ok(Mask(l - r))
    case Mul => Ok(Mask(l * r))
    case Div => if r != 0 then Ok(Mask(l / r)) else Err("Division by zero")
    case Mod => if r != 0 then Ok(Mask(l % r)) else Err("Modulo by zero")
    case Shl => Ok(Mask(l * Pow2(r % 32)))
    case Shr => Ok(Mask(l / Pow2(r % 32)))
    case Eq => Ok(Flag(l == r))
    case Ne => Ok(Flag(l != r))
    case Lt => Ok(Flag(l < r))
    case Le => Ok(Flag(l <= r))
    case Gt => Ok(Flag(l > r))
    case Ge => Ok(Flag(l >= r))
    case LogAnd => Ok(Flag(l != 0 && r != 0))
    case LogOr => Ok(Flag(l != 0 || r != 0))
    case BitAndOp => BitwiseResult(AndOp, l, r)
    case BitOrOp => BitwiseResult(OrOp, l, r)
    case BitXorOp => BitwiseResult(XorOp, l, r)
  }

  /** The low 32 bits of `l op r`: Python's `(l op r) & 0xFFFFFFFF` on non-negative operands. */
  function BitwiseResult(op: BitOp, l: nat, r: nat): (res: Result<nat, string>)
    ensures res.Ok? && res.value < TwoTo32
  {
    BitwiseBound(op, l, r, 32);
    Pow2At32();
    Ok(Bitwise(op, l, r, 32))
  }

  /** An operator of the table fails exactly on a zero divisor, with the source's two messages. */
  lemma ApplyFails(k: BinaryOperator, l: nat, r: nat)
    ensures Apply(k, l, r).Err? <==> (k == Div || k == Mod) && r == 0
    ensures k == Div && r == 0 ==> Apply(k, l, r) == Err("Division by zero")
    ensures k == Mod && r == 0 ==> Apply(k, l, r) == Err("Modulo by zero")
  {
  }

  /** Subtraction undoes addition modulo 2^32. */
  lemma SubUndoesAdd(a: nat, b: nat)
    ensures Apply(Sub, Apply(Add, a, b).value, b) == Ok(Mask(a))
  {
    var s := a + b;
    assert s == (s / TwoTo32) * TwoTo32 + Mask(s);
    MaskShift(a, -(s / TwoTo32));
  }

  /** On words, quotient and remainder rebuild the dividend: `(a / b) * b + a % b == a`. */
  lemma DivModRebuild(a: nat, b: nat)
    requires a < TwoTo32 && 0 < b < TwoTo32
    ensures Apply(Div, a, b).Ok? && Apply(Mod, a, b).Ok?
    ensures Apply(Div, a, b).value * b + Apply(Mod, a, b).value == a
    ensures Apply(Mod, a, b).value < b
  {
    DivAtMost(a, b);
    DivValue(a, b, a / b);
    ModValue(a, b, a % b);
  }

  lemma DivValue(a: nat, b: nat, q: nat)
    requires 0 < b && q == a / b && q < TwoTo32
    ensures Apply(Div, a, b) == Ok(q)
  {
  }

  lemma ModValue(a: nat, b: nat, r: nat)
    requires 0 < b < TwoTo32 && r == a % b
    ensures Apply(Mod, a, b) == Ok(r)
  {
  }

  /** Each comparison is the negation of its complement: `<` and `>=`, `>` and `<=`, `==` and `!=`. */
  lemma ComparisonsComplement(a: nat, b: nat)
    ensures Apply(Lt, a, b).value + Apply(Ge, a, b).value == 1
    ensures Apply(Gt, a, b).value + Apply(Le, a, b).value == 1
    ensures Apply(Eq, a, b).value + Apply(Ne, a, b).value == 1
    ensures Apply(Lt, a, b) == Apply(Gt, b, a)
  {
  }

  /** Only the low five bits of a shift count matter. */
  lemma ShiftCountMasked(k: BinaryOperator, a: nat, b: nat)
    requires k == Shl || k == Shr
    ensures Apply(k, a, b) == Apply(k, a, b % 32)
    ensures Apply(k, a, b + 32) == Apply(k, a, b)
  {
  }

  /** A left shift by `n` bits multiplies by 2^n; shifting a small enough word back right restores it. */
  lemma ShiftLeftThenRight(a: nat, n: nat)
    requires n < 32 && a * Pow2(n) < TwoTo32
    ensures Apply(Shl, a, n) == Apply(Mul, a, Pow2(n))
    ensures Apply(Shr, Apply(Shl, a, n).value, n) == Ok(a)
  {
    var w := a * Pow2(n);
    ShlValue(a, n, w);
    ShrValue(w, n, a);
  }

  lemma ShlValue(a: nat, n: nat, w: nat)
    requires n < 32 && w == a * Pow2(n) && w < TwoTo32
    ensures Apply(Shl, a, n) == Ok(w) && Apply(Mul, a, Pow2(n)) == Ok(w)
  {
  }

  lemma ShrValue(w: nat, n: nat, a: nat)
    requires n < 32 && w == a * Pow2(n) && w < TwoTo32
    ensures Apply(Shr, w, n) == Ok(a)
  {
    MulDivCancel(a, Pow2(n));
    DivAtMost(w, Pow2(n));
  }

  /** Bit `i` of `l & r`, `l | r`, `l ^ r` combines bit `i` of the operands, for the 32 bits of a word. */
  lemma BitwiseBits(k: BinaryOperator, l: nat, r: nat, i: nat)
    requires k == BitAndOp || k == BitOrOp || k == BitXorOp
    requires i < 32
    ensures TestBit(Apply(k, l, r).value, i)
            == if k == BitAndOp then TestBit(l, i) && TestBit(r, i)
               else if k == BitOrOp then TestBit(l, i) || TestBit(r, i)
               else TestBit(l, i) != TestBit(r, i)
  {
    var b := if k == BitAndOp then AndOp else if k == BitOrOp then OrOp else XorOp;
    ApplyBitwise(k, b, l, r);
    BitwiseBit(b, l, r, 32, i);
  }

  lemma ApplyBitwise(k: BinaryOperator, b: BitOp, l: nat, r: nat)
    requires b == if k == BitAndOp then AndOp else if k == BitOrOp then OrOp else XorOp
    requires k == BitAndOp || k == BitOrOp || k == BitXorOp
    ensures Apply(k, l, r) == Ok(Bitwise(b, l, r, 32))
  {
  }

  /** Exclusive or with the same word twice gives back the first word. */
  lemma XorTwice(a: nat, b: nat)
    requires a < TwoTo32
    ensures Apply(BitXorOp, Apply(BitXorOp, a, b).value, b) == Ok(a)
  {
    var x := Apply(BitXorOp, a, b).value;
    var y := Apply(BitXorOp, x, b).value;
    forall i | 0 <= i < 32
      ensures TestBit(y, i) == TestBit(a, i)
    {
      BitwiseBits(BitXorOp, a, b, i);
      BitwiseBits(BitXorOp, x, b, i);
    }
    WordsEqual(y, a);
  }

  /** The unary operators of `evaluate_unary_op`. */
  function UnOp(op: string, x: nat): (res: Result<nat, string>)
    ensures res.Ok? ==> res.value < TwoTo32
  {
    if op == "-" then Ok(Mask(-(x as int)))
    else if op == "!" then Ok(Flag(x == 0))
    else if op == "~" then Ok(Mask(-(x as int) - 1))
    else Err("Unknown unary operator: " + op)
  }

  /** Negation is subtraction from zero and undoes itself on words. */
  lemma NegateTwice(x: nat)
    ensures UnOp("-", x) == Apply(Sub, 0, x)
    ensures UnOp("-", UnOp("-", x).value) == Ok(Mask(x))
  {
    var y := -(x as int);
    assert y == (y / TwoTo32) * TwoTo32 + Mask(y);
    MaskShift(x, y / TwoTo32);
  }

  /** `~x` flips every bit of a word, so `~~x` is the word again. */
  lemma ComplementTwice(x: nat)
    requires x < TwoTo32
    ensures UnOp("~", x) == Ok(BitNot(x))
    ensures UnOp("~", UnOp("~", x).value) == Ok(x)
  {
    BitNotInvolutive(x);
  }

  /** `!x` is 1 exactly for zero, and `!!x` is the truth value of `x`. */
  lemma LogicalNot(x: nat)
    ensures UnOp("!", x) == Ok(if x == 0 then 1 else 0)
    ensures UnOp("!", UnOp("!", x).value) == BinOp("!=", x, 0)
  {
  }

  // ---------------------------------------------------------------------
  // Bit built-ins: set_bit, clear_bit, toggle_bit, get_bit
  // ---------------------------------------------------------------------

  /** `(value | (1 << (bit & 0x1F))) & 0xFFFFFFFF`. */
  function SetBit(v: nat, bit: nat): (r: nat)
    ensures r < TwoTo32
  {
    BitwiseBound(OrOp, v, Pow2(bit % 32), 32);
    Pow2At32();
    Bitwise(OrOp, v, Pow2(bit % 32), 32)
  }

  /**
    * `(value & ~(1 << (bit & 0x1F))) & 0xFFFFFFFF`. Only the low 32 bits of
    * Python's negative mask `~(1 << k)` survive the final mask, and they are
    * `2^32 - 1 - 2^k`.
    */
  function ClearBit(v: nat, bit: nat): (r: nat)
    ensures r < TwoTo32
  {
    Pow2Below32(bit % 32);
    BitwiseBound(AndOp, v, TwoTo32 - 1 - Pow2(bit % 32), 32);
    Pow2At32();
    Bitwise(AndOp, v, TwoTo32 - 1 - Pow2(bit % 32), 32)
  }

  /** `(value ^ (1 << (bit & 0x1F))) & 0xFFFFFFFF`. */
  function ToggleBit(v: nat, bit: nat): (r: nat)
    ensures r < TwoTo32
  {
    BitwiseBound(XorOp, v, Pow2(bit % 32), 32);
    Pow2At32();
    Bitwise(XorOp, v, Pow2(bit % 32), 32)
  }

  /** `1 if (value & (1 << (bit & 0x1F))) != 0 else 0`. */
  function GetBit(v: nat, bit: nat): (r: nat)
    ensures r <= 1
  {
    Flag(Bitwise(AndOp, v, Pow2(bit % 32), 32) != 0)
  }

  /** `get_bit` reads bit `bit mod 32` of the value. */
  lemma GetBitTests(v: nat, bit: nat)
    ensures GetBit(v, bit) == Flag(TestBit(v, bit % 32))
  {
    var k := bit % 32;
    var w := Bitwise(AndOp, v, Pow2(k), 32);
    BitwiseBit(AndOp, v, Pow2(k), 32, k);
    TestBitPow2(k, k);
    if TestBit(v, k) {
      assert TestBit(w, k);
      if w == 0 {
        ZeroBits(k);
      }
    } else {
      forall i | 0 <= i < 32
        ensures TestBit(w, i) == TestBit(0, i)
      {
        BitwiseBit(AndOp, v, Pow2(k), 32, i);
        TestBitPow2(k, i);
        ZeroBits(i);
      }
      BitwiseBound(AndOp, v, Pow2(k), 32);
      BitsDetermine(w, 0, 32);
    }
  }

  lemma SetBitBits(v: nat, bit: nat, i: nat)
    requires i < 32
    ensures TestBit(SetBit(v, bit), i) == (i == bit % 32 || TestBit(v, i))
  {
    BitwiseBit(OrOp, v, Pow2(bit % 32), 32, i);
    TestBitPow2(bit % 32, i);
  }

  /** The low 32 bits of `~(1 << k)` have every bit set but bit `k`. */
  lemma AllButOne(k: nat, i: nat)
    requires k < 32 && i < 32
    ensures Pow2(k) < TwoTo32
    ensures TestBit(TwoTo32 - 1 - Pow2(k), i) == (i != k)
  {
    Pow2Below32(k);
    Pow2At32();
    ComplementBits(Pow2(k), 32, i);
    TestBitPow2(k, i);
  }

  lemma ClearBitBits(v: nat, bit: nat, i: nat)
    requires i < 32
    ensures TestBit(ClearBit(v, bit), i) == (i != bit % 32 && TestBit(v, i))
  {
    var k := bit % 32;
    AllButOne(k, i);
    BitwiseBit(AndOp, v, TwoTo32 - 1 - Pow2(k), 32, i);
  }

  lemma ToggleBitBits(v: nat, bit: nat, i: nat)
    requires i < 32
    ensures TestBit(ToggleBit(v, bit), i) == (TestBit(v, i) != (i == bit % 32))
  {
    BitwiseBit(XorOp, v, Pow2(bit % 32), 32, i);
    TestBitPow2(bit % 32, i);
  }

  /** Bit `i` of the three updating built-ins, against bit `i` of the value. */
  lemma BitBuiltinBits(v: nat, bit: nat, i: nat)
    requires i < 32
    ensures TestBit(SetBit(v, bit), i) == (i == bit % 32 || TestBit(v, i))
    ensures TestBit(ClearBit(v, bit), i) == (i != bit % 32 && TestBit(v, i))
    ensures TestBit(ToggleBit(v, bit), i) == (TestBit(v, i) != (i == bit % 32))
  {
    SetBitBits(v, bit, i);
    ClearBitBits(v, bit, i);
    ToggleBitBits(v, bit, i);
  }

  /**
    * After `set_bit` the bit reads 1, after `clear_bit` it reads 0, after
    * `toggle_bit` it reads flipped; every other bit reads as before.
    */
  lemma GetAfterUpdate(v: nat, bit: nat, other: nat)
    ensures GetBit(SetBit(v, bit), bit) == 1
    ensures GetBit(ClearBit(v, bit), bit) == 0
    ensures GetBit(ToggleBit(v, bit), bit) == 1 - GetBit(v, bit)
    ensures other % 32 != bit % 32 ==>
              && GetBit(SetBit(v, bit), other) == GetBit(v, other)
              && GetBit(ClearBit(v, bit), other) == GetBit(v, other)
              && GetBit(ToggleBit(v, bit), other) == GetBit(v, other)
  {
    BitBuiltinBits(v, bit, bit % 32);
    BitBuiltinBits(v, bit, other % 32);
    GetBitTests(SetBit(v, bit), bit);
    GetBitTests(ClearBit(v, bit), bit);
    GetBitTests(ToggleBit(v, bit), bit);
    GetBitTests(v, bit);
    GetBitTests(SetBit(v, bit), other);
    GetBitTests(ClearBit(v, bit), other);
    GetBitTests(ToggleBit(v, bit), other);
    GetBitTests(v, other);
  }

  /** Toggling the same bit twice gives back the value masked to a word. */
  lemma ToggleTwice(v: nat, bit: nat)
    ensures ToggleBit(ToggleBit(v, bit), bit) == Mask(v)
  {
    var t := ToggleBit(ToggleBit(v, bit), bit);
    var m := Mask(v);
    forall i | 0 <= i < 32
      ensures TestBit(t, i) == TestBit(m, i)
    {
      BitBuiltinBits(v, bit, i);
      BitBuiltinBits(ToggleBit(v, bit), bit, i);
      LowBitsOfMask(v, i);
    }
    WordsEqual(t, m);
  }

  /** Masking keeps the low 32 bits. */
  lemma LowBitsOfMask(v: nat, i: nat)
    requires i < 32
    ensures TestBit(Mask(v), i) == TestBit(v, i)
  {
    Pow2At32();
    BitwiseBit(OrOp, v, 0, 32, i);
    ZeroBits(i);
    BitwiseIsMask(OrOp, v, 32);
  }

  /** Or with zero over `n` bits keeps `v` modulo 2^n. */
  lemma {:induction false} BitwiseIsMask(op: BitOp, v: nat, n: nat)
    requires op == OrOp
    ensures Bitwise(op, v, 0, n) == v % Pow2(n)
    decreases n
  {
    if n > 0 {
      BitwiseIsMask(op, v / 2, n - 1);
      var p := Pow2(n - 1);
      assert Pow2(n) == 2 * p;
      DivModHalf(v, p);
    }
  }

  lemma DivModHalf(v: nat, p: nat)
    requires p >= 1
    ensures v % (2 * p) == 2 * ((v / 2) % p) + v % 2
  {
    var q := (v / 2) / p;
    var r := (v / 2) % p;
    assert v / 2 == q * p + r;
    assert v == q * (2 * p) + (2 * r + v % 2);
    ModUnique(v, q, 2 * p, 2 * r + v % 2);
  }
}

=== FILE: parser.dfy ===
/**
  * The recursive-descent parser (parser.py): tokens to a `Program`.
  * Every parse function takes the token list and the current index and
  * returns the node built together with the index after it, or the text of
  * the `SyntaxError` the Python raises. Where the Python reads
  * `self.current_token().type` without checking for the end of the list, the
  * model returns the `AttributeError` text instead.
  */
module Parser {
  import opened Results
  import opened Text
  import opened Tokens
  import opened Ast

  datatype Parsed<T> = POk(value: T, pos: nat) | PErr(msg: string) {
    predicate IsFailure() { PErr? }

    function PropagateFailure<U>(): Parsed<U>
      requires PErr?
    {
      PErr(msg)
    }

    function Extract(): (T, nat)
      requires POk?
    {
      (value, pos)
    }
  }

  /** The token at `pos` exists and has kind `k`. */
  predicate At(toks: seq<Token>, pos: nat, k: TokenType) {
    pos < |toks| && toks[pos].kind == k
  }

  /** What Python reports when `current_token()` is `None` and its `.type` is read. */
  const NoTokenMessage: string := "'NoneType' object has no attribute 'type'"

  function LineText(toks: seq<Token>, pos: nat): string {
    if pos < |toks| then NatToString(toks[pos].line) else "?"
  }

  function ColumnText(toks: seq<Token>, pos: nat): string {
    if pos < |toks| then NatToString(toks[pos].column) else "?"
  }

  /** The message of `expect`: the custom text (if non-empty) or what was expected and found, then where. */
  function ExpectMessage(toks: seq<Token>, pos: nat, k: TokenType, custom: string): string {
    var what := if custom != "" then custom
                else "Expected " + TypeName(k) + ", got " + (if pos < |toks| then TypeName(toks[pos].kind) else "EOF");
    what + " at line " + LineText(toks, pos) + ", column " + ColumnText(toks, pos)
  }

  /** `expect`: consume a token of kind `k`, or fail. */
  function Expect(toks: seq<Token>, pos: nat, k: TokenType, custom: string): (r: Parsed<Token>)
    requires pos <= |toks|
    ensures r.POk? <==> At(toks, pos, k)
    ensures r.POk? ==> r.pos == pos + 1 && r.value == toks[pos]
    ensures r.PErr? ==> r.msg == ExpectMessage(toks, pos, k, custom)
  {
    if At(toks, pos, k) then POk(toks[pos], pos + 1) else PErr(ExpectMessage(toks, pos, k, custom))
  }

  // ---------------------------------------------------------------------
  // Expressions
  // ---------------------------------------------------------------------

  /**
    * The binary precedence level whose loop consumes a token type, loosest
    * first: `||` 0, `&&` 1, `|` 2, `^` 3, `&` 4, equality 5, relational 6,
    * shifts 7, additive 8, multiplicative 9. Every other token type gets 10,
    * the unary level; 11 and 12 are postfix and primary.
    */
  function OpLevel(k: TokenType): (lvl: nat)
    ensures lvl <= 10
  {
    match k
    case Or => 0
    case And => 1
    case BitwiseOr => 2
    case BitwiseXor => 3
    case BitwiseAnd => 4
    case Equal => 5
    case NotEqual => 5
    case Less => 6
    case LessEqual => 6
    case Greater => 6
    case GreaterEqual => 6
    case ShiftLeft => 7
    case ShiftRight => 7
    case Plus => 8
    case Minus => 8
    case Multiply => 9
    case Divide => 9
    case Modulo => 9
    case _ => 10
  }

  const UnaryLevel: nat := 10
  const PostfixLevel: nat := 11
  const PrimaryLevel: nat := 12

  /** Termination rank of the parse function for a level: looser levels call tighter ones. */
  function RankOf(lvl: nat): nat {
    if lvl <= 9 then 8 + 3 * (9 - lvl) else if lvl == 10 then 6 else if lvl == 11 then 4 else 2
  }

  /** `parse_expression`: the loosest level. */
  function ParseExpression(toks: seq<Token>, pos: nat): (r: Parsed<Expr>)
    requires pos <= |toks|
    ensures r.POk? ==> pos < r.pos <= |toks|
    decreases |toks| - pos, RankOf(0) + 2
  {
    ParseAt(toks, 0, pos)
  }

  /** The parse function of precedence level `lvl`. */
  function ParseAt(toks: seq<Token>, lvl: nat, pos: nat): (r: Parsed<Expr>)
    requires lvl <= PrimaryLevel && pos <= |toks|
    ensures r.POk? ==> pos < r.pos <= |toks|
    decreases |toks| - pos, RankOf(lvl) + 1
  {
    if lvl <= 9 then ParseBinary(toks, lvl, pos)
    else if lvl == UnaryLevel then ParseUnary(toks, pos)
    else if lvl == PostfixLevel then ParsePostfix(toks, pos)
    else ParsePrimary(toks, pos)
  }

  /** `parse_logical_or` ... `parse_multiplicative`: an operand of the next level, then the loop. */
  function ParseBinary(toks: seq<Token>, lvl: nat, pos: nat): (r: Parsed<Expr>)
    requires lvl <= 9 && pos <= |toks|
    ensures r.POk? ==> pos < r.pos <= |toks|
    decreases |toks| - pos, RankOf(lvl)
  {
    var left :- ParseAt(toks, lvl + 1, pos);
    FoldLevel(toks, lvl, left.0, left.1)
  }

  /** The `while` loop of a binary level: each operator of the level extends `left` leftwards-associatively. */
  function FoldLevel(toks: seq<Token>, lvl: nat, left: Expr, pos: nat): (r: Parsed<Expr>)
    requires lvl <= 9 && pos <= |toks|
    ensures r.POk? ==> pos <= r.pos <= |toks|
    decreases |toks| - pos, 0
  {
    if pos < |toks| && OpLevel(toks[pos].kind) == lvl then
      var right :- ParseAt(toks, lvl + 1, pos + 1);
      FoldLevel(toks, lvl, BinaryOp(toks[pos].value, left, right.0), right.1)
    else POk(left, pos)
  }

  /** `parse_unary`: `&`, `*`, `!` and `-` prefixes, right-nested. */
  function ParseUnary(toks: seq<Token>, pos: nat): (r: Parsed<Expr>)
    requires pos <= |toks|
    ensures r.POk? ==> pos < r.pos <= |toks|
    decreases |toks| - pos, RankOf(UnaryLevel)
  {
    if At(toks, pos, BitwiseAnd) then
      var operand :- ParseUnary(toks, pos + 1);
      POk(AddressOf(operand.0), operand.1)
    else if At(toks, pos, Multiply) then
      var operand :- ParseUnary(toks, pos + 1);
      POk(Dereference(operand.0), operand.1)
    else if At(toks, pos, Not) || At(toks, pos, Minus) then
      var operand :- ParseUnary(toks, pos + 1);
      POk(UnaryOp(toks[pos].value, operand.0), operand.1)
    else ParsePostfix(toks, pos)
  }

  /** `parse_postfix`: a primary, then any number of `[index]`. */
  function ParsePostfix(toks: seq<Token>, pos: nat): (r: Parsed<Expr>)
    requires pos <= |toks|
    ensures r.POk? ==> pos < r.pos <= |toks|
    decreases |toks| - pos, RankOf(PostfixLevel)
  {
    var primary :- ParsePrimary(toks, pos);
    PostfixLoop(toks, primary.0, primary.1)
  }

  /**
    * The `[index]` loop. Indexing an `ArrayAccess` again keeps its array name
    * and replaces the index, so `a[i][j]` reads `a[j]`; indexing anything
    * other than a name or an array access is an error.
    */
  function PostfixLoop(toks: seq<Token>, e: Expr, pos: nat): (r: Parsed<Expr>)
    requires pos <= |toks|
    ensures r.POk? ==> pos <= r.pos <= |toks|
    decreases |toks| - pos, 0
  {
    if At(toks, pos, LBracket) then
      var index :- ParseExpression(toks, pos + 1);
      var close :- Expect(toks, index.1, RBracket, "");
      var p := close.1;
      if e.Identifier? then PostfixLoop(toks, ArrayAccess(e.name, index.0), p)
      else if e.ArrayAccess? then PostfixLoop(toks, ArrayAccess(e.arrayName, index.0), p)
      else PErr("Array access on non-identifier expression at line " + LineText(toks, p))
    else POk(e, pos)
  }

  /** `parse_primary`: a literal, a name, a call, or a parenthesised expression. */
  function ParsePrimary(toks: seq<Token>, pos: nat): (r: Parsed<Expr>)
    requires pos <= |toks|
    ensures r.POk? ==> pos < r.pos <= |toks|
    decreases |toks| - pos, RankOf(PrimaryLevel)
  {
    if pos == |toks| then PErr("Unexpected end of file in expression")
    else
      var t := toks[pos];
      if t.kind == TokenType.Literal then
        match PyIntAuto(t.value)
        case Some(v) => POk(Expr.Literal(v), pos + 1)
        case None =>
          PErr("Invalid numeric literal: " + t.value + " at line " + NatToString(t.line)
               + ", column " + NatToString(t.column))
      else if t.kind == TokenType.Identifier then
        if At(toks, pos + 1, LParen) then
          var args :- ParseArgs(toks, pos + 2);
          POk(FunctionCall(t.value, args.0), args.1)
        else POk(Expr.Identifier(t.value), pos + 1)
      else if t.kind == LParen then
        var inner :- ParseExpression(toks, pos + 1);
        var close :- Expect(toks, inner.1, RParen, "");
        POk(inner.0, close.1)
      else PErr("Unexpected token in expression: " + TokenRepr(t) + " at line " + NatToString(t.line))
  }

  /** The arguments of a call, after its `(`, and the closing `)`. */
  function ParseArgs(toks: seq<Token>, pos: nat): (r: Parsed<seq<Expr>>)
    requires pos <= |toks|
    ensures r.POk? ==> pos < r.pos <= |toks|
    decreases |toks| - pos, RankOf(0) + 3
  {
    if pos < |toks| && toks[pos].kind != RParen then
      var first :- ParseExpression(toks, pos);
      var all :- CommaList(toks, first.1, [first.0]);
      var close :- Expect(toks, all.1, RParen, "");
      POk(all.0, close.1)
    else
      var close :- Expect(toks, pos, RParen, "");
      POk([], close.1)
  }

  /** Further `, expression` items of a list, appended to `acc`. */
  function CommaList(toks: seq<Token>, pos: nat, acc: seq<Expr>): (r: Parsed<seq<Expr>>)
    requires pos <= |toks|
    ensures r.POk? ==> pos <= r.pos <= |toks| && |r.value| >= |acc| && r.value[..|acc|] == acc
    decreases |toks| - pos, 0
  {
    if At(toks, pos, Comma) then
      var e :- ParseExpression(toks, pos + 1);
      var r := CommaList(toks, e.1, acc + [e.0]);
      assert r.POk? ==> r.value[..|acc|] == (r.value[..|acc| + 1])[..|acc|];
      r
    else POk(acc, pos)
  }

  // ---------------------------------------------------------------------
  // Statements
  // ---------------------------------------------------------------------

  /** The leading `register` / `volatile` keywords of a declaration, in any order and number. */
  function Modifiers(toks: seq<Token>, pos: nat, isRegister: bool, isVolatile: bool): (r: (bool, bool, nat))
    requires pos <= |toks|
    ensures pos <= r.2 <= |toks|
    ensures r.2 == |toks| || toks[r.2].kind !in {Register, Volatile}
    decreases |toks| - pos
  {
    if At(toks, pos, Register) then Modifiers(toks, pos + 1, true, isVolatile)
    else if At(toks, pos, Volatile) then Modifiers(toks, pos + 1, isRegister, true)
    else (isRegister, isVolatile, pos)
  }

  /**
    * The register number of a `register` variable: its name must be `r`
    * followed by text `int()` reads as a number from 0 to 31.
    */
  function RegisterNumber(name: string, line: nat): (r: Result<int, string>)
    ensures r.Ok? <==> |name| > 1 && name[0] == 'r' && PyInt(name[1..]).Some? && 0 <= PyInt(name[1..]).value <= 31
    ensures r.Ok? ==> r.value == PyInt(name[1..]).value
  {
    if |name| > 1 && name[0] == 'r' then
      match PyInt(name[1..])
      case None => Err("Invalid register name: " + name + " at line " + NatToString(line))
      case Some(n) =>
        if n < 0 || n > 31 then Err("Register number must be 0-31, got " + IntToString(n) + " at line " + NatToString(line))
        else Ok(n)
    else Err("Register variables must be named r0-r31, got " + name + " at line " + NatToString(line))
  }

  /** An optional `= expression`. */
  function OptionalInit(toks: seq<Token>, pos: nat): (r: Parsed<Option<Expr>>)
    requires pos <= |toks|
    ensures r.POk? ==> pos <= r.pos <= |toks|
  {
    if At(toks, pos, Assign) then
      var e :- ParseExpression(toks, pos + 1);
      POk(Some(e.0), e.1)
    else POk(None, pos)
  }

  /** The `= { e, ... }` initializer list of an array, if any. */
  function ArrayInit(toks: seq<Token>, pos: nat): (r: Parsed<seq<Expr>>)
    requires pos <= |toks|
    ensures r.POk? ==> pos <= r.pos <= |toks|
  {
    if At(toks, pos, Assign) then
      var open :- Expect(toks, pos + 1, LBrace, "");
      var items :-
        if open.1 < |toks| && toks[open.1].kind != RBrace then
          var first :- ParseExpression(toks, open.1);
          CommaList(toks, first.1, [first.0])
        else POk([], open.1);
      var close :- Expect(toks, items.1, RBrace, "");
      POk(items.0, close.1)
    else POk([], pos)
  }

  /** `parse_var_decl`: a scalar, array or pointer declaration. */
  function ParseVarDecl(toks: seq<Token>, pos: nat): (r: Parsed<Stmt>)
    requires pos <= |toks|
    ensures r.POk? ==> pos < r.pos <= |toks|
    ensures r.POk? ==> r.value.VarDecl? || r.value.ArrayDecl? || r.value.PointerDecl?
  {
    var (isRegister, isVolatile, p) := Modifiers(toks, pos, false, false);
    if p == |toks| then PErr(NoTokenMessage)
    else
      var ty :-
        if toks[p].kind == Uint32 then POk("uint32", p + 1)
        else if toks[p].kind == Int32 then POk("int32", p + 1)
        else PErr("Expected uint32 or int32, got " + TokenRepr(toks[p]) + " at line " + NatToString(toks[p].line));
      var isPointer := At(toks, ty.1, Multiply);
      var nameTok :- Expect(toks, if isPointer then ty.1 + 1 else ty.1, TokenType.Identifier, "Expected variable name");
      var name := nameTok.0.value;
      var q := nameTok.1;
      if At(toks, q, LBracket) then ParseArrayDecl(toks, q, name, isRegister, isVolatile)
      else if isPointer then
        var init :- OptionalInit(toks, q);
        var semi :- Expect(toks, init.1, Semicolon, "");
        POk(PointerDecl(name, init.0, isRegister, isVolatile), semi.1)
      else ParseScalarDecl(toks, q, name, nameTok.0.line, ty.0, isRegister, isVolatile)
  }

  /** The rest of an array declaration, from its `[`: the size, an optional initializer list, `;`. */
  function ParseArrayDecl(toks: seq<Token>, q: nat, name: string, isRegister: bool, isVolatile: bool): (r: Parsed<Stmt>)
    requires q < |toks|
    ensures r.POk? ==> q < r.pos <= |toks| && r.value.ArrayDecl? && r.value.name == name
  {
    var size :- ParseExpression(toks, q + 1);
    var close :- Expect(toks, size.1, RBracket, "");
    var init :- ArrayInit(toks, close.1);
    var semi :- Expect(toks, init.1, Semicolon, "");
    POk(ArrayDecl(name, size.0, init.0, isRegister, isVolatile), semi.1)
  }

  /** The rest of a scalar declaration, after its name: the register check, an initializer, `;`. */
  function ParseScalarDecl(toks: seq<Token>, q: nat, name: string, line: nat, ty: string,
                           isRegister: bool, isVolatile: bool): (r: Parsed<Stmt>)
    requires q <= |toks|
    ensures r.POk? ==> q < r.pos <= |toks| && r.value.VarDecl? && r.value.name == name
    ensures r.POk? ==> r.value.isRegister == isRegister && r.value.isVolatile == isVolatile && r.value.varType == ty
    ensures r.POk? && isRegister ==>
              |name| > 1 && name[0] == 'r' && PyInt(name[1..]).Some?
              && 0 <= PyInt(name[1..]).value <= 31 && r.value.registerNum == PyInt(name[1..])
    ensures r.POk? && !isRegister ==> r.value.registerNum == None
  {
    var reg :-
      if isRegister then
        match RegisterNumber(name, line)
        case Ok(n) => POk(Some(n), q)
        case Err(m) => PErr(m)
      else POk(None, q);
    var init :- OptionalInit(toks, q);
    var semi :- Expect(toks, init.1, Semicolon, "");
    POk(VarDecl(name, init.0, ty, isRegister, isVolatile, reg.0), semi.1)
  }

  /** `parse_assignment`: `*e = v;`, `name[i] = v;` or `name = v;`. */
  function ParseAssignment(toks: seq<Token>, pos: nat): (r: Parsed<Stmt>)
    requires pos <= |toks|
    ensures r.POk? ==> pos < r.pos <= |toks|
    ensures r.POk? ==> r.value.Assignment? || r.value.ArrayAssignment? || r.value.PointerAssignment?
  {
    if pos == |toks| then PErr("Unexpected end of file in assignment")
    else if toks[pos].kind == Multiply then
      var target :- ParseExpression(toks, pos + 1);
      var eq :- Expect(toks, target.1, Assign, "");
      var value :- ParseExpression(toks, eq.1);
      var semi :- Expect(toks, value.1, Semicolon, "");
      POk(PointerAssignment(target.0, value.0), semi.1)
    else if toks[pos].kind == TokenType.Identifier then
      var name := toks[pos].value;
      if At(toks, pos + 1, LBracket) then
        var index :- ParseExpression(toks, pos + 2);
        var close :- Expect(toks, index.1, RBracket, "");
        var eq :- Expect(toks, close.1, Assign, "");
        var value :- ParseExpression(toks, eq.1);
        var semi :- Expect(toks, value.1, Semicolon, "");
        POk(ArrayAssignment(name, index.0, value.0), semi.1)
      else
        var eq :- Expect(toks, pos + 1, Assign, "");
        var value :- ParseExpression(toks, eq.1);
        var semi :- Expect(toks, value.1, Semicolon, "");
        POk(Assignment(name, value.0), semi.1)
    else PErr("Expected identifier or * in assignment at line " + NatToString(toks[pos].line))
  }

  /** `++name;` or `--name;`. */
  function ParsePrefixStep(toks: seq<Token>, pos: nat, increment: bool): (r: Parsed<Stmt>)
    requires pos <= |toks|
    ensures r.POk? ==> pos < r.pos <= |toks|
    ensures r.POk? ==> if increment then r.value.Increment? else r.value.Decrement?
  {
    var op :- Expect(toks, pos, if increment then TokenType.Increment else TokenType.Decrement, "");
    var nameTok :- Expect(toks, op.1, TokenType.Identifier,
                          if increment then "Expected variable name after ++" else "Expected variable name after --");
    var semi :- Expect(toks, nameTok.1, Semicolon, "");
    POk(if increment then Stmt.Increment(nameTok.0.value, true) else Stmt.Decrement(nameTok.0.value, true), semi.1)
  }

  /** `return;` or `return e;`. */
  function ParseReturn(toks: seq<Token>, pos: nat): (r: Parsed<Stmt>)
    requires pos <= |toks|
    ensures r.POk? ==> pos < r.pos <= |toks|
    ensures r.POk? ==> r.value.Return?
  {
    var kw :- Expect(toks, pos, TokenType.Return, "");
    var value :-
      if kw.1 < |toks| && toks[kw.1].kind != Semicolon then
        var e :- ParseExpression(toks, kw.1);
        POk(Some(e.0), e.1)
      else POk(None, kw.1);
    var semi :- Expect(toks, value.1, Semicolon, "");
    POk(Stmt.Return(value.0), semi.1)
  }

  /** The initialiser clause of a `for`: a declaration, an assignment, or nothing. */
  function ForInit(toks: seq<Token>, pos: nat): (r: Parsed<Option<Stmt>>)
    requires pos <= |toks|
    ensures r.POk? ==> pos <= r.pos <= |toks|
  {
    if At(toks, pos, Uint32) || At(toks, pos, Int32) then
      var ty := if toks[pos].kind == Uint32 then "uint32" else "int32";
      var nameTok :- Expect(toks, pos + 1, TokenType.Identifier, "Expected variable name");
      var init :- OptionalInit(toks, nameTok.1);
      POk(Some(VarDecl(nameTok.0.value, init.0, ty, false, false, None)), init.1)
    else if At(toks, pos, TokenType.Identifier) && At(toks, pos + 1, Assign) then
      var value :- ParseExpression(toks, pos + 2);
      POk(Some(Assignment(toks[pos].value, value.0)), value.1)
    else POk(None, pos)
  }

  /**
    * The step clause of a `for`: `++x`, `--x`, `x++`, `x--`, `x = e`, or
    * nothing. A name followed by anything else is consumed and ignored.
    */
  function ForStep(toks: seq<Token>, pos: nat): (r: Parsed<Option<Stmt>>)
    requires pos <= |toks|
    ensures r.POk? ==> pos <= r.pos <= |toks|
  {
    if pos == |toks| || toks[pos].kind == RParen then POk(None, pos)
    else if toks[pos].kind == TokenType.Increment then
      var nameTok :- Expect(toks, pos + 1, TokenType.Identifier, "Expected variable name after ++");
      POk(Some(Stmt.Increment(nameTok.0.value, true)), nameTok.1)
    else if toks[pos].kind == TokenType.Decrement then
      var nameTok :- Expect(toks, pos + 1, TokenType.Identifier, "Expected variable name after --");
      POk(Some(Stmt.Decrement(nameTok.0.value, true)), nameTok.1)
    else if toks[pos].kind == TokenType.Identifier then
      var name := toks[pos].value;
      if At(toks, pos + 1, TokenType.Increment) then POk(Some(Stmt.Increment(name, false)), pos + 2)
      else if At(toks, pos + 1, TokenType.Decrement) then POk(Some(Stmt.Decrement(name, false)), pos + 2)
      else if At(toks, pos + 1, Assign) then
        var value :- ParseExpression(toks, pos + 2);
        POk(Some(Assignment(name, value.0)), value.1)
      else POk(None, pos + 1)
    else POk(None, pos)
  }

  /** `parse_statement`: dispatch on the first token (and, for a name, the second). */
  function ParseStatement(toks: seq<Token>, pos: nat): (r: Parsed<Stmt>)
    requires pos <= |toks|
    ensures r.POk? ==> pos < r.pos <= |toks|
    decreases |toks| - pos, 2
  {
    if pos == |toks| then PErr("Unexpected end of file")
    else
      var t := toks[pos];
      if t.kind in {Uint32, Int32, Register, Volatile} then ParseVarDecl(toks, pos)
      else if t.kind == TokenType.Increment then ParsePrefixStep(toks, pos, true)
      else if t.kind == TokenType.Decrement then ParsePrefixStep(toks, pos, false)
      else if t.kind == TokenType.Return then ParseReturn(toks, pos)
      else if t.kind == If then ParseIf(toks, pos)
      else if t.kind == While then ParseWhile(toks, pos)
      else if t.kind == For then ParseFor(toks, pos)
      else if t.kind == LBrace then
        var b :- ParseBlock(toks, pos);
        POk(Block(b.0), b.1)
      else if t.kind == TokenType.Identifier && At(toks, pos + 1, LParen) then
        var call :- ParseExpression(toks, pos);
        var semi :- Expect(toks, call.1, Semicolon, "");
        POk(FunctionCallStmt(call.0), semi.1)
      else if t.kind == TokenType.Identifier && (At(toks, pos + 1, LBracket) || At(toks, pos + 1, Assign)) then
        ParseAssignment(toks, pos)
      else if t.kind == TokenType.Identifier && (At(toks, pos + 1, TokenType.Increment) || At(toks, pos + 1, TokenType.Decrement)) then
        var semi :- Expect(toks, pos + 2, Semicolon, "");
        POk(if toks[pos + 1].kind == TokenType.Increment then Stmt.Increment(t.value, false) else Stmt.Decrement(t.value, false), semi.1)
      else if t.kind == Multiply && pos + 1 < |toks| then ParseAssignment(toks, pos)
      else PErr("Unexpected token in statement: " + TokenRepr(t) + " at line " + NatToString(t.line))
  }

  /** `parse_block`: `{`, statements up to the matching `}`, `}`. */
  function ParseBlock(toks: seq<Token>, pos: nat): (r: Parsed<seq<Stmt>>)
    requires pos <= |toks|
    ensures r.POk? ==> pos < r.pos <= |toks|
    decreases |toks| - pos, 1
  {
    var open :- Expect(toks, pos, LBrace, "");
    var items :- BlockItems(toks, open.1, []);
    var close :- Expect(toks, items.1, RBrace, "");
    POk(items.0, close.1)
  }

  function BlockItems(toks: seq<Token>, pos: nat, acc: seq<Stmt>): (r: Parsed<seq<Stmt>>)
    requires pos <= |toks|
    ensures r.POk? ==> pos <= r.pos <= |toks|
    decreases |toks| - pos, 3
  {
    if pos < |toks| && toks[pos].kind != RBrace then
      var s :- ParseStatement(toks, pos);
      BlockItems(toks, s.1, acc + [s.0])
    else POk(acc, pos)
  }

  function ParseIf(toks: seq<Token>, pos: nat): (r: Parsed<Stmt>)
    requires pos <= |toks|
    ensures r.POk? ==> pos < r.pos <= |toks|
    ensures r.POk? ==> r.value.IfStmt?
    decreases |toks| - pos, 1
  {
    var kw :- Expect(toks, pos, If, "");
    var open :- Expect(toks, kw.1, LParen, "");
    var cond :- ParseExpression(toks, open.1);
    var close :- Expect(toks, cond.1, RParen, "");
    var thenS :- ParseStatement(toks, close.1);
    if At(toks, thenS.1, Else) then
      var elseS :- ParseStatement(toks, thenS.1 + 1);
      POk(IfStmt(cond.0, thenS.0, Some(elseS.0)), elseS.1)
    else POk(IfStmt(cond.0, thenS.0, None), thenS.1)
  }

  function ParseWhile(toks: seq<Token>, pos: nat): (r: Parsed<Stmt>)
    requires pos <= |toks|
    ensures r.POk? ==> pos < r.pos <= |toks|
    ensures r.POk? ==> r.value.WhileStmt?
    decreases |toks| - pos, 1
  {
    var kw :- Expect(toks, pos, While, "");
    var open :- Expect(toks, kw.1, LParen, "");
    var cond :- ParseExpression(toks, open.1);
    var close :- Expect(toks, cond.1, RParen, "");
    var body :- ParseStatement(toks, close.1);
    POk(WhileStmt(cond.0, body.0), body.1)
  }

  function ParseFor(toks: seq<Token>, pos: nat): (r: Parsed<Stmt>)
    requires pos <= |toks|
    ensures r.POk? ==> pos < r.pos <= |toks|
    ensures r.POk? ==> r.value.ForStmt?
    decreases |toks| - pos, 1
  {
    var kw :- Expect(toks, pos, For, "");
    var open :- Expect(toks, kw.1, LParen, "");
    var init :- ForInit(toks, open.1);
    var semi1 :- Expect(toks, init.1, Semicolon, "");
    var cond :-
      if semi1.1 < |toks| && toks[semi1.1].kind != Semicolon then
        var e :- ParseExpression(toks, semi1.1);
        POk(Some(e.0), e.1)
      else POk(None, semi1.1);
    var semi2 :- Expect(toks, cond.1, Semicolon, "");
    var step :- ForStep(toks, semi2.1);
    var close :- Expect(toks, step.1, RParen, "");
    var body :- ParseStatement(toks, close.1);
    POk(ForStmt(init.0, cond.0, step.0, body.0), body.1)
  }

  // ---------------------------------------------------------------------
  // Functions and the program
  // ---------------------------------------------------------------------

  /** One parameter: `uint32 name`, `uint32 *name` or a bare `name`. */
  function ParseParam(toks: seq<Token>, pos: nat): (r: Parsed<string>)
    requires pos < |toks|
    ensures r.POk? ==> pos < r.pos <= |toks|
  {
    var p := if toks[pos].kind == Uint32 then (if At(toks, pos + 1, Multiply) then pos + 2 else pos + 1) else pos;
    var nameTok :- Expect(toks, p, TokenType.Identifier, "Expected parameter name");
    POk(nameTok.0.value, nameTok.1)
  }

  function MoreParams(toks: seq<Token>, pos: nat, acc: seq<string>): (r: Parsed<seq<string>>)
    requires pos <= |toks|
    ensures r.POk? ==> pos <= r.pos <= |toks| && |r.value| >= |acc|
    decreases |toks| - pos
  {
    if At(toks, pos, Comma) then
      if pos + 1 == |toks| then PErr(NoTokenMessage)
      else
        var param :- ParseParam(toks, pos + 1);
        MoreParams(toks, param.1, acc + [param.0])
    else POk(acc, pos)
  }

  /** `parse_function`: `[interrupt] function name(params) { ... }`. */
  function ParseFunction(toks: seq<Token>, pos: nat): (r: Parsed<FunctionDef>)
    requires pos <= |toks|
    ensures r.POk? ==> pos < r.pos <= |toks|
    ensures r.POk? && r.value.isInterrupt ==> |r.value.params| == 0
  {
    var isInterrupt := At(toks, pos, Interrupt);
    var kw :- Expect(toks, if isInterrupt then pos + 1 else pos, Function, "");
    var nameTok :- Expect(toks, kw.1, TokenType.Identifier, "Expected function name");
    var open :- Expect(toks, nameTok.1, LParen, "");
    var params :-
      if open.1 < |toks| && toks[open.1].kind != RParen then
        var first :- ParseParam(toks, open.1);
        MoreParams(toks, first.1, [first.0])
      else POk([], open.1);
    var close :- Expect(toks, params.1, RParen, "");
    if isInterrupt && |params.0| > 0 then
      PErr("Interrupt function '" + nameTok.0.value + "' cannot have parameters at line " + NatToString(nameTok.0.line))
    else
      var body :- ParseBlock(toks, close.1);
      POk(FunctionDef(nameTok.0.value, params.0, body.0, isInterrupt), body.1)
  }

  predicate HasMain(functions: seq<FunctionDef>) {
    exists i | 0 <= i < |functions| :: functions[i].name == "main"
  }

  /** The loop of `parse`: functions and global declarations until EOF or the end of the list. */
  function ParseTop(toks: seq<Token>, pos: nat, functions: seq<FunctionDef>, globals: seq<Stmt>): (r: Result<Program, string>)
    requires pos <= |toks|
    ensures r.Ok? ==> HasMain(r.value.functions)
    decreases |toks| - pos
  {
    if pos < |toks| && toks[pos].kind != Eof then
      var t := toks[pos];
      if t.kind == Function || (t.kind == Interrupt && At(toks, pos + 1, Function)) then
        match ParseFunction(toks, pos)
        case PErr(m) => Err(m)
        case POk(f, p) => ParseTop(toks, p, functions + [f], globals)
      else if t.kind in {Uint32, Int32, Register, Volatile} then
        match ParseVarDecl(toks, pos)
        case PErr(m) => Err(m)
        case POk(d, p) => ParseTop(toks, p, functions, globals + [d])
      else Err("Unexpected token: " + TokenRepr(t) + " at line " + NatToString(t.line))
    else if HasMain(functions) then Ok(Program(functions, globals))
    else Err("Program must have a 'main' function")
  }

  /** Parsing never drops or reorders a function already parsed: they stay, in order, at the front. */
  lemma {:induction false} ParseTopKeepsFunctions(toks: seq<Token>, pos: nat, functions: seq<FunctionDef>,
                                                  globals: seq<Stmt>)
    requires pos <= |toks|
    ensures ParseTop(toks, pos, functions, globals).Ok? ==> functions <= ParseTop(toks, pos, functions, globals).value.functions
    decreases |toks| - pos
  {
    hide ParseFunction, ParseVarDecl, TokenRepr, NatToString;
    if pos < |toks| && toks[pos].kind != Eof {
      var t := toks[pos];
      if t.kind == Function || (t.kind == Interrupt && At(toks, pos + 1, Function)) {
        match ParseFunction(toks, pos)
        case PErr(_) =>
        case POk(f, p) =>
          ParseTopKeepsFunctions(toks, p, functions + [f], globals);
      } else if t.kind in {Uint32, Int32, Register, Volatile} {
        match ParseVarDecl(toks, pos)
        case PErr(_) =>
        case POk(d, p) =>
          ParseTopKeepsFunctions(toks, p, functions, globals + [d]);
      }
    }
  }

  /** `Parser(tokens).parse()`: a program has a function named `main`, or parsing fails. */
  function Parse(toks: seq<Token>): (r: Result<Program, string>)
    ensures r.Ok? ==> HasMain(r.value.functions)
  {
    ParseTop(toks, 0, [], [])
  }
}

=== FILE: parser_forms.dfy ===
/**
  * What each statement form the parser accepts is made of: which tokens it
  * consumes, in what order, and which sub-parse supplies each part of the
  * node it builds.
  */
module ParserForms {
  import opened Results
  import opened Text
  import opened Tokens
  import opened Ast
  import opened Parser

  /**
    * What a successful `if` parse at `pos` reads: `if (`, the condition
    * `parse_expression` reads there, `)`, the then-branch `parse_statement`
    * reads next, and, exactly when an `else` follows the then-branch, the
    * else-branch read after it. The statement ends where its last branch does.
    */
  predicate IfRead(toks: seq<Token>, pos: nat, r: Parsed<Stmt>)
    requires pos <= |toks|
  {
    && At(toks, pos, If) && At(toks, pos + 1, LParen)
    && var c := ParseExpression(toks, pos + 2);
       && c.POk? && At(toks, c.pos, RParen)
       && var t := ParseStatement(toks, c.pos + 1);
          && t.POk?
          && if At(toks, t.pos, Else) then
               var e := ParseStatement(toks, t.pos + 1);
               e.POk? && r == POk(IfStmt(c.value, t.value, Some(e.value)), e.pos)
             else r == POk(IfStmt(c.value, t.value, None), t.pos)
  }

  lemma IfParts(toks: seq<Token>, pos: nat)
    requires pos <= |toks| && ParseIf(toks, pos).POk?
    ensures IfRead(toks, pos, ParseIf(toks, pos))
  {
    hide ParseExpression, ParseAt, ParseBinary, FoldLevel, ParseUnary, ParsePostfix, PostfixLoop, ParsePrimary;
    hide ParseArgs, CommaList, OptionalInit, ArrayInit, ParseVarDecl, ParseArrayDecl, ParseScalarDecl;
    hide ParseAssignment, ParsePrefixStep, ParseReturn, ForInit, ForStep, ParseStatement, ParseBlock;
    hide BlockItems, ParseWhile, ParseFor, Modifiers, RegisterNumber, ExpectMessage, NatToString, TypeName;
    hide TokenRepr, PyInt, Expect, At;
  }

  /** What a successful `while` parse reads: `while (`, the condition, `)`, and the body statement after it. */
  predicate WhileRead(toks: seq<Token>, pos: nat, r: Parsed<Stmt>)
    requires pos <= |toks|
  {
    && At(toks, pos, While) && At(toks, pos + 1, LParen)
    && var c := ParseExpression(toks, pos + 2);
       && c.POk? && At(toks, c.pos, RParen)
       && var b := ParseStatement(toks, c.pos + 1);
          b.POk? && r == POk(WhileStmt(c.value, b.value), b.pos)
  }

  lemma WhileParts(toks: seq<Token>, pos: nat)
    requires pos <= |toks| && ParseWhile(toks, pos).POk?
    ensures WhileRead(toks, pos, ParseWhile(toks, pos))
  {
    hide ParseExpression, ParseAt, ParseBinary, FoldLevel, ParseUnary, ParsePostfix, PostfixLoop, ParsePrimary;
    hide ParseArgs, CommaList, OptionalInit, ArrayInit, ParseVarDecl, ParseArrayDecl, ParseScalarDecl;
    hide ParseAssignment, ParsePrefixStep, ParseReturn, ForInit, ForStep, ParseStatement, ParseBlock;
    hide BlockItems, ParseIf, ParseFor, Modifiers, RegisterNumber, ExpectMessage, NatToString, TypeName;
    hide TokenRepr, PyInt, Expect, At;
  }

  /**
    * What a successful `for` parse reads: `for (`, the initialiser clause,
    * `;`, a condition unless the next token is `;` at once, `;`, the step
    * clause, `)`, and the body statement.
    */
  predicate ForRead(toks: seq<Token>, pos: nat, r: Parsed<Stmt>)
    requires pos <= |toks|
  {
    && At(toks, pos, For) && At(toks, pos + 1, LParen)
    && var init := ForInit(toks, pos + 2);
       && init.POk? && At(toks, init.pos, Semicolon)
       && var c := init.pos + 1;
          && (At(toks, c, Semicolon) || (ParseExpression(toks, c).POk? && At(toks, ParseExpression(toks, c).pos, Semicolon)))
          && var cond := if At(toks, c, Semicolon) then None else Some(ParseExpression(toks, c).value);
             var stepAt := if At(toks, c, Semicolon) then c + 1 else ParseExpression(toks, c).pos + 1;
             var step := ForStep(toks, stepAt);
             && step.POk? && At(toks, step.pos, RParen)
             && var body := ParseStatement(toks, step.pos + 1);
                body.POk? && r == POk(ForStmt(init.value, cond, step.value, body.value), body.pos)
  }

  lemma ForParts(toks: seq<Token>, pos: nat)
    requires pos <= |toks| && ParseFor(toks, pos).POk?
    ensures ForRead(toks, pos, ParseFor(toks, pos))
  {
    hide ParseExpression, ParseAt, ParseBinary, FoldLevel, ParseUnary, ParsePostfix, PostfixLoop, ParsePrimary;
    hide ParseArgs, CommaList, OptionalInit, ArrayInit, ParseVarDecl, ParseArrayDecl, ParseScalarDecl;
    hide ParseAssignment, ParsePrefixStep, ParseReturn, ForInit, ForStep, ParseStatement, ParseBlock;
    hide BlockItems, ParseIf, ParseWhile, Modifiers, RegisterNumber, ExpectMessage, NatToString, TypeName;
    hide TokenRepr, PyInt, Expect;
    hide ParseFor;
    ForHead(toks, pos);
    if At(toks, ForInit(toks, pos + 2).pos + 1, Semicolon) {
      ForWithoutCondition(toks, pos);
    } else {
      ForCondition(toks, pos);
      ForWithCondition(toks, pos);
    }
  }

  /** A `for` that parses starts with `for (`, an initialiser clause and `;`. */
  lemma ForHead(toks: seq<Token>, pos: nat)
    requires pos <= |toks| && ParseFor(toks, pos).POk?
    ensures At(toks, pos, For) && At(toks, pos + 1, LParen)
    ensures ForInit(toks, pos + 2).POk? && At(toks, ForInit(toks, pos + 2).pos, Semicolon)
  {
    hide ParseExpression, ParseAt, ParseBinary, FoldLevel, ParseUnary, ParsePostfix, PostfixLoop, ParsePrimary;
    hide ParseArgs, CommaList, OptionalInit, ArrayInit, ParseVarDecl, ParseArrayDecl, ParseScalarDecl;
    hide ParseAssignment, ParsePrefixStep, ParseReturn, ForInit, ForStep, ParseStatement, ParseBlock;
    hide BlockItems, ParseIf, ParseWhile, Modifiers, RegisterNumber, ExpectMessage, NatToString, TypeName;
    hide TokenRepr, PyInt, Expect;
  }

  lemma ForWithoutCondition(toks: seq<Token>, pos: nat)
    requires pos <= |toks| && ParseFor(toks, pos).POk?
    requires ForInit(toks, pos + 2).POk? && At(toks, ForInit(toks, pos + 2).pos + 1, Semicolon)
    ensures ForRead(toks, pos, ParseFor(toks, pos))
  {
    hide ParseExpression, ParseAt, ParseBinary, FoldLevel, ParseUnary, ParsePostfix, PostfixLoop, ParsePrimary;
    hide ParseArgs, CommaList, OptionalInit, ArrayInit, ParseVarDecl, ParseArrayDecl, ParseScalarDecl;
    hide ParseAssignment, ParsePrefixStep, ParseReturn, ForInit, ForStep, ParseStatement, ParseBlock;
    hide BlockItems, ParseIf, ParseWhile, Modifiers, RegisterNumber, ExpectMessage, NatToString, TypeName;
    hide TokenRepr, PyInt, Expect;
    var init := ForInit(toks, pos + 2);
    var c := init.pos + 1;
    assert c < |toks|;
    hide At;
    var step := ForStep(toks, c + 1);
    var body := ParseStatement(toks, step.pos + 1);
    assert ParseFor(toks, pos) == POk(ForStmt(init.value, None, step.value, body.value), body.pos);
  }

  /** A condition expression read at `c`, followed by `;`. */
  predicate ConditionAt(toks: seq<Token>, c: nat) {
    c < |toks| && ParseExpression(toks, c).POk? && At(toks, ParseExpression(toks, c).pos, Semicolon)
  }

  /** Without `;` at once after the initialiser, a `for` that parses has a condition expression and then `;`. */
  lemma ForCondition(toks: seq<Token>, pos: nat)
    requires pos <= |toks| && ParseFor(toks, pos).POk?
    requires ForInit(toks, pos + 2).POk? && !At(toks, ForInit(toks, pos + 2).pos + 1, Semicolon)
    ensures ConditionAt(toks, ForInit(toks, pos + 2).pos + 1)
  {
    hide ParseExpression, ParseAt, ParseBinary, FoldLevel, ParseUnary, ParsePostfix, PostfixLoop, ParsePrimary;
    hide ParseArgs, CommaList, OptionalInit, ArrayInit, ParseVarDecl, ParseArrayDecl, ParseScalarDecl;
    hide ParseAssignment, ParsePrefixStep, ParseReturn, ForInit, ForStep, ParseStatement, ParseBlock;
    hide BlockItems, ParseIf, ParseWhile, Modifiers, RegisterNumber, ExpectMessage, NatToString, TypeName;
    hide TokenRepr, PyInt, Expect;
    var c := ForInit(toks, pos + 2).pos + 1;
    assert c < |toks| && toks[c].kind != Semicolon;
  }

  lemma ForWithCondition(toks: seq<Token>, pos: nat)
    requires pos <= |toks| && ParseFor(toks, pos).POk?
    requires ForInit(toks, pos + 2).POk? && !At(toks, ForInit(toks, pos + 2).pos + 1, Semicolon)
    requires ConditionAt(toks, ForInit(toks, pos + 2).pos + 1)
    ensures ForRead(toks, pos, ParseFor(toks, pos))
  {
    hide ParseExpression, ParseAt, ParseBinary, FoldLevel, ParseUnary, ParsePostfix, PostfixLoop, ParsePrimary;
    hide ParseArgs, CommaList, OptionalInit, ArrayInit, ParseVarDecl, ParseArrayDecl, ParseScalarDecl;
    hide ParseAssignment, ParsePrefixStep, ParseReturn, ForInit, ForStep, ParseStatement, ParseBlock;
    hide BlockItems, ParseIf, ParseWhile, Modifiers, RegisterNumber, ExpectMessage, NatToString, TypeName;
    hide TokenRepr, PyInt, Expect;
    var init := ForInit(toks, pos + 2);
    var c := init.pos + 1;
    var e := ParseExpression(toks, c);
    assert toks[c].kind != Semicolon && e.pos < |toks|;
    hide At;
    var step := ForStep(toks, e.pos + 1);
    var body := ParseStatement(toks, step.pos + 1);
    assert ParseFor(toks, pos) == POk(ForStmt(init.value, Some(e.value), step.value, body.value), body.pos);
  }

  /** A parsed `return`: `return;` carries no value, otherwise the expression read after `return`, then `;`. */
  lemma ReturnParts(toks: seq<Token>, pos: nat)
    requires pos <= |toks|
    ensures At(toks, pos, TokenType.Return) && At(toks, pos + 1, Semicolon) ==>
              ParseReturn(toks, pos) == POk(Stmt.Return(None), pos + 2)
    ensures ParseReturn(toks, pos).POk? && !At(toks, pos + 1, Semicolon) ==>
              && At(toks, pos, TokenType.Return)
              && var e := ParseExpression(toks, pos + 1);
                 && e.POk? && At(toks, e.pos, Semicolon)
                 && ParseReturn(toks, pos) == POk(Stmt.Return(Some(e.value)), e.pos + 1)
  {
    hide ParseExpression, ParseAt, ParseBinary, FoldLevel, ParseUnary, ParsePostfix, PostfixLoop, ParsePrimary;
    hide ParseArgs, CommaList, OptionalInit, ArrayInit, ParseVarDecl, ParseArrayDecl, ParseScalarDecl;
    hide ParseAssignment, ParsePrefixStep, ForInit, ForStep, ParseStatement, ParseBlock, BlockItems, ParseIf;
    hide ParseWhile, ParseFor, Modifiers, RegisterNumber, ExpectMessage, NatToString, TypeName, TokenRepr;
    hide PyInt, Expect;
  }

  /** `++name;` and `--name;` parse exactly when the three tokens are there, into a prefix step of that name. */
  lemma PrefixStepParts(toks: seq<Token>, pos: nat, increment: bool)
    requires pos <= |toks|
    ensures var op := if increment then TokenType.Increment else TokenType.Decrement;
            ParsePrefixStep(toks, pos, increment).POk?
            <==> At(toks, pos, op) && At(toks, pos + 1, TokenType.Identifier) && At(toks, pos + 2, Semicolon)
    ensures ParsePrefixStep(toks, pos, increment).POk? ==>
              var name := toks[pos + 1].value;
              ParsePrefixStep(toks, pos, increment)
              == POk(if increment then Stmt.Increment(name, true) else Stmt.Decrement(name, true), pos + 3)
  {
    hide ParseExpression, ParseAt, ParseBinary, FoldLevel, ParseUnary, ParsePostfix, PostfixLoop, ParsePrimary;
    hide ParseArgs, CommaList, OptionalInit, ArrayInit, ParseVarDecl, ParseArrayDecl, ParseScalarDecl;
    hide ParseAssignment, ParseReturn, ForInit, ForStep, ParseStatement, ParseBlock, BlockItems, ParseIf;
    hide ParseWhile, ParseFor, Modifiers, RegisterNumber, ExpectMessage, NatToString, TypeName, TokenRepr;
    hide PyInt, Expect;
  }

  /**
    * The step clause of a `for` when it does not start with a name: nothing
    * before `)` or the end; `++x`/`--x` need a name and are prefix steps;
    * any other token gives no step and is left for the `)` check.
    */
  lemma ForStepParts(toks: seq<Token>, pos: nat)
    requires pos <= |toks|
    ensures pos == |toks| || At(toks, pos, RParen) ==> ForStep(toks, pos) == POk(None, pos)
    ensures At(toks, pos, TokenType.Increment) ==>
              if At(toks, pos + 1, TokenType.Identifier)
              then ForStep(toks, pos) == POk(Some(Stmt.Increment(toks[pos + 1].value, true)), pos + 2)
              else ForStep(toks, pos).PErr?
    ensures At(toks, pos, TokenType.Decrement) ==>
              if At(toks, pos + 1, TokenType.Identifier)
              then ForStep(toks, pos) == POk(Some(Stmt.Decrement(toks[pos + 1].value, true)), pos + 2)
              else ForStep(toks, pos).PErr?
    ensures pos < |toks| && toks[pos].kind !in {RParen, TokenType.Increment, TokenType.Decrement, TokenType.Identifier} ==>
              ForStep(toks, pos) == POk(None, pos)
  {
    hide ParseExpression, ParseAt, ParseBinary, FoldLevel, ParseUnary, ParsePostfix, PostfixLoop, ParsePrimary;
    hide ParseArgs, CommaList, OptionalInit, ArrayInit, ParseVarDecl, ParseArrayDecl, ParseScalarDecl;
    hide ParseAssignment, ParsePrefixStep, ParseReturn, ForInit, ParseStatement, ParseBlock, BlockItems;
    hide ParseIf, ParseWhile, ParseFor, Modifiers, RegisterNumber, ExpectMessage, NatToString, TypeName;
    hide TokenRepr, PyInt, Expect;
  }

  /**
    * The step clause of a `for` that starts with a name: `x++`/`x--` are
    * postfix steps; `x = e` is an assignment of the expression read after
    * `=`; any other token after the name drops the name and gives no step.
    */
  lemma ForStepNamedParts(toks: seq<Token>, pos: nat)
    requires pos <= |toks| && At(toks, pos, TokenType.Identifier)
    ensures var name := toks[pos].value;
            if At(toks, pos + 1, TokenType.Increment) then ForStep(toks, pos) == POk(Some(Stmt.Increment(name, false)), pos + 2)
            else if At(toks, pos + 1, TokenType.Decrement) then ForStep(toks, pos) == POk(Some(Stmt.Decrement(name, false)), pos + 2)
            else if At(toks, pos + 1, Assign) then
              ForStep(toks, pos).POk? <==> ParseExpression(toks, pos + 2).POk?
            else ForStep(toks, pos) == POk(None, pos + 1)
    ensures At(toks, pos + 1, Assign) && ParseExpression(toks, pos + 2).POk? ==>
              var e := ParseExpression(toks, pos + 2);
              ForStep(toks, pos) == POk(Some(Assignment(toks[pos].value, e.value)), e.pos)
  {
    hide ParseExpression, ParseAt, ParseBinary, FoldLevel, ParseUnary, ParsePostfix, PostfixLoop, ParsePrimary;
    hide ParseArgs, CommaList, OptionalInit, ArrayInit, ParseVarDecl, ParseArrayDecl, ParseScalarDecl;
    hide ParseAssignment, ParsePrefixStep, ParseReturn, ForInit, ParseStatement, ParseBlock, BlockItems;
    hide ParseIf, ParseWhile, ParseFor, Modifiers, RegisterNumber, ExpectMessage, NatToString, TypeName;
    hide TokenRepr, PyInt, Expect;
  }

  /** Where the name of a declaration at `pos` stands: after the modifiers, the type and an optional `*`. */
  function DeclNameAt(toks: seq<Token>, pos: nat): nat
    requires pos <= |toks|
  {
    var p := Modifiers(toks, pos, false, false).2;
    if At(toks, p + 1, Multiply) then p + 2 else p + 1
  }

  /** A declaration's head: the `register`/`volatile` keywords, `uint32` or `int32`, an optional `*`, the name. */
  predicate DeclHead(toks: seq<Token>, pos: nat)
    requires pos <= |toks|
  {
    var p := Modifiers(toks, pos, false, false).2;
    && p < |toks| && toks[p].kind in {Uint32, Int32}
    && DeclNameAt(toks, pos) == (if At(toks, p + 1, Multiply) then p + 2 else p + 1)
    && At(toks, DeclNameAt(toks, pos), TokenType.Identifier)
  }

  /**
    * The rest of a declaration after its head: a `[` makes it an array
    * declaration read from there; otherwise a `*` in the head makes it a
    * pointer with an optional initializer and `;`; otherwise it is a scalar
    * of the type written.
    */
  predicate DeclBody(toks: seq<Token>, pos: nat, r: Parsed<Stmt>)
    requires pos <= |toks| && DeclHead(toks, pos)
  {
    var (isRegister, isVolatile, p) := Modifiers(toks, pos, false, false);
    var n := DeclNameAt(toks, pos);
    var name := toks[n].value;
    if At(toks, n + 1, LBracket) then r == ParseArrayDecl(toks, n + 1, name, isRegister, isVolatile)
    else if At(toks, p + 1, Multiply) then
      var init := OptionalInit(toks, n + 1);
      init.POk? && At(toks, init.pos, Semicolon) && r == POk(PointerDecl(name, init.value, isRegister, isVolatile), init.pos + 1)
    else
      r == ParseScalarDecl(toks, n + 1, name, toks[n].line,
                           if toks[p].kind == Uint32 then "uint32" else "int32", isRegister, isVolatile)
  }

  /**
    * What a successful declaration parse at `pos` yields: a scalar, array or
    * pointer declaration of the name in the head; a `[` after the name
    * makes an array, otherwise the `*` makes a pointer, otherwise a scalar
    * of the type written. Name and keywords carry over.
    */
  predicate DeclaredAs(toks: seq<Token>, pos: nat, r: Parsed<Stmt>)
    requires pos <= |toks|
  {
    var (isRegister, isVolatile, p) := Modifiers(toks, pos, false, false);
    var n := DeclNameAt(toks, pos);
    && r.POk? && (r.value.VarDecl? || r.value.ArrayDecl? || r.value.PointerDecl?)
    && p < |toks| && toks[p].kind in {Uint32, Int32}
    && At(toks, n, TokenType.Identifier) && r.value.name == toks[n].value
    && r.value.isRegister == isRegister && r.value.isVolatile == isVolatile
    && (r.value.ArrayDecl? <==> At(toks, n + 1, LBracket))
    && (r.value.PointerDecl? <==> At(toks, p + 1, Multiply) && !At(toks, n + 1, LBracket))
    && (r.value.VarDecl? ==> r.value.varType == if toks[p].kind == Uint32 then "uint32" else "int32")
  }

  lemma VarDeclParts(toks: seq<Token>, pos: nat)
    requires pos <= |toks| && ParseVarDecl(toks, pos).POk?
    ensures DeclHead(toks, pos) && DeclBody(toks, pos, ParseVarDecl(toks, pos))
    ensures DeclaredAs(toks, pos, ParseVarDecl(toks, pos))
  {
    hide ParseExpression, ExpectMessage, NatToString, ParseAt, Expect, ParseArrayDecl, ParseScalarDecl, OptionalInit;
    hide ParseVarDecl, PyInt, RegisterNumber, TokenRepr, TypeName, Modifiers, DeclNameAt;
    hide At, ArrayInit, CommaList;
    VarDeclHead(toks, pos);
    var m := Modifiers(toks, pos, false, false);
    var n := DeclNameAt(toks, pos);
    if At(toks, n + 1, LBracket) {
      VarDeclArray(toks, pos);
      ArrayDeclParts(toks, n + 1, toks[n].value, m.0, m.1);
    } else if At(toks, m.2 + 1, Multiply) {
      VarDeclPointer(toks, pos);
    } else {
      VarDeclScalar(toks, pos);
    }
  }

  lemma VarDeclHead(toks: seq<Token>, pos: nat)
    requires pos <= |toks| && ParseVarDecl(toks, pos).POk?
    ensures DeclHead(toks, pos)
  {
    hide ParseExpression, ExpectMessage, NatToString, ParseAt, ParseArrayDecl, ParseScalarDecl, OptionalInit;
    hide PyInt, RegisterNumber, TokenRepr, TypeName, ArrayInit, CommaList, Modifiers, Expect, At;
  }

  lemma VarDeclArray(toks: seq<Token>, pos: nat)
    requires pos <= |toks| && ParseVarDecl(toks, pos).POk? && DeclHead(toks, pos)
    requires At(toks, DeclNameAt(toks, pos) + 1, LBracket)
    ensures DeclBody(toks, pos, ParseVarDecl(toks, pos))
  {
    hide ParseExpression, ExpectMessage, NatToString, ParseAt, ParseArrayDecl, ParseScalarDecl, OptionalInit;
    hide PyInt, RegisterNumber, TokenRepr, TypeName, ArrayInit, CommaList, Modifiers, Expect, At;
  }

  lemma VarDeclPointer(toks: seq<Token>, pos: nat)
    requires pos <= |toks| && ParseVarDecl(toks, pos).POk? && DeclHead(toks, pos)
    requires !At(toks, DeclNameAt(toks, pos) + 1, LBracket)
    requires At(toks, Modifiers(toks, pos, false, false).2 + 1, Multiply)
    ensures DeclBody(toks, pos, ParseVarDecl(toks, pos))
  {
    hide ParseExpression, ExpectMessage, NatToString, ParseAt, ParseArrayDecl, ParseScalarDecl, OptionalInit;
    hide PyInt, RegisterNumber, TokenRepr, TypeName, ArrayInit, CommaList, Modifiers, Expect, At;
  }

  lemma VarDeclScalar(toks: seq<Token>, pos: nat)
    requires pos <= |toks| && ParseVarDecl(toks, pos).POk? && DeclHead(toks, pos)
    requires !At(toks, DeclNameAt(toks, pos) + 1, LBracket)
    requires !At(toks, Modifiers(toks, pos, false, false).2 + 1, Multiply)
    ensures DeclBody(toks, pos, ParseVarDecl(toks, pos))
  {
    hide ParseExpression, ExpectMessage, NatToString, ParseAt, ParseArrayDecl, ParseScalarDecl, OptionalInit;
    hide PyInt, RegisterNumber, TokenRepr, TypeName, ArrayInit, CommaList, Modifiers, Expect, At;
  }

  /**
    * An array declaration as read from the `[` at `q`: a size expression,
    * `]`, an initializer list, `;`, and nothing else.
    */
  predicate ArrayDeclShape(toks: seq<Token>, q: nat, name: string, isRegister: bool, isVolatile: bool)
    requires q < |toks|
  {
    var size := ParseExpression(toks, q + 1);
    && size.POk? && At(toks, size.pos, RBracket)
    && var init := ArrayInit(toks, size.pos + 1);
       && init.POk? && At(toks, init.pos, Semicolon)
       && ParseArrayDecl(toks, q, name, isRegister, isVolatile)
          == POk(ArrayDecl(name, size.value, init.value, isRegister, isVolatile), init.pos + 1)
  }

  lemma ArrayDeclParts(toks: seq<Token>, q: nat, name: string, isRegister: bool, isVolatile: bool)
    requires q < |toks| && ParseArrayDecl(toks, q, name, isRegister, isVolatile).POk?
    ensures ArrayDeclShape(toks, q, name, isRegister, isVolatile)
  {
    hide ParseExpression, ParseAt, ParseBinary, FoldLevel, ParseUnary, ParsePostfix, PostfixLoop, ParsePrimary;
    hide ParseArgs, CommaList, OptionalInit, ArrayInit, ParseVarDecl, ParseScalarDecl, ParseAssignment;
    hide ParsePrefixStep, ParseReturn, ForInit, ForStep, ParseStatement, ParseBlock, BlockItems, ParseIf;
    hide ParseWhile, ParseFor, Modifiers, RegisterNumber, ExpectMessage, NatToString, TypeName, TokenRepr;
    hide PyInt, Expect;
  }

  /**
    * The two empty initializer lists: no `=` at all reads nothing, and
    * `= {}` reads an empty list and moves past the closing brace.
    */
  lemma ArrayInitParts(toks: seq<Token>, pos: nat)
    requires pos <= |toks|
    ensures !At(toks, pos, Assign) ==> ArrayInit(toks, pos) == POk([], pos)
    ensures At(toks, pos, Assign) && At(toks, pos + 1, LBrace) && At(toks, pos + 2, RBrace) ==>
              ArrayInit(toks, pos) == POk([], pos + 3)
  {
    hide ParseExpression, ParseAt, ParseBinary, FoldLevel, ParseUnary, ParsePostfix, PostfixLoop, ParsePrimary;
    hide ParseArgs, CommaList, OptionalInit, ParseVarDecl, ParseArrayDecl, ParseScalarDecl, ParseAssignment;
    hide ParsePrefixStep, ParseReturn, ForInit, ForStep, ParseStatement, ParseBlock, BlockItems, ParseIf;
    hide ParseWhile, ParseFor, Modifiers, RegisterNumber, ExpectMessage, NatToString, TypeName, TokenRepr;
    hide PyInt, Expect;
  }

  /**
    * A non-empty initializer list: `= {`, the first expression, the rest of
    * the comma-separated list, and `}`.
    */
  lemma ArrayInitListParts(toks: seq<Token>, pos: nat)
    requires pos <= |toks|
    requires At(toks, pos, Assign) && ArrayInit(toks, pos).POk? && !At(toks, pos + 2, RBrace)
    ensures At(toks, pos + 1, LBrace) && pos + 2 < |toks|
    ensures var first := ParseExpression(toks, pos + 2);
            && first.POk?
            && var items := CommaList(toks, first.pos, [first.value]);
               && items.POk? && At(toks, items.pos, RBrace)
               && ArrayInit(toks, pos) == POk(items.value, items.pos + 1)
               && |items.value| >= 1 && items.value[0] == first.value
  {
    hide ParseExpression, ParseAt, ParseBinary, FoldLevel, ParseUnary, ParsePostfix, PostfixLoop, ParsePrimary;
    hide ParseArgs, CommaList, OptionalInit, ParseVarDecl, ParseArrayDecl, ParseScalarDecl, ParseAssignment;
    hide ParsePrefixStep, ParseReturn, ForInit, ForStep, ParseStatement, ParseBlock, BlockItems, ParseIf;
    hide ParseWhile, ParseFor, Modifiers, RegisterNumber, ExpectMessage, NatToString, TypeName, TokenRepr;
    hide PyInt, Expect;
    var first := ParseExpression(toks, pos + 2);
    var items := CommaList(toks, first.pos, [first.value]);
    assert items.value[..1] == [first.value];
    assert items.value[0] == items.value[..1][0];
  }

  /** `BlockItems` with statements already collected puts them in front of what it collects itself. */
  lemma {:induction false} BlockItemsPrefix(toks: seq<Token>, pos: nat, acc: seq<Stmt>)
    requires pos <= |toks|
    ensures BlockItems(toks, pos, acc).POk? <==> BlockItems(toks, pos, []).POk?
    ensures BlockItems(toks, pos, acc).POk? ==>
              BlockItems(toks, pos, acc) == POk(acc + BlockItems(toks, pos, []).value, BlockItems(toks, pos, []).pos)
    decreases |toks| - pos
  {
    hide ParseExpression, ParseAt, ParseBinary, FoldLevel, ParseUnary, ParsePostfix, PostfixLoop, ParsePrimary;
    hide ParseArgs, CommaList, OptionalInit, ArrayInit, ParseVarDecl, ParseArrayDecl, ParseScalarDecl;
    hide ParseAssignment, ParsePrefixStep, ParseReturn, ForInit, ForStep, ParseStatement, ParseBlock, ParseIf;
    hide ParseWhile, ParseFor, Modifiers, RegisterNumber, ExpectMessage, NatToString, TypeName, TokenRepr;
    hide PyInt, Expect;
    if pos < |toks| && toks[pos].kind != RBrace {
      var s := ParseStatement(toks, pos);
      if s.POk? {
        assert BlockItems(toks, pos, acc) == BlockItems(toks, s.pos, acc + [s.value]);
        assert BlockItems(toks, pos, []) == BlockItems(toks, s.pos, [] + [s.value]);
        BlockItemsPrefix(toks, s.pos, acc + [s.value]);
        BlockItemsPrefix(toks, s.pos, [s.value]);
        assert [] + [s.value] == [s.value];
        if BlockItems(toks, s.pos, []).POk? {
          var rest := BlockItems(toks, s.pos, []).value;
          assert acc + [s.value] + rest == acc + ([s.value] + rest);
        }
      }
    } else {
      assert acc + [] == acc;
    }
  }

  /**
    * A parsed block: `{`, then nothing if `}` follows at once, else the
    * statement read after `{` followed by the statements of the rest of
    * the block, and the block ends just after its `}`.
    */
  lemma BlockParts(toks: seq<Token>, pos: nat)
    requires pos <= |toks| && ParseBlock(toks, pos).POk?
    ensures At(toks, pos, LBrace) && toks[ParseBlock(toks, pos).pos - 1].kind == RBrace
    ensures At(toks, pos + 1, RBrace) ==> ParseBlock(toks, pos) == POk([], pos + 2)
    ensures !At(toks, pos + 1, RBrace) ==>
              var s := ParseStatement(toks, pos + 1);
              && s.POk? && BlockItems(toks, s.pos, []).POk?
              && ParseBlock(toks, pos).value == [s.value] + BlockItems(toks, s.pos, []).value
  {
    hide ParseExpression, ParseAt, ParseBinary, FoldLevel, ParseUnary, ParsePostfix, PostfixLoop, ParsePrimary;
    hide ParseArgs, CommaList, OptionalInit, ArrayInit, ParseVarDecl, ParseArrayDecl, ParseScalarDecl;
    hide ParseAssignment, ParsePrefixStep, ParseReturn, ForInit, ForStep, ParseStatement, ParseIf;
    hide ParseWhile, ParseFor, Modifiers, RegisterNumber, ExpectMessage, NatToString, TypeName, TokenRepr;
    hide PyInt;
    if !At(toks, pos + 1, RBrace) {
      var s := ParseStatement(toks, pos + 1);
      assert BlockItems(toks, pos + 1, []) == BlockItems(toks, s.pos, [] + [s.value]);
      assert [] + [s.value] == [s.value];
      BlockItemsPrefix(toks, s.pos, [s.value]);
    }
  }
}

=== FILE: parser_props.dfy ===
/**
  * Properties of the statement and expression parser that hold for any
  * token stream: which kind of assignment a statement becomes, and how a
  * literal `int(value, 0)` rejects ends the whole expression.
  */
module ParserProps {
  import opened Results
  import opened Text
  import opened Tokens
  import opened Ast
  import opened Parser

  /**
    * `parse_assignment` decides the kind by its first two tokens: `*`
    * makes a pointer assignment, a name followed by `[` an array
    * assignment, any other name a plain one, always to that name.
    */
  lemma AssignmentKinds(toks: seq<Token>, pos: nat)
    requires pos <= |toks|
    ensures var r := ParseAssignment(toks, pos);
            && (r.POk? ==> (r.value.PointerAssignment? <==> toks[pos].kind == Multiply))
            && (r.POk? ==> (r.value.ArrayAssignment? <==> toks[pos].kind == TokenType.Identifier && At(toks, pos + 1, LBracket)))
            && (r.POk? && !r.value.PointerAssignment? ==> r.value.name == toks[pos].value)
  {
    hide ParseExpression, ExpectMessage, NatToString, ParseAt, Expect;
    var r := ParseAssignment(toks, pos);
    if r.POk? {
      if toks[pos].kind == Multiply {
        assert r.value.PointerAssignment?;
      } else if At(toks, pos + 1, LBracket) {
        assert r.value == ArrayAssignment(toks[pos].value, r.value.index, r.value.value);
      } else {
        assert r.value == Assignment(toks[pos].value, r.value.value);
      }
    }
  }

  /** Every assignment ends at its `;`. */
  lemma AssignmentEndsAtSemicolon(toks: seq<Token>, pos: nat)
    requires pos <= |toks| && ParseAssignment(toks, pos).POk?
    ensures var r := ParseAssignment(toks, pos); toks[r.pos - 1].kind == Semicolon
  {
    hide ParseExpression, ExpectMessage, NatToString, ParseAt;
    var r := ParseAssignment(toks, pos);
    var last: nat;
    if toks[pos].kind == Multiply {
      var eq := Expect(toks, ParseExpression(toks, pos + 1).pos, Assign, "").pos;
      last := ParseExpression(toks, eq).pos;
    } else if At(toks, pos + 1, LBracket) {
      var close := Expect(toks, ParseExpression(toks, pos + 2).pos, RBracket, "").pos;
      var eq := Expect(toks, close, Assign, "").pos;
      last := ParseExpression(toks, eq).pos;
    } else {
      var eq := Expect(toks, pos + 1, Assign, "").pos;
      last := ParseExpression(toks, eq).pos;
    }
    assert Expect(toks, last, Semicolon, "").POk? && r.pos == last + 1;
  }

  /** An assignment starting with neither a name nor `*` is an error naming the line. */
  lemma AssignmentBadStart(toks: seq<Token>, pos: nat)
    requires pos < |toks| && toks[pos].kind != Multiply && toks[pos].kind != TokenType.Identifier
    ensures ParseAssignment(toks, pos) == PErr("Expected identifier or * in assignment at line " + NatToString(toks[pos].line))
  {
    hide ParseExpression, ExpectMessage, NatToString, ParseAt, Expect;
  }

  /**
    * A statement starting `name =` is an `Assignment` to `name`, one
    * starting `name [` an `ArrayAssignment` to `name`, and one starting `*`
    * a `PointerAssignment`; no other start gives any of the three.
    */
  lemma StatementAssignmentKinds(toks: seq<Token>, pos: nat)
    requires pos < |toks| && ParseStatement(toks, pos).POk?
    ensures var s := ParseStatement(toks, pos).value;
            && (s.Assignment? <==> toks[pos].kind == TokenType.Identifier && At(toks, pos + 1, Assign))
            && (s.ArrayAssignment? <==> toks[pos].kind == TokenType.Identifier && At(toks, pos + 1, LBracket))
            && (s.PointerAssignment? <==> toks[pos].kind == Multiply)
            && (s.Assignment? || s.ArrayAssignment? ==> s.name == toks[pos].value)
  {
    hide ParseAssignment, ParseExpression, ParseVarDecl, ParseIf, ParseWhile, ParseFor, ParseReturn, ParsePrefixStep,
         ParseBlock, Expect, TokenRepr, NatToString;
    AssignmentKinds(toks, pos);
    var t := toks[pos];
    var r := ParseStatement(toks, pos);
    if t.kind in {Uint32, Int32, Register, Volatile} {
      assert r == ParseVarDecl(toks, pos);
    } else if t.kind == TokenType.Increment || t.kind == TokenType.Decrement {
      assert r.value.Increment? || r.value.Decrement?;
    } else if t.kind == TokenType.Return {
      assert r == ParseReturn(toks, pos);
    } else if t.kind == If {
      assert r == ParseIf(toks, pos);
    } else if t.kind == While {
      assert r == ParseWhile(toks, pos);
    } else if t.kind == For {
      assert r == ParseFor(toks, pos);
    } else if t.kind == LBrace {
      assert r.value.Block?;
    } else if t.kind == TokenType.Identifier && At(toks, pos + 1, LParen) {
      assert r.value.FunctionCallStmt?;
    } else if t.kind == TokenType.Identifier && (At(toks, pos + 1, LBracket) || At(toks, pos + 1, Assign)) {
      assert r == ParseAssignment(toks, pos);
    } else if t.kind == TokenType.Identifier {
      assert r.value.Increment? || r.value.Decrement?;
    } else {
      assert r == ParseAssignment(toks, pos);
    }
  }

  function InvalidLiteral(t: Token): string {
    "Invalid numeric literal: " + t.value + " at line " + NatToString(t.line) + ", column " + NatToString(t.column)
  }

  /**
    * A literal token that `int(value, 0)` rejects fails the parse of any
    * expression starting with it, at every precedence level, with the
    * literal's own message.
    */
  lemma {:induction false} MalformedLiteralFails(toks: seq<Token>, lvl: nat, pos: nat)
    requires lvl <= PrimaryLevel && pos < |toks|
    requires toks[pos].kind == TokenType.Literal && PyIntAuto(toks[pos].value).None?
    ensures ParseAt(toks, lvl, pos) == PErr(InvalidLiteral(toks[pos]))
    decreases PrimaryLevel - lvl
  {
    hide FoldLevel, PostfixLoop, ParseArgs, ParseExpression, PyIntAuto, NatToString, TokenRepr, Expect;
    if lvl <= 9 {
      MalformedLiteralFails(toks, lvl + 1, pos);
    } else if lvl == UnaryLevel {
      MalformedLiteralFails(toks, PostfixLevel, pos);
    } else if lvl == PostfixLevel {
      MalformedLiteralFails(toks, PrimaryLevel, pos);
    }
  }

  /** `parse_expression` on a malformed literal: the error names the literal and where it stands. */
  lemma MalformedExpression(toks: seq<Token>, pos: nat)
    requires pos < |toks| && toks[pos].kind == TokenType.Literal && PyIntAuto(toks[pos].value).None?
    ensures ParseExpression(toks, pos) == PErr(InvalidLiteral(toks[pos]))
  {
    MalformedLiteralFails(toks, 0, pos);
  }

  /** A prefix without digits: `0x` is rejected. */
  lemma HexPrefixAlone()
    ensures PyIntAuto("0x") == None
  {
    StripExact("0x", 0, 2);
    assert "0x"[2..] == "";
  }

  /** A digit outside the base: `0b2` is rejected. */
  lemma BinaryDigitOutOfBase()
    ensures PyIntAuto("0b2") == None
  {
    StripExact("0b2", 0, 3);
    assert "0b2"[2..] == "2";
    assert SignAndBody("0b2") == (false, "0b2");
    assert DigitIn('2', 2).None?;
    assert Grouped("2", 2, true).None?;
  }

  /** A decimal numeral with a leading zero: `012` is rejected. */
  lemma LeadingZeroDecimal()
    ensures PyIntAuto("012") == None
  {
    StripExact("012", 0, 3);
    assert "012"[..2] == "01" && "01"[..1] == "0";
  }
}

=== FILE: parser_roundtrip.dfy ===
/**
  * A printer for expressions that inserts only the parentheses precedence
  * requires, and the proof that the parser reads every printed expression
  * back as the same tree. The round trip pins down the precedence table,
  * left associativity of every binary level, the right nesting of prefix
  * operators, and argument lists.
  */
module ParserRoundTrip {
  import opened Results
  import opened Text
  import opened Tokens
  import opened Ast
  import opened Parser

  /** The binary operators of the language, as their tokens spell them. */
  predicate IsBinaryOp(op: string) {
    op in {"||", "&&", "|", "^", "&", "==", "!=", "<", "<=", ">", ">=", "<<", ">>", "+", "-", "*", "/", "%"}
  }

  /** The precedence level of a binary operator (0 loosest, 9 tightest). */
  function BinLevel(op: string): (lvl: nat)
    ensures lvl <= 9
  {
    if op == "||" then 0
    else if op == "&&" then 1
    else if op == "|" then 2
    else if op == "^" then 3
    else if op == "&" then 4
    else if op == "==" || op == "!=" then 5
    else if op == "<" || op == "<=" || op == ">" || op == ">=" then 6
    else if op == "<<" || op == ">>" then 7
    else if op == "+" || op == "-" then 8
    else 9
  }

  /** The token type the lexer gives each operator text. */
  function OpKind(op: string): TokenType {
    if op == "||" then Or
    else if op == "&&" then And
    else if op == "|" then BitwiseOr
    else if op == "^" then BitwiseXor
    else if op == "&" then BitwiseAnd
    else if op == "==" then Equal
    else if op == "!=" then NotEqual
    else if op == "<" then Less
    else if op == "<=" then LessEqual
    else if op == ">" then Greater
    else if op == ">=" then GreaterEqual
    else if op == "<<" then ShiftLeft
    else if op == ">>" then ShiftRight
    else if op == "+" then Plus
    else if op == "-" then Minus
    else if op == "*" then Multiply
    else if op == "/" then Divide
    else if op == "%" then Modulo
    else if op == "!" then Not
    else Error
  }

  /** Every binary operator's token belongs to the operator set of its level, and to no other. */
  lemma OpOpLevel(op: string)
    requires IsBinaryOp(op)
    ensures OpLevel(OpKind(op)) == BinLevel(op)
  {
  }

  /** The level at which an expression's outermost node is parsed. */
  function Prec(e: Expr): (lvl: nat)
    ensures lvl <= PrimaryLevel
    ensures e.BinaryOp? <==> lvl <= 9
  {
    match e
    case BinaryOp(op, _, _) => BinLevel(op)
    case UnaryOp(_, _) => UnaryLevel
    case AddressOf(_) => UnaryLevel
    case Dereference(_) => UnaryLevel
    case ArrayAccess(_, _) => PostfixLevel
    case _ => PrimaryLevel
  }

  /** Trees the parser can build: natural literals, known operators. */
  predicate WellFormed(e: Expr) {
    match e
    case Literal(v) => v >= 0
    case Identifier(_) => true
    case BinaryOp(op, l, r) => IsBinaryOp(op) && WellFormed(l) && WellFormed(r)
    case UnaryOp(op, x) => (op == "!" || op == "-") && WellFormed(x)
    case FunctionCall(_, args) => forall i | 0 <= i < |args| :: WellFormed(args[i])
    case ArrayAccess(_, i) => WellFormed(i)
    case AddressOf(x) => WellFormed(x)
    case Dereference(x) => WellFormed(x)
  }

  /** A token as the printer emits it; positions play no part in parsing. */
  function Tok(kind: TokenType, text: string): Token {
    Token(kind, text, 0, 0)
  }

  /** The tokens of `e` in a context of level `ctx`: parenthesised if its own level is looser. */
  function Print(e: Expr, ctx: nat): (r: seq<Token>)
    ensures |r| > 0
    decreases Size(e), 1
  {
    if Prec(e) < ctx then [Tok(LParen, "(")] + PrintRaw(e) + [Tok(RParen, ")")] else PrintRaw(e)
  }

  function PrintRaw(e: Expr): (r: seq<Token>)
    ensures |r| > 0
    decreases Size(e), 0
  {
    match e
    case Literal(v) => [Tok(TokenType.Literal, IntToString(v))]
    case Identifier(n) => [Tok(TokenType.Identifier, n)]
    case BinaryOp(op, l, r) => Print(l, BinLevel(op)) + [Tok(OpKind(op), op)] + Print(r, BinLevel(op) + 1)
    case UnaryOp(op, x) => [Tok(OpKind(op), op)] + Print(x, UnaryLevel)
    case AddressOf(x) => [Tok(BitwiseAnd, "&")] + Print(x, UnaryLevel)
    case Dereference(x) => [Tok(Multiply, "*")] + Print(x, UnaryLevel)
    case ArrayAccess(a, i) => [Tok(TokenType.Identifier, a), Tok(LBracket, "[")] + Print(i, 0) + [Tok(RBracket, "]")]
    case FunctionCall(f, args) =>
      [Tok(TokenType.Identifier, f), Tok(LParen, "(")] + PrintArgs(args) + [Tok(RParen, ")")]
  }

  /** Comma-separated arguments. */
  function PrintArgs(args: seq<Expr>): seq<Token>
    decreases SizeAll(args), 2
  {
    if |args| == 0 then [] else Print(args[0], 0) + PrintMore(args[1..])
  }

  /** `, a` for every further argument. */
  function PrintMore(args: seq<Expr>): seq<Token>
    decreases SizeAll(args), 2
  {
    if |args| == 0 then [] else [Tok(Comma, ",")] + Print(args[0], 0) + PrintMore(args[1..])
  }

  /** `toks` holds tokens equal (type and text) to `printed`, from `pos` on. */
  predicate Matches(toks: seq<Token>, pos: nat, printed: seq<Token>) {
    pos + |printed| <= |toks| && forall k {:trigger printed[k]} | 0 <= k < |printed| :: SameToken(toks[pos + k], printed[k])
  }

  /**
    * A token that ends an expression parsed at level `ctx`: it neither
    * continues an operator chain the parse is still inside, nor opens an
    * index or a call.
    */
  predicate Stopper(k: TokenType, ctx: nat) {
    k != LBracket && k != LParen && !(ctx <= OpLevel(k) <= 9)
  }

  predicate StopsAt(toks: seq<Token>, q: nat, ctx: nat) {
    q == |toks| || (q < |toks| && Stopper(toks[q].kind, ctx))
  }

  /** The `k`-th matched token has the printed type and text. */
  lemma MatchedToken(toks: seq<Token>, pos: nat, printed: seq<Token>, k: nat)
    requires Matches(toks, pos, printed) && k < |printed|
    ensures pos + k < |toks|
    ensures toks[pos + k].kind == printed[k].kind && toks[pos + k].value == printed[k].value
  {
  }

  lemma MatchesSplit(toks: seq<Token>, pos: nat, a: seq<Token>, b: seq<Token>)
    requires Matches(toks, pos, a + b)
    ensures Matches(toks, pos, a) && Matches(toks, pos + |a|, b)
  {
    forall k | 0 <= k < |a| ensures SameToken(toks[pos + k], a[k]) {
      assert a[k] == (a + b)[k];
    }
    forall k | 0 <= k < |b| ensures SameToken(toks[pos + |a| + k], b[k]) {
      assert b[k] == (a + b)[|a| + k];
    }
  }

  /** Every sequence of tokens matches itself. */
  lemma MatchesSelf(toks: seq<Token>, pos: nat, rest: seq<Token>)
    requires pos + |rest| <= |toks| && toks[pos..pos + |rest|] == rest
    ensures Matches(toks, pos, rest)
  {
    forall k | 0 <= k < |rest| ensures SameToken(toks[pos + k], rest[k]) {
      assert rest[k] == toks[pos..pos + |rest|][k];
    }
  }

  /** A printed expression starts with `(`, a name, a literal or a prefix operator. */
  lemma {:induction false} PrintFirst(e: Expr, ctx: nat)
    requires WellFormed(e)
    ensures Print(e, ctx)[0].kind in {LParen, TokenType.Identifier, TokenType.Literal, BitwiseAnd, Multiply, Not, Minus}
    decreases Size(e)
  {
    if Prec(e) >= ctx && e.BinaryOp? {
      PrintFirst(e.left, BinLevel(e.op));
    }
  }

  // ---------------------------------------------------------------------
  // Single steps of the parser
  // ---------------------------------------------------------------------

  lemma PrimaryLiteral(toks: seq<Token>, pos: nat, v: int)
    requires pos < |toks| && toks[pos].kind == TokenType.Literal && PyIntAuto(toks[pos].value) == Some(v)
    ensures ParseAt(toks, PrimaryLevel, pos) == POk(Expr.Literal(v), pos + 1)
  {
    hide ParseBinary, FoldLevel, ParseUnary, ParsePostfix, PostfixLoop, ParseArgs, CommaList, ParseExpression, Expect, Print, PrintRaw, PrintArgs, PrintMore, TokenRepr, NatToString, PyIntAuto, LineText;
  }

  lemma PrimaryName(toks: seq<Token>, pos: nat)
    requires pos < |toks| && toks[pos].kind == TokenType.Identifier && !At(toks, pos + 1, LParen)
    ensures ParseAt(toks, PrimaryLevel, pos) == POk(Expr.Identifier(toks[pos].value), pos + 1)
  {
    hide ParseBinary, FoldLevel, ParseUnary, ParsePostfix, PostfixLoop, ParseArgs, CommaList, ParseExpression, Expect, Print, PrintRaw, PrintArgs, PrintMore, TokenRepr, NatToString, PyIntAuto, LineText;
  }

  lemma PrimaryCall(toks: seq<Token>, pos: nat, args: seq<Expr>, q: nat)
    requires pos < |toks| && toks[pos].kind == TokenType.Identifier && At(toks, pos + 1, LParen)
    requires ParseArgs(toks, pos + 2) == POk(args, q)
    ensures ParseAt(toks, PrimaryLevel, pos) == POk(FunctionCall(toks[pos].value, args), q)
  {
    hide ParseBinary, FoldLevel, ParseUnary, ParsePostfix, PostfixLoop, ParseArgs, CommaList, ParseExpression, Expect, Print, PrintRaw, PrintArgs, PrintMore, TokenRepr, NatToString, PyIntAuto, LineText;
  }

  lemma PrimaryParen(toks: seq<Token>, pos: nat, e: Expr, q: nat)
    requires pos < |toks| && toks[pos].kind == LParen
    requires ParseAt(toks, 0, pos + 1) == POk(e, q) && At(toks, q, RParen)
    ensures ParseAt(toks, PrimaryLevel, pos) == POk(e, q + 1)
  {
    hide ParseBinary, FoldLevel, ParseUnary, ParsePostfix, PostfixLoop, ParseArgs, CommaList, Print, PrintRaw, PrintArgs, PrintMore, TokenRepr, NatToString, PyIntAuto, LineText;
    assert ParseExpression(toks, pos + 1) == POk(e, q);
    assert Expect(toks, q, RParen, "") == POk(toks[q], q + 1);
  }

  lemma PostfixIndex(toks: seq<Token>, pos: nat, index: Expr, q: nat)
    requires pos + 1 < |toks| && toks[pos].kind == TokenType.Identifier && toks[pos + 1].kind == LBracket
    requires ParseAt(toks, 0, pos + 2) == POk(index, q) && At(toks, q, RBracket) && !At(toks, q + 1, LBracket)
    ensures ParseAt(toks, PostfixLevel, pos) == POk(ArrayAccess(toks[pos].value, index), q + 1)
  {
    hide ParseBinary, FoldLevel, ParseUnary, ParsePrimary, ParseArgs, CommaList, Print, PrintRaw, PrintArgs, PrintMore, TokenRepr, NatToString, PyIntAuto, LineText;
    var name := toks[pos].value;
    PrimaryName(toks, pos);
    assert ParsePostfix(toks, pos) == PostfixLoop(toks, Expr.Identifier(name), pos + 1);
    assert Expect(toks, q, RBracket, "") == POk(toks[q], q + 1);
    assert PostfixLoop(toks, Expr.Identifier(name), pos + 1) == PostfixLoop(toks, ArrayAccess(name, index), q + 1);
  }

  /** A primary that no `[` follows is the whole postfix expression. */
  lemma PostfixStop(toks: seq<Token>, pos: nat, e: Expr, q: nat)
    requires pos <= |toks| && ParseAt(toks, PrimaryLevel, pos) == POk(e, q) && !At(toks, q, LBracket)
    ensures ParseAt(toks, PostfixLevel, pos) == POk(e, q)
  {
    hide ParseBinary, FoldLevel, ParseUnary, ParsePrimary, ParseArgs, CommaList, ParseExpression, Expect, TokenRepr, NatToString, PyIntAuto, LineText;
    assert ParsePostfix(toks, pos) == PostfixLoop(toks, e, q);
  }

  /** Without a prefix operator the unary level is the postfix level. */
  lemma UnaryPass(toks: seq<Token>, pos: nat, e: Expr, q: nat)
    requires pos < |toks| && toks[pos].kind !in {BitwiseAnd, Multiply, Not, Minus}
    requires ParseAt(toks, PostfixLevel, pos) == POk(e, q)
    ensures ParseAt(toks, UnaryLevel, pos) == POk(e, q)
  {
    hide ParseBinary, FoldLevel, ParsePostfix, PostfixLoop, ParsePrimary, ParseArgs, CommaList, ParseExpression, Expect, TokenRepr, NatToString, PyIntAuto, LineText;
  }

  lemma UnaryStep(toks: seq<Token>, pos: nat, x: Expr, q: nat)
    requires pos < |toks| && toks[pos].kind in {BitwiseAnd, Multiply, Not, Minus}
    requires ParseAt(toks, UnaryLevel, pos + 1) == POk(x, q)
    ensures ParseAt(toks, UnaryLevel, pos) == POk(
              if toks[pos].kind == BitwiseAnd then AddressOf(x)
              else if toks[pos].kind == Multiply then Dereference(x)
              else UnaryOp(toks[pos].value, x), q)
  {
    hide ParseBinary, FoldLevel, ParsePostfix, PostfixLoop, ParsePrimary, ParseArgs, CommaList, ParseExpression, Expect, Print, PrintRaw, PrintArgs, PrintMore, TokenRepr, NatToString, PyIntAuto, LineText;
  }

  lemma BinaryStart(toks: seq<Token>, lvl: nat, pos: nat, first: Expr, q: nat)
    requires lvl <= 9 && pos <= |toks|
    requires ParseAt(toks, lvl + 1, pos) == POk(first, q)
    ensures ParseAt(toks, lvl, pos) == FoldLevel(toks, lvl, first, q)
  {
    hide FoldLevel, ParseUnary, ParsePostfix, PostfixLoop, ParsePrimary, ParseArgs, CommaList, ParseExpression, Expect, Print, PrintRaw, PrintArgs, PrintMore, TokenRepr, NatToString, PyIntAuto, LineText;
  }

  /** An operator of the level extends the left operand by the next operand. */
  lemma FoldStep(toks: seq<Token>, lvl: nat, left: Expr, m: nat, right: Expr, q: nat)
    requires lvl <= 9 && m < |toks| && OpLevel(toks[m].kind) == lvl
    requires ParseAt(toks, lvl + 1, m + 1) == POk(right, q)
    ensures FoldLevel(toks, lvl, left, m) == FoldLevel(toks, lvl, BinaryOp(toks[m].value, left, right), q)
  {
    hide ParseAt, ParseBinary, ParseUnary, ParsePostfix, PostfixLoop, ParsePrimary, ParseArgs, CommaList, ParseExpression, Expect, Print, PrintRaw, PrintArgs, PrintMore, TokenRepr, NatToString, PyIntAuto, LineText;
  }

  /** Any other token ends the loop. */
  lemma FoldStop(toks: seq<Token>, lvl: nat, e: Expr, q: nat)
    requires lvl <= 9 && q <= |toks|
    requires q == |toks| || OpLevel(toks[q].kind) != lvl
    ensures FoldLevel(toks, lvl, e, q) == POk(e, q)
  {
    hide ParseAt, ParseBinary, ParseUnary, ParsePostfix, PostfixLoop, ParsePrimary, ParseArgs, CommaList, ParseExpression, Expect, Print, PrintRaw, PrintArgs, PrintMore, TokenRepr, NatToString, PyIntAuto, LineText;
  }

  lemma ArgsEmpty(toks: seq<Token>, pos: nat)
    requires At(toks, pos, RParen)
    ensures ParseArgs(toks, pos) == POk([], pos + 1)
  {
    hide ParseAt, ParseBinary, FoldLevel, ParseUnary, ParsePostfix, PostfixLoop, ParsePrimary, CommaList, ParseExpression, Print, PrintRaw, PrintArgs, PrintMore, TokenRepr, NatToString, PyIntAuto, LineText;
  }

  lemma ArgsStart(toks: seq<Token>, pos: nat, first: Expr, q: nat, all: seq<Expr>, q2: nat)
    requires pos < |toks| && toks[pos].kind != RParen
    requires ParseAt(toks, 0, pos) == POk(first, q)
    requires CommaList(toks, q, [first]) == POk(all, q2)
    requires At(toks, q2, RParen)
    ensures ParseArgs(toks, pos) == POk(all, q2 + 1)
  {
    hide ParseAt, ParseBinary, FoldLevel, ParseUnary, ParsePostfix, PostfixLoop, ParsePrimary, CommaList, Print, PrintRaw, PrintArgs, PrintMore, TokenRepr, NatToString, PyIntAuto, LineText;
  }

  lemma CommaStep(toks: seq<Token>, pos: nat, acc: seq<Expr>, item: Expr, q: nat)
    requires At(toks, pos, Comma)
    requires ParseAt(toks, 0, pos + 1) == POk(item, q)
    ensures CommaList(toks, pos, acc) == CommaList(toks, q, acc + [item])
  {
    hide ParseAt, ParseBinary, FoldLevel, ParseUnary, ParsePostfix, PostfixLoop, ParsePrimary, ParseArgs, Expect, Print, PrintRaw, PrintArgs, PrintMore, TokenRepr, NatToString, PyIntAuto, LineText;
  }

  lemma CommaStop(toks: seq<Token>, pos: nat, acc: seq<Expr>)
    requires pos <= |toks| && !At(toks, pos, Comma)
    ensures CommaList(toks, pos, acc) == POk(acc, pos)
  {
    hide ParseAt, ParseBinary, FoldLevel, ParseUnary, ParsePostfix, PostfixLoop, ParsePrimary, ParseArgs, ParseExpression, Expect, Print, PrintRaw, PrintArgs, PrintMore, TokenRepr, NatToString, PyIntAuto, LineText;
  }

  // ---------------------------------------------------------------------
  // The round trip
  // ---------------------------------------------------------------------

  /** Moving to a looser level does not change a parse that the next token ends. */
  lemma {:induction false} Lift(toks: seq<Token>, e: Expr, pos: nat, q: nat, from: nat, to: nat)
    requires to <= from <= PrimaryLevel && pos <= |toks|
    requires ParseAt(toks, from, pos) == POk(e, q)
    requires StopsAt(toks, q, to)
    requires from >= PostfixLevel && to <= UnaryLevel ==>
               pos < |toks| && toks[pos].kind !in {BitwiseAnd, Multiply, Not, Minus}
    ensures ParseAt(toks, to, pos) == POk(e, q)
    decreases from - to
  {
    hide ParseAt, ParseBinary, FoldLevel, ParseUnary, ParsePostfix, PostfixLoop, ParsePrimary, ParseArgs, CommaList, ParseExpression, Print, PrintRaw, PrintArgs, PrintMore, Matches;
    if to < from {
      if from == PrimaryLevel {
        PostfixStop(toks, pos, e, q);
      } else if from == PostfixLevel {
        UnaryPass(toks, pos, e, q);
      } else {
        BinaryStart(toks, from - 1, pos, e, q);
        FoldStop(toks, from - 1, e, q);
      }
      Lift(toks, e, pos, q, from - 1, to);
    }
  }

  // ---------------------------------------------------------------------
  // How printed token sequences are laid out
  // ---------------------------------------------------------------------

  /** A sequence that starts with one token: that token, then the rest. */
  lemma MatchesFirst(toks: seq<Token>, pos: nat, whole: seq<Token>, t: Token, b: seq<Token>)
    requires whole == [t] + b && Matches(toks, pos, whole)
    ensures pos < |toks| && toks[pos].kind == t.kind && toks[pos].value == t.value
    ensures Matches(toks, pos + 1, b)
  {
    MatchesSplit(toks, pos, [t], b);
    MatchedToken(toks, pos, [t], 0);
  }

  /** A sequence that ends with one token: the front, then that token. */
  lemma MatchesLast(toks: seq<Token>, pos: nat, whole: seq<Token>, a: seq<Token>, t: Token)
    requires whole == a + [t] && Matches(toks, pos, whole)
    ensures Matches(toks, pos, a)
    ensures pos + |a| < |toks| && toks[pos + |a|].kind == t.kind && toks[pos + |a|].value == t.value
  {
    MatchesSplit(toks, pos, a, [t]);
    MatchedToken(toks, pos, whole, |a|);
  }

  /** A sequence in two parts: each part where it stands. */
  lemma MatchesParts(toks: seq<Token>, pos: nat, whole: seq<Token>, a: seq<Token>, b: seq<Token>)
    requires whole == a + b && Matches(toks, pos, whole)
    ensures Matches(toks, pos, a) && Matches(toks, pos + |a|, b)
  {
    MatchesSplit(toks, pos, a, b);
  }

  lemma Assoc2(a: seq<Token>, b: seq<Token>, t: Token)
    ensures (a + b) + [t] == a + (b + [t])
  {
  }

  lemma Assoc3(a: seq<Token>, b: seq<Token>, c: seq<Token>, t: Token)
    ensures (a + b + c) + [t] == a + (b + (c + [t]))
  {
  }

  /** A closing parenthesis or bracket ends an expression at every level. */
  lemma CloserStops(toks: seq<Token>, q: nat, ctx: nat)
    requires q < |toks| && toks[q].kind in {RParen, RBracket}
    ensures StopsAt(toks, q, ctx)
  {
  }

  /** A stop in a looser context is a stop in a tighter one. */
  lemma StopsAtLoose(toks: seq<Token>, q: nat, ctx: nat, lvl: nat)
    requires ctx <= lvl && StopsAt(toks, q, ctx)
    ensures StopsAt(toks, q, lvl)
  {
  }

  /** Where an expression stops, no `[` or `(` can continue it. */
  lemma StopsNoIndex(toks: seq<Token>, q: nat, ctx: nat)
    requires StopsAt(toks, q, ctx)
    ensures !At(toks, q, LBracket) && !At(toks, q, LParen)
  {
  }

  /** An expression at least as tight as its context prints without parentheses. */
  lemma PrintUnparen(e: Expr, ctx: nat)
    requires ctx <= Prec(e)
    ensures Print(e, ctx) == PrintRaw(e)
  {
  }

  lemma PrintParen(e: Expr, ctx: nat)
    requires Prec(e) < ctx
    ensures Print(e, ctx) == [Tok(LParen, "(")] + (PrintRaw(e) + [Tok(RParen, ")")])
  {
  }

  lemma PrintRawCall(e: Expr)
    requires e.FunctionCall?
    ensures PrintRaw(e) == [Tok(TokenType.Identifier, e.callee)] + ([Tok(LParen, "(")] + (PrintArgs(e.args) + [Tok(RParen, ")")]))
  {
  }

  lemma PrintRawIndex(e: Expr)
    requires e.ArrayAccess?
    ensures PrintRaw(e) == [Tok(TokenType.Identifier, e.arrayName)] + ([Tok(LBracket, "[")] + (Print(e.index, 0) + [Tok(RBracket, "]")]))
  {
  }

  /** A prefix node prints as its operator, then its operand at the unary level. */
  lemma PrintRawPrefix(e: Expr, x: Expr)
    requires (e.UnaryOp? && x == e.operand) || (e.AddressOf? && x == e.target) || (e.Dereference? && x == e.pointer)
    requires WellFormed(e)
    ensures PrintRaw(e) == [PrintRaw(e)[0]] + Print(x, UnaryLevel)
    ensures PrintRaw(e)[0].kind in {BitwiseAnd, Multiply, Not, Minus}
    ensures e.AddressOf? <==> PrintRaw(e)[0].kind == BitwiseAnd
    ensures e.Dereference? <==> PrintRaw(e)[0].kind == Multiply
    ensures e.UnaryOp? ==> PrintRaw(e)[0].value == e.op
  {
  }

  /** A binary node prints as its left operand at its own level, the operator, and its right operand one level tighter. */
  lemma PrintRawBinary(e: Expr)
    requires e.BinaryOp?
    ensures PrintRaw(e) == Print(e.left, BinLevel(e.op)) + ([Tok(OpKind(e.op), e.op)] + Print(e.right, BinLevel(e.op) + 1))
  {
  }

  /** Anything but a chain of level `lvl` prints the same at `lvl` and one level tighter. */
  lemma PrintNotChain(e: Expr, lvl: nat)
    requires lvl <= 9 && !(e.BinaryOp? && BinLevel(e.op) == lvl)
    ensures Print(e, lvl) == Print(e, lvl + 1)
  {
  }

  lemma PrintArgsCons(args: seq<Expr>)
    requires |args| > 0
    ensures PrintArgs(args) + [Tok(RParen, ")")] == Print(args[0], 0) + (PrintMore(args[1..]) + [Tok(RParen, ")")])
  {
    Assoc2(Print(args[0], 0), PrintMore(args[1..]), Tok(RParen, ")"));
  }

  lemma PrintMoreCons(rest: seq<Expr>)
    requires |rest| > 0
    ensures PrintMore(rest) + [Tok(RParen, ")")] == [Tok(Comma, ",")] + (Print(rest[0], 0) + (PrintMore(rest[1..]) + [Tok(RParen, ")")]))
  {
    Assoc3([Tok(Comma, ",")], Print(rest[0], 0), PrintMore(rest[1..]), Tok(RParen, ")"));
  }

  /** Further arguments, if any, start with a comma. */
  lemma MoreStart(rest: seq<Expr>)
    ensures |PrintMore(rest)| == 0 <==> |rest| == 0
    ensures |rest| > 0 ==> PrintMore(rest)[0].kind == Comma
  {
  }

  /** Moving the first element of `rest` onto the end of `acc` keeps their concatenation. */
  lemma ConsTail(acc: seq<Expr>, rest: seq<Expr>)
    requires |rest| > 0
    ensures acc + [rest[0]] + rest[1..] == acc + rest
    ensures [rest[0]] + rest[1..] == rest
  {
    assert [rest[0]] + rest[1..] == rest;
  }

  lemma AllWellFormedTail(args: seq<Expr>)
    requires |args| > 0 && forall i | 0 <= i < |args| :: WellFormed(args[i])
    ensures WellFormed(args[0]) && forall i | 0 <= i < |args[1..]| :: WellFormed(args[1..][i])
  {
    forall i | 0 <= i < |args[1..]| ensures WellFormed(args[1..][i]) {
      assert args[1..][i] == args[i + 1];
    }
  }

  /** A stop for a looser context is a stop for every tighter binary level. */
  lemma StopsAtTighter(toks: seq<Token>, q: nat, ctx: nat, lvl: nat)
    requires ctx <= lvl <= 9 && StopsAt(toks, q, ctx)
    ensures StopsAt(toks, q, lvl + 1) && (q == |toks| || OpLevel(toks[q].kind) != lvl)
  {
  }

  // ---------------------------------------------------------------------
  // The round trip
  // ---------------------------------------------------------------------

  /**
    * The central lemma: the printed tokens of a well-formed expression, at
    * any level, parse back to the expression and consume exactly the
    * printed tokens, provided what follows cannot continue it.
    */
  lemma {:induction false} ParsePrinted(toks: seq<Token>, e: Expr, ctx: nat, pos: nat)
    requires WellFormed(e) && ctx <= PrimaryLevel
    requires Matches(toks, pos, Print(e, ctx))
    requires StopsAt(toks, pos + |Print(e, ctx)|, ctx)
    ensures ParseAt(toks, ctx, pos) == POk(e, pos + |Print(e, ctx)|)
    decreases Size(e), if Prec(e) < ctx then 4 else 3
  {
    hide ParseAt, ParseBinary, FoldLevel, ParseUnary, ParsePostfix, PostfixLoop, ParsePrimary, ParseArgs, CommaList, ParseExpression, Print, PrintRaw, PrintArgs, PrintMore, Matches, StopsAt;
    if Prec(e) < ctx {
      var raw := PrintRaw(e);
      var close := pos + 1 + |raw|;
      PrintParen(e, ctx);
      MatchesFirst(toks, pos, Print(e, ctx), Tok(LParen, "("), raw + [Tok(RParen, ")")]);
      MatchesLast(toks, pos + 1, raw + [Tok(RParen, ")")], raw, Tok(RParen, ")"));
      PrintUnparen(e, 0);
      CloserStops(toks, close, 0);
      ParsePrinted(toks, e, 0, pos + 1);
      PrimaryParen(toks, pos, e, close);
      Lift(toks, e, pos, close + 1, PrimaryLevel, ctx);
    } else {
      ParsePrintedRaw(toks, e, ctx, pos);
    }
  }

  /** The unparenthesised cases of `ParsePrinted`, node by node. */
  lemma {:induction false} ParsePrintedRaw(toks: seq<Token>, e: Expr, ctx: nat, pos: nat)
    requires WellFormed(e) && ctx <= Prec(e) && ctx <= PrimaryLevel
    requires Matches(toks, pos, Print(e, ctx))
    requires StopsAt(toks, pos + |Print(e, ctx)|, ctx)
    ensures ParseAt(toks, ctx, pos) == POk(e, pos + |Print(e, ctx)|)
    decreases Size(e), 2
  {
    hide ParseAt, ParseBinary, FoldLevel, ParseUnary, ParsePostfix, PostfixLoop, ParsePrimary, ParseArgs, CommaList, ParseExpression, Print, PrintRaw, PrintArgs, PrintMore, Matches, StopsAt;
    PrintUnparen(e, ctx);
    match e
    case Literal(v) =>
      PrimaryPrinted(toks, e, ctx, pos);
    case Identifier(n) =>
      PrimaryPrinted(toks, e, ctx, pos);
    case FunctionCall(f, args) =>
      CallPrinted(toks, e, ctx, pos);
    case ArrayAccess(a, i) =>
      IndexPrinted(toks, e, ctx, pos);
    case UnaryOp(op, x) =>
      PrefixPrinted(toks, e, x, ctx, pos);
    case AddressOf(x) =>
      PrefixPrinted(toks, e, x, ctx, pos);
    case Dereference(x) =>
      PrefixPrinted(toks, e, x, ctx, pos);
    case BinaryOp(op, l, r) =>
      BinaryPrinted(toks, e, ctx, pos);
  }

  /** A literal or a name: one token. */
  lemma PrimaryPrinted(toks: seq<Token>, e: Expr, ctx: nat, pos: nat)
    requires (e.Literal? && e.value >= 0) || e.Identifier?
    requires ctx <= PrimaryLevel
    requires Matches(toks, pos, PrintRaw(e))
    requires StopsAt(toks, pos + |PrintRaw(e)|, ctx)
    ensures ParseAt(toks, ctx, pos) == POk(e, pos + |PrintRaw(e)|)
  {
    hide ParseAt, ParseBinary, FoldLevel, ParseUnary, ParsePostfix, PostfixLoop, ParsePrimary, ParseArgs, CommaList, ParseExpression, Print, PrintArgs, PrintMore;
    assert |PrintRaw(e)| == 1;
    MatchedToken(toks, pos, PrintRaw(e), 0);
    if e.Literal? {
      PyIntAutoOfNatToString(e.value);
      PrimaryLiteral(toks, pos, e.value);
    } else {
      PrimaryName(toks, pos);
    }
    Lift(toks, e, pos, pos + 1, PrimaryLevel, ctx);
  }

  /** `f(args)`. */
  lemma {:induction false} CallPrinted(toks: seq<Token>, e: Expr, ctx: nat, pos: nat)
    requires e.FunctionCall? && WellFormed(e) && ctx <= PrimaryLevel
    requires Matches(toks, pos, PrintRaw(e))
    requires StopsAt(toks, pos + |PrintRaw(e)|, ctx)
    ensures ParseAt(toks, ctx, pos) == POk(e, pos + |PrintRaw(e)|)
    decreases Size(e), 1
  {
    hide ParseAt, ParseBinary, FoldLevel, ParseUnary, ParsePostfix, PostfixLoop, ParsePrimary, ParseArgs, CommaList, ParseExpression, Print, PrintRaw, PrintArgs, PrintMore, Matches, StopsAt;
    var name := Tok(TokenType.Identifier, e.callee);
    var inner := PrintArgs(e.args);
    var end := pos + 2 + |inner| + 1;
    PrintRawCall(e);
    MatchesFirst(toks, pos, PrintRaw(e), name, [Tok(LParen, "(")] + (inner + [Tok(RParen, ")")]));
    MatchesFirst(toks, pos + 1, [Tok(LParen, "(")] + (inner + [Tok(RParen, ")")]), Tok(LParen, "("), inner + [Tok(RParen, ")")]);
    ParseArgsPrinted(toks, e.args, pos + 2);
    PrimaryCall(toks, pos, e.args, end);
    Lift(toks, e, pos, end, PrimaryLevel, ctx);
  }

  /** `a[i]`. */
  lemma {:induction false} IndexPrinted(toks: seq<Token>, e: Expr, ctx: nat, pos: nat)
    requires e.ArrayAccess? && WellFormed(e) && ctx <= PostfixLevel
    requires Matches(toks, pos, PrintRaw(e))
    requires StopsAt(toks, pos + |PrintRaw(e)|, ctx)
    ensures ParseAt(toks, ctx, pos) == POk(e, pos + |PrintRaw(e)|)
    decreases Size(e), 1
  {
    hide ParseAt, ParseBinary, FoldLevel, ParseUnary, ParsePostfix, PostfixLoop, ParsePrimary, ParseArgs, CommaList, ParseExpression, Print, PrintRaw, PrintArgs, PrintMore, Matches, StopsAt;
    var name := Tok(TokenType.Identifier, e.arrayName);
    var inner := Print(e.index, 0);
    var close := pos + 2 + |inner|;
    PrintRawIndex(e);
    MatchesFirst(toks, pos, PrintRaw(e), name, [Tok(LBracket, "[")] + (inner + [Tok(RBracket, "]")]));
    MatchesFirst(toks, pos + 1, [Tok(LBracket, "[")] + (inner + [Tok(RBracket, "]")]), Tok(LBracket, "["), inner + [Tok(RBracket, "]")]);
    MatchesLast(toks, pos + 2, inner + [Tok(RBracket, "]")], inner, Tok(RBracket, "]"));
    CloserStops(toks, close, 0);
    ParsePrinted(toks, e.index, 0, pos + 2);
    StopsNoIndex(toks, close + 1, ctx);
    PostfixIndex(toks, pos, e.index, close);
    Lift(toks, e, pos, close + 1, PostfixLevel, ctx);
  }

  /** A prefix operator applied to an operand printed at the unary level. */
  lemma {:induction false} PrefixPrinted(toks: seq<Token>, e: Expr, x: Expr, ctx: nat, pos: nat)
    requires (e.UnaryOp? && x == e.operand) || (e.AddressOf? && x == e.target) || (e.Dereference? && x == e.pointer)
    requires WellFormed(e) && ctx <= UnaryLevel
    requires Matches(toks, pos, PrintRaw(e))
    requires StopsAt(toks, pos + |PrintRaw(e)|, ctx)
    ensures ParseAt(toks, ctx, pos) == POk(e, pos + |PrintRaw(e)|)
    decreases Size(e), 1
  {
    hide ParseAt, ParseBinary, FoldLevel, ParseUnary, ParsePostfix, PostfixLoop, ParsePrimary, ParseArgs, CommaList, ParseExpression, Print, PrintRaw, PrintArgs, PrintMore, Matches, StopsAt;
    var inner := Print(x, UnaryLevel);
    var end := pos + 1 + |inner|;
    PrintRawPrefix(e, x);
    MatchesFirst(toks, pos, PrintRaw(e), PrintRaw(e)[0], inner);
    StopsAtLoose(toks, end, ctx, UnaryLevel);
    ParsePrinted(toks, x, UnaryLevel, pos + 1);
    UnaryStep(toks, pos, x, end);
    Lift(toks, e, pos, end, UnaryLevel, ctx);
  }

  /** A chain of operators of one level, parsed by that level's loop. */
  lemma {:induction false} BinaryPrinted(toks: seq<Token>, e: Expr, ctx: nat, pos: nat)
    requires e.BinaryOp? && WellFormed(e) && ctx <= BinLevel(e.op)
    requires Matches(toks, pos, PrintRaw(e))
    requires StopsAt(toks, pos + |PrintRaw(e)|, ctx)
    ensures ParseAt(toks, ctx, pos) == POk(e, pos + |PrintRaw(e)|)
    decreases Size(e), 1
  {
    hide ParseAt, ParseBinary, FoldLevel, ParseUnary, ParsePostfix, PostfixLoop, ParsePrimary, ParseArgs, CommaList, ParseExpression, Print, PrintRaw, PrintArgs, PrintMore, Matches, StopsAt;
    var lvl := BinLevel(e.op);
    var end := pos + |PrintRaw(e)|;
    StopsAtTighter(toks, end, ctx, lvl);
    ChainPrinted(toks, e, lvl, pos);
    FoldStop(toks, lvl, e, end);
    Lift(toks, e, pos, end, lvl, ctx);
  }

  /**
    * The loop of level `lvl` reaches a chain of that level, as its left
    * operand so far, exactly where the chain's tokens end.
    */
  lemma {:induction false} ChainPrinted(toks: seq<Token>, e: Expr, lvl: nat, pos: nat)
    requires e.BinaryOp? && BinLevel(e.op) == lvl && WellFormed(e)
    requires Matches(toks, pos, PrintRaw(e))
    requires StopsAt(toks, pos + |PrintRaw(e)|, lvl + 1)
    ensures ParseAt(toks, lvl, pos) == FoldLevel(toks, lvl, e, pos + |PrintRaw(e)|)
    decreases Size(e), 0
  {
    hide ParseAt, ParseBinary, FoldLevel, ParseUnary, ParsePostfix, PostfixLoop, ParsePrimary, ParseArgs, CommaList, ParseExpression, Print, PrintRaw, PrintArgs, PrintMore, Matches, StopsAt;
    var mid := pos + |Print(e.left, lvl)|;
    var end := pos + |PrintRaw(e)|;
    BinaryLayout(toks, e, lvl, pos, mid, end);
    LeftOperand(toks, e.left, lvl, pos);
    ParsePrinted(toks, e.right, lvl + 1, mid + 1);
    FoldStep(toks, lvl, e.left, mid, e.right, end);
  }

  /** The layout of a printed chain, for a binary node. */
  lemma BinaryLayout(toks: seq<Token>, e: Expr, lvl: nat, pos: nat, mid: nat, end: nat)
    requires e.BinaryOp? && BinLevel(e.op) == lvl && WellFormed(e)
    requires Matches(toks, pos, PrintRaw(e))
    requires mid == pos + |Print(e.left, lvl)| && end == pos + |PrintRaw(e)|
    ensures end == mid + 1 + |Print(e.right, lvl + 1)|
    ensures Matches(toks, pos, Print(e.left, lvl))
    ensures mid < |toks| && OpLevel(toks[mid].kind) == lvl && toks[mid].value == e.op
    ensures StopsAt(toks, mid, lvl + 1) && Matches(toks, mid + 1, Print(e.right, lvl + 1))
  {
    PrintRawBinary(e);
    OpOpLevel(e.op);
    ChainLayout(toks, pos, PrintRaw(e), Print(e.left, lvl), Tok(OpKind(e.op), e.op), Print(e.right, lvl + 1), lvl);
  }

  /** Where the operands and the operator of a printed chain stand among the tokens. */
  lemma ChainLayout(toks: seq<Token>, pos: nat, whole: seq<Token>, left: seq<Token>, opTok: Token, right: seq<Token>,
                    lvl: nat)
    requires whole == left + ([opTok] + right) && Matches(toks, pos, whole)
    requires lvl <= 9 && OpLevel(opTok.kind) == lvl
    ensures |whole| == |left| + 1 + |right|
    ensures Matches(toks, pos, left)
    ensures pos + |left| < |toks| && toks[pos + |left|].kind == opTok.kind && toks[pos + |left|].value == opTok.value
    ensures StopsAt(toks, pos + |left|, lvl + 1)
    ensures Matches(toks, pos + |left| + 1, right)
  {
    MatchesParts(toks, pos, whole, left, [opTok] + right);
    MatchesFirst(toks, pos + |left|, [opTok] + right, opTok, right);
  }

  /** The left operand of a chain: a shorter chain of the same level, or an operand of a tighter level. */
  lemma {:induction false} LeftOperand(toks: seq<Token>, l: Expr, lvl: nat, pos: nat)
    requires lvl <= 9 && WellFormed(l)
    requires Matches(toks, pos, Print(l, lvl))
    requires StopsAt(toks, pos + |Print(l, lvl)|, lvl + 1)
    ensures ParseAt(toks, lvl, pos) == FoldLevel(toks, lvl, l, pos + |Print(l, lvl)|)
    decreases Size(l), 5
  {
    hide ParseAt, ParseBinary, FoldLevel, ParseUnary, ParsePostfix, PostfixLoop, ParsePrimary, ParseArgs, CommaList, ParseExpression, Print, PrintRaw, PrintArgs, PrintMore, Matches, StopsAt;
    if l.BinaryOp? && BinLevel(l.op) == lvl {
      PrintUnparen(l, lvl);
      ChainPrinted(toks, l, lvl, pos);
    } else {
      PrintNotChain(l, lvl);
      ParsePrinted(toks, l, lvl + 1, pos);
      BinaryStart(toks, lvl, pos, l, pos + |Print(l, lvl)|);
    }
  }

  /** The argument list of a call, then `)`. */
  lemma {:induction false} ParseArgsPrinted(toks: seq<Token>, args: seq<Expr>, pos: nat)
    requires forall i | 0 <= i < |args| :: WellFormed(args[i])
    requires Matches(toks, pos, PrintArgs(args) + [Tok(RParen, ")")])
    ensures ParseArgs(toks, pos) == POk(args, pos + |PrintArgs(args)| + 1)
    decreases SizeAll(args), 5
  {
    hide ParseAt, ParseBinary, FoldLevel, ParseUnary, ParsePostfix, PostfixLoop, ParsePrimary, ParseArgs, CommaList, ParseExpression, Print, PrintRaw, PrintArgs, PrintMore, Matches, StopsAt;
    if |args| == 0 {
      NoArgsLayout(toks, pos, args);
      ArgsEmpty(toks, pos);
    } else {
      var q := pos + |Print(args[0], 0)|;
      var end := pos + |PrintArgs(args)|;
      AllWellFormedTail(args);
      FirstArgLayout(toks, args, pos, q, end);
      ParsePrinted(toks, args[0], 0, pos);
      CommaListPrinted(toks, args[1..], [args[0]], q);
      ConsTail([], args);
      ArgsStart(toks, pos, args[0], q, args, end);
    }
  }

  /** An empty argument list prints nothing: the closing `)` comes next. */
  lemma NoArgsLayout(toks: seq<Token>, pos: nat, args: seq<Expr>)
    requires |args| == 0 && Matches(toks, pos, PrintArgs(args) + [Tok(RParen, ")")])
    ensures |PrintArgs(args)| == 0 && args == [] && At(toks, pos, RParen)
  {
    MatchedToken(toks, pos, PrintArgs(args) + [Tok(RParen, ")")], 0);
  }

  /** No further arguments print nothing: the closing `)` comes next. */
  lemma NoMoreLayout(toks: seq<Token>, pos: nat, rest: seq<Expr>)
    requires |rest| == 0 && Matches(toks, pos, PrintMore(rest) + [Tok(RParen, ")")])
    ensures |PrintMore(rest)| == 0 && pos <= |toks| && !At(toks, pos, Comma)
  {
    MatchedToken(toks, pos, PrintMore(rest) + [Tok(RParen, ")")], 0);
  }

  /** The layout of a printed argument list with at least one argument. */
  lemma FirstArgLayout(toks: seq<Token>, args: seq<Expr>, pos: nat, q: nat, end: nat)
    requires |args| > 0 && WellFormed(args[0])
    requires Matches(toks, pos, PrintArgs(args) + [Tok(RParen, ")")])
    requires q == pos + |Print(args[0], 0)| && end == pos + |PrintArgs(args)|
    ensures end == q + |PrintMore(args[1..])|
    ensures pos < |toks| && toks[pos].kind != RParen
    ensures Matches(toks, pos, Print(args[0], 0))
    ensures StopsAt(toks, q, 0) && Matches(toks, q, PrintMore(args[1..]) + [Tok(RParen, ")")])
    ensures At(toks, end, RParen)
  {
    PrintArgsCons(args);
    PrintFirst(args[0], 0);
    MoreStart(args[1..]);
    ArgsLayout(toks, pos, PrintArgs(args) + [Tok(RParen, ")")], Print(args[0], 0), PrintMore(args[1..]), q, end);
  }

  /** The layout of a printed argument tail with at least one more argument. */
  lemma NextArgLayout(toks: seq<Token>, rest: seq<Expr>, pos: nat, q: nat)
    requires |rest| > 0
    requires Matches(toks, pos, PrintMore(rest) + [Tok(RParen, ")")])
    requires q == pos + 1 + |Print(rest[0], 0)|
    ensures pos + |PrintMore(rest)| == q + |PrintMore(rest[1..])|
    ensures pos < |toks| && toks[pos].kind == Comma
    ensures Matches(toks, pos + 1, Print(rest[0], 0))
    ensures StopsAt(toks, q, 0) && Matches(toks, q, PrintMore(rest[1..]) + [Tok(RParen, ")")])
  {
    PrintMoreCons(rest);
    MoreStart(rest[1..]);
    MoreLayout(toks, pos, PrintMore(rest) + [Tok(RParen, ")")], Print(rest[0], 0), PrintMore(rest[1..]), q);
  }

  /** Where the first argument and the rest of a printed argument list stand among the tokens. */
  lemma ArgsLayout(toks: seq<Token>, pos: nat, whole: seq<Token>, first: seq<Token>, more: seq<Token>, q: nat, end: nat)
    requires whole == first + (more + [Tok(RParen, ")")]) && Matches(toks, pos, whole)
    requires |first| > 0 && first[0].kind != RParen
    requires |more| == 0 || more[0].kind == Comma
    requires q == pos + |first| && end + 1 == pos + |whole|
    ensures end == q + |more|
    ensures pos < |toks| && toks[pos].kind != RParen
    ensures Matches(toks, pos, first)
    ensures StopsAt(toks, q, 0) && Matches(toks, q, more + [Tok(RParen, ")")])
    ensures At(toks, end, RParen)
  {
    MatchesParts(toks, pos, whole, first, more + [Tok(RParen, ")")]);
    MatchedToken(toks, pos, first, 0);
    MatchesLast(toks, q, more + [Tok(RParen, ")")], more, Tok(RParen, ")"));
    TailStops(toks, q, more);
  }

  /** Further `, a` arguments, each appended in order, up to the closing `)`. */
  lemma {:induction false} CommaListPrinted(toks: seq<Token>, rest: seq<Expr>, acc: seq<Expr>, pos: nat)
    requires forall i | 0 <= i < |rest| :: WellFormed(rest[i])
    requires Matches(toks, pos, PrintMore(rest) + [Tok(RParen, ")")])
    ensures CommaList(toks, pos, acc) == POk(acc + rest, pos + |PrintMore(rest)|)
    decreases SizeAll(rest), 5
  {
    hide ParseAt, ParseBinary, FoldLevel, ParseUnary, ParsePostfix, PostfixLoop, ParsePrimary, ParseArgs, CommaList, ParseExpression, Print, PrintRaw, PrintArgs, PrintMore, Matches, StopsAt;
    if |rest| == 0 {
      NoMoreLayout(toks, pos, rest);
      assert acc + rest == acc;
      CommaStop(toks, pos, acc);
    } else {
      var q := pos + 1 + |Print(rest[0], 0)|;
      AllWellFormedTail(rest);
      NextArgLayout(toks, rest, pos, q);
      ParsePrinted(toks, rest[0], 0, pos + 1);
      CommaListPrinted(toks, rest[1..], acc + [rest[0]], q);
      CommaStep(toks, pos, acc, rest[0], q);
      ConsTail(acc, rest);
    }
  }

  /** Where the comma, the next argument and the rest of a printed argument tail stand among the tokens. */
  lemma MoreLayout(toks: seq<Token>, pos: nat, whole: seq<Token>, item: seq<Token>, more: seq<Token>, q: nat)
    requires whole == [Tok(Comma, ",")] + (item + (more + [Tok(RParen, ")")])) && Matches(toks, pos, whole)
    requires |more| == 0 || more[0].kind == Comma
    requires q == pos + 1 + |item|
    ensures pos + |whole| == q + |more| + 1
    ensures pos < |toks| && toks[pos].kind == Comma
    ensures Matches(toks, pos + 1, item)
    ensures StopsAt(toks, q, 0) && Matches(toks, q, more + [Tok(RParen, ")")])
  {
    MatchesFirst(toks, pos, whole, Tok(Comma, ","), item + (more + [Tok(RParen, ")")]));
    MatchesParts(toks, pos + 1, item + (more + [Tok(RParen, ")")]), item, more + [Tok(RParen, ")")]);
    TailStops(toks, q, more);
  }

  /** What follows an argument (a comma or the closing parenthesis) ends it. */
  lemma TailStops(toks: seq<Token>, q: nat, more: seq<Token>)
    requires Matches(toks, q, more + [Tok(RParen, ")")])
    requires |more| == 0 || more[0].kind == Comma
    ensures StopsAt(toks, q, 0)
  {
    MatchedToken(toks, q, more + [Tok(RParen, ")")], 0);
    if |more| > 0 {
      assert (more + [Tok(RParen, ")")])[0] == more[0];
    }
  }

  /**
    * Round trip: printing a well-formed expression and parsing the tokens
    * back, followed by any token that cannot continue an expression (`;`,
    * `)`, `]`, `,`, `=`, end of file), gives the expression and stops
    * before that token.
    */
  lemma ExpressionRoundTrip(e: Expr, stop: Token)
    requires WellFormed(e) && Stopper(stop.kind, 0)
    ensures ParseExpression(Print(e, 0) + [stop], 0) == POk(e, |Print(e, 0)|)
  {
    var toks := Print(e, 0) + [stop];
    assert toks[0..|Print(e, 0)|] == Print(e, 0);
    MatchesSelf(toks, 0, Print(e, 0));
    ParsePrinted(toks, e, 0, 0);
  }
}

=== FILE: preprocessor.dfy ===
/**
  * The preprocessor of preprocessor.py: `#define`, `#undef` and `#include`
  * directives, and whole-word macro expansion repeated until nothing changes.
  * Files are a map from path to content; the path resolution of the file
  * system is not modelled, so an include names its file by its key.
  */
module Preprocessor {
  import opened Results
  import opened Text

  // ---------------------------------------------------------------------
  // Identifiers
  // ---------------------------------------------------------------------

  predicate IsIdentStart(c: char) { IsLetter(c) || c == '_' }

  /** `[a-zA-Z_][a-zA-Z0-9_]*` matches all of `w`. */
  predicate IsIdentifier(w: string) {
    |w| > 0 && IsIdentStart(w[0]) && forall k | 0 <= k < |w| :: IsWordChar(w[k])
  }

  /** End of the run of word characters that starts at `i`. */
  function WordEnd(s: string, i: nat): (j: nat)
    requires i <= |s|
    ensures i <= j <= |s|
    ensures forall k | i <= k < j :: IsWordChar(s[k])
    ensures j == |s| || !IsWordChar(s[j])
    decreases |s| - i
  {
    if i < |s| && IsWordChar(s[i]) then WordEnd(s, i + 1) else i
  }

  /** Length of the match of `^[a-zA-Z_][a-zA-Z0-9_]*` on `s`, 0 when it fails. */
  function IdentLength(s: string): (n: nat)
    ensures n <= |s|
    ensures n > 0 <==> |s| > 0 && IsIdentStart(s[0])
    ensures n > 0 ==> IsIdentifier(s[..n]) && (n == |s| || !IsWordChar(s[n]))
  {
    if |s| > 0 && IsIdentStart(s[0]) then WordEnd(s, 1) else 0
  }

  lemma IdentLengthOf(w: string, t: string)
    requires IsIdentifier(w) && (|t| == 0 || !IsWordChar(t[0]))
    ensures IdentLength(w + t) == |w|
  {
    var s := w + t;
    assert s[..|w|] == w;
  }

  // ---------------------------------------------------------------------
  // The macro table: a dict keeps its keys in insertion order
  // ---------------------------------------------------------------------

  type Defs = seq<(string, string)>

  /** The keys are distinct identifiers, as `parse_define` produces them. */
  predicate ValidDefs(d: Defs) {
    && (forall i | 0 <= i < |d| :: IsIdentifier(d[i].0))
    && (forall i, j | 0 <= i < j < |d| :: d[i].0 != d[j].0)
  }

  function Lookup(d: Defs, name: string): Option<string>
    decreases |d|
  {
    if |d| == 0 then None
    else if d[0].0 == name then Some(d[0].1)
    else Lookup(d[1..], name)
  }

  function Names(d: Defs): seq<string> {
    seq(|d|, i requires 0 <= i < |d| => d[i].0)
  }

  /** `definitions[name] = value`: a new key goes last, an old one keeps its place. */
  function Define(d: Defs, name: string, value: string): (r: Defs)
    ensures Lookup(r, name) == Some(value)
    ensures forall n | n != name :: Lookup(r, n) == Lookup(d, n)
    decreases |d|
  {
    if |d| == 0 then [(name, value)]
    else if d[0].0 == name then [(name, value)] + d[1..]
    else [d[0]] + Define(d[1..], name, value)
  }

  /** Assigning to a key keeps the insertion order of the keys, adding a new key at the end. */
  lemma {:induction false} DefineOrder(d: Defs, name: string, value: string)
    ensures name in Names(d) ==> Names(Define(d, name, value)) == Names(d)
    ensures name !in Names(d) ==> Names(Define(d, name, value)) == Names(d) + [name]
    decreases |d|
  {
    hide Lookup;
    var r := Define(d, name, value);
    if |d| > 0 {
      if d[0].0 == name {
        assert r[1..] == d[1..] && Names(d)[0] == name;
        assert forall k | 0 <= k < |r| :: Names(r)[k] == Names(d)[k];
      } else {
        DefineOrder(d[1..], name, value);
        assert r[1..] == Define(d[1..], name, value);
        assert Names(d) == [d[0].0] + Names(d[1..]);
        assert Names(r) == [d[0].0] + Names(r[1..]);
      }
    }
  }

  lemma {:induction false} DefineValid(d: Defs, name: string, value: string)
    requires ValidDefs(d) && IsIdentifier(name)
    ensures ValidDefs(Define(d, name, value))
  {
    var r := Define(d, name, value);
    DefineOrder(d, name, value);
    assert |Names(r)| == |r| && |Names(d)| == |d|;
    forall i | 0 <= i < |r|
      ensures IsIdentifier(r[i].0)
    {
      assert Names(r)[i] == r[i].0;
      if i < |d| {
        assert Names(d)[i] == d[i].0;
      }
    }
    forall i, j | 0 <= i < j < |r|
      ensures r[i].0 != r[j].0
    {
      assert Names(r)[i] == r[i].0 && Names(r)[j] == r[j].0;
      if j < |d| {
        assert Names(d)[i] == d[i].0 && Names(d)[j] == d[j].0;
      } else {
        assert name !in Names(d) && Names(d)[i] == d[i].0;
      }
    }
  }

  /** `definitions.pop(name, None)`. */
  function Undefine(d: Defs, name: string): (r: Defs)
    ensures Lookup(r, name) == None
    ensures forall n | n != name :: Lookup(r, n) == Lookup(d, n)
    ensures ValidDefs(d) ==> ValidDefs(r)
    ensures forall i | 0 <= i < |r| :: r[i] in d
    decreases |d|
  {
    if |d| == 0 then []
    else if d[0].0 == name then Undefine(d[1..], name)
    else
      var rest := Undefine(d[1..], name);
      assert forall i | 0 <= i < |rest| :: rest[i] in d;
      [d[0]] + rest
  }

  // ---------------------------------------------------------------------
  // Directives
  // ---------------------------------------------------------------------

  /** `rest[:20]`. */
  function Head20(s: string): string {
    if |s| <= 20 then s else s[..20]
  }

  /**
    * `parse_define(line)`: None when the line is no `#define`; otherwise the
    * leading identifier and the stripped remainder, or the error raised.
    */
  function ParseDefine(line: string): (r: Result<Option<(string, string)>, string>)
    ensures r.Err? <==>
              StartsWith(Strip(line), "#define") && IdentLength(Strip(Strip(line)[7..])) == 0
    ensures r.Ok? && r.value.Some? ==> IsIdentifier(r.value.value.0)
    ensures r.Ok? ==> (r.value.Some? <==> StartsWith(Strip(line), "#define"))
  {
    var stripped := Strip(line);
    if !StartsWith(stripped, "#define") then Ok(None)
    else
      var rest := Strip(stripped[7..]);
      if rest == "" then Err("Invalid #define: missing macro name")
      else
        var n := IdentLength(rest);
        if n == 0 then Err("Invalid #define: invalid macro name in '" + Head20(rest) + "...'")
        else Ok(Some((rest[..n], Strip(rest[n..]))))
  }

  /** `parse_undef(line)`: the leading identifier, or None. */
  function ParseUndef(line: string): (r: Option<string>)
    ensures r.Some? ==> IsIdentifier(r.value) && StartsWith(Strip(line), "#undef")
  {
    var stripped := Strip(line);
    if !StartsWith(stripped, "#undef") then None
    else
      var rest := Strip(stripped[6..]);
      var n := IdentLength(rest);
      if n == 0 then None else Some(rest[..n])
  }

  /** `s[1:-1]`. */
  function Inner(s: string): string {
    if |s| < 2 then "" else s[1..|s| - 1]
  }

  /** `parse_include(line)`: what stands between `"..."` or `<...>`, or None. */
  function ParseInclude(line: string): (r: Option<string>)
    ensures r.Some? <==>
              var rest := Strip(if |line| < 8 then "" else line[8..]);
              (StartsWith(rest, "\"") && EndsWith(rest, "\"")) || (StartsWith(rest, "<") && EndsWith(rest, ">"))
  {
    var rest := Strip(if |line| < 8 then "" else line[8..]);
    if StartsWith(rest, "\"") && EndsWith(rest, "\"") then Some(Inner(rest))
    else if StartsWith(rest, "<") && EndsWith(rest, ">") then Some(Inner(rest))
    else None
  }

  /** No whitespace at either end. */
  predicate Trimmed(v: string) {
    |v| == 0 || (!IsSpace(v[0]) && !IsSpace(v[|v| - 1]))
  }

  lemma NotPrefix(s: string, prefix: string, k: nat)
    requires k < |s| && k < |prefix| && s[k] != prefix[k]
    ensures !StartsWith(s, prefix)
  {
  }

  lemma PrefixOfConcat(a: string, b: string)
    ensures StartsWith(a + b, a)
  {
    assert (a + b)[..|a|] == a;
  }

  /** A `#define` line with a valid name reads as that name and the stripped rest. */
  lemma ParseDefineOf(line: string, body: string, n: nat)
    requires StartsWith(Strip(line), "#define") && Strip(Strip(line)[7..]) == body
    requires 0 < n <= |body| && IdentLength(body) == n
    ensures ParseDefine(line) == Ok(Some((body[..n], Strip(body[n..]))))
  {
    hide Strip, IdentLength;
  }

  /** What follows the name in a stripped `#define NAME value` line. */
  function DefineTail(value: string): string {
    if |value| == 0 then "" else " " + value
  }

  lemma DefineLineStripped(name: string, value: string)
    requires IsIdentifier(name) && Trimmed(value)
    ensures Strip("#define " + name + " " + value) == "#define" + (" " + (name + DefineTail(value)))
  {
    hide Strip;
    var line := "#define " + name + " " + value;
    assert "#define " == "#define" + " ";
    if |value| == 0 {
      assert DefineTail(value) == "" && value == "";
      assert line == ("#define" + (" " + (name + ""))) + " ";
      StripSpaceAfter("#define" + (" " + (name + "")));
    } else {
      assert DefineTail(value) == " " + value;
      assert line == "#define" + (" " + (name + (" " + value)));
      assert line[0] == '#' && line[|line| - 1] == value[|value| - 1];
      StripOfStripped(line);
    }
  }

  lemma DefineBody(name: string, value: string)
    requires IsIdentifier(name) && Trimmed(value)
    ensures Strip(" " + (name + DefineTail(value))) == name + DefineTail(value)
    ensures IdentLength(name + DefineTail(value)) == |name|
    ensures (name + DefineTail(value))[..|name|] == name
    ensures Strip((name + DefineTail(value))[|name|..]) == value
  {
    hide Strip, IdentLength;
    var tail := DefineTail(value);
    var body := name + tail;
    assert body[0] == name[0] && body[|body| - 1] == (if |value| == 0 then name[|name| - 1] else value[|value| - 1]);
    StripSpaceBefore(body);
    IdentLengthOf(name, tail);
    assert body[..|name|] == name && body[|name|..] == tail;
    if |value| == 0 {
      StripOfStripped("");
    } else {
      StripSpaceBefore(value);
    }
  }

  /** `#define NAME value` reads back as its name and value. */
  lemma DefineRoundTrip(name: string, value: string)
    requires IsIdentifier(name) && Trimmed(value)
    ensures ParseDefine("#define " + name + " " + value) == Ok(Some((name, value)))
  {
    hide Strip, IdentLength, ParseDefine, DefineTail;
    var line := "#define " + name + " " + value;
    var body := name + DefineTail(value);
    DefineLineStripped(name, value);
    PrefixOfConcat("#define", " " + body);
    assert ("#define" + (" " + body))[7..] == " " + body;
    DefineBody(name, value);
    ParseDefineOf(line, body, |name|);
  }

  /** `#undef NAME` reads back as its name. */
  lemma UndefRoundTrip(name: string)
    requires IsIdentifier(name)
    ensures ParseUndef("#undef " + name) == Some(name)
  {
    hide Strip, IdentLength;
    var line := "#undef " + name;
    assert line[0] == '#' && line[|line| - 1] == name[|name| - 1];
    StripOfStripped(line);
    assert line[..6] == "#undef" && line[6..] == " " + name;
    StripSpaceBefore(name);
    IdentLengthOf(name, "");
    assert name + "" == name && name[..|name|] == name;
  }

  /** A quoted or bracketed name after `#include` is what it reads back. */
  lemma ParseIncludeDelimited(line: string, rest: string)
    requires |line| >= 8 && Strip(line[8..]) == rest && |rest| >= 2
    requires (rest[0] == '"' && rest[|rest| - 1] == '"') || (rest[0] == '<' && rest[|rest| - 1] == '>')
    ensures ParseInclude(line) == Some(rest[1..|rest| - 1])
  {
    hide Strip;
    assert rest[..1] == [rest[0]] && rest[|rest| - 1..] == [rest[|rest| - 1]];
  }

  /** `#include "f"` and `#include <f>` read back as `f`. */
  lemma IncludeRoundTrip(f: string, open: char, close: char)
    requires (open == '"' && close == '"') || (open == '<' && close == '>')
    ensures ParseInclude("#include " + [open] + f + [close]) == Some(f)
  {
    hide Strip;
    var quoted := [open] + f + [close];
    var line := "#include " + [open] + f + [close];
    assert line == "#include " + quoted;
    assert line[8..] == " " + quoted;
    assert quoted[0] == open && quoted[|quoted| - 1] == close;
    StripSpaceBefore(quoted);
    assert quoted[1..|quoted| - 1] == f;
    ParseIncludeDelimited(line, quoted);
  }

  // ---------------------------------------------------------------------
  // Whole-word substitution: `re.sub(r'\b' + re.escape(name) + r'\b', value, s)`
  // ---------------------------------------------------------------------

  /** `\b` at position `p`: a word character on exactly one side. */
  predicate Boundary(s: string, p: nat) {
    (0 < p <= |s| && IsWordChar(s[p - 1])) != (p < |s| && IsWordChar(s[p]))
  }

  /** `name` stands at `i` as a whole word. */
  predicate WholeWordAt(s: string, i: nat, name: string) {
    i + |name| <= |s| && s[i..i + |name|] == name && Boundary(s, i) && Boundary(s, i + |name|)
  }

  /** No whole-word occurrence of `name` at `i` or later. */
  predicate NoWholeWordFrom(s: string, name: string, i: nat) {
    forall j: nat | i <= j <= |s| :: !WholeWordAt(s, j, name)
  }

  /** The substitution of the text from `i` on, scanning left to right without overlaps. */
  function Sub(s: string, name: string, value: string, i: nat): string
    requires |name| > 0 && i <= |s|
    decreases |s| - i
  {
    if i == |s| then ""
    else if WholeWordAt(s, i, name) then value + Sub(s, name, value, i + |name|)
    else [s[i]] + Sub(s, name, value, i + 1)
  }

  /** A longer value never shortens the text, a shorter one never lengthens it. */
  lemma {:induction false} SubLengthOrder(s: string, name: string, value: string, i: nat)
    requires |name| > 0 && i <= |s|
    ensures |value| >= |name| ==> |Sub(s, name, value, i)| >= |s| - i
    ensures |value| <= |name| ==> |Sub(s, name, value, i)| <= |s| - i
    decreases |s| - i
  {
    if i < |s| {
      if WholeWordAt(s, i, name) {
        SubLengthOrder(s, name, value, i + |name|);
      } else {
        SubLengthOrder(s, name, value, i + 1);
      }
    }
  }

  /** With no occurrence left, the substitution copies the text. */
  lemma {:induction false} SubCopies(s: string, name: string, value: string, i: nat)
    requires |name| > 0 && i <= |s| && NoWholeWordFrom(s, name, i)
    ensures Sub(s, name, value, i) == s[i..]
    decreases |s| - i
  {
    if i < |s| {
      SubCopies(s, name, value, i + 1);
      assert s[i..] == [s[i]] + s[i + 1..];
    }
  }

  /** Replacing a word by itself copies the text. */
  lemma {:induction false} SubSame(s: string, name: string, i: nat)
    requires |name| > 0 && i <= |s|
    ensures Sub(s, name, name, i) == s[i..]
    decreases |s| - i
  {
    if i < |s| {
      if WholeWordAt(s, i, name) {
        SubSame(s, name, i + |name|);
        assert s[i..] == s[i..i + |name|] + s[i + |name|..];
      } else {
        SubSame(s, name, i + 1);
        assert s[i..] == [s[i]] + s[i + 1..];
      }
    }
  }

  /** A substitution that changes nothing met no occurrence, unless the value is the name. */
  lemma {:induction false} SubUnchangedFrom(s: string, name: string, value: string, i: nat)
    requires |name| > 0 && i <= |s| && value != name
    requires Sub(s, name, value, i) == s[i..]
    ensures NoWholeWordFrom(s, name, i)
    decreases |s| - i
  {
    if i < |s| {
      if WholeWordAt(s, i, name) {
        SubLengthOrder(s, name, value, i + |name|);
      } else {
        var rest := Sub(s, name, value, i + 1);
        assert s[i..] == [s[i]] + s[i + 1..];
        assert rest == s[i + 1..];
        SubUnchangedFrom(s, name, value, i + 1);
        forall j: nat | i <= j <= |s|
          ensures !WholeWordAt(s, j, name)
        {
          if j > i {
            assert i + 1 <= j;
          }
        }
      }
    }
  }

  /** `re.sub` leaves the text as it was exactly when the name never stands as a whole word, or the value is the name. */
  lemma SubUnchanged(s: string, name: string, value: string)
    requires |name| > 0
    ensures Sub(s, name, value, 0) == s <==> (value == name || NoWholeWordFrom(s, name, 0))
  {
    assert s[0..] == s;
    if value == name {
      SubSame(s, name, 0);
    } else if NoWholeWordFrom(s, name, 0) {
      SubCopies(s, name, value, 0);
    } else if Sub(s, name, value, 0) == s {
      SubUnchangedFrom(s, name, value, 0);
    }
  }

  // ---------------------------------------------------------------------
  // expand_macros
  // ---------------------------------------------------------------------

  /** Put `x` before the first entry with a strictly shorter name: equal lengths keep their order. */
  function InsertByLength(t: Defs, x: (string, string)): (r: Defs)
    ensures multiset(r) == multiset(t) + multiset{x}
    ensures forall i | 0 <= i < |r| :: r[i] == x || r[i] in t
    decreases |t|
  {
    if |t| == 0 then [x]
    else if |t[0].0| < |x.0| then [x] + t
    else
      var rest := InsertByLength(t[1..], x);
      assert t == [t[0]] + t[1..];
      [t[0]] + rest
  }

  predicate LongestFirst(t: Defs) {
    forall i, j | 0 <= i < j < |t| :: |t[i].0| >= |t[j].0|
  }

  lemma {:induction false} InsertKeepsOrder(t: Defs, x: (string, string))
    requires LongestFirst(t)
    ensures LongestFirst(InsertByLength(t, x))
    decreases |t|
  {
    if |t| > 0 && |t[0].0| >= |x.0| {
      InsertKeepsOrder(t[1..], x);
      var r := InsertByLength(t, x);
      forall i, j | 0 <= i < j < |r|
        ensures |r[i].0| >= |r[j].0|
      {
        if i == 0 {
          assert r[j] == x || r[j] in t[1..];
        }
      }
    }
  }

  /** `sorted(definitions, key=len, reverse=True)`: a stable sort, longest names first. */
  function SortByLength(d: Defs): (r: Defs)
    ensures multiset(r) == multiset(d)
    ensures LongestFirst(r)
    decreases |d|
  {
    if |d| == 0 then []
    else
      var init := d[..|d| - 1];
      assert d == init + [d[|d| - 1]];
      InsertKeepsOrder(SortByLength(init), d[|d| - 1]);
      InsertByLength(SortByLength(init), d[|d| - 1])
  }

  /** One pass of the `for name in names` loop: the text after it, and whether any name changed it. */
  function Pass(s: string, order: Defs): (r: (string, bool))
    requires forall i | 0 <= i < |order| :: |order[i].0| > 0
    decreases |order|
  {
    if |order| == 0 then (s, false)
    else
      var t := Sub(s, order[0].0, order[0].1, 0);
      var rest := Pass(t, order[1..]);
      (rest.0, rest.1 || t != s)
  }

  /** A pass that changes nothing met every name only where its value is the name itself. */
  lemma {:induction false} QuietPass(s: string, order: Defs)
    requires forall i | 0 <= i < |order| :: |order[i].0| > 0
    requires !Pass(s, order).1
    ensures Pass(s, order).0 == s
    ensures forall i | 0 <= i < |order| :: order[i].1 == order[i].0 || NoWholeWordFrom(s, order[i].0, 0)
    decreases |order|
  {
    if |order| > 0 {
      SubUnchanged(s, order[0].0, order[0].1);
      QuietPass(s, order[1..]);
      forall i | 0 <= i < |order|
        ensures order[i].1 == order[i].0 || NoWholeWordFrom(s, order[i].0, 0)
      {
        if i > 0 {
          assert order[i] == order[1..][i - 1];
        }
      }
    }
  }

  /** The `while changed` loop with at most `fuel` passes; None when it has not settled by then. */
  function Settle(s: string, order: Defs, fuel: nat): Option<string>
    requires forall i | 0 <= i < |order| :: |order[i].0| > 0
    decreases fuel
  {
    if fuel == 0 then None
    else
      var p := Pass(s, order);
      if p.1 then Settle(p.0, order, fuel - 1) else Some(p.0)
  }

  /** `expand_macros(line)`, allowed `fuel` passes. */
  function ExpandMacros(line: string, d: Defs, fuel: nat): Option<string>
    requires ValidDefs(d)
  {
    if |d| == 0 then Some(line)
    else
      var order := SortByLength(d);
      assert forall i | 0 <= i < |order| :: order[i] in multiset(d);
      Settle(line, order, fuel)
  }

  lemma {:induction false} SettleQuiet(s: string, order: Defs, fuel: nat)
    requires forall i | 0 <= i < |order| :: |order[i].0| > 0
    requires Settle(s, order, fuel).Some?
    ensures forall i | 0 <= i < |order| ::
              order[i].1 == order[i].0 || NoWholeWordFrom(Settle(s, order, fuel).value, order[i].0, 0)
    decreases fuel
  {
    var p := Pass(s, order);
    if p.1 {
      SettleQuiet(p.0, order, fuel - 1);
    } else {
      QuietPass(s, order);
    }
  }

  /**
    * On return no defined name stands anywhere as a whole word, save one
    * defined as itself (`#define A A` changes nothing and so stops the loop).
    */
  lemma ExpandedHasNoMacro(line: string, d: Defs, fuel: nat)
    requires ValidDefs(d) && ExpandMacros(line, d, fuel).Some?
    ensures forall i | 0 <= i < |d| ::
              d[i].1 == d[i].0 || NoWholeWordFrom(ExpandMacros(line, d, fuel).value, d[i].0, 0)
  {
    if |d| > 0 {
      var order := SortByLength(d);
      assert forall i | 0 <= i < |order| :: order[i] in multiset(d);
      SettleQuiet(line, order, fuel);
      forall i | 0 <= i < |d|
        ensures d[i].1 == d[i].0 || NoWholeWordFrom(ExpandMacros(line, d, fuel).value, d[i].0, 0)
      {
        assert d[i] in multiset(order);
        var k :| 0 <= k < |order| && order[k] == d[i];
      }
    }
  }

  /** Without definitions the line is returned as it is. */
  lemma ExpandWithoutDefs(line: string, fuel: nat)
    ensures ExpandMacros(line, [], fuel) == Some(line)
  {
  }

  /** A pass over names none of which stands in the text changes nothing. */
  lemma {:induction false} PassWithoutUses(s: string, order: Defs)
    requires forall i | 0 <= i < |order| :: |order[i].0| > 0 && NoWholeWordFrom(s, order[i].0, 0)
    ensures Pass(s, order) == (s, false)
    decreases |order|
  {
    if |order| > 0 {
      SubCopies(s, order[0].0, order[0].1, 0);
      assert s[0..] == s;
      assert forall i | 0 <= i < |order[1..]| :: order[1..][i] == order[i + 1];
      PassWithoutUses(s, order[1..]);
    }
  }

  /** A line in which no defined name stands as a whole word comes back as it is, after one pass. */
  lemma ExpandWithoutUses(line: string, d: Defs, fuel: nat)
    requires ValidDefs(d) && fuel > 0
    requires forall i | 0 <= i < |d| :: NoWholeWordFrom(line, d[i].0, 0)
    ensures ExpandMacros(line, d, fuel) == Some(line)
  {
    if |d| > 0 {
      var order := SortByLength(d);
      forall i | 0 <= i < |order|
        ensures |order[i].0| > 0 && NoWholeWordFrom(line, order[i].0, 0)
      {
        assert order[i] in multiset(d);
        var k :| 0 <= k < |d| && d[k] == order[i];
      }
      PassWithoutUses(line, order);
    }
  }

  /**
    * A macro whose value starts with its own name followed by a non-word
    * character, such as `#define X X+1`, never settles on a line that starts
    * with it: every pass rewrites the line again, so the loop runs forever.
    */
  lemma {:induction false} SelfReferenceDiverges(line: string, name: string, tail: string, fuel: nat)
    requires IsIdentifier(name) && |tail| > 0 && !IsWordChar(tail[0])
    requires WholeWordAt(line, 0, name)
    ensures ExpandMacros(line, [(name, name + tail)], fuel) == None
  {
    var d := [(name, name + tail)];
    assert SortByLength(d) == d;
    SettleDiverges(line, name, tail, fuel);
  }

  lemma {:induction false} SettleDiverges(s: string, name: string, tail: string, fuel: nat)
    requires IsIdentifier(name) && |tail| > 0 && !IsWordChar(tail[0])
    requires WholeWordAt(s, 0, name)
    ensures Settle(s, [(name, name + tail)], fuel) == None
    decreases fuel
  {
    if fuel > 0 {
      var value := name + tail;
      var t := Sub(s, name, value, 0);
      SubLengthOrder(s, name, value, |name|);
      assert t == value + Sub(s, name, value, |name|);
      assert t[..|name|] == name && t[|name|] == tail[0];
      assert t != s;
      assert Pass(s, [(name, value)]) == (t, true);
      SettleDiverges(t, name, tail, fuel - 1);
    }
  }

  /** The defined names. */
  function Keys(d: Defs): set<string> {
    set i | 0 <= i < |d| :: d[i].0
  }

  lemma {:induction false} LookupKey(d: Defs, name: string)
    requires Lookup(d, name).Some?
    ensures name in Keys(d)
    decreases |d|
  {
    if d[0].0 != name {
      LookupKey(d[1..], name);
      var i :| 0 <= i < |d[1..]| && d[1..][i].0 == name;
      assert d[i + 1].0 == name;
    }
  }

  /**
    * Macro expansion as the self-referential definitions need it, the way a
    * C preprocessor does it: each whole word is replaced once by its
    * expanded value, and while a macro's value is being expanded that
    * macro's own name stays as it is, so the expansion always ends.
    */
  function ExpandOnce(s: string, d: Defs, active: set<string>): string
    decreases |Keys(d) - active|, |s|
  {
    if |s| == 0 then ""
    else if IsWordChar(s[0]) then
      var j := WordEnd(s, 0);
      var w := s[..j];
      var rest := ExpandOnce(s[j..], d, active);
      match Lookup(d, w)
      case Some(v) =>
        if w in active then w + rest
        else
          LookupKey(d, w);
          assert Keys(d) - active == (Keys(d) - (active + {w})) + {w};
          ExpandOnce(v, d, active + {w}) + rest
      case None => w + rest
    else [s[0]] + ExpandOnce(s[1..], d, active)
  }

  /** While every defined name is being expanded, nothing more is replaced. */
  lemma {:induction false} ExpandOnceAllActive(s: string, d: Defs, active: set<string>)
    requires Keys(d) <= active
    ensures ExpandOnce(s, d, active) == s
    decreases |s|
  {
    if |s| > 0 {
      if IsWordChar(s[0]) {
        var j := WordEnd(s, 0);
        var w := s[..j];
        ExpandOnceAllActive(s[j..], d, active);
        if Lookup(d, w).Some? {
          LookupKey(d, w);
        }
        assert s == w + s[j..];
      } else {
        ExpandOnceAllActive(s[1..], d, active);
        assert s == [s[0]] + s[1..];
      }
    }
  }

  /** Without definitions a line is returned as it is. */
  lemma ExpandOnceWithoutDefs(s: string)
    ensures ExpandOnce(s, [], {}) == s
  {
    ExpandOnceAllActive(s, [], {});
  }

  /**
    * A macro used on its own is replaced by its value exactly once, even
    * when the value mentions the macro again: `#define X X+1` turns `X`
    * into `X+1`.
    */
  lemma SelfReferenceExpandsOnce(name: string, value: string)
    requires IsIdentifier(name)
    ensures ExpandOnce(name, [(name, value)], {}) == value
  {
    var d := [(name, value)];
    assert WordEnd(name, 0) == |name| by {
      WordEndAll(name, 0);
    }
    assert name[..|name|] == name && name[|name|..] == "";
    assert Keys(d) <= {name};
    assert IsWordChar(name[0]) && Lookup(d, name) == Some(value);
    assert ExpandOnce(name[|name|..], d, {}) == "";
    var none: set<string> := {};
    assert none + {name} == {name};
    ExpandOnceAllActive(value, d, {name});
    assert ExpandOnce(name, d, {}) == ExpandOnce(value, d, {name}) + "";
  }

  lemma {:induction false} WordEndAll(s: string, i: nat)
    requires i <= |s| && forall k | i <= k < |s| :: IsWordChar(s[k])
    ensures WordEnd(s, i) == |s|
    decreases |s| - i
  {
    if i < |s| {
      WordEndAll(s, i + 1);
    }
  }

  // ---------------------------------------------------------------------
  // process_content / process_file / preprocess
  // ---------------------------------------------------------------------

  /** The two pieces of state every file sees and changes: definitions and included paths. */
  datatype PState = PState(defs: Defs, included: set<string>)

  /** A raised `PreprocessingError`, or expansion that has not settled within its fuel. */
  datatype Failure = Raised(message: string) | OutOfFuel

  type Files = map<string, string>

  predicate IsDirective(line: string, keyword: string) {
    StartsWith(Strip(line), keyword)
  }

  /** How `process_content` reports an error raised while including at line `n`. */
  function IncludeError(n: nat, message: string): string {
    "Include error at line " + NatToString(n) + ": " + message
  }

  /** The processing of `lines[idx..]`, line `idx + 1` first: the output lines and the state after them. */
  function ProcessLines(files: Files, lines: seq<string>, idx: nat, st: PState, fuel: nat)
    : (r: Result<(seq<string>, PState), Failure>)
    requires idx <= |lines| && ValidDefs(st.defs)
    ensures r.Ok? ==> st.included <= r.value.1.included && ValidDefs(r.value.1.defs)
    decreases files.Keys - st.included, |lines| - idx + 1
  {
    if idx == |lines| then Ok(([], st))
    else
      var line := lines[idx];
      var stripped := Strip(line);
      var num := NatToString(idx + 1);
      if StartsWith(stripped, "#define") then
        match ParseDefine(line)
        case Err(e) => Err(Raised("Line " + num + ": " + e))
        case Ok(parsed) =>
          var st' := if parsed.None? then st
                     else (DefineValid(st.defs, parsed.value.0, parsed.value.1);
                           st.(defs := Define(st.defs, parsed.value.0, parsed.value.1)));
          ProcessLines(files, lines, idx + 1, st', fuel)
      else if StartsWith(stripped, "#undef") then
        var st' := match ParseUndef(line)
                   case Some(name) => st.(defs := Undefine(st.defs, name))
                   case None => st;
        ProcessLines(files, lines, idx + 1, st', fuel)
      else if StartsWith(stripped, "#include") then
        var target := ParseInclude(stripped);
        if target.None? || target.value == "" then
          Err(Raised("Invalid #include directive at line " + num + ": " + stripped))
        else
          IncludeDirective(files, lines, idx, st, fuel, target.value)
      else
        match ExpandMacros(line, st.defs, fuel)
        case None => Err(OutOfFuel)
        case Some(e) =>
          match ProcessLines(files, lines, idx + 1, st, fuel)
          case Err(err) => Err(err)
          case Ok((out, st2)) => Ok(([e] + out, st2))
  }

  /** Line `idx + 1` includes `f`: the included text between two marker comments, then the lines after it. */
  function IncludeDirective(files: Files, lines: seq<string>, idx: nat, st: PState, fuel: nat, f: string)
    : (r: Result<(seq<string>, PState), Failure>)
    requires idx < |lines| && ValidDefs(st.defs)
    ensures r.Ok? ==> st.included <= r.value.1.included && ValidDefs(r.value.1.defs)
    decreases files.Keys - st.included, |lines| - idx + 1, 0
  {
    if f !in files then Err(Raised(IncludeError(idx + 1, "Include file not found: " + f)))
    else
      match ProcessFile(files, f, st, fuel)
      case Err(Raised(m)) => Err(Raised(IncludeError(idx + 1, m)))
      case Err(OutOfFuel) => Err(OutOfFuel)
      case Ok((text, st1)) =>
        assert files.Keys - st1.included < files.Keys - st.included by {
          assert f in files.Keys - st.included && f !in files.Keys - st1.included;
        }
        match ProcessLines(files, lines, idx + 1, st1, fuel)
        case Err(e) => Err(e)
        case Ok((out, st2)) =>
          Ok((["// Included from: " + f] + Split(text, '\n') + ["// End include: " + f] + out, st2))
  }

  /** `process_file(path)`: refuse a path seen before in this run, else process its lines. */
  function ProcessFile(files: Files, path: string, st: PState, fuel: nat): (r: Result<(string, PState), Failure>)
    requires ValidDefs(st.defs)
    ensures r.Ok? ==> st.included + {path} <= r.value.1.included && ValidDefs(r.value.1.defs)
    ensures path in st.included ==> r == Err(Raised("Circular include detected: " + path))
    decreases files.Keys - st.included, 0
  {
    if path in st.included then Err(Raised("Circular include detected: " + path))
    else if path !in files then Err(Raised("File not found: " + path))
    else
      var st1 := st.(included := st.included + {path});
      match ProcessLines(files, Split(files[path], '\n'), 0, st1, fuel)
      case Err(e) => Err(e)
      case Ok((out, st2)) => Ok((Join(out, '\n'), st2))
  }

  /** `preprocess(path)`: a fresh run, with no definitions and nothing included yet. */
  function Preprocess(files: Files, path: string, fuel: nat): Result<string, Failure> {
    match ProcessFile(files, path, PState([], {}), fuel)
    case Err(e) => Err(e)
    case Ok((text, _)) => Ok(text)
  }

  /** A line that is none of the three directives. */
  predicate PlainLine(line: string) {
    !StartsWith(Strip(line), "#define") && !StartsWith(Strip(line), "#undef") && !StartsWith(Strip(line), "#include")
  }

  lemma ProcessLinesEnd(files: Files, lines: seq<string>, st: PState, fuel: nat)
    requires ValidDefs(st.defs)
    ensures ProcessLines(files, lines, |lines|, st, fuel) == Ok(([], st))
  {
  }

  /** One plain line: its expansion goes before the output of the lines after it. */
  lemma PlainLineStep(files: Files, lines: seq<string>, idx: nat, st: PState, fuel: nat)
    requires idx < |lines| && ValidDefs(st.defs) && PlainLine(lines[idx])
    ensures ExpandMacros(lines[idx], st.defs, fuel).None? ==> ProcessLines(files, lines, idx, st, fuel) == Err(OutOfFuel)
    ensures ExpandMacros(lines[idx], st.defs, fuel).Some? && ProcessLines(files, lines, idx + 1, st, fuel).Err? ==>
              ProcessLines(files, lines, idx, st, fuel) == ProcessLines(files, lines, idx + 1, st, fuel)
    ensures ExpandMacros(lines[idx], st.defs, fuel).Some? && ProcessLines(files, lines, idx + 1, st, fuel).Ok? ==>
              ProcessLines(files, lines, idx, st, fuel)
              == Ok(([ExpandMacros(lines[idx], st.defs, fuel).value] + ProcessLines(files, lines, idx + 1, st, fuel).value.0,
                     ProcessLines(files, lines, idx + 1, st, fuel).value.1))
  {
    hide Strip, ProcessFile, ParseDefine, ParseUndef, ParseInclude, Define, Undefine, Split, IncludeError, ExpandMacros;
  }

  /**
    * Without directives every line gives exactly one output line and the
    * state is left as it was; with no definitions the output is the input.
    */
  lemma {:induction false} PlainLines(files: Files, lines: seq<string>, idx: nat, st: PState, fuel: nat)
    requires idx <= |lines| && ValidDefs(st.defs)
    requires forall k | idx <= k < |lines| :: PlainLine(lines[k])
    ensures ProcessLines(files, lines, idx, st, fuel).Ok? ==>
              |ProcessLines(files, lines, idx, st, fuel).value.0| == |lines| - idx
              && ProcessLines(files, lines, idx, st, fuel).value.1 == st
    ensures ProcessLines(files, lines, idx, st, fuel).Err? ==> ProcessLines(files, lines, idx, st, fuel) == Err(OutOfFuel)
    ensures |st.defs| == 0 ==> ProcessLines(files, lines, idx, st, fuel) == Ok((lines[idx..], st))
    decreases |lines| - idx
  {
    hide ProcessLines, ExpandMacros, PlainLine;
    if idx < |lines| {
      PlainLines(files, lines, idx + 1, st, fuel);
      PlainLineStep(files, lines, idx, st, fuel);
      if |st.defs| == 0 {
        ExpandWithoutDefs(lines[idx], fuel);
      }
      assert lines[idx..] == [lines[idx]] + lines[idx + 1..];
    } else {
      ProcessLinesEnd(files, lines, st, fuel);
      assert lines[idx..] == [];
    }
  }

  /** A `#define` line writes nothing and enters its name and value in the table. */
  lemma DefineLine(files: Files, name: string, value: string, st: PState, fuel: nat)
    requires ValidDefs(st.defs) && IsIdentifier(name) && Trimmed(value)
    ensures ProcessLines(files, ["#define " + name + " " + value], 0, st, fuel)
            == Ok(([], st.(defs := Define(st.defs, name, value))))
  {
    DefineRoundTrip(name, value);
  }

  /** An include whose file raises reports that error under the number of the including line. */
  lemma IncludeFailureStep(files: Files, lines: seq<string>, idx: nat, st: PState, fuel: nat, f: string, m: string)
    requires idx < |lines| && ValidDefs(st.defs)
    requires !StartsWith(Strip(lines[idx]), "#define") && !StartsWith(Strip(lines[idx]), "#undef")
    requires StartsWith(Strip(lines[idx]), "#include")
    requires ParseInclude(Strip(lines[idx])) == Some(f) && f != "" && f in files
    requires ProcessFile(files, f, st, fuel) == Err(Raised(m))
    ensures ProcessLines(files, lines, idx, st, fuel) == Err(Raised(IncludeError(idx + 1, m)))
  {
    hide Strip, ParseInclude, ProcessFile, IncludeError;
  }

  /**
    * An include whose file is processed: the file's output lines go between
    * `// Included from: f` and `// End include: f`, and the lines after the
    * directive are processed with the state the included file left, so its
    * definitions stay in force for the including file.
    */
  lemma IncludeSuccessStep(files: Files, lines: seq<string>, idx: nat, st: PState, fuel: nat, f: string)
    requires idx < |lines| && ValidDefs(st.defs)
    requires !StartsWith(Strip(lines[idx]), "#define") && !StartsWith(Strip(lines[idx]), "#undef")
    requires StartsWith(Strip(lines[idx]), "#include")
    requires ParseInclude(Strip(lines[idx])) == Some(f) && f != "" && f in files
    requires ProcessFile(files, f, st, fuel).Ok?
    ensures var (text, st1) := ProcessFile(files, f, st, fuel).value;
            && ValidDefs(st1.defs) && idx + 1 <= |lines|
            && (ProcessLines(files, lines, idx + 1, st1, fuel).Err? ==>
                  ProcessLines(files, lines, idx, st, fuel) == ProcessLines(files, lines, idx + 1, st1, fuel))
            && (ProcessLines(files, lines, idx + 1, st1, fuel).Ok? ==>
                  var (out, st2) := ProcessLines(files, lines, idx + 1, st1, fuel).value;
                  ProcessLines(files, lines, idx, st, fuel)
                  == Ok((["// Included from: " + f] + Split(text, '\n') + ["// End include: " + f] + out, st2)))
  {
    hide Strip, ParseInclude, ProcessFile, Split;
  }

  /** A header whose only line is a `#define` writes nothing and leaves that definition behind. */
  lemma DefineOnlyHeader(files: Files, f: string, name: string, value: string, st: PState, fuel: nat)
    requires ValidDefs(st.defs) && IsIdentifier(name) && Trimmed(value)
    requires f in files && f !in st.included && Split(files[f], '\n') == ["#define " + name + " " + value]
    ensures ProcessFile(files, f, st, fuel)
            == Ok(("", PState(Define(st.defs, name, value), st.included + {f})))
  {
    hide Split;
    DefineLine(files, name, value, st.(included := st.included + {f}), fuel);
  }

  /**
    * `#include "f"` of a header that defines `name`: the marker lines
    * enclose the header's single empty output line, and the rest of the
    * including file sees `name` defined as the header defined it.
    */
  lemma IncludedDefinitionPersists(files: Files, lines: seq<string>, idx: nat, st: PState, fuel: nat,
                                   f: string, name: string, value: string)
    requires idx < |lines| && ValidDefs(st.defs) && IsIdentifier(name) && Trimmed(value)
    requires lines[idx] == "#include \"" + f + "\"" && f != ""
    requires f in files && f !in st.included && Split(files[f], '\n') == ["#define " + name + " " + value]
    ensures var st1 := PState(Define(st.defs, name, value), st.included + {f});
            && ValidDefs(st1.defs) && Lookup(st1.defs, name) == Some(value)
            && (ProcessLines(files, lines, idx + 1, st1, fuel).Ok? ==>
                  var (out, st2) := ProcessLines(files, lines, idx + 1, st1, fuel).value;
                  ProcessLines(files, lines, idx, st, fuel)
                  == Ok((["// Included from: " + f, "", "// End include: " + f] + out, st2)))
  {
    hide *;
    DefineValid(st.defs, name, value);
    QuotedIncludeLine(f);
    DefineOnlyHeader(files, f, name, value, st, fuel);
    IncludeSuccessStep(files, lines, idx, st, fuel, f);
    SplitEmpty('\n');
    var st1 := PState(Define(st.defs, name, value), st.included + {f});
    if ProcessLines(files, lines, idx + 1, st1, fuel).Ok? {
      var out := ProcessLines(files, lines, idx + 1, st1, fuel).value.0;
      assert ["// Included from: " + f] + [""] + ["// End include: " + f] + out
          == ["// Included from: " + f, "", "// End include: " + f] + out;
    }
  }

  /** `#include "p"` is an include directive naming `p`, and nothing else. */
  lemma QuotedIncludeLine(p: string)
    ensures Strip("#include \"" + p + "\"") == "#include \"" + p + "\""
    ensures !StartsWith("#include \"" + p + "\"", "#define") && !StartsWith("#include \"" + p + "\"", "#undef")
    ensures StartsWith("#include \"" + p + "\"", "#include")
    ensures ParseInclude("#include \"" + p + "\"") == Some(p)
  {
    hide Strip, ParseInclude, StartsWith, Inner;
    var line := "#include \"" + p + "\"";
    assert "#include \"" == "#include " + ['"'] && "\"" == ['"'];
    assert line == "#include " + ['"'] + p + ['"'];
    assert line == "#include" + (" " + ['"'] + p + ['"']);
    IncludeRoundTrip(p, '"', '"');
    assert line[0] == '#' && line[|line| - 1] == '"';
    StripOfStripped(line);
    NotPrefix(line, "#define", 1);
    NotPrefix(line, "#undef", 1);
    PrefixOfConcat("#include", " " + ['"'] + p + ['"']);
  }

  /** A file whose first line includes the file itself is a circular include. */
  lemma SelfIncludeFails(files: Files, p: string, fuel: nat)
    requires p in files && p != ""
    requires |Split(files[p], '\n')| > 0 && Split(files[p], '\n')[0] == "#include \"" + p + "\""
    ensures Preprocess(files, p, fuel) == Err(Raised(IncludeError(1, "Circular include detected: " + p)))
  {
    hide Strip, ParseInclude, IncludeError, ProcessLines, ParseDefine, ParseUndef, Split;
    var lines := Split(files[p], '\n');
    QuotedIncludeLine(p);
    var st1 := PState([], {} + {p});
    IncludeFailureStep(files, lines, 0, st1, fuel, p, "Circular include detected: " + p);
    assert ProcessFile(files, p, PState([], {}), fuel) == Err(Raised(IncludeError(1, "Circular include detected: " + p)));
  }
}

=== FILE: registers.dfy ===
/**
  * The `RegisterAllocator` of codegen.py: local variables and parameters get
  * fixed registers from r11 upwards in order of first use, and expression
  * temporaries come from a rotating counter.
  */
module Registers {
  import opened Results
  import opened Text

  /** How code generation stops: a deliberate `RuntimeError`, or a Python error the generator did not intend. */
  datatype GenError = Failed(message: string) | Crashed(reason: string)

  datatype Allocator = Allocator(registers: map<string, int>, nextTemp: nat)

  /** The allocator `RegisterAllocator.__init__` builds. */
  const FreshAllocator: Allocator := Allocator(map[], 1)

  const FirstLocal: nat := 11
  const LastAllocatable: nat := 30

  /**
    * `allocate` exactly as written: the error message reads
    * `self.current_function`, which a `RegisterAllocator` does not have, so
    * the intended `RuntimeError` becomes an `AttributeError`.
    */
  function AllocateAsWritten(a: Allocator, name: string): (r: Result<(Allocator, int), GenError>)
    ensures r.Err? ==> r.error == AllocatorCrash
    ensures r.Ok? ==> name in r.value.0.registers && r.value.0.registers[name] == r.value.1
    ensures r.Ok? ==> r.value.0.nextTemp == a.nextTemp
  {
    if name in a.registers then Ok((a, a.registers[name]))
    else
      var reg := FirstLocal + |a.registers|;
      if reg > LastAllocatable then Err(AllocatorCrash)
      else Ok((a.(registers := a.registers[name := reg]), reg))
  }

  /** What the overflow check of `allocate` raises instead of its own message. */
  const AllocatorCrash: GenError := Crashed("AttributeError: 'RegisterAllocator' object has no attribute 'current_function'")

  function TooManyVariables(name: string, owner: string): GenError {
    Failed("Code generation error: Too many variables (register allocation failed for '" + name
           + "' in function '" + owner + "')")
  }

  /**
    * `allocate` as intended: the same registers, and the `RuntimeError` it
    * means to raise, naming the function being generated.
    */
  function Allocate(a: Allocator, name: string, owner: string): (r: Result<(Allocator, int), GenError>)
    ensures r.Ok? <==> AllocateAsWritten(a, name).Ok?
    ensures r.Ok? ==> r == AllocateAsWritten(a, name)
    ensures r.Err? ==> r.error == TooManyVariables(name, owner)
    ensures r.Ok? ==> name in r.value.0.registers && r.value.0.registers[name] == r.value.1
    ensures r.Ok? ==> r.value.0.nextTemp == a.nextTemp
  {
    match AllocateAsWritten(a, name)
    case Ok(v) => Ok(v)
    case Err(_) => Err(TooManyVariables(name, owner))
  }

  /** `get_register`. */
  function GetRegister(a: Allocator, name: string): Option<int> {
    if name in a.registers then Some(a.registers[name]) else None
  }

  // ---------------------------------------------------------------------
  // Allocation properties
  // ---------------------------------------------------------------------

  /** Allocating a name a second time gives the same register and changes nothing. */
  lemma AllocateIdempotent(a: Allocator, name: string)
    requires AllocateAsWritten(a, name).Ok?
    ensures var (a1, reg) := AllocateAsWritten(a, name).value;
            && name in a1.registers && a1.registers[name] == reg
            && AllocateAsWritten(a1, name) == Ok((a1, reg))
            && GetRegister(a1, name) == Some(reg)
  {
  }

  /**
    * A new name gets register `11 + len(registers)`; allocation fails
    * exactly when that would pass r30, that is, for the 21st name.
    */
  lemma AllocateFresh(a: Allocator, name: string)
    requires name !in a.registers
    ensures AllocateAsWritten(a, name).Err? <==> |a.registers| >= 20
    ensures AllocateAsWritten(a, name).Ok? ==>
              AllocateAsWritten(a, name) == Ok((a.(registers := a.registers[name := 11 + |a.registers|]),
                                                11 + |a.registers|))
  {
  }

  /**
    * What allocation alone keeps true: at most twenty names, and the
    * registers handed out are exactly r11 up to r10 + the number of names,
    * one per name.
    */
  ghost predicate Packed(a: Allocator) {
    && |a.registers| <= LastAllocatable - FirstLocal + 1
    && (forall n | n in a.registers :: FirstLocal <= a.registers[n] < FirstLocal + |a.registers|)
    && (forall n, m | n in a.registers && m in a.registers && n != m :: a.registers[n] != a.registers[m])
  }

  /** Allocation keeps the registers packed, so different names never share a register. */
  lemma AllocateKeepsPacked(a: Allocator, name: string)
    requires Packed(a)
    ensures AllocateAsWritten(a, name).Ok? ==> Packed(AllocateAsWritten(a, name).value.0)
    ensures AllocateAsWritten(a, name).Ok? ==> FirstLocal <= AllocateAsWritten(a, name).value.1 <= LastAllocatable
  {
    if name !in a.registers && AllocateAsWritten(a, name).Ok? {
      var k := FirstLocal + |a.registers|;
      var m1 := a.registers[name := k];
      assert AllocateAsWritten(a, name).value.0 == a.(registers := m1);
      assert |m1| == |a.registers| + 1;
      forall n | n in m1
        ensures FirstLocal <= m1[n] < FirstLocal + |m1|
      {
      }
      forall n, n' | n in m1 && n' in m1 && n != n'
        ensures m1[n] != m1[n']
      {
        if n != name && n' != name {
          assert m1[n] == a.registers[n] && m1[n'] == a.registers[n'];
        }
      }
    }
  }

  lemma FreshIsPacked()
    ensures Packed(FreshAllocator)
  {
  }

  /**
    * A `register` declaration writes its register number into the same
    * table without the allocator's accounting, so a later local can be
    * handed the same register: `register uint32 r12;` then `uint32 x;`
    * puts `x` in r12 too.
    */
  lemma RegisterVariableSharesRegister()
    ensures var a := FreshAllocator.(registers := map["r12" := 12]);
            AllocateAsWritten(a, "x") == Ok((a.(registers := a.registers["x" := 12]), 12))
  {
  }

  /** The lowest register from `k` to r30 that no name holds yet. */
  function FirstFree(used: set<int>, k: nat): (r: Option<nat>)
    requires FirstLocal <= k
    ensures r.Some? ==> k <= r.value <= LastAllocatable && r.value !in used
    ensures r.Some? ==> forall j | k <= j < r.value :: j in used
    ensures r.None? <==> forall j | k <= j <= LastAllocatable :: j in used
    decreases LastAllocatable + 1 - k
  {
    if k > LastAllocatable then None
    else if k !in used then Some(k)
    else FirstFree(used, k + 1)
  }

  /**
    * `allocate` as the register declarations need it: a new name takes the
    * lowest local register nobody holds, so a register a declaration took
    * is never handed out again.
    */
  function AllocateAvoiding(a: Allocator, name: string, owner: string): (r: Result<(Allocator, int), GenError>)
    ensures name in a.registers ==> r == Ok((a, a.registers[name]))
    ensures r.Ok? ==> name in r.value.0.registers && r.value.0.registers[name] == r.value.1
    ensures r.Ok? ==> r.value.0.nextTemp == a.nextTemp
    ensures r.Ok? && name !in a.registers ==>
              && FirstLocal <= r.value.1 <= LastAllocatable
              && r.value.1 !in a.registers.Values
              && r.value.0.registers == a.registers[name := r.value.1]
    ensures r.Err? <==> name !in a.registers && forall j | FirstLocal <= j <= LastAllocatable :: j in a.registers.Values
    ensures r.Err? ==> r.error == TooManyVariables(name, owner)
  {
    if name in a.registers then Ok((a, a.registers[name]))
    else
      match FirstFree(a.registers.Values, FirstLocal)
      case None => Err(TooManyVariables(name, owner))
      case Some(reg) => Ok((a.(registers := a.registers[name := reg]), reg))
  }

  /** No two names share a register. */
  ghost predicate Distinct(m: map<string, int>) {
    forall n, n' | n in m && n' in m && n != n' :: m[n] != m[n']
  }

  /** The corrected allocation keeps every name in a register of its own, whatever the declarations put in the table. */
  lemma AvoidingKeepsDistinct(a: Allocator, name: string, owner: string)
    requires Distinct(a.registers)
    ensures AllocateAvoiding(a, name, owner).Ok? ==> Distinct(AllocateAvoiding(a, name, owner).value.0.registers)
  {
    var r := AllocateAvoiding(a, name, owner);
    if r.Ok? && name !in a.registers {
      var m1 := r.value.0.registers;
      forall n, n' | n in m1 && n' in m1 && n != n'
        ensures m1[n] != m1[n']
      {
        if n == name {
          assert m1[n'] == a.registers[n'] && a.registers[n'] in a.registers.Values;
        } else if n' == name {
          assert m1[n] == a.registers[n] && a.registers[n] in a.registers.Values;
        }
      }
    }
  }

  /** After `register uint32 r12;`, a new local `x` takes r11, the lowest register still free. */
  lemma AvoidingSkipsDeclaredRegister()
    ensures var a := FreshAllocator.(registers := map["r12" := 12]);
            AllocateAvoiding(a, "x", "main") == Ok((a.(registers := a.registers["x" := 11]), 11))
  {
    var a := FreshAllocator.(registers := map["r12" := 12]);
    assert forall n | n in a.registers :: a.registers[n] == 12;
    assert "x" !in a.registers && 11 !in a.registers.Values;
    assert FirstFree(a.registers.Values, FirstLocal) == Some(11);
  }

  /** Parameters in order, as `generate_function` allocates them. */
  function AllocateParams(a: Allocator, params: seq<string>): (r: Result<(Allocator, seq<int>), GenError>)
    ensures r.Ok? ==> |r.value.1| == |params|
    ensures r.Err? ==> r.error == AllocatorCrash
    decreases |params|
  {
    if |params| == 0 then Ok((a, []))
    else
      var (a1, reg) :- AllocateAsWritten(a, params[0]);
      var (a2, regs) :- AllocateParams(a1, params[1..]);
      Ok((a2, [reg] + regs))
  }

  /** Allocating the parameters binds each of them and nothing else, one register at most per parameter. */
  lemma {:induction false} ParamsBound(a: Allocator, params: seq<string>)
    requires AllocateParams(a, params).Ok?
    ensures var a1 := AllocateParams(a, params).value.0;
            && (forall n :: n in a1.registers <==> n in a.registers || n in params)
            && |a1.registers| <= |a.registers| + |params|
    decreases |params|
  {
    if |params| > 0 {
      var a0 := AllocateAsWritten(a, params[0]).value.0;
      assert a0.registers.Keys == a.registers.Keys + {params[0]};
      ParamsBound(a0, params[1..]);
      forall n
        ensures n in params <==> n == params[0] || n in params[1..]
      {
        if n in params {
          var i :| 0 <= i < |params| && params[i] == n;
          if i > 0 { assert params[1..][i - 1] == n; }
        }
      }
    }
  }

  /** Distinct new parameters land in consecutive registers in order, and allocation fails once r30 is passed. */
  lemma {:induction false} ParamsConsecutive(a: Allocator, params: seq<string>)
    requires forall i, j | 0 <= i < j < |params| :: params[i] != params[j]
    requires forall i | 0 <= i < |params| :: params[i] !in a.registers
    requires |a.registers| <= 20
    ensures AllocateParams(a, params).Ok? <==> |a.registers| + |params| <= 20
    ensures AllocateParams(a, params).Ok? ==>
              forall i | 0 <= i < |params| :: AllocateParams(a, params).value.1[i] == 11 + |a.registers| + i
    decreases |params|
  {
    if |params| > 0 {
      if |a.registers| >= 20 {
        assert AllocateAsWritten(a, params[0]).Err?;
      } else {
        var k := 11 + |a.registers|;
        var a1 := a.(registers := a.registers[params[0] := k]);
        assert AllocateAsWritten(a, params[0]) == Ok((a1, k));
        assert |a1.registers| == |a.registers| + 1;
        var rest := params[1..];
        forall i | 0 <= i < |rest|
          ensures rest[i] !in a1.registers
        {
          assert rest[i] == params[i + 1];
        }
        ParamsConsecutive(a1, rest);
        var r := AllocateParams(a, params);
        assert r.Ok? <==> AllocateParams(a1, rest).Ok?;
        if r.Ok? {
          var regs := AllocateParams(a1, rest).value.1;
          assert r.value.1 == [k] + regs;
        }
      }
    }
  }

  /**
    * The overflow of `allocate`: a twenty-first name crashes the generator
    * with an `AttributeError`, where the intended `RuntimeError` names the
    * variable and the function.
    */
  lemma AllocateOverflowCrashes(a: Allocator, name: string, owner: string)
    requires name !in a.registers && |a.registers| >= 20
    ensures AllocateAsWritten(a, name) == Err(AllocatorCrash)
    ensures Allocate(a, name, owner) == Err(TooManyVariables(name, owner))
  {
  }

  // ---------------------------------------------------------------------
  // Temporaries
  // ---------------------------------------------------------------------

  /**
    * `get_temp_register` as written: the counter steps modulo 10 and a 0 is
    * turned into 1, so the sequence from a fresh allocator is r1 ... r9, r1,
    * r1, r2, ...: r10 never comes, and r1 comes twice in a row.
    */
  function TempRegisterAsWritten(a: Allocator): (r: (Allocator, nat))
    ensures a.nextTemp < 10 ==> 1 <= r.1 <= 9 && r.0.nextTemp < 10
  {
    var reg := a.nextTemp;
    (a.(nextTemp := (a.nextTemp + 1) % 10), if reg == 0 then 1 else reg)
  }

  /** `get_temp_register` as its comment means it: cycle through r1 to r10. */
  function TempRegister(a: Allocator): (r: (Allocator, nat))
    ensures 1 <= r.1 <= 10 && 1 <= r.0.nextTemp <= 10
    ensures 1 <= a.nextTemp <= 10 ==> r.1 == a.nextTemp
  {
    var reg := if 1 <= a.nextTemp <= 10 then a.nextTemp else 1;
    (a.(nextTemp := reg % 10 + 1), reg)
  }

  /** The registers `n` successive requests return. */
  function TempsAsWritten(a: Allocator, n: nat): (r: seq<nat>)
    ensures |r| == n
    decreases n
  {
    if n == 0 then [] else [TempRegisterAsWritten(a).1] + TempsAsWritten(TempRegisterAsWritten(a).0, n - 1)
  }

  function Temps(a: Allocator, n: nat): (r: seq<nat>)
    ensures |r| == n
    decreases n
  {
    if n == 0 then [] else [TempRegister(a).1] + Temps(TempRegister(a).0, n - 1)
  }

  /** As written, the `i`-th request from a counter at `k` returns r((k + i) mod 10), with r1 standing in for r0. */
  lemma {:induction false} TempsAsWrittenRotate(a: Allocator, n: nat)
    requires a.nextTemp < 10
    ensures forall i | 0 <= i < n :: TempsAsWritten(a, n)[i] == if (a.nextTemp + i) % 10 == 0 then 1 else (a.nextTemp + i) % 10
    decreases n
  {
    if n > 0 {
      var a1 := TempRegisterAsWritten(a).0;
      TempsAsWrittenRotate(a1, n - 1);
      forall i | 1 <= i < n
        ensures TempsAsWritten(a, n)[i] == TempsAsWritten(a1, n - 1)[i - 1]
        ensures (a.nextTemp + i) % 10 == (a1.nextTemp + (i - 1)) % 10
      {
      }
    }
  }

  /**
    * The eleven first temporaries as written from a fresh allocator: r10 is
    * skipped and r1 is handed out twice in a row. The skipping is an
    * instance of `TempAsWrittenNeverR10`; the repeated r1 is what this
    * concrete run adds.
    */
  lemma TempAsWrittenSkipsR10(n: nat)
    requires n == 11
    ensures TempsAsWritten(FreshAllocator, n) == [1, 2, 3, 4, 5, 6, 7, 8, 9, 1, 1]
  {
    TempsAsWrittenRotate(FreshAllocator, n);
    var t := TempsAsWritten(FreshAllocator, n);
    var expected: seq<nat> := [1, 2, 3, 4, 5, 6, 7, 8, 9, 1, 1];
    forall i | 0 <= i < n
      ensures t[i] == expected[i]
    {
      Mod10Small(1 + i);
    }
  }

  /** As written, no request from a reachable counter ever returns r0 or r10. */
  lemma {:induction false} TempAsWrittenNeverR10(a: Allocator, n: nat)
    requires a.nextTemp < 10
    ensures forall i | 0 <= i < n :: 1 <= TempsAsWritten(a, n)[i] <= 9
    decreases n
  {
    if n > 0 {
      TempAsWrittenNeverR10(TempRegisterAsWritten(a).0, n - 1);
    }
  }

  /** As intended, the `i`-th request from a counter at `k` returns r((k - 1 + i) mod 10 + 1). */
  lemma {:induction false} TempsRotate(a: Allocator, n: nat)
    requires 1 <= a.nextTemp <= 10
    ensures forall i | 0 <= i < n :: Temps(a, n)[i] == (a.nextTemp - 1 + i) % 10 + 1
    decreases n
  {
    if n > 0 {
      var a1 := TempRegister(a).0;
      TempsRotate(a1, n - 1);
      forall i | 1 <= i < n
        ensures Temps(a, n)[i] == (a.nextTemp - 1 + i) % 10 + 1
      {
        assert Temps(a, n)[i] == Temps(a1, n - 1)[i - 1];
        RotateShift(a.nextTemp, i);
      }
    }
  }

  lemma RotateShift(k: int, i: int)
    requires 1 <= k <= 10 && 1 <= i
    ensures (k % 10 + 1 - 1 + (i - 1)) % 10 == (k - 1 + i) % 10
  {
    if k == 10 {
      assert (k - 1 + i) % 10 == (i - 1 + 10) % 10 == (i - 1) % 10;
    }
  }

  lemma Mod10Small(u: int)
    requires 0 <= u < 20
    ensures u % 10 == if u < 10 then u else u - 10
  {
  }

  /** As intended, any ten successive temporaries are r1 to r10, each once. */
  lemma TempsCycle(a: Allocator, n: nat)
    requires 1 <= a.nextTemp <= 10 && n >= 10
    ensures forall r | 1 <= r <= 10 :: r in Temps(a, n)[..10]
    ensures forall i, j | 0 <= i < j < 10 :: Temps(a, n)[i] != Temps(a, n)[j]
  {
    TempsRotate(a, n);
    var t := Temps(a, n);
    var k := a.nextTemp;
    forall r | 1 <= r <= 10
      ensures r in t[..10]
    {
      var i := if r >= k then r - k else r + 10 - k;
      Mod10Small(k - 1 + i);
      assert t[..10][i] == t[i] == r;
    }
    forall i, j | 0 <= i < j < 10
      ensures t[i] != t[j]
    {
      Mod10Small(k - 1 + i);
      Mod10Small(k - 1 + j);
    }
  }
}

=== FILE: results.dfy ===
/**
  * Optional values and success-or-error results shared by every stage of the
  * toolchain. Python signals failure by raising; the model returns `Err`.
  */
module Results {

  datatype Option<T> = None | Some(value: T) {
    predicate IsFailure() { None? }

    function PropagateFailure<U>(): Option<U>
      requires None?
    {
      None
    }

    function Extract(): T
      requires Some?
    {
      value
    }
  }

  datatype Result<T, E> = Ok(value: T) | Err(error: E) {
    predicate IsFailure() { Err? }

    function PropagateFailure<U>(): Result<U, E>
      requires Err?
    {
      Err(error)
    }

    function Extract(): T
      requires Ok?
    {
      value
    }
  }
}

=== FILE: text.dfy ===
/**
  * Character classes, decimal numerals and the handful of Python string
  * operations (`str.strip`, `str.split`, `str.join`, `int`) that the toolchain
  * relies on. Character classes are the ASCII ones.
  */
module Text {
  import opened Results

  predicate IsDigit(c: char) { '0' <= c <= '9' }

  predicate IsHexDigit(c: char) { IsDigit(c) || 'a' <= c <= 'f' || 'A' <= c <= 'F' }

  predicate IsLetter(c: char) { 'a' <= c <= 'z' || 'A' <= c <= 'Z' }

  predicate IsAlnum(c: char) { IsLetter(c) || IsDigit(c) }

  /** Identifier characters; also the "word" characters of a regular-expression `\b`. */
  predicate IsWordChar(c: char) { IsAlnum(c) || c == '_' }

  /** Python's `str.isspace`, which is also the set `str.strip()` and `int()` remove. */
  predicate IsSpace(c: char) {
    c == ' ' || '\t' <= c <= '\r' || '\U{1c}' <= c <= '\U{1f}' || c == '\U{85}'
    || c == '\U{a0}' || c == '\U{1680}' || '\U{2000}' <= c <= '\U{200a}'
    || c == '\U{2028}' || c == '\U{2029}' || c == '\U{202f}' || c == '\U{205f}'
    || c == '\U{3000}'
  }

  predicate AllSpace(s: string) { forall i | 0 <= i < |s| :: IsSpace(s[i]) }

  predicate AllDigits(s: string) { forall i | 0 <= i < |s| :: IsDigit(s[i]) }

  function ToLower(c: char): char {
    if 'A' <= c <= 'Z' then (c as int + 32) as char else c
  }

  function DigitChar(d: nat): (c: char)
    requires d < 10
    ensures IsDigit(c)
  {
    ('0' as int + d) as char
  }

  function DigitValue(c: char): (d: nat)
    requires IsDigit(c)
    ensures d < 10 && DigitChar(d) == c
  {
    c as int - '0' as int
  }

  // ---------------------------------------------------------------------
  // Decimal numerals: Python's str() of a non-negative int, and its inverse
  // ---------------------------------------------------------------------

  /** `str(n)`: the decimal digits of `n`, without leading zeros. */
  function NatToString(n: nat): (s: string)
    ensures |s| > 0 && AllDigits(s)
    ensures (s[0] == '0') == (n == 0)
    decreases n
  {
    if n < 10 then [DigitChar(n)] else NatToString(n / 10) + [DigitChar(n % 10)]
  }

  /** `str(i)` for any int: a minus sign, then the digits. */
  function IntToString(i: int): (s: string)
    ensures |s| > 0
    ensures (s[0] == '-') == (i < 0)
  {
    if i < 0 then "-" + NatToString(-i) else NatToString(i)
  }

  /** The value of a non-empty or empty run of decimal digits. */
  function DecimalValue(s: string): nat
    requires AllDigits(s)
    decreases |s|
  {
    if |s| == 0 then 0 else DecimalValue(s[..|s| - 1]) * 10 + DigitValue(s[|s| - 1])
  }

  /** Reading back a printed number gives the number. */
  lemma {:induction false} DecimalOfNatToString(n: nat)
    ensures DecimalValue(NatToString(n)) == n
    decreases n
  {
    if n >= 10 {
      var s := NatToString(n);
      assert s[..|s| - 1] == NatToString(n / 10);
      DecimalOfNatToString(n / 10);
    }
  }

  /** Different numbers print differently. */
  lemma NatToStringInjective(a: nat, b: nat)
    requires NatToString(a) == NatToString(b)
    ensures a == b
  {
    DecimalOfNatToString(a);
    DecimalOfNatToString(b);
  }

  // ---------------------------------------------------------------------
  // str.strip()
  // ---------------------------------------------------------------------

  /** Number of whitespace characters at the start of `s`. */
  function LeadingSpaces(s: string): (k: nat)
    ensures k <= |s| && AllSpace(s[..k])
    ensures k == |s| || !IsSpace(s[k])
    decreases |s|
  {
    if |s| > 0 && IsSpace(s[0]) then
      var k := 1 + LeadingSpaces(s[1..]);
      assert s[..k] == [s[0]] + s[1..][..k - 1];
      k
    else 0
  }

  /** Number of whitespace characters at the end of `s`. */
  function TrailingSpaces(s: string): (k: nat)
    ensures k <= |s| && AllSpace(s[|s| - k..])
    ensures k == |s| || !IsSpace(s[|s| - k - 1])
    decreases |s|
  {
    if |s| > 0 && IsSpace(s[|s| - 1]) then
      var k := 1 + TrailingSpaces(s[..|s| - 1]);
      assert s[|s| - k..] == s[..|s| - 1][|s| - k..] + [s[|s| - 1]];
      k
    else 0
  }

  /** `r` is `s` with its leading and trailing whitespace removed. */
  ghost predicate IsStripped(s: string, r: string) {
    (|r| == 0 || (!IsSpace(r[0]) && !IsSpace(r[|r| - 1])))
    && exists a, b :: 0 <= a <= b <= |s| && r == s[a..b] && AllSpace(s[..a]) && AllSpace(s[b..])
  }

  /** Python's `str.strip()` with no argument. */
  function Strip(s: string): (r: string)
    ensures IsStripped(s, r)
  {
    var a := LeadingSpaces(s);
    var t := s[a..];
    var k := TrailingSpaces(t);
    var r := t[..|t| - k];
    assert r == s[a..|s| - k];
    assert s[|s| - k..] == t[|t| - k..];
    assert |r| > 0 ==> r[0] == s[a] && r[|r| - 1] == t[|t| - k - 1];
    r
  }

  lemma StripOfStripped(s: string)
    requires |s| == 0 || (!IsSpace(s[0]) && !IsSpace(s[|s| - 1]))
    ensures Strip(s) == s
  {
  }

  lemma {:induction false} LeadingSpacesExact(s: string, a: nat)
    requires a <= |s| && AllSpace(s[..a]) && (a == |s| || !IsSpace(s[a]))
    ensures LeadingSpaces(s) == a
    decreases a
  {
    if a > 0 {
      assert s[..a][0] == s[0];
      assert s[1..][..a - 1] == s[..a][1..];
      LeadingSpacesExact(s[1..], a - 1);
    }
  }

  lemma {:induction false} TrailingSpacesExact(s: string, k: nat)
    requires k <= |s| && AllSpace(s[|s| - k..]) && (k == |s| || !IsSpace(s[|s| - k - 1]))
    ensures TrailingSpaces(s) == k
    decreases k
  {
    if k > 0 {
      var t := s[..|s| - 1];
      assert s[|s| - k..][k - 1] == s[|s| - 1];
      var u := t[|t| - (k - 1)..];
      forall j | 0 <= j < |u|
        ensures IsSpace(u[j])
      {
        assert u[j] == s[|s| - k..][j];
      }
      TrailingSpacesExact(t, k - 1);
    }
  }

  /** Whitespace around a part with non-space ends is exactly what `strip()` removes. */
  lemma StripExact(s: string, a: nat, b: nat)
    requires a <= b <= |s| && AllSpace(s[..a]) && AllSpace(s[b..])
    requires a < b ==> !IsSpace(s[a]) && !IsSpace(s[b - 1])
    ensures Strip(s) == s[a..b]
  {
    if a < b {
      LeadingSpacesExact(s, a);
      var t := s[a..];
      assert t[|t| - (|s| - b)..] == s[b..];
      TrailingSpacesExact(t, |s| - b);
    } else {
      assert AllSpace(s[..|s|]) by {
        forall k | 0 <= k < |s|
          ensures IsSpace(s[k])
        {
          if k < a {
            assert s[..a][k] == s[k];
          } else {
            assert s[b..][k - b] == s[k];
          }
        }
      }
      LeadingSpacesExact(s, |s|);
    }
  }

  /** A space before a stripped string is all that `strip()` removes. */
  lemma StripSpaceBefore(s: string)
    requires |s| == 0 || (!IsSpace(s[0]) && !IsSpace(s[|s| - 1]))
    ensures Strip(" " + s) == s
  {
    var t := " " + s;
    assert t[..1] == " " && t[1..|t|] == s && t[|t|..] == "";
    StripExact(t, 1, |t|);
  }

  /** A space after a stripped string is all that `strip()` removes. */
  lemma StripSpaceAfter(s: string)
    requires |s| == 0 || (!IsSpace(s[0]) && !IsSpace(s[|s| - 1]))
    ensures Strip(s + " ") == s
  {
    var t := s + " ";
    assert t[..0] == "" && t[0..|s|] == s && t[|s|..] == " ";
    StripExact(t, 0, |s|);
  }

  predicate StartsWith(s: string, prefix: string) {
    |prefix| <= |s| && s[..|prefix|] == prefix
  }

  predicate EndsWith(s: string, suffix: string) {
    |suffix| <= |s| && s[|s| - |suffix|..] == suffix
  }

  // ---------------------------------------------------------------------
  // str.split(c) and c.join(parts)
  // ---------------------------------------------------------------------

  /** Index of the first `c` in `s`, or `|s|` when there is none. */
  function IndexOfChar(s: string, c: char): (k: nat)
    ensures k <= |s| && c !in s[..k]
    ensures k == |s| || s[k] == c
    decreases |s|
  {
    if |s| == 0 then 0
    else if s[0] == c then 0
    else
      var k := 1 + IndexOfChar(s[1..], c);
      assert s[..k] == [s[0]] + s[1..][..k - 1];
      k
  }

  /** Python's `s.split(c)`: always at least one piece, none containing `c`. */
  function Split(s: string, c: char): (parts: seq<string>)
    ensures |parts| > 0
    ensures forall i | 0 <= i < |parts| :: c !in parts[i]
    decreases |s|
  {
    var k := IndexOfChar(s, c);
    if k == |s| then [s] else [s[..k]] + Split(s[k + 1..], c)
  }

  /** Python's `c.join(parts)`. */
  /** `"".split(c)` is one empty piece. */
  lemma SplitEmpty(c: char)
    ensures Split("", c) == [""]
  {
  }

  function Join(parts: seq<string>, c: char): string
    decreases |parts|
  {
    if |parts| == 0 then ""
    else if |parts| == 1 then parts[0]
    else parts[0] + [c] + Join(parts[1..], c)
  }

  /** Joining the pieces of a split gives back the original text. */
  lemma {:induction false} JoinSplit(s: string, c: char)
    ensures Join(Split(s, c), c) == s
    decreases |s|
  {
    hide IndexOfChar, Split, Join;
    var k := IndexOfChar(s, c);
    SplitUnfold(s, c);
    if k == |s| {
      JoinOne(s, c);
    } else {
      var tail := s[k + 1..];
      JoinSplit(tail, c);
      JoinCons(s[..k], Split(tail, c), c);
      assert s == s[..k] + [c] + tail;
    }
  }

  lemma SplitUnfold(s: string, c: char)
    ensures IndexOfChar(s, c) == |s| ==> Split(s, c) == [s]
    ensures IndexOfChar(s, c) < |s| ==> Split(s, c) == [s[..IndexOfChar(s, c)]] + Split(s[IndexOfChar(s, c) + 1..], c)
  {
  }

  lemma JoinOne(p: string, c: char)
    ensures Join([p], c) == p
  {
  }

  lemma JoinCons(p: string, rest: seq<string>, c: char)
    requires |rest| > 0
    ensures Join([p] + rest, c) == p + [c] + Join(rest, c)
  {
    assert ([p] + rest)[1..] == rest;
  }

  /** Splitting a join of pieces that do not contain the separator gives back the pieces. */
  lemma {:induction false} SplitJoin(parts: seq<string>, c: char)
    requires |parts| > 0
    requires forall i | 0 <= i < |parts| :: c !in parts[i]
    ensures Split(Join(parts, c), c) == parts
    decreases |parts|
  {
    var s := Join(parts, c);
    if |parts| == 1 {
      assert IndexOfChar(s, c) == |s|;
    } else {
      var rest := Join(parts[1..], c);
      assert s == parts[0] + [c] + rest;
      assert IndexOfChar(s, c) == |parts[0]| by {
        assert s[..|parts[0]|] == parts[0];
        IndexOfCharAt(s, c, |parts[0]|);
      }
      assert s[|parts[0]| + 1..] == rest;
      SplitJoin(parts[1..], c);
    }
  }

  lemma IndexOfCharAt(s: string, c: char, k: nat)
    requires k < |s| && s[k] == c && c !in s[..k]
    ensures IndexOfChar(s, c) == k
  {
  }

  // ---------------------------------------------------------------------
  // Python's int(s) and int(s, 0) on ASCII text
  // ---------------------------------------------------------------------

  /** Value of `c` as a digit of `base` (2, 8, 10 or 16), if it is one. */
  function DigitIn(c: char, base: nat): (d: Option<nat>)
    ensures d.Some? ==> d.value < base
  {
    if IsDigit(c) && DigitValue(c) < base then Some(DigitValue(c))
    else if base == 16 && 'a' <= c <= 'f' then Some(c as int - 'a' as int + 10)
    else if base == 16 && 'A' <= c <= 'F' then Some(c as int - 'A' as int + 10)
    else None
  }

  /**
    * Value of a digit string in which single underscores may separate digits:
    * `digit (["_"] digit)*`, or `(["_"] digit)+` when `leadingUnderscore`.
    */
  function Grouped(t: string, base: nat, leadingUnderscore: bool): Option<nat>
    decreases |t|
  {
    if |t| == 0 then None
    else
      match DigitIn(t[|t| - 1], base)
      case None => None
      case Some(d) =>
        var n := |t| - 1;
        if n == 0 then Some(d)
        else
          var rest := if t[n - 1] == '_' then n - 1 else n;
          if rest == 0 then (if leadingUnderscore then Some(d) else None)
          else
            match Grouped(t[..rest], base, leadingUnderscore)
            case None => None
            case Some(v) => Some(v * base + d)
  }

  /** Splits an optional leading sign off `t`: (negative?, rest). */
  function SignAndBody(t: string): (bool, string) {
    if |t| > 0 && (t[0] == '+' || t[0] == '-') then (t[0] == '-', t[1..]) else (false, t)
  }

  /** Python's `int(s)`: surrounding whitespace, an optional sign, decimal digits. */
  function PyInt(s: string): Option<int> {
    var (negative, body) := SignAndBody(Strip(s));
    var v :- Grouped(body, 10, false);
    var i: int := if negative then -(v as int) else v;
    Some(i)
  }

  /**
    * Python's `int(s, 0)`: the base comes from a `0x`, `0o` or `0b` prefix;
    * a decimal numeral may not start with `0` unless it is all zeros.
    */
  function PyIntAuto(s: string): Option<int> {
    var (negative, body) := SignAndBody(Strip(s));
    var v :-
      if |body| >= 2 && body[0] == '0' && (body[1] == 'x' || body[1] == 'X') then Grouped(body[2..], 16, true)
      else if |body| >= 2 && body[0] == '0' && (body[1] == 'o' || body[1] == 'O') then Grouped(body[2..], 8, true)
      else if |body| >= 2 && body[0] == '0' && (body[1] == 'b' || body[1] == 'B') then Grouped(body[2..], 2, true)
      else
        var d :- Grouped(body, 10, false);
        if body[0] == '0' && d != 0 then None else Some(d);
    var i: int := if negative then -(v as int) else v;
    Some(i)
  }

  lemma {:induction false} GroupedOfNatToString(n: nat)
    ensures Grouped(NatToString(n), 10, false) == Some(n)
    decreases n
  {
    var s := NatToString(n);
    DigitValueOfDigitChar(n % 10);
    if n >= 10 {
      assert s[..|s| - 1] == NatToString(n / 10);
      GroupedOfNatToString(n / 10);
    }
  }

  lemma DigitValueOfDigitChar(d: nat)
    requires d < 10
    ensures DigitValue(DigitChar(d)) == d
  {
  }

  /** A printed number, read back by `int(s, 0)`, gives the number. */
  lemma PyIntAutoOfNatToString(n: nat)
    ensures PyIntAuto(NatToString(n)) == Some(n)
  {
    hide Strip, Grouped, NatToString, LeadingSpaces, TrailingSpaces, DecimalValue;
    var s := NatToString(n);
    StripOfStripped(s);
    assert SignAndBody(Strip(s)) == (false, s);
    assert |s| >= 2 ==> IsDigit(s[1]);
    GroupedOfNatToString(n);
  }

  /** A printed number, read back by `int(s)`, gives the number. */
  lemma PyIntOfNatToString(n: nat)
    ensures PyInt(NatToString(n)) == Some(n)
  {
    hide Strip, Grouped, NatToString, LeadingSpaces, TrailingSpaces, DecimalValue;
    var s := NatToString(n);
    StripOfStripped(s);
    assert SignAndBody(Strip(s)) == (false, s);
    GroupedOfNatToString(n);
  }
}

=== FILE: tokens.dfy ===
/**
  * Tokens: the vocabulary the lexer produces and the parser consumes
  * (`TokenType` and `Token` in lexer.py).
  */
module Tokens {
  import opened Text

  /**
    * Every token type of lexer.py, plus `Int32`: the parser tests for an
    * `INT32` token in four places although the lexer never produces one.
    */
  datatype TokenType =
    | Uint32 | Int32 | Function | For | While | If | Else | Return | Register | Volatile | Interrupt
    | Identifier | Literal
    | Plus | Minus | Multiply | Divide | Modulo | Assign
    | Equal | NotEqual | Less | LessEqual | Greater | GreaterEqual
    | And | Or | Not | BitwiseAnd | BitwiseOr | BitwiseXor | ShiftLeft | ShiftRight
    | Increment | Decrement
    | Semicolon | Comma | LParen | RParen | LBrace | RBrace | LBracket | RBracket
    | Eof | Error

  /** A token with the 1-based line and column of its first character. */
  datatype Token = Token(kind: TokenType, value: string, line: nat, column: nat)

  /** `Token.__eq__`: tokens compare by type and value; where they stand is ignored. */
  predicate SameToken(a: Token, b: Token) {
    a.kind == b.kind && a.value == b.value
  }

  /** Tokens are equal exactly when they agree after forgetting their positions. */
  lemma SameTokenIgnoresPosition(a: Token, b: Token)
    ensures SameToken(a, b) <==> a.(line := 0, column := 0) == b.(line := 0, column := 0)
  {
  }

  /** Text lacking one of the letters of the word `line`, in both cases. */
  predicate LacksLineLetter(r: string) {
    || ('L' !in r && 'l' !in r) || ('I' !in r && 'i' !in r)
    || ('N' !in r && 'n' !in r) || ('E' !in r && 'e' !in r)
  }

  /** The enum member name, as `token_type.name` prints it in messages. */
  function TypeName(k: TokenType): (r: string)
    ensures |r| > 0 && IsLetter(r[0])
  {
    match k
    case Uint32 => "UINT32"
    case Int32 => "INT32"
    case Function => "FUNCTION"
    case For => "FOR"
    case While => "WHILE"
    case If => "IF"
    case Else => "ELSE"
    case Return => "RETURN"
    case Register => "REGISTER"
    case Volatile => "VOLATILE"
    case Interrupt => "INTERRUPT"
    case Identifier => "IDENTIFIER"
    case Literal => "LITERAL"
    case Plus => "PLUS"
    case Minus => "MINUS"
    case Multiply => "MULTIPLY"
    case Divide => "DIVIDE"
    case Modulo => "MODULO"
    case Assign => "ASSIGN"
    case Equal => "EQUAL"
    case NotEqual => "NOT_EQUAL"
    case Less => "LESS"
    case LessEqual => "LESS_EQUAL"
    case Greater => "GREATER"
    case GreaterEqual => "GREATER_EQUAL"
    case And => "AND"
    case Or => "OR"
    case Not => "NOT"
    case BitwiseAnd => "BITWISE_AND"
    case BitwiseOr => "BITWISE_OR"
    case BitwiseXor => "BITWISE_XOR"
    case ShiftLeft => "SHIFT_LEFT"
    case ShiftRight => "SHIFT_RIGHT"
    case Increment => "INCREMENT"
    case Decrement => "DECREMENT"
    case Semicolon => "SEMICOLON"
    case Comma => "COMMA"
    case LParen => "LPAREN"
    case RParen => "RPAREN"
    case LBrace => "LBRACE"
    case RBrace => "RBRACE"
    case LBracket => "LBRACKET"
    case RBracket => "RBRACKET"
    case Eof => "EOF"
    case Error => "ERROR"
  }

  /** The keyword table of the lexer: a word is a keyword exactly when it is listed here. */
  function KeywordKind(w: string): (k: TokenType)
    ensures k in {Uint32, Function, For, While, If, Else, Return, Register, Volatile, Interrupt, Identifier}
  {
    if w == "uint32" then Uint32
    else if w == "function" then Function
    else if w == "for" then For
    else if w == "while" then While
    else if w == "if" then If
    else if w == "else" then Else
    else if w == "return" then Return
    else if w == "register" then Register
    else if w == "volatile" then Volatile
    else if w == "interrupt" then Interrupt
    else Identifier
  }

  function HexDigitChar(d: nat): char
    requires d < 16
  {
    if d < 10 then DigitChar(d) else ('a' as int + d - 10) as char
  }

  /** Python's `repr` of one character inside a string quoted with `q` (Latin-1 range). */
  function ReprChar(c: char, q: char): string {
    if c == '\\' then "\\\\"
    else if c == q then ['\\', q]
    else if c == '\t' then "\\t"
    else if c == '\n' then "\\n"
    else if c == '\r' then "\\r"
    else if c < ' ' || ('\U{7f}' <= c <= '\U{a0}') || c == '\U{ad}' then
      "\\x" + [HexDigitChar(c as int / 16), HexDigitChar(c as int % 16)]
    else [c]
  }

  function ReprBody(s: string, q: char): string
    decreases |s|
  {
    if |s| == 0 then "" else ReprChar(s[0], q) + ReprBody(s[1..], q)
  }

  /** Python's `repr` of a string: single quotes unless the text has one and no double quote. */
  function PyRepr(s: string): string {
    var q := if '\'' in s && '"' !in s then '"' else '\'';
    [q] + ReprBody(s, q) + [q]
  }

  /** `Token.__repr__`, as it appears inside parser error messages. */
  function TokenRepr(t: Token): string {
    "Token(" + TypeName(t.kind) + ", " + PyRepr(t.value) + ", line=" + NatToString(t.line)
    + ", col=" + NatToString(t.column) + ")"
  }
}

=== FILE: words.dfy ===
/**
  * Unsigned 32-bit words as the interpreter sees them. Python integers are
  * unbounded; the interpreter keeps every stored value in range by masking with
  * `& 0xFFFFFFFF`, which for an unbounded two's-complement integer is the same
  * as taking it modulo 2^32 (Dafny's `%` with a positive divisor).
  */
module Words {

  const TwoTo32: int := 0x1_0000_0000

  type u32 = x: int | 0 <= x < 0x1_0000_0000

  /** `v & 0xFFFFFFFF`: the word congruent to `v` modulo 2^32. */
  function Mask(v: int): (r: u32)
    ensures (v - r) % TwoTo32 == 0
    ensures 0 <= v < TwoTo32 ==> r == v
  {
    v % TwoTo32
  }

  function Pow2(n: nat): (p: nat)
    ensures p >= 1
  {
    if n == 0 then 1 else 2 * Pow2(n - 1)
  }

  lemma {:induction false} Pow2Add(a: nat, b: nat)
    ensures Pow2(a + b) == Pow2(a) * Pow2(b)
    decreases a
  {
    if a > 0 {
      Pow2Add(a - 1, b);
    }
  }

  lemma Pow2At32()
    ensures Pow2(32) == TwoTo32
  {
    assert Pow2(2) == 4;
    Pow2Add(2, 2);
    Pow2Add(4, 4);
    Pow2Add(8, 8);
    Pow2Add(16, 16);
  }

  lemma {:induction false} Pow2Monotone(a: nat, b: nat)
    requires a <= b
    ensures Pow2(a) <= Pow2(b)
    decreases b
  {
    if a < b {
      Pow2Monotone(a, b - 1);
    }
  }

  lemma Pow2Below32(b: nat)
    requires b < 32
    ensures Pow2(b) < TwoTo32
  {
    Pow2Monotone(b, 31);
    Pow2At32();
  }

  /** Bit `i` of `v`, i.e. `(v >> i) & 1 == 1`. */
  function TestBit(v: nat, i: nat): bool
    decreases i
  {
    if i == 0 then v % 2 == 1 else TestBit(v / 2, i - 1)
  }

  datatype BitOp = AndOp | OrOp | XorOp

  function ApplyBit(op: BitOp, a: bool, b: bool): bool {
    match op
    case AndOp => a && b
    case OrOp => a || b
    case XorOp => a != b
  }

  /** The low `n` bits of `a op b`, computed bit by bit from the least significant end. */
  function Bitwise(op: BitOp, a: nat, b: nat, n: nat): nat
    decreases n
  {
    if n == 0 then 0
    else 2 * Bitwise(op, a / 2, b / 2, n - 1) + (if ApplyBit(op, a % 2 == 1, b % 2 == 1) then 1 else 0)
  }

  lemma {:induction false} BitwiseBound(op: BitOp, a: nat, b: nat, n: nat)
    ensures Bitwise(op, a, b, n) < Pow2(n)
    decreases n
  {
    if n > 0 {
      BitwiseBound(op, a / 2, b / 2, n - 1);
    }
  }

  /** Bit `i` of the result is `op` applied to bit `i` of each operand, below the width. */
  lemma {:induction false} BitwiseBit(op: BitOp, a: nat, b: nat, n: nat, i: nat)
    ensures TestBit(Bitwise(op, a, b, n), i) == (i < n && ApplyBit(op, TestBit(a, i), TestBit(b, i)))
    decreases n
  {
    if n > 0 && i > 0 {
      BitwiseBit(op, a / 2, b / 2, n - 1, i - 1);
    } else if n == 0 {
      ZeroBits(i);
    }
  }

  lemma {:induction false} ZeroBits(i: nat)
    ensures !TestBit(0, i)
    decreases i
  {
    if i > 0 {
      ZeroBits(i - 1);
    }
  }

  /** A value below 2^n has no bit at or above position n. */
  lemma {:induction false} HighBitsClear(v: nat, n: nat, i: nat)
    requires v < Pow2(n) && n <= i
    ensures !TestBit(v, i)
    decreases i
  {
    if n == 0 {
      assert v == 0;
      ZeroBits(i);
    } else {
      HighBitsClear(v / 2, n - 1, i - 1);
    }
  }

  /** Two values below 2^n with the same low n bits are equal. */
  lemma {:induction false} BitsDetermine(a: nat, b: nat, n: nat)
    requires a < Pow2(n) && b < Pow2(n)
    requires forall i | 0 <= i < n :: TestBit(a, i) == TestBit(b, i)
    ensures a == b
    decreases n
  {
    if n == 0 {
    } else {
      assert TestBit(a, 0) == TestBit(b, 0);
      forall i | 0 <= i < n - 1
        ensures TestBit(a / 2, i) == TestBit(b / 2, i)
      {
        assert TestBit(a, i + 1) == TestBit(b, i + 1);
      }
      BitsDetermine(a / 2, b / 2, n - 1);
    }
  }

  lemma {:induction false} TestBitPow2(b: nat, i: nat)
    ensures TestBit(Pow2(b), i) == (i == b)
    decreases b
  {
    if b == 0 {
      if i > 0 {
        ZeroBits(i - 1);
      }
    } else if i > 0 {
      TestBitPow2(b - 1, i - 1);
    }
  }

  /** The bits of 2^n - 1 - x are those of x, flipped, below position n. */
  lemma {:induction false} ComplementBits(x: nat, n: nat, i: nat)
    requires x < Pow2(n)
    ensures TestBit(Pow2(n) - 1 - x, i) == (i < n && !TestBit(x, i))
    decreases n
  {
    if n == 0 {
      ZeroBits(i);
    } else {
      ComplementHalf(x, n);
      if i > 0 {
        ComplementBits(x / 2, n - 1, i - 1);
      }
    }
  }

  /** Halving 2^n - 1 - x drops its lowest bit, the complement of x's. */
  lemma ComplementHalf(x: nat, n: nat)
    requires 0 < n && x < Pow2(n)
    ensures x / 2 < Pow2(n - 1)
    ensures (Pow2(n) - 1 - x) / 2 == Pow2(n - 1) - 1 - x / 2
    ensures (Pow2(n) - 1 - x) % 2 == 1 - x % 2
  {
    var p := Pow2(n - 1);
    var c := Pow2(n) - 1 - x;
    assert c == 2 * (p - 1 - x / 2) + (1 - x % 2);
  }

  /** Python's `a & b` on two words. */
  function BitAnd(a: u32, b: u32): (r: u32)
    ensures forall i | 0 <= i < 32 :: TestBit(r, i) == (TestBit(a, i) && TestBit(b, i))
  {
    BitwiseWord(AndOp, a, b)
  }

  /** Python's `a | b` on two words. */
  function BitOr(a: u32, b: u32): (r: u32)
    ensures forall i | 0 <= i < 32 :: TestBit(r, i) == (TestBit(a, i) || TestBit(b, i))
  {
    BitwiseWord(OrOp, a, b)
  }

  /** Python's `a ^ b` on two words. */
  function BitXor(a: u32, b: u32): (r: u32)
    ensures forall i | 0 <= i < 32 :: TestBit(r, i) == (TestBit(a, i) != TestBit(b, i))
  {
    BitwiseWord(XorOp, a, b)
  }

  function BitwiseWord(op: BitOp, a: u32, b: u32): (r: u32)
    ensures forall i | 0 <= i < 32 :: TestBit(r, i) == ApplyBit(op, TestBit(a, i), TestBit(b, i))
  {
    BitwiseBound(op, a, b, 32);
    Pow2At32();
    var r := Bitwise(op, a, b, 32);
    assert forall i | 0 <= i < 32 :: TestBit(r, i) == ApplyBit(op, TestBit(a, i), TestBit(b, i)) by {
      forall i | 0 <= i < 32 {
        BitwiseBit(op, a, b, 32, i);
      }
    }
    r
  }

  /** Python's `(~x) & 0xFFFFFFFF`: every one of the 32 bits flipped. */
  function BitNot(x: u32): (r: u32)
    ensures forall i | 0 <= i < 32 :: TestBit(r, i) == !TestBit(x, i)
  {
    var r := Mask(-(x as int) - 1);
    assert r == TwoTo32 - 1 - x;
    Pow2At32();
    assert forall i | 0 <= i < 32 :: TestBit(r, i) == !TestBit(x, i) by {
      forall i | 0 <= i < 32 {
        ComplementBits(x, 32, i);
      }
    }
    r
  }

  /** Word equality from agreement on all 32 bits. */
  lemma WordsEqual(a: u32, b: u32)
    requires forall i | 0 <= i < 32 :: TestBit(a, i) == TestBit(b, i)
    ensures a == b
  {
    Pow2At32();
    BitsDetermine(a, b, 32);
  }

  /** Flipping every bit twice gives the word back: `~~x == x`. */
  lemma BitNotInvolutive(x: u32)
    ensures BitNot(BitNot(x)) == x
  {
    WordsEqual(BitNot(BitNot(x)), x);
  }

  // ---------------------------------------------------------------------
  // Division facts the solver needs spelled out
  // ---------------------------------------------------------------------

  lemma {:induction false} MulAtLeast(k: int, d: int)
    requires k >= 1 && d >= 1
    ensures k * d >= d
    decreases k
  {
    if k > 1 {
      MulAtLeast(k - 1, d);
      assert k * d == (k - 1) * d + d;
    }
  }

  /** Euclidean division is unique: a quotient and remainder in range are the ones `/` and `%` give. */
  lemma ModUnique(v: int, q: int, d: int, r: int)
    requires d > 0 && v == q * d + r && 0 <= r < d
    ensures v / d == q && v % d == r
  {
    var q0 := v / d;
    assert v == q0 * d + v % d;
    if q0 > q {
      MulAtLeast(q0 - q, d);
    } else if q0 < q {
      MulAtLeast(q - q0, d);
    }
  }

  lemma MulDivCancel(a: nat, p: nat)
    requires p >= 1
    ensures (a * p) / p == a
  {
    ModUnique(a * p, a, p, 0);
  }

  lemma DivAtMost(a: nat, b: nat)
    requires b >= 1
    ensures a / b <= a
  {
    var q := a / b;
    assert a == q * b + a % b;
    if q > 0 {
      MulAtLeast(b, q);
      assert q * b == b * q;
    }
  }

  /** Adding a multiple of 2^32 does not change the masked word. */
  lemma MaskShift(x: int, k: int)
    ensures Mask(x + k * TwoTo32) == Mask(x)
  {
    assert x == (x / TwoTo32) * TwoTo32 + x % TwoTo32;
    ModUnique(x + k * TwoTo32, x / TwoTo32 + k, TwoTo32, x % TwoTo32);
  }
}
